=== FILE: README.md ===
# DCSS scoreboard, modelled in Dafny

The DCSS scoreboard reads the game logfiles that Dungeon Crawl Stone Soup
servers publish. It turns every logfile line into a game record and computes
the following from those records:

- per-player statistics;
- win streaks;
- achievements;
- highscore tables.

From the results it writes a static website.

The repository holds three generations of this pipeline. This project models
each one separately, in its own modules:

- **`read-logfiles.py`**, the first script. It reads raw strings and does one
  module-level fold over them. Modelled in `RawStats`.
- **`dcss_scoreboard/`**, the second generation. Modelled in these modules:
  - `LegacyImport`: the field parsing and inserts of `log_import.py`;
  - `LegacyStats`: `parse_logfiles`, `calc_stats` and `calc_streaks`;
  - `LegacyScoring`: `score_games` over a player-data store;
  - `LegacyWebsite`: the text filters of `write_website.py`.
- **`scoreboard/`**, the current package. Modelled in these modules:
  - `LineSplit` and `LogImport`: the line codec, `parse_line`, the retry in
    `handle_line`, and the cursor of `load_logfile`;
  - `Orm`: the row types, computed properties and database choice;
  - `Model`: the record store. Its tables are sequences held by the class
    `Model.Store`. It also holds the queries over those tables;
  - `Scoring`: streaks, the grief test and the batched scoring loop;
  - `Constants`, `ModelUtils`, `WebUtils` and `Website`: the static tables
    and the helpers;
  - `Util`: the `retry` decorator.
- **`vue-prototype/src/filters/index.js`**, the JavaScript front end's
  filters. Modelled in `VueFilters`.

Two modules hold what the others share:

- `Basics` holds Python's string and number primitives as the code uses them:
  - `int()` and `str()`;
  - `strip` and `lower`;
  - `"%02d"` and `"{:,}"`;
  - `split(c, 1)`;
  - the `"::"` escape.
- `Sorting` holds Python's stable `sorted`.

Code that updates state step by step is modelled as methods with loop
invariants, proved against specification functions:

- the import loops;
- the statistics folds;
- the store's get-or-create operations;
- the scorer's batches;
- the retry loop.

Pure helpers are modelled as functions, and lemmas state what they promise.

Where a documentation comment and the code disagree, the model follows the
code:

- `prettycounter` sorts its entries by key, although its docstring example
  shows another order (`LegacyWebsite.PrettyCounterExample`).
- `calc_stats` and `score_games` read the win count before the current win
  is added. So goodplayer comes with the eleventh win there.
  `read-logfiles.py` counts first, so it awards goodplayer on the tenth win
  (`LegacyStats.WinCountAwards`, `RawStats.RawWinCountAwards`).

## Model

| member | source | states |
|---|---|---|
| Basics.PyInt | scoreboard/log_import.py:146-150 | `int()` accepts surrounding whitespace, one optional sign and a run of decimal digits, and yields their value; anything else is a ValueError |
| Basics.BlankIffAllSpace | scoreboard/log_import.py:172-173 | a field is skipped as blank exactly when every character of it is whitespace |
| Basics.PyIntDecimalString | scoreboard/log_import.py:146-150 | `int(str(n)) == n` for every integer |
| Basics.Pad2Digits | scoreboard/webutils.py:52 | `"%02d"` of a number below 100 is exactly two digits, of a larger one its decimal text |
| Basics.Pad2ReadsBackAll | scoreboard/webutils.py:52 | anything written with `"%02d"` reads back with `int()` as the number written |
| Basics.CommaIntShape | scoreboard/webutils.py:17-22 | `prettyint` keeps the digits of `str(n)` and puts a ',' exactly at every fourth position from the right |
| Basics.GroupThousands | scoreboard/webutils.py:17-22 | grouping adds one comma per full group of three after the first |
| Basics.CommaIntExample | dcss_scoreboard/write_website.py:12-17 | the documented example: 1234567 is written "1,234,567" |
| Basics.UnescapeEscape | scoreboard/log_import.py:151-152 | replacing "::" by ":" undoes the writer's doubling of every ':' |
| Basics.SplitOnce | scoreboard/log_import.py:174 | `split('=', 1)` cuts at the first '=': the key holds no '=', and key, '=' and value make up the field |
| Basics.LowerIdempotent | scoreboard/orm.py:60-68 | lower-casing twice is lower-casing once |
| Sorting.SortByCorrect | dcss_scoreboard/read_logfiles.py:61 | `sorted(s, key=...)` returns a permutation of its input, in key order, keeping equal keys in input order |
| Sorting.SortedSetCorrect | dcss_scoreboard/write_website.py:99 | `sorted(set(s))` holds each distinct element of `s` exactly once, in strictly ascending order |
| LineSplit.NextSeparator | scoreboard/log_import.py:17 | the next cut is a ':' with no ':' on either side, and no such ':' lies before it |
| LineSplit.ColonRunNotSeparator | scoreboard/log_import.py:15-17 | two neighbouring colons never separate fields, so a "::" run stays inside one field |
| LineSplit.SplitJoin | scoreboard/log_import.py:171 | splitting loses nothing: joining the fields with ':' gives the line back |
| LineSplit.SplitClean | scoreboard/log_import.py:15-17 | pieces with no lone ':' that neither start nor end with ':', joined with ':', split back into exactly those pieces |
| LineSplit.SplitEncoded | scoreboard/log_import.py:15-17 | a line written from `key=value` fields, with the values escaped, splits into exactly the written fields |
| LogImport.ParseField | scoreboard/log_import.py:137-153 | key and value are stripped; a value becomes an int exactly when `int()` accepts it and the key is not "name"; a value kept as text is unescaped |
| LogImport.ColonNotInt | scoreboard/log_import.py:146-152 | a value holding a ':' is never taken as an integer |
| LogImport.EscapeKeepsInt | scoreboard/log_import.py:146-152 | escaping a value does not change whether or as what `int()` reads it |
| LogImport.ParseFieldWritten | scoreboard/log_import.py:137-153 | one field round trip: a written `key=value` is cut after the key and parses back to the key and the value it carries |
| LogImport.AddField | scoreboard/log_import.py:172-179 | a blank field changes nothing, a non-blank field without '=' raises ValueError, and any other field sets its parsed key to its parsed value |
| LogImport.FillFields | scoreboard/log_import.py:171-179 | the only error the field loop raises is ValueError |
| LogImport.FillFieldsBadAt | scoreboard/log_import.py:174-177 | a bad field anywhere in a line makes the field loop raise ValueError |
| LogImport.FillFieldsBadWitness | scoreboard/log_import.py:174-177 | when the field loop raises, some field of the line has no '=' |
| LogImport.FillFieldsWritten | scoreboard/log_import.py:171-179 | running the field loop over written fields gives each key its meant value, later fields overwriting earlier ones |
| LogImport.LineRoundTrip | scoreboard/log_import.py:171-179 | the whole-line round trip: split plus field loop over a written line gives back the written fields |
| LogImport.WrittenLast | scoreboard/log_import.py:168-179 | a repeated key keeps the value of its last occurrence |
| LogImport.WrittenUntouched | scoreboard/log_import.py:168-179 | a key no field names keeps its initial value, so only a "src" field can replace the server |
| LogImport.GameGid | scoreboard/log_import.py:24-26 | the gid is name, src and start joined by ':'; KeyError when one is missing |
| LogImport.GameGidSplits | scoreboard/log_import.py:24-26 | when name and server hold no ':', the gid cuts back into name, server and start |
| LogImport.VersionPrefix | scoreboard/log_import.py:193 | the kept version is "0", one character, then the longest run of digits after it, which must not be empty |
| LogImport.VersionPrefixIdempotent | scoreboard/log_import.py:193 | cutting an already cut version changes nothing |
| LogImport.Normalise | scoreboard/log_import.py:182-196 | records without "start" or with a level other than "0.1" are dropped; a missing or mistyped key raises as the code would; an accepted record is `Accepted(g)` |
| LogImport.NormaliseAccepted | scoreboard/log_import.py:181-196 | an accepted record keeps every field read except the derived ones, gains rc/bg from `char`, the gid and the cut version, and defaults tmsg to "" and god to "Atheist" |
| LogImport.SplitChar | scoreboard/log_import.py:188-189 | rc is the first two characters of `char`, bg the rest, and rc + bg is `char` |
| LogImport.Defaults | scoreboard/log_import.py:194-196 | tmsg and god are set only when absent, to "" and "Atheist" |
| LogImport.InitialRecord | scoreboard/log_import.py:168 | a line's record starts holding only its server |
| LogImport.ParsedLine | scoreboard/log_import.py:156-197 | a line holding NUL is None before any field is read; otherwise a bad field raises ValueError, and a good line is normalised |
| LogImport.ParsedLineValueError | scoreboard/log_import.py:171-177 | a line without NUL raises ValueError exactly when one of its pieces is a non-blank field without '=' |
| LogImport.ParseLine | scoreboard/log_import.py:156-197 | the field loop of `parse_line` returns what `ParsedLine` specifies |
| LogImport.HandledLine | scoreboard/log_import.py:108-134 | a non-game line is False; a game is True when the insert succeeds within three tries, and LogImportError otherwise |
| LogImport.HandleLine | scoreboard/log_import.py:118-134 | the retry loop makes at most three insert attempts and returns what `HandledLine` specifies |
| LogImport.LinesConcat | scoreboard/log_import.py:86 | the lines of a file make up its text |
| LogImport.LinesShape | scoreboard/log_import.py:86 | every line is non-empty and has a '\n' only at its end; all but the last end with one |
| LogImport.LinesAppend | scoreboard/log_import.py:79-86 | resuming at a cursor that ends a line reads the remaining lines exactly, losing or repeating none |
| LogImport.LoadStep | scoreboard/log_import.py:86-99 | one line: counted as read; blank lines skipped; LogImportError reported and passed over; any other error ends the reading |
| LogImport.LoadLines | scoreboard/log_import.py:86-99 | a reading that ends normally has counted every line as read and at most that many as new; an error ending it is never LogImportError |
| LogImport.LoadLinesAbortAt | scoreboard/log_import.py:93-99 | a line whose handling raises anything but LogImportError ends the reading of the file with that error |
| LogImport.LoadLinesAbortWitness | scoreboard/log_import.py:93-99 | when the reading ends with an error, some line raised it |
| LogImport.LoadLinesAbortStays | scoreboard/log_import.py:93-99 | after an aborting line the outcome no longer changes |
| LogImport.LoadLinesAppend | scoreboard/log_import.py:79-102 | reading a file in two sessions adds up to reading it once |
| LogImport.ImportableHandled | scoreboard/log_import.py:108-134 | a game line whose insert succeeds within three tries is handled as a new game |
| LogImport.LoadLinesAllImported | scoreboard/log_import.py:86-99 | a file whose lines are all such games is imported whole, every line counted as read and as new |
| LogImport.HandledLineAsWritten | scoreboard/log_import.py:108-134 | as written, a line that parses to a game raises AttributeError at the undefined `model.add_game` |
| LogImport.LoadLinesAsWrittenStops | scoreboard/log_import.py:86-99 | as written, any line that parses to a game ends the reading with an error |
| LogImport.HandleLineWith | scoreboard/log_import.py:108-134 | `handle_line` with either insert gives what `LineHandler` specifies |
| LogImport.LoadLogfileAsWritten | scoreboard/log_import.py:93-102 | as written, once a line after the cursor parses to a game, the reading raises and the stored cursor stays where it was |
| LogImport.CursorCreated | scoreboard/model.py:329-341 | reading a file's cursor writes it back: a file already seen keeps the table as it was, and a file never seen gets a new entry at 0, leaving the other files as they were |
| LogImport.ReadLines | scoreboard/log_import.py:86-99 | the reading loop's counters are those of the `LoadLines` fold |
| LogImport.LoadLogfile | scoreboard/log_import.py:69-102 | for the insert as written or as intended: an empty file is left alone; otherwise reading resumes at the stored cursor; the cursor moves to the end of the file only when no error ended the reading; streaks and catalogues stay |
| LegacyImport.LegacyValue | dcss_scoreboard/log_import.py:40-43 | a run of digits becomes its int; anything else stays text with "::" unescaped |
| LegacyImport.NewlineKeepsString | dcss_scoreboard/log_import.py:31 | the last value of a line still ends in its newline, so "123\n" stays text |
| LegacyImport.AddLegacyField | dcss_scoreboard/log_import.py:36-44 | an empty field is skipped, a field without '=' raises ValueError, any other field sets its key |
| LegacyImport.LegacyFields | dcss_scoreboard/log_import.py:35-44 | the only error the field loop raises is ValueError |
| LegacyImport.ParseLegacyLine | dcss_scoreboard/log_import.py:35-44 | the field loop yields the record the `LegacyFields` fold specifies |
| LegacyImport.LegacyFieldsBadAt | dcss_scoreboard/log_import.py:39 | a field without '=' anywhere in the line makes the line raise |
| LegacyImport.LegacyFieldsBadWitness | dcss_scoreboard/log_import.py:39 | when a line raises, some field of it has no '=' |
| LegacyImport.LegacyFieldsKeep | dcss_scoreboard/log_import.py:35-44 | a key no field names keeps the value it started with |
| LegacyImport.LegacyValueEscaped | dcss_scoreboard/log_import.py:40-43 | an escaped value reads back as meant: digits as a number, other text unchanged |
| LegacyImport.LegacyFieldsWritten | dcss_scoreboard/log_import.py:36-44 | the field loop over written fields gives each key its meant value, later fields winning |
| LegacyImport.LegacyLineRoundTrip | dcss_scoreboard/log_import.py:24 | a line written from clean fields is read back as those fields, each key holding its last value |
| LegacyImport.LegacyGid | dcss_scoreboard/log_import.py:18-20 | the gid is name ':' start, without the server; KeyError when either is missing |
| LegacyImport.LegacyGidParts | dcss_scoreboard/log_import.py:18-20 | the gid gives back name and start when the name holds no ':', and two records differing only in server get the same gid |
| LegacyImport.LoadLine | dcss_scoreboard/log_import.py:31-46 | a blank line is skipped; a parsed line is inserted under its gid; a taken gid or a parse error stops the import |
| LegacyImport.LoadLogfiles | dcss_scoreboard/log_import.py:22-47 | the nested loops leave the table and the error the `LoadFiles` fold specifies |
| LegacyImport.LoadFilesStep | dcss_scoreboard/log_import.py:25-27 | each file is loaded in turn, an empty one skipped |
| LegacyImport.EmptyFileSkipped | dcss_scoreboard/log_import.py:26-27 | a zero-byte file contributes nothing, whatever lines it is said to hold |
| LegacyImport.LoadLinesFailed | dcss_scoreboard/log_import.py:22-47 | once a line has raised, later lines change nothing |
| LegacyImport.LoadFilesFailed | dcss_scoreboard/log_import.py:22-47 | once a file has raised, later files change nothing |
| LegacyImport.LoadLineInserts | dcss_scoreboard/log_import.py:45-46 | a line that loads is in the table under its gid with its parsed record, and nothing else changes |
| LegacyImport.LoadLinesAllIn | dcss_scoreboard/log_import.py:31-46 | after one file's lines load without errors, each non-blank line is in the table under its gid, with its parsed record |
| LegacyImport.LoadLinesKeeps | dcss_scoreboard/log_import.py:31-46 | lines that load without errors keep every row already in the table |
| LegacyImport.LoadFilesAllIn | dcss_scoreboard/log_import.py:22-47 | after a whole import without errors, every non-blank line of every non-empty file is in the table under its gid, with its parsed record |
| LegacyStats.ServerTag | dcss_scoreboard/read_logfiles.py:38 | the tag is the path up to its first '-', or the whole path when it has none |
| LegacyStats.TaggedLineSource | dcss_scoreboard/read_logfiles.py:45-55 | a record from a line without a "src" field carries its file's tag |
| LegacyStats.EmptyFileContributesNothing | dcss_scoreboard/read_logfiles.py:34-36 | a zero-byte file adds no records |
| LegacyStats.SortByEndSpec | dcss_scoreboard/read_logfiles.py:61 | the sort succeeds exactly when every record has an end of one kind, and then orders by end, stably, keeping every record |
| LegacyStats.ReadTaggedLines | dcss_scoreboard/read_logfiles.py:41-56 | the line loop yields the records `TaggedLines` specifies, stopping at the first exception |
| LegacyStats.ParseLogfiles | dcss_scoreboard/read_logfiles.py:31-61 | the file loop plus the sort yields `ParsedLogfiles`: non-empty files' records sorted by end |
| LegacyStats.Tally | dcss_scoreboard/read_logfiles.py:116-141 | a new key starts at 1, an existing one goes up by 1, others stay |
| LegacyStats.Bump | dcss_scoreboard/read_logfiles.py:167-177 | an achievement counter starts at 1 and then goes up by 1, `True` counting as 1 |
| LegacyStats.PlayerAfterGames | dcss_scoreboard/read_logfiles.py:101-106 | each record adds one game, and the wins are exactly the winning records, in order |
| LegacyStats.PlayerAfterTotals | dcss_scoreboard/read_logfiles.py:181-183 | wins plus boring games never exceed games, and the total score is the sum of the scores |
| LegacyStats.PlayerAfterWinrate | dcss_scoreboard/read_logfiles.py:99 | the win rate is the wins before the latest game over the games |
| LegacyStats.PlayerAfterHighscore | dcss_scoreboard/read_logfiles.py:188-190 | the highscore is the first game with the highest score; a tie keeps the earlier game |
| LegacyStats.PlayerAfterFastest | dcss_scoreboard/read_logfiles.py:108-114 | the fastest records are the first wins with the fewest turns and the shortest duration |
| LegacyStats.PlayerAfterTallies | dcss_scoreboard/read_logfiles.py:116-141 | each god, race and role won with is tallied with its number of wins, and nothing else is |
| LegacyStats.WinAwardsKeep | dcss_scoreboard/read_logfiles.py:116-177 | a win never removes an achievement, and only the award names can change |
| LegacyStats.WinAwardsSpec | dcss_scoreboard/read_logfiles.py:116-177 | polytheist and greatplayer come when a new god or race completes the playable set; greaterplayer needs a new role completing the roles while greatplayer is held; goodplayer and centuryplayer at 10 or 100 earlier wins |
| LegacyStats.WinCountAwards | dcss_scoreboard/read_logfiles.py:160-165 | goodplayer is held exactly from the eleventh win and centuryplayer from the hundred-and-first |
| LegacyStats.CoverageAwards | dcss_scoreboard/read_logfiles.py:116-141 | polytheist and greatplayer are held exactly when every playable god or race has a win; greaterplayer only with greatplayer and every playable role won |
| LegacyStats.ZigNeverCleared | dcss_scoreboard/read_logfiles.py:173 | the importer turns "27" into an int, so a parsed record never holds the string '27' the test compares with |
| LegacyStats.LastFive | dcss_scoreboard/read_logfiles.py:87-88 | the deque keeps the five most recent games, newest last |
| LegacyStats.StatsStepLookup | dcss_scoreboard/read_logfiles.py:80-95 | a record moves its own player's entry on by one game and leaves every other entry alone |
| LegacyStats.StatsPerPlayer | dcss_scoreboard/read_logfiles.py:68-212 | each player's aggregate is their own games folded alone, with their five latest games; a player without games has no entry |
| LegacyStats.HigherStep | dcss_scoreboard/read_logfiles.py:189-190 | replacing only on a strictly greater score keeps the first game of the highest score |
| LegacyStats.EnterLookup | dcss_scoreboard/read_logfiles.py:192-200 | entering a game changes only the entry under its own key |
| LegacyStats.StatsTables | dcss_scoreboard/read_logfiles.py:192-200 | every race, role and combo played is in its table with the first game of the highest score, and no other key is |
| LegacyStats.CalcStats | dcss_scoreboard/read_logfiles.py:64-216 | the loop leaves the statistics of the `StatsAfter` fold and the streaks of `StreaksFound` |
| LegacyStats.TrackStepKeeps | dcss_scoreboard/read_logfiles.py:225-265 | each record keeps the tracker sound: lists hold one player's chained wins, and streaks recorded on a loss are good |
| LegacyStats.TrackAfterPrefix | dcss_scoreboard/read_logfiles.py:257-262 | streaks passed in stay at the front of the recorded list |
| LegacyStats.LeftoversGood | dcss_scoreboard/read_logfiles.py:268-278 | the lists left after the last record that hold two or more wins are good streaks |
| LegacyStats.StreaksFoundSorted | dcss_scoreboard/read_logfiles.py:280-282 | both lists come out longest first, then by end, and keep every streak they were given |
| LegacyStats.StreaksFoundGood | dcss_scoreboard/read_logfiles.py:225-282 | every streak found has two or more chained wins, ended by a loss of the same player or still running |
| LegacyStats.ActiveFoundGood | dcss_scoreboard/read_logfiles.py:225-282 | every active streak found is two or more chained wins of one player |
| LegacyStats.CalcStreaks | dcss_scoreboard/read_logfiles.py:219-287 | the loops and the two sorts return what `StreaksFound` specifies |
| LegacyScoring.ScoreStore.Get | dcss_scoreboard/scoring.py:41 | a player the store does not hold reads as the fresh aggregate |
| LegacyScoring.ScoreStore.Set | dcss_scoreboard/scoring.py:163 | writing replaces only that player's aggregate |
| LegacyScoring.ScoreGames | dcss_scoreboard/scoring.py:21-163 | every game is scored once, reading and writing its player's aggregate, leaving the store of the `ScoreAll` fold |
| LegacyScoring.ScoreStepOthers | dcss_scoreboard/scoring.py:41 | one game touches only its own player's entry |
| LegacyScoring.ScoreAllPerPlayer | dcss_scoreboard/scoring.py:21-163 | from an empty store, each player's entry is their own games folded in order; a player without games has none |
| LegacyScoring.ScoredPlayerCounts | dcss_scoreboard/scoring.py:45-52 | a scored player has one game per record, their wins, boring games plus wins at most games, the score total, and the lagging win rate |
| LegacyScoring.SamePlayable | dcss_scoreboard/scoring.py:8-18 | the scorer's playable races, roles and gods are those of the statistics pass |
| RawStats.RawFieldsFail | read-logfiles.py:30-35 | reading a line fails exactly when a non-blank field has no '=', with ValueError |
| RawStats.RawFieldsWritten | read-logfiles.py:25-37 | written fields read back as raw escaped text, each key holding its last value |
| RawStats.RawLineRoundTrip | read-logfiles.py:25-37 | a written line reads back as its keys with the escaped, never unescaped, text of their last values |
| RawStats.BlankLineRaises | read-logfiles.py:26-28 | lines keep their newline, so a line holding only "\n" is a field without '=' and raises |
| RawStats.ReadRawLine | read-logfiles.py:29-35 | the field loop of a line returns what `RawLine` specifies |
| RawStats.ReadRawLogs | read-logfiles.py:26-37 | the line loop returns the records `RawLines` specifies |
| RawStats.IntField | read-logfiles.py:48 | `int(log[k])` is KeyError for a missing key, ValueError for non-numeric text, the number otherwise |
| RawStats.WinFieldError | read-logfiles.py:69-120 | a win also needs dur, turn, numeric ac/ev/sh and potionsused, and the first missing one decides the error |
| RawStats.RawGameOfSpec | read-logfiles.py:43-74 | a record is taken exactly when its common fields are there and numeric where read as ints, and a win's extra fields too |
| RawStats.EnterScore | read-logfiles.py:150-157 | a key is replaced only by a strictly greater score |
| RawStats.AddGame | read-logfiles.py:40-172 | one loop body yields the state of `RawStep` |
| RawStats.RawCalc | read-logfiles.py:40-172 | the script's loop yields `RawRun`: the fold of every record, or the first error |
| RawStats.RawPlayerCounts | read-logfiles.py:62-66 | games, wins, boring games and the score total are counted once per record; the win rate includes this game; the last game end is the newest record's |
| RawStats.RawPlayerStreaks | read-logfiles.py:76-81 | the active streak is the run of wins the games end with; the longest streak is the longest run of wins |
| RawStats.RawPlayerHighscore | read-logfiles.py:147-148 | the highscore is the highest score, or 0 when that is larger |
| RawStats.QuickerLeast | read-logfiles.py:69-74 | the kept text is the old or the new one, and nothing kept sorts before it as text |
| RawStats.FastestTextSpec | read-logfiles.py:55-56 | a fastest record is "N/A" until the first win, then the text of a win that no win's text sorts before |
| RawStats.RawPlayerFastest | read-logfiles.py:68-74 | so a player's fastest records compare as text ("1000" beats "999", being smaller as text) |
| RawStats.RawPlayerLastScores | read-logfiles.py:57 | the last scores are the newest five, newest first |
| RawStats.RawPlayerTallies | read-logfiles.py:83-106 | each god, race and role won with is tallied with its number of wins, and nothing else is |
| RawStats.RawAwardsSpec | read-logfiles.py:83-133 | the names a win can add, and exactly when; the count read already includes this win |
| RawStats.RawWinCountAwards | read-logfiles.py:123-127 | goodplayer is held from the tenth win and centuryplayer from the hundredth |
| RawStats.RawZigAwards | read-logfiles.py:129-133 | no_potion_or_scroll_win is never held (text never equals 0); cleared_zig is held exactly after a win at Ziggurat depth "27" |
| RawStats.RawCoverageAwards | read-logfiles.py:83-106 | polytheist and greatplayer are held exactly when every playable god or race has a win; greaterplayer only with greatplayer and all roles won |
| RawStats.TableScoresKeys | read-logfiles.py:150-157 | a key is in a highscore table exactly when a game is filed under it |
| RawStats.TableScoresBest | read-logfiles.py:150-157 | a key holds the highest score filed under it, reached by one of those games |
| RawStats.TableScoresUpper | read-logfiles.py:150-157 | no game filed under a key scored above what the key holds |
| RawStats.TableScoresReached | read-logfiles.py:150-157 | the score a key holds is the score of a game filed under it |
| RawStats.RawTables | read-logfiles.py:150-157 | the race, role and combo tables hold the best score of each key played, and no other key |
| RawStats.RawPerPlayer | read-logfiles.py:40-62 | each player's entry is their own games folded in order; players do not affect each other |
| RawStats.CollectOk | read-logfiles.py:40-43 | the loop succeeds exactly when every record reads, and then folds every record's game in order |
| RawStats.CollectError | read-logfiles.py:40-43 | a failed loop carries the error of the first record that did not read |
| RawStats.RawRunSpec | read-logfiles.py:40-172 | the run succeeds exactly when every record reads, and otherwise raises the first record's error |
| Orm.CanonicalName | scoreboard/orm.py:60-68 | the canonical name is the lower-cased account name |
| Orm.CanonicalNameIgnoresCase | scoreboard/orm.py:60-73 | names differing only in letter case share a canonical name, and canonicalising is idempotent |
| Orm.PlaceAsString | scoreboard/orm.py:160-167 | "short:level" for a multilevel branch, "short" otherwise |
| Orm.PlaceAsStringParses | scoreboard/orm.py:160-167 | the place string reads back as branch and level |
| Orm.NewGame | scoreboard/orm.py:213 | a fresh game is unscored with no streak and keeps every supplied column |
| Orm.WonQuitExclusive | scoreboard/orm.py:259-267 | a game is never both won and quit |
| Orm.Char | scoreboard/orm.py:269-272 | `char` is the species code followed by the background code |
| Orm.CharSplits | scoreboard/orm.py:269-272 | with two-letter species codes, the first two characters and the rest give species and background back |
| Orm.NewLogfileProgress | scoreboard/orm.py:279-281 | a new progress row starts at 0 bytes |
| Orm.DatabaseUri | scoreboard/orm.py:304-315 | only "sqlite" and "postgres" give a URI, with "creds@" inserted when credentials are given; anything else is ValueError |
| Orm.SqlitePragmasOnlyForSqlite | scoreboard/orm.py:298-321 | the sqlite pragmas are installed exactly for the sqlite database |
| Orm.Database.SetupDatabase | scoreboard/orm.py:304-327 | binds the session factory to the URI, or raises ValueError and leaves it unset |
| Orm.Database.GetSession | scoreboard/orm.py:340-344 | a session only once the database is set up |
| Constants.RaceCount | scoreboard/constants.py:5-15 | 26 playable species, all two-letter codes |
| Constants.RoleCount | scoreboard/constants.py:5-15 | 24 playable backgrounds, all two-letter codes |
| Constants.GodCount | scoreboard/constants.py:5-15 | 24 playable gods, 'Atheist' and 'The Shining One' among them |
| Constants.FixGodName | scoreboard/constants.py:16-22 | a name in the fixup table becomes its target; every other name is kept |
| Constants.FixupsEndPlayable | scoreboard/constants.py:16-22 | every fixup target is playable |
| Constants.FixGodNameIdempotent | scoreboard/constants.py:16-22 | fixing twice is fixing once, and a changed name comes out playable |
| Constants.GreatRaceTable | scoreboard/constants.py:23-48 | the great-species table has exactly the playable species as keys, each mapped to its listed achievement |
| Constants.GreatRoleTable | scoreboard/constants.py:49-74 | the great-background table's keys are the playable backgrounds plus 'DK' and 'He' |
| Constants.RetiredRoles | scoreboard/constants.py:49-74 | 'DK' and 'He' are not playable backgrounds |
| Constants.ManualAchievementsTrue | scoreboard/constants.py:75-112 | every hand-awarded achievement is set to True |
| Constants.ManualAchievementsUnshared | scoreboard/constants.py:75-112 | no achievement is held by two players |
| Constants.BlacklistsShape | scoreboard/constants.py:114-120 | exactly the lists 'griefers' (empty) and 'bots'; 'bot-games' finds no list |
| ModelUtils.MakeDateTime | scoreboard/modelutils.py:17-24 | a time is built exactly when every component is in range, otherwise ValueError |
| ModelUtils.ShiftMonth | scoreboard/modelutils.py:16 | the month at offsets 4-5 is read with `int()` and replaced by its successor, zero-padded |
| ModelUtils.ReadStamp | scoreboard/modelutils.py:17-24 | the six fields are read from their fixed offsets, and the rest is ignored |
| ModelUtils.CrawlDateToDateTime | scoreboard/modelutils.py:9-24 | the month is shifted, then the fields are read |
| ModelUtils.CrawlDateRoundTrip | scoreboard/modelutils.py:9-24 | every time a logfile writes, followed by anything, is read back as that time |
| ModelUtils.StoredMonthTooLarge | scoreboard/modelutils.py:16-24 | a stored month of 12 or more becomes 13 or more, which raises |
| ModelUtils.ReadStampBadMonth | scoreboard/modelutils.py:17-24 | a month above 12 makes reading fail |
| ModelUtils.VersionUrlCuts | scoreboard/modelutils.py:71-79 | "a0" versions map to "trunk"; other versions map to a prefix of themselves, cut before the last '.' only when longer than four characters |
| ModelUtils.ServerPrefixRaises | scoreboard/modelutils.py:27-56 | the prefix raises ValueError exactly for unknown servers |
| ModelUtils.ServerPrefixAbsent | scoreboard/modelutils.py:27-56 | there is no prefix exactly for ckr, csn and rhf |
| ModelUtils.ServerPrefixVersioned | scoreboard/modelutils.py:27-56 | cdo, lld and cwz end with '/' and the cleaned version |
| ModelUtils.ServerPrefixNonEmpty | scoreboard/modelutils.py:27-56 | every prefix there is is non-empty |
| ModelUtils.MorguePrefixIgnoresCase | scoreboard/modelutils.py:28 | server names are compared without case |
| ModelUtils.MorgueUrl | scoreboard/modelutils.py:59-68 | ValueError for an unknown server, None when it publishes no morgues, an address otherwise |
| ModelUtils.MorgueUrlAbsent | scoreboard/modelutils.py:59-68 | no morgue address exactly for servers that publish none |
| ModelUtils.MorgueUrlOf | scoreboard/modelutils.py:59-68 | the address is prefix, account directory, then "morgue-" account "-" end time ".txt" |
| ModelUtils.TimestampReadsBack | scoreboard/modelutils.py:67 | the file's time stamp reads back as the game's end time, field by field |
| ModelUtils.TimestampOfCrawlDate | scoreboard/modelutils.py:9-24 | the morgue name carries the real month where the logfile has the zero-based one |
| WebUtils.PrettyHoursValue | scoreboard/webutils.py:25-37 | the whole hours when over an hour, 1 otherwise, so never below 1 |
| WebUtils.PrettyHoursExamples | scoreboard/webutils.py:25-37 | the documented examples: 0 seconds show as 1 hour, a day as 24 |
| WebUtils.PrettyDurReadsBack | scoreboard/webutils.py:40-52 | under 100 hours, eight characters "HH:MM:SS" whose fields add back up to the duration, minutes and seconds below 60 |
| WebUtils.PrettyDurExample | scoreboard/webutils.py:40-52 | the documented example: 170 seconds is "00:02:50" |
| WebUtils.PrettyDurDayExample | scoreboard/webutils.py:40-52 | the documented example: 87000 seconds is "24:10:00" |
| WebUtils.DurFields | scoreboard/webutils.py:52 | hours, minutes below 60 and seconds below 60 add back up to the duration |
| WebUtils.LinkPlayerParts | scoreboard/webutils.py:81-85 | the link targets the player's page under the base and shows the player's name |
| WebUtils.ShortestWinSpec | scoreboard/webutils.py:440-443 | fails exactly when nothing was won; otherwise the first won game with the fewest turns |
| WebUtils.FastestWinSpec | scoreboard/webutils.py:446-449 | fails exactly when nothing was won; otherwise the first won game with the shortest duration |
| WebUtils.HighscoreSpec | scoreboard/webutils.py:452-454 | fails exactly on no games; otherwise the first game with the highest score |
| Website.PlayerRecordsSpec | scoreboard/write_website.py:211-220 | a record type is kept exactly when the player has a game of it, with exactly those games in order |
| Website.PlayerRecordsKeys | scoreboard/write_website.py:211-220 | the result's keys are the types where the player has a game |
| Website.OwnGames | scoreboard/write_website.py:211-220 | exactly the games of the player, and no more than there are games |
| Website.GetPlayerRecords | scoreboard/write_website.py:211-220 | the loops build the map `PlayerRecords` specifies |
| Website.PlayerRowGetsNoRecords | scoreboard/write_website.py:215 | the website passes a Player row, not a name, so every player page gets no records |
| Website.MatchingWins | scoreboard/write_website.py:229 | exactly the won games whose attribute matches the entry, in order |
| Website.WinsPerPlayable | scoreboard/write_website.py:223-262 | with playable, every listed entry gets a key, in list order, with exactly its wins |
| Website.WinsPerUnplayable | scoreboard/write_website.py:230-233 | without playable, exactly the entries with a win get a key, in list order, with exactly their wins |
| Website.WinsPerEntry | scoreboard/write_website.py:223-262 | the loop builds the pairs `WinsPer` specifies |
| Website.PlayerPage | scoreboard/write_website.py:272-275 | a count that raised ends the page with its error; a count of 0 gives "", any other the rendered page |
| Website.RenderPlayerPage | scoreboard/write_website.py:265-275 | as written, the page counts with `count_games(player=...)`, so it can only raise AttributeError |
| Website.PlayerPageRaisesAsWritten | scoreboard/write_website.py:272 | as written, every player page raises AttributeError |
| Website.PlayerPageCorrected | scoreboard/write_website.py:272-275 | counting through the account, a player gets no page exactly when no game is theirs |
| Website.AddNewSpec | scoreboard/write_website.py:395-396 | the chosen players stay in front, and every missing extra is added once, in order |
| Website.GetPlayersTable | scoreboard/write_website.py:393 | mapping names through `get_player` only appends new players, and the names stay unique ignoring case |
| Website.GetPlayersRow | scoreboard/write_website.py:393 | each name yields a stored player whose name matches it ignoring case |
| Website.GetPlayersStored | scoreboard/write_website.py:393 | a name already stored, in any case, yields that stored player |
| Website.GetPlayersNew | scoreboard/write_website.py:393 | every player created has no achievements and carries one of the names that was not stored |
| Website.SameRowIgnoringCase | scoreboard/write_website.py:393 | two names that differ only in case yield the same player |
| Website.SelectedAll | scoreboard/write_website.py:384-388 | no name list means every stored player, sorted by name |
| Website.SelectedNamed | scoreboard/write_website.py:389-396 | a name list (an empty one means none) gives one player per name in order, followed, when extra pages are asked for, by each extra not already chosen |
| Website.SelectedExtrasRaiseAsWritten | scoreboard/write_website.py:394-395 | as written, asking for extra pages with a name list raises AttributeError |
| Website.SelectPlayers | scoreboard/write_website.py:384-396 | the loop over names leaves the players table and the selection that `Selected` and `GetPlayers` specify; nothing else in the store changes |
| LegacyWebsite.PrettyCounterOrder | dcss_scoreboard/write_website.py:28-37 | the entries are the counter's items, each once, in strictly ascending key order |
| LegacyWebsite.PrettyCounterExample | dcss_scoreboard/write_website.py:28-37 | the docstring's counter comes out in key order, not the order the docstring shows |
| LegacyWebsite.PrettyCrawlDate | dcss_scoreboard/write_website.py:40-57 | a non-numeric month raises ValueError; otherwise a date, or the shifted text when that is no valid date |
| LegacyWebsite.PrettyCrawlDateFormats | dcss_scoreboard/write_website.py:46-57 | every date a logfile writes is shown as that date |
| LegacyWebsite.PrettyCrawlDateFallback | dcss_scoreboard/write_website.py:46-57 | an invalid date is shown as the month-shifted text, never the text the logfile held |
| LegacyWebsite.RowClass | dcss_scoreboard/write_website.py:75-76 | KeyError without ktyp; otherwise the row class of the ktyp |
| LegacyWebsite.RowClassCases | dcss_scoreboard/write_website.py:75-76 | wins are 'table-success', quits 'table-danger', anything else ''; the three differ |
| LegacyWebsite.TextFields | dcss_scoreboard/write_website.py:98-99 | one text per game, in order; KeyError exactly when some game lacks the field, whatever comes before it; otherwise TypeError for a number |
| LegacyWebsite.JoinTexts | dcss_scoreboard/write_website.py:98-99 | once every game has the field: TypeError exactly when one holds a number, else the texts in order |
| LegacyWebsite.StreakToTableRow | dcss_scoreboard/write_website.py:89-99 | IndexError for an empty streak, then KeyError for a nameless first game, then the combos' error before the versions'; otherwise a row |
| LegacyWebsite.StreakRowSpec | dcss_scoreboard/write_website.py:89-99 | the row counts the games, names the first game's player, lists every combo in order, and the distinct versions once each, ascending |
| VueFilters.TruncDiv | vue-prototype/src/filters/index.js:3 | the quotient truncated toward zero |
| VueFilters.ToInt32 | vue-prototype/src/filters/index.js:3 | the 32-bit wrap, in range and agreeing with the input modulo 2^32 |
| VueFilters.HoursTruncates | vue-prototype/src/filters/index.js:3 | below 2^31 hours, `hours` is the whole hours between zero and the duration |
| VueFilters.ZeroPaddedShape | vue-prototype/src/filters/index.js:7 | padding reaches two characters, keeps the text at its end and adds only zeros |
| VueFilters.PadTwo | vue-prototype/src/filters/index.js:7 | the padding loop returns the padded text |
| VueFilters.PrettyDur | vue-prototype/src/filters/index.js:5-13 | the three padding loops return the padded fields joined by ':' |
| VueFilters.PrettyDurAgrees | vue-prototype/src/filters/index.js:5-13 | up to 2^31 hours the front end shows exactly what the Python site's `prettydur` shows |
| VueFilters.ColumnHeaderSpec | vue-prototype/src/filters/index.js:17-28 | 'char', 'dur' and 'end' get their own titles; any other header is capitalised |
| VueFilters.ColumnDataSpec | vue-prototype/src/filters/index.js:30-39 | durations through `prettydur`, end times as their date text, every other column unchanged |
| Util.Limit | scoreboard/util.py:36-38 | at least one call, and at least `max_tries` |
| Util.Retry | scoreboard/util.py:22-45 | between 1 and the limit of calls, all but the last failing; a value exactly when the last call returned; the last error re-raised after the limit for plain failures; with a negative wait the first retry's sleep raises ValueError; one wait per failure before the last |
| Scoring.ValidStreakAddition | scoreboard/scoring.py:11-18 | every game may join any streak |
| Scoring.ConsumablesTighten | scoreboard/scoring.py:33-44 | the thresholds with a potion or scroll used are the tighter ones |
| Scoring.FirstGameQuery | scoreboard/scoring.py:27-29 | the account's games, oldest first, at most one |
| Scoring.FirstGameIsEarliest | scoreboard/scoring.py:27-29 | the first game is the account's game that ended no later than any other |
| Scoring.IsGrief | scoreboard/scoring.py:21-44 | only an account's first game can be a grief, and only under the thresholds |
| Scoring.IsGriefOfEarliest | scoreboard/scoring.py:21-44 | for a game ending strictly before every other of its account, the thresholds decide |
| Scoring.IsGriefAsWrittenNever | scoreboard/scoring.py:27-31 | as written, the grief test never fires |
| Scoring.GriefMissedAsWritten | scoreboard/scoring.py:27-31 | a 10-turn, 10-second only game is a grief when corrected, not as written |
| Scoring.Grief | scoreboard/scoring.py:21-44 | the grief test the scorer runs: as written it never fires; corrected it is `IsGrief` |
| Scoring.StreakStep | scoreboard/scoring.py:47-76 | only the handled game's streak and the streak table may change, and the one-active-streak invariant holds after |
| Scoring.StreakStepWon | scoreboard/scoring.py:57-65 | a win ends up on its player's active streak: the one they had, or a new one |
| Scoring.StreakStepLost | scoreboard/scoring.py:67-76 | a loss touches no game; with no active streak, or for a grief under the chosen test, nothing changes; otherwise the streak is kept but closed |
| Scoring.StreakStepLostAsWritten | scoreboard/scoring.py:67-76 | with `is_grief` as written, every loss of a player with an active streak closes it, and a loss with none changes nothing |
| Scoring.GriefChangesScoring | scoreboard/scoring.py:27-31 | a grief loss leaves the active streak open when corrected, but closes it as written |
| Scoring.StreakStepLinked | scoreboard/scoring.py:55-65 | games point at existing streaks of their own player, and streaks at existing players |
| Scoring.AttachToStreak | scoreboard/scoring.py:65 | sets only the game's streak, keeping every table link valid |
| Scoring.CloseStreak | scoreboard/scoring.py:75-76 | clears only that streak's active flag, keeping every table link valid |
| Scoring.MarkScored | scoreboard/scoring.py:114-115 | sets only that game's scored flag |
| Scoring.ScoreAndMark | scoreboard/scoring.py:113-115 | one loop body: the tables become those of `ScoreOne` with `is_grief` as written, and the one-active-streak invariant is kept |
| Scoring.ScoreGameStep | scoreboard/scoring.py:85-97 | blacklisted accounts get no streak handling; any other game gets exactly the `StreakStep` of the chosen grief test |
| Scoring.Batch | scoreboard/scoring.py:108-109 | up to 100 unscored games |
| Scoring.BatchOldestFirst | scoreboard/scoring.py:108-109 | the batch is in end-time order, and no unscored game left out ended before one in it |
| Scoring.SortedUnscored | scoreboard/scoring.py:108-109 | the batch sort keeps every unscored game and orders them by end time |
| Scoring.ScoreOneEffect | scoreboard/scoring.py:113-115 | scoring a game marks it scored, may change its streak, and leaves every other game alone |
| Scoring.ScoreListEffect | scoreboard/scoring.py:112-117 | a batch marks exactly its games scored and changes nothing else but their streaks |
| Scoring.ScoreBatchesUnfold | scoreboard/scoring.py:107-120 | no batch ends the loop; otherwise the batch is scored and its players added |
| Scoring.ScoreBatchesTables | scoreboard/scoring.py:100-126 | every game ends scored, scored games are untouched, others change only in scored and streak, and one active streak per player remains |
| Scoring.ScoreBatchesPlayers | scoreboard/scoring.py:103 | the names returned are the players of the games that were unscored at the start |
| Scoring.HandlePlayerStreak | scoreboard/scoring.py:47-76 | the store's tables become those of `StreakStep` with `is_grief` as written, and players, accounts and progress stay |
| Scoring.ScoreGame | scoreboard/scoring.py:85-97 | the store's tables become those of `ScoreGameStep` with `is_grief` as written |
| Scoring.ScoreBatch | scoreboard/scoring.py:112-120 | the loop scores the batch as `ScoreList` does with `is_grief` as written, and collects the names of its players |
| Scoring.ScoreGames | scoreboard/scoring.py:100-126 | the batches leave the tables and the player names of the `ScoreBatches` run with `is_grief` as written |
| Model.ReraiseDbError | scoreboard/model.py:28-48 | KeyboardInterrupt, DBError and DBIntegrityError pass unchanged; IntegrityError becomes DBIntegrityError; anything else DBError |
| Model.ReraiseIdempotent | scoreboard/model.py:28-48 | wrapping twice is wrapping once |
| Model.Reraising | scoreboard/model.py:34-46 | results pass through, exceptions are mapped |
| Model.FindPlayer | scoreboard/model.py:86-119 | finds a player whose name matches without case, and none exactly when no name matches |
| Model.FindAccount | scoreboard/model.py:64-83 | finds an account by name without case and by server, and none exactly when none matches |
| Model.AddPlayerKeepsInvariants | scoreboard/model.py:104-119 | adding a missing player keeps names unique and every link valid |
| Model.FindPlayerUnique | scoreboard/model.py:86-119 | with unique names, the lookup finds the one player of that name |
| Model.PlayersGrowTransitive | scoreboard/model.py:86-119 | players only grow at the end, keeping names and achievements, across several steps |
| Model.Missing | scoreboard/model.py:122-192 | the catalogue rows whose key is not stored, and only those |
| Model.MissingAfterLoad | scoreboard/model.py:208-221 | loading a catalogue twice adds nothing the second time |
| Model.BulkInsert | scoreboard/model.py:133 | a bulk insert either appends all its rows or raises DBIntegrityError |
| Model.ClashIff | scoreboard/orm.py:97-99 | over a table whose column is unique, an insert clashes exactly when the column would stop being unique |
| Model.BulkInsertUnique | scoreboard/orm.py:139-142 | a bulk insert succeeds exactly when both unique columns stay unique |
| Model.SetupTwice | scoreboard/model.py:122-134 | after a catalogue has been loaded, loading it again inserts nothing and cannot fail |
| Model.NewAchievements | scoreboard/model.py:153-170 | only listed achievements are added |
| Model.AwardedAfter | scoreboard/model.py:164-169 | awarding appends the achievement to the named player |
| Model.AwardedStable | scoreboard/model.py:153-170 | an award survives any later growth of the players |
| Model.AwardedAllStable | scoreboard/model.py:153-170 | awards to a list of players survive later growth |
| Model.AllAwardedStable | scoreboard/model.py:153-170 | every added achievement stays awarded as the players grow |
| Model.AllAwardedMeaning | scoreboard/model.py:153-170 | the player of every name listed by the k-th added achievement holds it |
| Model.NewAchievementsStep | scoreboard/model.py:155-169 | an achievement is added exactly when its name is not stored yet, counting earlier additions |
| Model.SetupCatalogueStep | scoreboard/model.py:155-169 | each round keeps the stored achievements equal to the base plus the additions |
| Model.SetupAwardStep | scoreboard/model.py:155-169 | each round keeps every added achievement awarded to its players |
| Model.FilterGames | scoreboard/model.py:449-472 | exactly the games matching every filter given |
| Model.OrderByEndCorrect | scoreboard/model.py:473-475 | ordering keeps every game as often and sorts by end, newest first unless reversed |
| Model.SelectGamesCorrect | scoreboard/model.py:424-478 | every game listed matches the filters; without a limit all matches are listed; a limit keeps a prefix; the order is by end |
| Model.FilterIgnoresLimit | scoreboard/model.py:510-532 | counting ignores the limit and the order |
| Model.PlayerFilterRaisesAsWritten | scoreboard/model.py:450-451 | as written, a player filter raises AttributeError and other queries run |
| Model.PlayerFilterCorrected | scoreboard/model.py:450-451 | through the account, a player's listing is exactly that player's games |
| Model.CountGamesAsWritten | scoreboard/model.py:510-532 | AttributeError exactly for a player filter; otherwise the number of games passing every filter |
| Model.FilterOfPlayer | scoreboard/model.py:424-478 | the player filter through the account keeps exactly the player's games, in order |
| Model.FilterAll | scoreboard/model.py:424-478 | with no filters every game is counted |
| Model.HighscoresCorrect | scoreboard/model.py:545-556 | at most `limit` games of the table, the player's when asked, by descending score |
| Model.HighscoreListComplete | scoreboard/model.py:553-555 | without the limit, every game of the table (the player's, when asked) is listed as often as it is stored, by descending score |
| Model.FilterCount | scoreboard/model.py:449-478 | filtering keeps each matching game as often as it occurs and drops the rest |
| Model.FilterPermutation | scoreboard/model.py:449-478 | filtering two orderings of the same games gives two orderings of the same matches |
| Model.HighscoreListSorted | scoreboard/model.py:553 | the unlimited highscore list runs by descending score |
| Model.HighscoresTop | scoreboard/model.py:545-556 | with a limit, the first `limit` games of the unlimited list, and no game left out scored more than one kept |
| Model.HighscoresPlayerRaisesAsWritten | scoreboard/model.py:554-555 | as written, a player filter raises AttributeError, and without one the corrected query's result comes back |
| Model.TopScoringCorrect | scoreboard/model.py:588-589 | none exactly for no games; otherwise a game no game outscores |
| Model.ListCharTypesCorrect | scoreboard/model.py:376-385 | exactly the rows with the requested playable flag, in name order |
| Model.GamesWithKey | scoreboard/model.py:588-589 | exactly the games whose column holds the key |
| Model.HighscoresByKeyCorrect | scoreboard/model.py:568-592 | one result per key with a game, in key order, each a game of its key with no higher score for that key |
| Model.SpeciesHighscoresCorrect | scoreboard/model.py:595-616 | each species highscore is the top game of a playable species, one per playable species with a game |
| Model.KeysWithGamesExactly | scoreboard/model.py:582-591 | the keys given a highscore are exactly the listed keys that some game has |
| Model.GamesOfComboNested | scoreboard/model.py:631 | filtering by species and background together is filtering by species, then by background |
| Model.ComboRowByKey | scoreboard/model.py:628-634 | the inner loop over backgrounds for one species is the per-key highscore loop over that species' games |
| Model.ComboRowCorrect | scoreboard/model.py:628-634 | a species row has one game per background with a game of the species, in background order, each unbeaten for its pair; those backgrounds are exactly the listed ones that have such a game |
| Model.ComboRowHas | scoreboard/model.py:628-634 | a game of the species with a listed background has its pair's top game in the row |
| Model.ComboRowListed | scoreboard/model.py:628-634 | every game of a row is of the row's species and a listed background |
| Model.ComboRowsCorrect | scoreboard/model.py:619-636 | every combo highscore is unbeaten for its species and background pair |
| Model.ComboRowsComplete | scoreboard/model.py:619-636 | every listed species and listed background pair with a game has a combo highscore |
| Model.ComboRowsListed | scoreboard/model.py:619-636 | every combo highscore is of a listed species and a listed background |
| Model.ComboHighscoresComplete | scoreboard/model.py:619-636 | for every playable species and playable background pair with a game, the list holds a game of that pair scoring at least as much |
| Model.FindGroup | scoreboard/model.py:684-686 | the position of a player's group, none exactly when they have none |
| Model.GroupStep | scoreboard/model.py:682-686 | one step of the grouping appends a game to its owner's group, or opens a new group |
| Model.GroupDistinct | scoreboard/model.py:682-686 | group names are distinct |
| Model.GroupOwners | scoreboard/model.py:682-686 | a name has a group exactly when it owns a game |
| Model.GroupSizes | scoreboard/model.py:682-686 | each group holds as many games as its owner owns |
| Model.GroupMembers | scoreboard/model.py:682-686 | every grouped game is one of its owner's games |
| Model.HoldersCorrect | scoreboard/model.py:673-689 | at most `limit` groups, the largest first |
| Model.HoldersTop | scoreboard/model.py:673-689 | with a limit, the first `limit` sorted groups, and no group left out is larger than one kept |
| Model.SortedGroupsComplete | scoreboard/model.py:673-689 | every player owning a combo highscore has a group |
| Model.SortedGroupsCounted | scoreboard/model.py:673-689 | each sorted group holds all of its player's games, and at least one |
| Model.SortedGroupsOrdered | scoreboard/model.py:673-689 | sorted groups run from the most games to the fewest |
| Model.SortedGroupsDistinct | scoreboard/model.py:673-689 | no player has two groups |
| Model.Owners | scoreboard/model.py:684-686 | each game is paired with the name of its owner |
| Model.OwnersStep | scoreboard/model.py:684-686 | one more game adds its owner's pair |
| Model.ComboHighscoresOwned | scoreboard/model.py:682-685 | every combo highscore is a game of the table, so it has an owner |
| Model.ActiveStreaksOf | scoreboard/model.py:705-714 | exactly the player's active streaks |
| Model.PlayerStreak | scoreboard/model.py:705-714 | none for no active streak, the streak for one, and an error for more |
| Model.PlayerStreakNeverRaises | scoreboard/model.py:705-714 | with at most one active streak per player the lookup never raises |
| Model.TwoActiveBreakInvariant | scoreboard/orm.py:184-205 | two active streaks of one player break the invariant the Streak table promises |
| Model.LongStreaks | scoreboard/model.py:740-751 | exactly the streaks with more than one game and the requested active flag |
| Model.GetStreaksCorrect | scoreboard/model.py:717-759 | at most `limit` streaks, each with more than one game and the requested flag |
| Model.GetStreaksChosen | scoreboard/model.py:717-759 | without a limit, every qualifying streak is returned exactly once |
| Model.GetStreaksOrdered | scoreboard/model.py:717-759 | streaks run from the longest down |
| Model.GetStreaksTop | scoreboard/model.py:717-759 | with a limit, the first `limit` streaks of the unlimited query, and no streak left out is longer than one kept |
| Model.CollectMissing | scoreboard/model.py:124-133 | the loop collects exactly the rows `Missing` specifies |
| Model.NewGames | scoreboard/model.py:326 | each inserted row becomes a fresh game |
| Model.Store.GetPlayerId | scoreboard/model.py:104-119 | the player found without case, or one created with the given spelling; nothing else changes |
| Model.Store.GetPlayer | scoreboard/model.py:86-101 | the same lookup, returning the row |
| Model.Store.GetAccountId | scoreboard/model.py:64-83 | makes sure the player exists, then finds or creates the account by name without case and by server |
| Model.Store.CreateStreak | scoreboard/model.py:314-319 | appends an active streak; the one-active-streak invariant holds when the player had none |
| Model.Store.GetLogfileProgress | scoreboard/model.py:329-340 | the stored byte count, or a new row with 0 |
| Model.Store.SaveLogfileProgress | scoreboard/model.py:343-350 | sets this logfile's count and nothing else |
| Model.Store.AddGames | scoreboard/model.py:322-326 | all rows are inserted exactly when gids are fresh and distinct and accounts exist; otherwise DBIntegrityError and nothing inserted |
| Model.Store.SetupSpecies | scoreboard/model.py:122-134 | appends, in one insert, the species whose short code is not stored, or raises DBIntegrityError and appends nothing when a short code or name would repeat |
| Model.Store.SetupBackgrounds | scoreboard/model.py:137-150 | the same for backgrounds, unique on short code and name |
| Model.Store.SetupGods | scoreboard/model.py:173-181 | appends the gods whose name is not stored, or raises DBIntegrityError and appends nothing when a name would repeat |
| Model.Store.SetupKtyps | scoreboard/model.py:184-192 | appends the ktyps not stored, or raises DBIntegrityError and appends nothing when one repeats |
| Model.Store.SetupBranches | scoreboard/model.py:208-221 | appends the branches whose short name is not stored, or raises DBIntegrityError and appends nothing when a short or full name would repeat |
| Model.Store.Award | scoreboard/model.py:164-169 | the named player (created if missing) gains the achievement, and no other player changes |
| Model.Store.AwardAll | scoreboard/model.py:164-169 | every named player holds the achievement |
| Model.Store.AddAchievement | scoreboard/model.py:155-169 | adds the achievement unless its name is stored, then awards it to its players |
| Model.Store.SetupAchievements | scoreboard/model.py:153-170 | adds each achievement not stored yet, in order, each awarded to its players |
| Model.Store.ComboHighscoreHolders | scoreboard/model.py:673-689 | the combo highscores grouped by owner as `Holders` specifies |
| Model.Store.ListGames | scoreboard/model.py:481-507 | as written: AttributeError exactly for a player filter, otherwise the `SelectGames` query on the store's tables (every matching game, ordered by end when asked, cut to the limit; see `Model.SelectGamesCorrect`) |
| Model.Store.CountGames | scoreboard/model.py:510-532 | as written: raises exactly for a player filter, otherwise the length of the unlimited listing |

## Left out

- File, directory and process I/O is not modelled:
  - `open`, `seek`, `tell`, `readlines`, `glob` and `scandir`;
  - `candidate_logfiles` (scoreboard/log_import.py:29-47);
  - the worker pool of `load_logfiles` (scoreboard/log_import.py:50-66).
  Each file is given to the model as its text, or as its size and lines.
- `scoreboard/sources.py`, the server script, `write-website.py` and the loader are I/O drivers and are not part of this model.
- `model.add_game` is called by `handle_line` but defined nowhere. `LogImport.HandledLineAsWritten` models the AttributeError this raises. `LogImport.HandledLine` models the intended insert, taking the number of DBError failures before it succeeds as a parameter.
- LogImport.LoadLogfile: the games, accounts and players that the intended insert adds are not modelled. Its contract says nothing about those tables.
- Model.Store.AddGames: its DBIntegrityError for a missing account assumes foreign keys are enforced. The sqlite engine of scoreboard/orm.py:298-301 does not turn on `PRAGMA foreign_keys`, so sqlite would accept such a row.
- SQLAlchemy mechanics are not modelled: sessions, commits, rollbacks, `lru_cache` on the getters, and `bulk_insert_mappings`. The store is one object whose tables are sequences.
- Store getters outside the scorer's and importer's needs are not modelled: `get_server`, `get_version`, `get_place`, the `get_species`-style getters, `list_accounts`, `list_players`, `get_game`, `total_duration`, `fastest_wins`, `shortest_wins` and `get_gobal_records`. `fastest_wins` reads a blacklist that does not exist, as `Constants.BlacklistsShape` shows.
- The `max_age` filter of `get_streaks` is SQL date arithmetic and is not modelled.
- Model.PlayerStreakNeverRaises: the Streak table's partial index is not declared unique, so the database does not enforce one active streak per player. The model keeps that invariant itself and requires it of `Scoring.ScoreGames`.
- Floating-point values are not modelled:
  - the win rates are kept as numerator and denominator;
  - `avg_score`, `boring_rate` and the win averages are left out.
- Unicode is not modelled. `strip`, `lower` and `int()` work on ASCII whitespace, letters and digits only.
- Basics.PyInt: underscores and non-ASCII digits, which Python's `int()` also accepts, are not modelled.
- Constants.GreatRaceTable: does not state that the 26 great-species names are pairwise distinct. Comparing every pair of those literals is beyond what the solver can do in its budget.
- WebUtils.PrettyDurReadsBack: the read-back is stated for durations under 100 hours. Longer durations have a wider hour field, which that lemma does not cover.
- VueFilters.HoursTruncates: stated only below 2^31 hours, where JavaScript's `~~` does not wrap. `VueFilters.ToInt32` models the wrap itself.
- Library formatting is given as a parameter or left out:
  - `strftime("%c")`;
  - the `str(timedelta)` of the old `prettydur`;
  - JavaScript's `Date`/`toLocaleString`.
- lodash `capitalize` is modelled on ASCII letters only.
- HTML and template rendering is not modelled, including the page writers and the jinja templates. `Website.RenderPlayerPage` takes the rendered page as a parameter.
- `timer` in scoreboard/util.py returns the wrapped function's result unchanged. It adds only a wall-clock print, so it is not modelled.
- `handle_greaterfoo` and `check_greaterspecies` are debugging code and are not modelled. Neither is the single-player debug hook of `score_game`.
- The statistics folds of `calc_stats` and `score_games` read typed records (`LegacyStats.Game`). The conversion from the parsed dicts to those records is not modelled. So the KeyError or TypeError that a missing or mistyped field raises in the middle of those folds is not modelled either.
- In `read-logfiles.py` a loss's duration and turn count are read only for wins. The model keeps them as empty text for losses.
- The shuffle of player pages in `write_website` is random and is not modelled. `Website.SelectPlayers` returns the selection before the shuffle.
- `_games` looks up the `winning` and `boring` ktyps through `get_ktyp`, which creates, commits and announces a ktyp that is not stored (scoreboard/model.py:284-296, 459-468). The model compares ktyp names instead, so `Model.FilterGames`, `Model.Store.ListGames` and `Model.Store.CountGames` never insert a Ktyp row.
- LogImport.Lines: ends a line at '\n' only. `load_logfile` reads the file in text mode with universal newlines (scoreboard/log_import.py:84-86), where '\r' and "\r\n" also end a line. Files with those line endings are not modelled.
- `get_player` is memoised with `functools.lru_cache`. The cache is not modelled. Within one session it returns the same row that the query would.
- Orm.Database.SetupDatabase: the calls that follow the session factory are not modelled. These are `model.setup_servers`, which the model module does not define, and the `setup_*` catalogue loaders (scoreboard/orm.py:329-337). The loaders are modelled on their own as `Model.Store.Setup*`.
- WebUtils.PrettyHours and WebUtils.PrettyDur take an `int`. The `int(duration)` coercion of other argument types (scoreboard/webutils.py:35-36, 49-50) is not modelled.

## Findings

| source | as written | input that shows it | evidently intended | confidence | as-written member | corrected member |
|---|---|---|---|---|---|---|
| scoreboard/scoring.py:27-31 | `first_game != game` compares the list returned by `list_games` with a single game row, so it is always true and `is_grief` returns False before any threshold is checked | an account whose only game is a 10-turn, 10-second loss | compare the account's first game with the game, so the thresholds decide for a first game | not executed | Scoring.GriefMissedAsWritten | Scoring.IsGriefOfEarliest |
| scoreboard/model.py:450-451 | `_games` filters on `Game.player_id`, which the Game table does not declare, so any player filter raises AttributeError | `list_games(player=p)` for any player | filter through the game's account, whose `player_id` is declared | not executed | Model.PlayerFilterRaisesAsWritten | Model.PlayerFilterCorrected |
| scoreboard/model.py:554-555 | `highscores` filters on the same undeclared `Game.player_id` | `highscores(player=p)` for any player | filter through the game's account | not executed | Model.HighscoresPlayerRaisesAsWritten | Model.HighscoresCorrect |
| scoreboard/write_website.py:272 | `render_player_page` begins with `count_games(s, player=player)`, which goes through the same player filter, so every player page raises AttributeError | any player | count the player's games through their accounts | not executed | Website.PlayerPageRaisesAsWritten | Website.PlayerPageCorrected |
| scoreboard/write_website.py:215 | `render_player_page` passes its `Player` row on (line 289), and `_get_player_records` compares `game.player.name`, a string, with the `Player` row it is given, so no record ever matches; line 272 raises before this is reached | a player holding a global record | compare with `player.name` | not executed | Website.PlayerRowGetsNoRecords | Website.PlayerRecordsSpec |
| scoreboard/write_website.py:395 | `write_website` calls `model.get_old_player_pages`, which the model module does not define, so a name list with extra pages raises AttributeError | `write_website(players=["a"], extra_player_pages=1)` | add the players of the oldest pages not already chosen | not executed | Website.SelectedExtrasRaiseAsWritten | Website.SelectedNamed |
| scoreboard/log_import.py:124 | `handle_line` calls `model.add_game`, which the model module does not define, so every line that parses to a game raises AttributeError and its file's reading stops | a logfile with one valid game line | insert the game, as `model.add_games` would | not executed | LogImport.LoadLinesAsWrittenStops | LogImport.LoadLinesAllImported |

=== FILE: basics.dfy ===
/** Values and the handful of Python string built-ins the scoreboard relies on:
    `str.strip`, `str.isdigit`, `int()`, `str()`, `"%02d"`, `"{0:,}"`, `str.lower`,
    `str.replace("::", ":")`, `str.split(c, 1)` and the code-point order that
    `<` uses on strings. */
module Basics {

  datatype Option<T> = None | Some(value: T)

  /** The Python exceptions the modelled code raises or lets through. */
  datatype Error =
    | ValueError
    | IndexError
    | KeyError(key: string)
    | TypeError
    | AttributeError
    | LogImportError
    | DBError
    | DBIntegrityError
    | IntegrityError
    | MultipleResultsFound
    | NotInitialised

  /** A call that either returns a value or raises. */
  datatype Result<T> = Ok(value: T) | Raised(error: Error)

  /** A logfile field after conversion: Python keeps either an int or a str. */
  datatype Value = Int(i: int) | Str(s: string)

  /** `"%s" % v` */
  function ValueText(v: Value): string
  {
    match v
    case Int(i) => DecimalString(i)
    case Str(s) => s
  }

  // ---------------------------------------------------------------- whitespace

  /** The ASCII characters `str.isspace` accepts (Unicode spaces are not modelled). */
  predicate IsSpace(c: char)
  {
    c == ' ' || c == '\t' || c == '\n' || c == '\r' || c == '\U{0B}' || c == '\U{0C}'
    || ('\U{1C}' <= c <= '\U{1F}')
  }

  function StripLeft(s: string): (r: string)
    ensures |r| <= |s| && r == s[|s| - |r|..]
    ensures |r| > 0 ==> !IsSpace(r[0])
    ensures forall i :: 0 <= i < |s| - |r| ==> IsSpace(s[i])
  {
    if |s| > 0 && IsSpace(s[0]) then StripLeft(s[1..]) else s
  }

  function StripRight(s: string): (r: string)
    ensures |r| <= |s| && r == s[..|r|]
    ensures |r| > 0 ==> !IsSpace(r[|r| - 1])
    ensures forall i :: |r| <= i < |s| ==> IsSpace(s[i])
  {
    if |s| > 0 && IsSpace(s[|s| - 1]) then StripRight(s[..|s| - 1]) else s
  }

  /** `s.strip()` */
  function Strip(s: string): string
  {
    StripRight(StripLeft(s))
  }

  /** `not s.strip()`: the string holds nothing but whitespace. */
  predicate IsBlank(s: string)
  {
    Strip(s) == ""
  }

  lemma BlankIffAllSpace(s: string)
    ensures IsBlank(s) <==> forall i :: 0 <= i < |s| ==> IsSpace(s[i])
  {
    var l := StripLeft(s);
    if IsBlank(s) {
      assert |StripRight(l)| == 0;
      assert |l| == 0;
    } else {
      var r := StripRight(l);
      assert |r| > 0 && !IsSpace(r[0]);
      assert r[0] == s[|s| - |l|];
    }
  }

  // ---------------------------------------------------------------- integers

  predicate IsDigit(c: char)
  {
    '0' <= c <= '9'
  }

  /** `s.isdigit()` for ASCII digits: true only for a non-empty run of digits. */
  predicate AllDigits(s: string)
  {
    |s| > 0 && forall i :: 0 <= i < |s| ==> IsDigit(s[i])
  }

  function DigitValue(c: char): nat
    requires IsDigit(c)
  {
    (c as int) - ('0' as int)
  }

  /** The number a run of decimal digits denotes. */
  function DigitsValue(s: string): nat
    requires forall i :: 0 <= i < |s| ==> IsDigit(s[i])
  {
    if |s| == 0 then 0 else DigitsValue(s[..|s| - 1]) * 10 + DigitValue(s[|s| - 1])
  }

  /** `int(s)`: surrounding whitespace, one optional sign, then decimal digits.
      None stands for the ValueError Python raises. */
  function PyInt(s: string): (r: Option<int>)
    ensures AllDigits(Strip(s)) ==> r == Some(DigitsValue(Strip(s)))
  {
    var t := Strip(s);
    if AllDigits(t) then Some(DigitsValue(t))
    else if |t| > 1 && t[0] == '-' && AllDigits(t[1..]) then Some(0 - DigitsValue(t[1..]) as int)
    else if |t| > 1 && t[0] == '+' && AllDigits(t[1..]) then Some(DigitsValue(t[1..]))
    else None
  }

  function DigitChar(d: nat): (c: char)
    requires d < 10
    ensures IsDigit(c) && DigitValue(c) == d
  {
    ('0' as int + d) as char
  }

  /** `str(n)` for n >= 0 */
  function NatString(n: nat): (r: string)
    ensures AllDigits(r)
    decreases n
  {
    if n < 10 then [DigitChar(n)] else NatString(n / 10) + [DigitChar(n % 10)]
  }

  /** `str(n)` */
  function DecimalString(n: int): string
  {
    if n >= 0 then NatString(n) else "-" + NatString(-n)
  }

  lemma {:induction false} NatStringValue(n: nat)
    ensures DigitsValue(NatString(n)) == n
    decreases n
  {
    if n >= 10 {
      NatStringValue(n / 10);
      var s := NatString(n);
      assert s[..|s| - 1] == NatString(n / 10);
    }
  }

  /** `"%02d" % n`: at least two characters, zero-filled; the sign counts
      towards the width. */
  function Pad2(n: int): string
  {
    if n < 0 then "-" + NatString(-n)
    else if n < 10 then "0" + NatString(n)
    else NatString(n)
  }

  lemma Pad2Digits(n: nat)
    ensures |Pad2(n)| >= 2 && AllDigits(Pad2(n)) && DigitsValue(Pad2(n)) == n
    ensures n < 100 ==> |Pad2(n)| == 2
  {
    NatStringValue(n);
    if n < 10 {
      var s := Pad2(n);
      assert s[..1] == "0";
      assert DigitsValue(s[..1]) == 0;
    } else {
      assert NatString(n) == NatString(n / 10) + [DigitChar(n % 10)];
    }
  }

  /** Anything written with `"%02d"` reads back with `int()`. */
  lemma Pad2ReadsBackAll(n: int)
    ensures PyInt(Pad2(n)) == Some(n)
  {
    if n < 0 {
      Pad2ReadsBackNegative(n);
    } else {
      Pad2ReadsBackNat(n);
    }
  }

  lemma Pad2ReadsBackNegative(n: int)
    requires n < 0
    ensures PyInt(Pad2(n)) == Some(n)
  {
    assert Pad2(n) == DecimalString(n);
    PyIntDecimalString(n);
  }

  lemma Pad2ReadsBackNat(n: nat)
    ensures PyInt(Pad2(n)) == Some(n)
  {
    Pad2Digits(n);
    PyIntOfDigits(Pad2(n));
  }

  /** A number below 100 written with `"%02d"` reads back with `int()`. */
  lemma Pad2ReadsBack(n: nat)
    requires n < 100
    ensures |Pad2(n)| == 2 && PyInt(Pad2(n)) == Some(n)
  {
    Pad2Digits(n);
    Pad2ReadsBackNat(n);
  }

  lemma {:induction false} StripNoSpace(s: string)
    requires forall i :: 0 <= i < |s| ==> !IsSpace(s[i])
    ensures Strip(s) == s
  {
    if |s| > 0 {
      assert !IsSpace(s[0]) && !IsSpace(s[|s| - 1]);
    }
  }

  lemma DigitsHaveNoSpace(s: string)
    requires AllDigits(s)
    ensures forall i :: 0 <= i < |s| ==> !IsSpace(s[i])
  {
  }

  /** `int(s)` of a run of digits is the number they denote. */
  lemma PyIntOfDigits(s: string)
    requires AllDigits(s)
    ensures PyInt(s) == Some(DigitsValue(s))
  {
    DigitsHaveNoSpace(s);
    StripNoSpace(s);
  }

  /** `"%0*d" % (width, n)` for n >= 0: zero-filled to at least `width` digits. */
  function ZeroFill(n: nat, width: nat): (r: string)
    ensures |r| >= width && AllDigits(r)
    decreases width
  {
    if |NatString(n)| >= width then NatString(n)
    else "0" + ZeroFill(n, width - 1)
  }

  /** `"%0*d" % (width, n)` reads back as n. */
  lemma {:induction false} ZeroFillValue(n: nat, width: nat)
    ensures DigitsValue(ZeroFill(n, width)) == n
    decreases width
  {
    NatStringValue(n);
    if |NatString(n)| < width {
      ZeroFillValue(n, width - 1);
      LeadingZero(ZeroFill(n, width - 1));
    }
  }

  lemma {:induction false} ZeroFillWidth(n: nat, width: nat)
    requires 1 <= width && n < Pow10(width)
    ensures |ZeroFill(n, width)| == width
    decreases width
  {
    NatStringLength(n);
    if |NatString(n)| > width {
      Pow10Monotone(width, |NatString(n)| - 1);
    }
    if |NatString(n)| < width {
      Pow10Monotone(|NatString(n)|, width - 1);
      ZeroFillWidth(n, width - 1);
    }
  }

  function Pow10(k: nat): (r: nat)
    ensures r >= 1
  {
    if k == 0 then 1 else 10 * Pow10(k - 1)
  }

  lemma {:induction false} Pow10Monotone(j: nat, k: nat)
    requires j <= k
    ensures Pow10(j) <= Pow10(k)
    decreases k
  {
    if j < k {
      Pow10Monotone(j, k - 1);
    }
  }

  /** `str(n)` has k digits exactly when 10^(k-1) <= n < 10^k. */
  lemma {:induction false} NatStringLength(n: nat)
    ensures n < Pow10(|NatString(n)|)
    ensures |NatString(n)| > 1 ==> Pow10(|NatString(n)| - 1) <= n
    decreases n
  {
    if n >= 10 {
      NatStringLength(n / 10);
    }
  }

  /** A leading zero does not change the number a run of digits denotes. */
  lemma {:induction false} LeadingZero(s: string)
    requires forall i :: 0 <= i < |s| ==> IsDigit(s[i])
    ensures DigitsValue("0" + s) == DigitsValue(s)
  {
    if |s| > 0 {
      var t := "0" + s;
      assert t[..|t| - 1] == "0" + s[..|s| - 1];
      LeadingZero(s[..|s| - 1]);
    }
  }

  /** `int(str(n)) == n` */
  lemma PyIntDecimalString(n: int)
    ensures PyInt(DecimalString(n)) == Some(n)
  {
    if n >= 0 {
      DigitsHaveNoSpace(NatString(n));
      StripNoSpace(NatString(n));
      NatStringValue(n);
    } else {
      PyIntNegative(-n);
    }
  }

  lemma PyIntNegative(m: nat)
    requires m > 0
    ensures PyInt("-" + NatString(m)) == Some(0 - m as int)
  {
    var d := NatString(m);
    var t := "-" + d;
    NatStringValue(m);
    DigitsHaveNoSpace(d);
    assert t[1..] == d;
    assert forall i :: 0 <= i < |t| ==> !IsSpace(t[i]) by {
      forall i | 0 <= i < |t| ensures !IsSpace(t[i]) {
        if i > 0 {
          assert t[i] == d[i - 1];
        }
      }
    }
    StripNoSpace(t);
    assert !IsDigit(t[0]);
  }

  /** Digits grouped in threes from the right, separated by ','. */
  function GroupThousands(s: string): (r: string)
    ensures |r| == if |s| == 0 then 0 else |s| + (|s| - 1) / 3
    decreases |s|
  {
    if |s| <= 3 then s else GroupThousands(s[..|s| - 3]) + "," + s[|s| - 3..]
  }

  /** `"{0:,}".format(n)`: the decimal digits grouped in threes, the sign in
      front. */
  function CommaInt(n: int): string
  {
    if n >= 0 then GroupThousands(NatString(n)) else "-" + GroupThousands(NatString(-n))
  }

  /** `s` with every ',' removed. */
  function Uncomma(s: string): (r: string)
  {
    if |s| == 0 then "" else Uncomma(s[..|s| - 1]) + (if s[|s| - 1] == ',' then "" else [s[|s| - 1]])
  }

  lemma {:induction false} UncommaAppend(a: string, b: string)
    ensures Uncomma(a + b) == Uncomma(a) + Uncomma(b)
    decreases |b|
  {
    if |b| > 0 {
      assert (a + b)[..|a + b| - 1] == a + b[..|b| - 1];
      UncommaAppend(a, b[..|b| - 1]);
    } else {
      assert a + b == a;
    }
  }

  lemma {:induction false} UncommaPlain(s: string)
    requires forall i :: 0 <= i < |s| ==> s[i] != ','
    ensures Uncomma(s) == s
    decreases |s|
  {
    if |s| > 0 {
      UncommaPlain(s[..|s| - 1]);
      assert s[..|s| - 1] + [s[|s| - 1]] == s;
    }
  }

  /** Grouping only adds separators: removing them gives the digits back. */
  lemma {:induction false} GroupThousandsUncomma(s: string)
    requires forall i :: 0 <= i < |s| ==> s[i] != ','
    ensures Uncomma(GroupThousands(s)) == s
    decreases |s|
  {
    if |s| <= 3 {
      UncommaPlain(s);
    } else {
      var p, t := s[..|s| - 3], s[|s| - 3..];
      var g := GroupThousands(p);
      GroupThousandsUncomma(p);
      UncommaPlain(t);
      UncommaAppend(g + ",", t);
      UncommaAppend(g, ",");
      assert Uncomma(",") == "";
      assert p + t == s;
    }
  }

  /** A ',' sits exactly at every fourth position counted from the right. */
  lemma {:induction false} GroupThousandsCommas(s: string)
    requires forall i :: 0 <= i < |s| ==> s[i] != ','
    ensures forall i :: 0 <= i < |GroupThousands(s)| ==>
      (GroupThousands(s)[i] == ',' <==> (|GroupThousands(s)| - i) % 4 == 0)
    decreases |s|
  {
    if |s| > 3 {
      var p, t := s[..|s| - 3], s[|s| - 3..];
      GroupThousandsCommas(p);
      assert forall i :: 0 <= i < |t| ==> t[i] == s[|s| - 3 + i];
      CommasAfterGroup(GroupThousands(p), t);
    }
  }

  /** One more group of three behind a ',' keeps the separators at every
      fourth position from the right. */
  lemma CommasAfterGroup(g: string, t: string)
    requires |t| == 3 && forall i :: 0 <= i < 3 ==> t[i] != ','
    requires forall i :: 0 <= i < |g| ==> (g[i] == ',' <==> (|g| - i) % 4 == 0)
    ensures var r := g + "," + t;
      forall i :: 0 <= i < |r| ==> (r[i] == ',' <==> (|r| - i) % 4 == 0)
  {
    var r := g + "," + t;
    forall i | 0 <= i < |r|
      ensures r[i] == ',' <==> (|r| - i) % 4 == 0
    {
      if i < |g| {
        var j := |g| - i;
        assert r[i] == g[i];
        assert |r| - i == j + 4;
        ModFourShift(j);
      } else if i > |g| {
        assert r[i] == t[i - |g| - 1];
        assert 0 < |r| - i < 4;
      }
    }
  }

  lemma ModFourShift(j: int)
    ensures (j + 4) % 4 == j % 4
  {
  }

  /** `"{0:,}".format(n)` has the digits of `str(n)` and separators exactly at
      every fourth position from the right. */
  lemma CommaIntShape(n: int)
    ensures Uncomma(CommaInt(n)) == DecimalString(n)
    ensures forall i :: 0 < i < |CommaInt(n)| ==> (CommaInt(n)[i] == ',' <==> (|CommaInt(n)| - i) % 4 == 0)
  {
    var d := NatString(if n >= 0 then n else -n);
    assert forall i :: 0 <= i < |d| ==> d[i] != ',' by {
      assert forall i :: 0 <= i < |d| ==> IsDigit(d[i]);
    }
    GroupThousandsUncomma(d);
    GroupThousandsCommas(d);
    if n < 0 {
      var g := GroupThousands(d);
      UncommaAppend("-", g);
      assert Uncomma("-") == "-";
      assert forall i :: 0 < i < |"-" + g| ==> ("-" + g)[i] == g[i - 1];
    }
  }

  lemma NatStringExample()
    ensures NatString(1234567) == "1234567"
  {
    assert NatString(1) == "1";
    assert NatString(12) == "12";
    assert NatString(123) == "123";
    assert NatString(1234) == "1234";
    assert NatString(12345) == "12345";
    assert NatString(123456) == "123456";
  }

  /** The documented example: 1234567 becomes "1,234,567". */
  lemma CommaIntExample()
    ensures CommaInt(1234567) == "1,234,567"
  {
    NatStringExample();
    var s := "1234567";
    assert s[..4] == "1234" && s[4..] == "567";
    assert "1234"[..1] == "1" && "1234"[1..] == "234";
    assert GroupThousands("1234") == "1,234";
  }

  // ---------------------------------------------------------------- slicing

  /** `s[:n]` in Python, for n >= 0: the first n elements, or all when fewer. */
  function Take<T>(s: seq<T>, n: nat): (r: seq<T>)
    ensures |r| == if n < |s| then n else |s|
    ensures r == s[..|r|]
  {
    if n < |s| then s[..n] else s
  }

  /** `s[n:]` in Python, for n >= 0: everything after the first n elements. */
  function Drop<T>(s: seq<T>, n: nat): (r: seq<T>)
    ensures |r| == if n < |s| then |s| - n else 0
    ensures r == s[|s| - |r|..]
  {
    if n < |s| then s[n..] else []
  }

  lemma TakeDrop<T>(s: seq<T>, n: nat)
    ensures Take(s, n) + Drop(s, n) == s
  {
  }

  /** `s[:-1]`: all but the last element (empty stays empty). */
  function DropLast<T>(s: seq<T>): (r: seq<T>)
    ensures |r| == if |s| == 0 then 0 else |s| - 1
    ensures r == s[..|r|]
  {
    if |s| == 0 then [] else s[..|s| - 1]
  }

  /** `s[-n:]` in Python, for n > 0: the last n elements, or all when fewer. */
  function TakeLast<T>(s: seq<T>, n: nat): (r: seq<T>)
    ensures |r| == if n < |s| then n else |s|
    ensures r == s[|s| - |r|..]
  {
    if n < |s| then s[|s| - n..] else s
  }

  /** `s[a:b]` in Python, for a, b >= 0. */
  function Slice<T>(s: seq<T>, a: nat, b: nat): (r: seq<T>)
    ensures b <= |s| && a <= b ==> r == s[a..b]
  {
    Drop(Take(s, b), a)
  }

  // ---------------------------------------------------------------- escaping

  /** `s.replace("::", ":")`: Python's replace scans left to right and does not
      reuse a replaced colon, so ":::" becomes "::". */
  function Unescape(s: string): (r: string)
    ensures |r| <= |s|
  {
    if |s| >= 2 && s[0] == ':' && s[1] == ':' then ":" + Unescape(s[2..])
    else if |s| == 0 then ""
    else [s[0]] + Unescape(s[1..])
  }

  /** The logfile writer's escaping: every ':' in a value is written as "::". */
  function Escape(s: string): (r: string)
    ensures |r| >= |s|
  {
    if |s| == 0 then ""
    else if s[0] == ':' then "::" + Escape(s[1..])
    else [s[0]] + Escape(s[1..])
  }

  lemma {:induction false} UnescapeEscape(s: string)
    ensures Unescape(Escape(s)) == s
  {
    if |s| > 0 {
      UnescapeEscape(s[1..]);
      var e := Escape(s);
      if s[0] == ':' {
        assert e[2..] == Escape(s[1..]);
      } else {
        assert e[1..] == Escape(s[1..]);
      }
    }
  }

  lemma {:induction false} EscapeHasNoColonOf(s: string)
    requires forall i :: 0 <= i < |s| ==> s[i] != ':'
    ensures Escape(s) == s
  {
    if |s| > 0 {
      EscapeHasNoColonOf(s[1..]);
    }
  }

  // ---------------------------------------------------------------- case

  function LowerChar(c: char): char
  {
    if 'A' <= c <= 'Z' then (c as int + 32) as char else c
  }

  /** `s.lower()` on ASCII letters (other case mappings are not modelled). */
  function Lower(s: string): (r: string)
    ensures |r| == |s|
    ensures forall i :: 0 <= i < |s| ==> r[i] == LowerChar(s[i])
  {
    if |s| == 0 then "" else [LowerChar(s[0])] + Lower(s[1..])
  }

  lemma LowerIdempotent(s: string)
    ensures Lower(Lower(s)) == Lower(s)
  {
  }

  // ---------------------------------------------------------------- searching

  function IndexOf(s: string, c: char): (r: Option<nat>)
    ensures r.Some? ==> r.value < |s| && s[r.value] == c
                        && forall j :: 0 <= j < r.value ==> s[j] != c
    ensures r.None? ==> forall j :: 0 <= j < |s| ==> s[j] != c
  {
    if |s| == 0 then None
    else if s[0] == c then Some(0)
    else match IndexOf(s[1..], c)
         case None => None
         case Some(k) => Some(k + 1)
  }

  /** `s.split(c, 1)` when it yields two parts: the text before the first `c`
      and everything after it; None when `c` does not occur. */
  function SplitOnce(s: string, c: char): (r: Option<(string, string)>)
    ensures r.None? <==> (forall j :: 0 <= j < |s| ==> s[j] != c)
    ensures r.Some? ==> s == r.value.0 + [c] + r.value.1
                        && forall j :: 0 <= j < |r.value.0| ==> r.value.0[j] != c
  {
    match IndexOf(s, c)
    case None => None
    case Some(k) => Some((s[..k], s[k + 1..]))
  }

  function Join(parts: seq<string>, sep: string): string
  {
    if |parts| == 0 then ""
    else if |parts| == 1 then parts[0]
    else parts[0] + sep + Join(parts[1..], sep)
  }

  predicate EndsWith(s: string, suffix: string)
  {
    |suffix| <= |s| && s[|s| - |suffix|..] == suffix
  }

  // ---------------------------------------------------------------- order

  /** `a < b` on Python strings: lexicographic by code point. */
  predicate StrLt(a: string, b: string)
  {
    if |a| == 0 then |b| > 0
    else if |b| == 0 then false
    else if a[0] < b[0] then true
    else if a[0] == b[0] then StrLt(a[1..], b[1..])
    else false
  }

  predicate StrLe(a: string, b: string)
  {
    a == b || StrLt(a, b)
  }

  lemma {:induction false} StrLtIrreflexive(a: string)
    ensures !StrLt(a, a)
  {
    if |a| > 0 {
      StrLtIrreflexive(a[1..]);
    }
  }

  lemma {:induction false} StrLtTrichotomy(a: string, b: string)
    ensures StrLt(a, b) || a == b || StrLt(b, a)
  {
    if |a| > 0 && |b| > 0 && a[0] == b[0] {
      StrLtTrichotomy(a[1..], b[1..]);
      if a[1..] == b[1..] {
        assert a == [a[0]] + a[1..] && b == [b[0]] + b[1..];
      }
    }
  }

  lemma {:induction false} StrLtTransitive(a: string, b: string, c: string)
    requires StrLt(a, b) && StrLt(b, c)
    ensures StrLt(a, c)
  {
    if |a| > 0 && |b| > 0 && |c| > 0 && a[0] == b[0] && b[0] == c[0] {
      StrLtTransitive(a[1..], b[1..], c[1..]);
    }
  }

  lemma StrLtAsymmetric(a: string, b: string)
    requires StrLt(a, b)
    ensures !StrLt(b, a)
  {
    if StrLt(b, a) {
      StrLtTransitive(a, b, a);
      StrLtIrreflexive(a);
    }
  }

  // ---------------------------------------------------------------- cutting

  /** The index of the first ':' of `s`, or |s| when there is none. */
  lemma {:induction false} ColonIndex(s: string) returns (i: nat)
    ensures i <= |s|
    ensures i < |s| ==> s[i] == ':'
    ensures i == |s| ==> forall j :: 0 <= j < |s| ==> s[j] != ':'
  {
    match IndexOf(s, ':') {
      case None => i := |s|;
      case Some(k) => i := k;
    }
  }

  lemma {:induction false} EscapeHasColon(v: string, i: nat) returns (j: nat)
    requires i < |v| && v[i] == ':'
    ensures j < |Escape(v)| && Escape(v)[j] == ':'
  {
    var e := Escape(v);
    if i == 0 {
      j := 0;
    } else {
      var j' := EscapeHasColon(v[1..], i - 1);
      var tail := Escape(v[1..]);
      var off := if v[0] == ':' then 2 else 1;
      assert e == e[..off] + tail;
      j := j' + off;
    }
  }

  /** A string in which `c` does not occur, followed by `c`, is cut right
      there. */
  lemma CutAt(a: string, c: char, b: string)
    requires forall i :: 0 <= i < |a| ==> a[i] != c
    ensures SplitOnce(a + [c] + b, c) == Some((a, b))
  {
    var s := a + [c] + b;
    assert forall j :: 0 <= j < |a| ==> s[j] != c by {
      forall j | 0 <= j < |a| ensures s[j] != c {
        assert s[j] == a[j];
      }
    }
    IndexOfFirstAt(s, c, |a|);
    assert s[..|a|] == a && s[|a| + 1..] == b;
  }

  lemma {:induction false} IndexOfFirstAt(s: string, c: char, k: nat)
    requires k < |s| && s[k] == c
    requires forall j :: 0 <= j < k ==> s[j] != c
    ensures IndexOf(s, c) == Some(k)
  {
    if k > 0 {
      IndexOfFirstAt(s[1..], c, k - 1);
    }
  }
}

=== FILE: constants.dfy ===
/** The static catalogues of the current scoreboard (scoreboard/constants.py):
    the playable species, backgrounds and gods, the god-name fixups, the
    "great" achievement names, the hand-awarded achievements and the
    blacklists. */
module Constants {

  /** `PLAYABLE_RACES`, listed in ascending code order so that its size can
      be read off (the source writes a set display). */
  const PlayableRaceList: seq<string> :=
    ["Ce", "DD", "DE", "Dg", "Dr", "Ds", "Fe", "Fo", "Gh", "Gr",
     "HE", "HO", "Ha", "Hu", "Ko", "Mf", "Mi", "Mu", "Na", "Og",
     "Op", "Sp", "Te", "Tr", "VS", "Vp"]

  const PlayableRoleList: seq<string> :=
    ["AE", "AK", "AM", "Ar", "As", "Be", "CK", "Cj", "EE", "En",
     "FE", "Fi", "Gl", "Hu", "IE", "Mo", "Ne", "Sk", "Su", "Tm",
     "VM", "Wn", "Wr", "Wz"]

  const PlayableGodList: seq<string> :=
    ["Ashenzari", "Atheist", "Beogh", "Cheibriados", "Dithmenos",
     "Elyvilon", "Fedhas", "Gozag", "Jiyva", "Kikubaaqudgha",
     "Lugonu", "Makhleb", "Nemelex Xobeh", "Okawaru", "Pakellas",
     "Qazlal", "Ru", "Sif Muna", "The Shining One", "Trog",
     "Vehumet", "Xom", "Yredelemnul", "Zin"]

  const PlayableRaces: set<string> := set r | r in PlayableRaceList
  const PlayableRoles: set<string> := set r | r in PlayableRoleList
  const PlayableGods: set<string> := set g | g in PlayableGodList

  /** No entry of a listing is repeated. */
  predicate NoRepeats(s: seq<string>)
  {
    forall i, j :: 0 <= i < j < |s| ==> s[i] != s[j]
  }

  /** A listing without repeats has as many distinct entries as it is long. */
  lemma {:induction false} NoRepeatsCardinality(s: seq<string>)
    requires NoRepeats(s)
    ensures |set x | x in s| == |s|
  {
    if s != [] {
      var init := s[..|s| - 1];
      NoRepeatsCardinality(init);
      assert (set x | x in s) == (set x | x in init) + {s[|s| - 1]} by {
        forall x | x in s ensures x in init || x == s[|s| - 1] {
          var i :| 0 <= i < |s| && s[i] == x;
          if i < |s| - 1 {
            assert init[i] == x;
          }
        }
      }
      assert s[|s| - 1] !in init by {
        forall i | 0 <= i < |init| ensures init[i] != s[|s| - 1] {
          assert init[i] == s[i];
        }
      }
    }
  }

  /** `a` sorts before `b` on their first two characters. */
  predicate Lt2(a: string, b: string)
  {
    |a| >= 2 && |b| >= 2 && (a[0] < b[0] || (a[0] == b[0] && a[1] < b[1]))
  }

  predicate Ascending2(s: seq<string>)
  {
    forall i :: 0 <= i < |s| - 1 ==> Lt2(s[i], s[i + 1])
  }

  /** A listing that ascends on its first two characters repeats nothing. */
  lemma {:induction false} Ascending2NoRepeats(s: seq<string>)
    requires Ascending2(s)
    ensures NoRepeats(s)
    ensures forall j :: 0 < j < |s| ==> Lt2(s[0], s[j])
  {
    if |s| > 1 {
      var rest := s[1..];
      assert Ascending2(rest) by {
        forall i | 0 <= i < |rest| - 1 ensures Lt2(rest[i], rest[i + 1]) {
          assert rest[i] == s[i + 1] && rest[i + 1] == s[i + 2];
        }
      }
      Ascending2NoRepeats(rest);
      forall j | 0 < j < |s| ensures Lt2(s[0], s[j]) {
        if j > 1 {
          assert Lt2(rest[0], rest[j - 1]);
        }
      }
      forall i, j | 0 <= i < j < |s| ensures s[i] != s[j] {
        if i > 0 {
          assert rest[i - 1] != rest[j - 1];
        }
      }
    }
  }

  lemma RacesAscending()
    ensures forall i :: 0 <= i < |PlayableRaceList| - 1 ==> Lt2(PlayableRaceList[i], PlayableRaceList[i + 1])
  {
  }

  lemma RolesAscending()
    ensures forall i :: 0 <= i < |PlayableRoleList| - 1 ==> Lt2(PlayableRoleList[i], PlayableRoleList[i + 1])
  {
  }

  lemma GodsAscending()
    ensures forall i :: 0 <= i < |PlayableGodList| - 1 ==> Lt2(PlayableGodList[i], PlayableGodList[i + 1])
  {
  }

  /** Every playable god name starts with a capital letter, and none is ten
      characters long. */
  lemma GodNameShapes()
    ensures forall g :: g in PlayableGodList ==> |g| != 10 && |g| > 0 && 'A' <= g[0] <= 'Z'
  {
  }

  /** There are 26 playable species, all written as two-letter codes. */
  lemma RaceCount()
    ensures |PlayableRaces| == 26
    ensures forall r :: r in PlayableRaces ==> |r| == 2
  {
    RacesAscending();
    Ascending2NoRepeats(PlayableRaceList);
    NoRepeatsCardinality(PlayableRaceList);
  }

  /** There are 24 playable backgrounds, all written as two-letter codes. */
  lemma RoleCount()
    ensures |PlayableRoles| == 24
    ensures forall r :: r in PlayableRoles ==> |r| == 2
  {
    RolesAscending();
    Ascending2NoRepeats(PlayableRoleList);
    NoRepeatsCardinality(PlayableRoleList);
  }

  /** There are 24 playable gods, among them 'Atheist' and 'The Shining One'. */
  lemma GodCount()
    ensures |PlayableGods| == 24
    ensures "Atheist" in PlayableGods && "The Shining One" in PlayableGods
  {
    GodListDistinct();
    NoRepeatsCardinality(PlayableGodList);
    assert PlayableGodList[1] == "Atheist" && PlayableGodList[18] == "The Shining One";
  }

  lemma GodListDistinct()
    ensures NoRepeats(PlayableGodList)
  {
    GodsAscending();
    Ascending2NoRepeats(PlayableGodList);
  }

  /** `GOD_NAME_FIXUPS`: the in-game spelling of a god name to the one shown. */
  const GodNameFixups: map<string, string> :=
    map["the Shining One" := "The Shining One", "Dithmengos" := "Dithmenos"]

  /** A god name after the fixup table has been applied to it: names in the
      table become playable names, every other name is kept. */
  function FixGodName(name: string): (r: string)
    ensures name !in GodNameFixups ==> r == name
    ensures r !in GodNameFixups
  {
    if name in GodNameFixups then GodNameFixups[name] else name
  }

  /** Every fixup target is playable and no fixup source is. */
  lemma FixupsEndPlayable()
    ensures GodNameFixups.Keys == {"the Shining One", "Dithmengos"}
    ensures "The Shining One" in PlayableGods && "Dithmenos" in PlayableGods
    ensures "the Shining One" !in PlayableGods && "Dithmengos" !in PlayableGods
  {
    FixupSourcesUnplayable();
    assert PlayableGodList[4] == "Dithmenos" && PlayableGodList[18] == "The Shining One";
  }

  lemma FixupSourcesUnplayable()
    ensures "the Shining One" !in PlayableGodList && "Dithmengos" !in PlayableGodList
  {
    GodNameShapes();
  }

  /** So applying the fixup twice is the same as applying it once, and a
      name it changes comes out playable. */
  lemma FixGodNameIdempotent(name: string)
    ensures FixGodName(FixGodName(name)) == FixGodName(name)
    ensures FixGodName(name) != name ==> FixGodName(name) in PlayableGods
  {
    FixupsEndPlayable();
  }

  // ---------------------------------------------------------------- tables

  /** A table written out entry by entry, as the dictionary displays are:
      `keys[i]` maps to `values[i]`, a later entry overriding an earlier one. */
  function TableOf(keys: seq<string>, values: seq<string>): (m: map<string, string>)
    requires |keys| == |values|
  {
    if keys == [] then map[]
    else
      var n := |keys| - 1;
      TableOf(keys[..n], values[..n])[keys[n] := values[n]]
  }

  /** The table has exactly the written keys. */
  lemma {:induction false} TableKeys(keys: seq<string>, values: seq<string>)
    requires |keys| == |values|
    ensures TableOf(keys, values).Keys == set k | k in keys
  {
    if keys != [] {
      var n := |keys| - 1;
      TableKeys(keys[..n], values[..n]);
      assert keys == keys[..n] + [keys[n]];
    }
  }

  /** With no key written twice, each key maps to the value written beside it. */
  lemma {:induction false} TableLookup(keys: seq<string>, values: seq<string>)
    requires |keys| == |values| && NoRepeats(keys)
    ensures forall i :: 0 <= i < |keys| ==>
      keys[i] in TableOf(keys, values) && TableOf(keys, values)[keys[i]] == values[i]
  {
    if keys != [] {
      var n := |keys| - 1;
      var init := keys[..n];
      assert NoRepeats(init) by {
        forall i, j | 0 <= i < j < |init| ensures init[i] != init[j] {
          assert init[i] == keys[i] && init[j] == keys[j];
        }
      }
      TableLookup(init, values[..n]);
      forall i | 0 <= i < n
        ensures TableOf(keys, values)[keys[i]] == values[i]
      {
        assert keys[i] != keys[n];
        assert init[i] == keys[i] && values[..n][i] == values[i];
      }
    }
  }

  /** The values of `RACE_TO_GREAT_RACE`, in the order of `PlayableRaceList`. */
  const GreatRaceNames: seq<string> := [
    "greatcentaur", "greatdeepdwarf", "greatdeepelf", "greatdemigod",
    "greatdraconian", "greatdemonspawn", "greatfelid", "greatformicid",
    "greatghoul", "greatgargoyle", "greathighelf", "greathillorc",
    "greathalfling", "greathuman", "greatkobold", "greatmerfolk",
    "greatminotaur", "greatmummy", "greatnaga", "greatogre",
    "greatoctopode", "greatspriggan", "greattengu", "greattroll",
    "greatvinestalker", "greatvampire"]

  /** `RACE_TO_GREAT_RACE`: the achievement for winning with every background
      of a species. */
  const RaceToGreatRace: map<string, string> := TableOf(PlayableRaceList, GreatRaceNames)

  /** The great-species table covers exactly the playable species, and each
      species maps to the name listed beside it. */
  lemma GreatRaceTable()
    ensures RaceToGreatRace.Keys == PlayableRaces
    ensures forall i :: 0 <= i < |PlayableRaceList| ==>
      RaceToGreatRace[PlayableRaceList[i]] == GreatRaceNames[i]
  {
    RacesAscending();
    Ascending2NoRepeats(PlayableRaceList);
    TableKeys(PlayableRaceList, GreatRaceNames);
    TableLookup(PlayableRaceList, GreatRaceNames);
  }

  /** Where a playable background sits among the great-background keys:
      after 'DK' it moves up one place, after 'He' two. */
  lemma GreatRoleKeysAt(i: nat)
    requires i < |PlayableRoleList|
    ensures |GreatRoleKeys| == 26 && GreatRoleKeys[8] == "DK" && GreatRoleKeys[14] == "He"
    ensures GreatRoleKeys[if i < 8 then i else if i < 13 then i + 1 else i + 2] == PlayableRoleList[i]
  {
  }

  lemma GreatRoleKeysAscending()
    ensures forall i :: 0 <= i < |GreatRoleKeys| - 1 ==> Lt2(GreatRoleKeys[i], GreatRoleKeys[i + 1])
  {
    RolesAscending();
    forall i | 0 <= i < |GreatRoleKeys| - 1 ensures Lt2(GreatRoleKeys[i], GreatRoleKeys[i + 1]) {
      GreatRoleKeysAt(0);
      if i < 7 {
        GreatRoleKeysAt(i);
        GreatRoleKeysAt(i + 1);
      } else if i == 7 {
        GreatRoleKeysAt(7);
      } else if i == 8 {
        GreatRoleKeysAt(8);
      } else if i < 13 {
        GreatRoleKeysAt(i - 1);
        GreatRoleKeysAt(i);
      } else if i == 13 {
        GreatRoleKeysAt(12);
      } else if i == 14 {
        GreatRoleKeysAt(13);
      } else {
        GreatRoleKeysAt(i - 2);
        GreatRoleKeysAt(i - 1);
      }
    }
  }

  /** The keys of `ROLE_TO_GREAT_ROLE` in the source's order: the playable
      backgrounds with the retired 'DK' and 'He' in their alphabetical
      places. */
  const GreatRoleKeys: seq<string> :=
    PlayableRoleList[..8] + ["DK"] + PlayableRoleList[8..13] + ["He"] + PlayableRoleList[13..]

  const GreatRoleNames: seq<string> := [
    "greatairelementalist", "greatabyssalknight", "greatarcanemarksman",
    "greatartificer", "greatassassin", "greatberserker", "greatchaosknight",
    "greatconjurer", "greatdeathknight", "greatearthelementalist",
    "greatenchanter", "greatfireelementalist", "greatfighter",
    "greatgladiator", "greathealer", "greathunter", "greaticeelementalist",
    "greatmonk", "greatnecromancer", "greatskald", "greatsummoner",
    "greattransmuter", "greatvenommage", "greatwanderer", "greatwarper",
    "greatwizard"]

  /** `ROLE_TO_GREAT_ROLE`: the achievement for winning with every species
      of a background. */
  const RoleToGreatRole: map<string, string> := TableOf(GreatRoleKeys, GreatRoleNames)

  /** 'DK' and 'He' are not playable backgrounds. */
  lemma RetiredRoles()
    ensures "DK" !in PlayableRoles && "He" !in PlayableRoles
  {
    GreatRoleKeysAscending();
    Ascending2NoRepeats(GreatRoleKeys);
    forall i | 0 <= i < |PlayableRoleList|
      ensures PlayableRoleList[i] != "DK" && PlayableRoleList[i] != "He"
    {
      GreatRoleKeysAt(i);
    }
  }

  /** The great-background table covers the playable backgrounds and, in
      addition, the two retired ones 'DK' and 'He'. */
  lemma GreatRoleTable()
    ensures RoleToGreatRole.Keys == PlayableRoles + {"DK", "He"}
    ensures "DK" !in PlayableRoles && "He" !in PlayableRoles
  {
    var keys := GreatRoleKeys;
    TableKeys(keys, GreatRoleNames);
    RetiredRoles();
    assert keys[8] == "DK" && keys[14] == "He";
    assert (set k | k in keys) == PlayableRoles + {"DK", "He"} by {
      forall k | k in PlayableRoles ensures k in keys {
        var i :| 0 <= i < |PlayableRoleList| && PlayableRoleList[i] == k;
        GreatRoleKeysAt(i);
      }
    }
  }

  /** `MANUAL_ACHIEVEMENTS`, one (player, achievement) pair per entry: the
      achievements awarded by hand. */
  const ManualEntries: seq<(string, string)> := [
    ("comborobin", "greatestplayer"),
    ("Stabwound", "0.4_winner"),
    ("78291", "0.5_winner"),
    ("elliptic", "0.7_winner"), ("elliptic", "0.10_winner"),
    ("mikee", "0.8_winner"),
    ("theglow", "0.9_winner"), ("theglow", "0.11_winner"),
    ("jeanjacques", "0.12_winner"),
    ("bmfx", "0.13_winner"),
    ("Tolias", "0.14_winner"), ("Tolias", "0.15_winner"),
    ("DrKe", "0.16_winner"),
    ("cosmonaut", "0.17_winner")]

  function KeysOf(entries: seq<(string, string)>): (r: seq<string>)
    ensures |r| == |entries| && forall i :: 0 <= i < |r| ==> r[i] == entries[i].0
  {
    seq(|entries|, i requires 0 <= i < |entries| => entries[i].0)
  }

  function ValuesOf(entries: seq<(string, string)>): (r: seq<string>)
    ensures |r| == |entries| && forall i :: 0 <= i < |r| ==> r[i] == entries[i].1
  {
    seq(|entries|, i requires 0 <= i < |entries| => entries[i].1)
  }

  /** The achievements a player is listed with. */
  function HeldBy(entries: seq<(string, string)>, player: string): (r: set<string>)
    ensures forall a :: a in r <==> exists i :: 0 <= i < |entries| && entries[i] == (player, a)
  {
    set i | 0 <= i < |entries| && entries[i].0 == player :: entries[i].1
  }

  /** The player -> {achievement: True} table. */
  const ManualAchievements: map<string, map<string, bool>> :=
    map p | p in KeysOf(ManualEntries) :: map a | a in HeldBy(ManualEntries, p) :: true

  /** No achievement is listed twice. */
  lemma ManualAchievementsListedOnce()
    ensures NoRepeats(ValuesOf(ManualEntries))
  {
  }

  /** Every hand-awarded achievement is set to True. */
  lemma ManualAchievementsTrue()
    ensures forall p, a :: p in ManualAchievements && a in ManualAchievements[p] ==>
      ManualAchievements[p][a]
  {
  }

  /** No achievement is held by two players. */
  lemma ManualAchievementsUnshared()
    ensures forall p, q, a ::
      p in ManualAchievements && q in ManualAchievements && p != q && a in ManualAchievements[p] ==>
        a !in ManualAchievements[q]
  {
    ManualAchievementsListedOnce();
    HeldOnce(ManualEntries);
  }

  /** When no achievement is listed twice, two players never hold the same one. */
  lemma HeldOnce(entries: seq<(string, string)>)
    requires NoRepeats(ValuesOf(entries))
    ensures forall p, q, a :: p != q && a in HeldBy(entries, p) ==> a !in HeldBy(entries, q)
  {
    forall p, q, a | p != q && a in HeldBy(entries, p)
      ensures a !in HeldBy(entries, q)
    {
      var i :| 0 <= i < |entries| && entries[i] == (p, a);
      assert ValuesOf(entries)[i] == a;
    }
  }

  const StandardTableLength: nat := 10

  /** `BLACKLISTS['bots']`: the account names of known bots. */
  const BotNames: set<string> := {
    "autorobin", "xw", "auto7hm", "rw", "qw", "ow", "qwrobin", "gw",
    "notqw", "jw", "parabodrick", "hyperqwbe", "cashybrid",
    "tstbtto", "parabolic", "oppbolic", "ew", "rushxxi", "gaubot",
    "cojitobot", "paulcdejean", "otabotab", "nakatomy", "testingqw",
    "beemell", "beem", "drasked", "phybot"}

  /** `BLACKLISTS`: the named lists of accounts kept off the rankings. */
  const Blacklists: map<string, set<string>> := map["griefers" := {}, "bots" := BotNames]

  /** There are exactly two lists and 'griefers' is empty. A lookup of
      'bot-games' finds no list. */
  lemma BlacklistsShape()
    ensures Blacklists.Keys == {"griefers", "bots"}
    ensures Blacklists["griefers"] == {} && Blacklists["bots"] == BotNames
    ensures "bot-games" !in Blacklists
  {
  }
}

=== FILE: legacy_import.dfy ===
/** The first importer (dcss_scoreboard/log_import.py). A logfile line is
    split the way every generation splits it; each non-empty field is cut at
    its first '='; a value made only of decimal digits becomes an int and any
    other value has its "::" turned back into ":". Each line is then inserted
    into the games table under the gid "name:start". The lines are taken as
    `readlines` returns them, so the last field of a line keeps its newline. */
module LegacyImport {
  import opened Basics
  import opened LineSplit

  /** The `log` dict of one line. */
  type Log = map<string, Value>

  // ---------------------------------------------------------------- fields

  /** `int(v) if v.isdigit() else v.replace("::", ":")` */
  function LegacyValue(v: string): (r: Value)
    ensures r.Int? <==> AllDigits(v)
    ensures r.Str? ==> |r.s| <= |v|
  {
    if AllDigits(v) then Int(DigitsValue(v)) else Str(Unescape(v))
  }

  /** The last value of a line, which still ends in its newline, stays a
      string even when it is a number: "123\n" is not converted. */
  lemma NewlineKeepsString()
    ensures LegacyValue("123\n") == Str("123\n")
  {
    assert !IsDigit('\n');
    assert Unescape("\n") == "\n";
    assert Unescape("3\n") == "3\n";
    assert Unescape("23\n") == "23\n";
  }

  /** A non-empty field without '=': `k, v = field.split('=', 1)` cannot
      unpack it. */
  predicate BadLegacyField(field: string)
  {
    |field| > 0 && SplitOnce(field, '=').None?
  }

  /** One turn of the field loop. */
  function AddLegacyField(log: Log, field: string): (r: Result<Log>)
    ensures r.Raised? <==> BadLegacyField(field)
    ensures r.Raised? ==> r.error == ValueError
    ensures |field| == 0 ==> r == Ok(log)
  {
    if |field| == 0 then Ok(log)
    else match SplitOnce(field, '=')
      case None => Raised(ValueError)
      case Some(kv) => Ok(log[kv.0 := LegacyValue(kv.1)])
  }

  /** The field loop over the pieces of a line, from the dict it starts
      with. */
  function LegacyFields(init: Log, pieces: seq<string>): (r: Result<Log>)
    ensures r.Raised? ==> r.error == ValueError
    decreases |pieces|
  {
    if |pieces| == 0 then Ok(init)
    else
      match LegacyFields(init, pieces[..|pieces| - 1])
      case Raised(e) => Raised(e)
      case Ok(g) => AddLegacyField(g, pieces[|pieces| - 1])
  }

  lemma LegacyFieldsStep(init: Log, pieces: seq<string>, i: nat, g: Log)
    requires i < |pieces| && LegacyFields(init, pieces[..i]) == Ok(g)
    ensures LegacyFields(init, pieces[..i + 1]) == AddLegacyField(g, pieces[i])
  {
    assert pieces[..i + 1][..i] == pieces[..i];
  }

  /** The field loop of `load_logfiles` for one line. */
  method ParseLegacyLine(init: Log, line: string) returns (r: Result<Log>)
    ensures r == LegacyFields(init, Split(line))
  {
    var pieces := Split(line);
    var log := init;
    var i := 0;
    while i < |pieces|
      invariant 0 <= i <= |pieces|
      invariant LegacyFields(init, pieces[..i]) == Ok(log)
    {
      LegacyFieldsStep(init, pieces, i, log);
      var field := pieces[i];
      if |field| > 0 {
        match SplitOnce(field, '=')
        case None =>
          LegacyFieldsBadAt(init, pieces, i);
          return Raised(ValueError);
        case Some(kv) =>
          log := log[kv.0 := LegacyValue(kv.1)];
      }
      i := i + 1;
    }
    assert pieces[..i] == pieces;
    r := Ok(log);
  }

  /** A field without '=' anywhere in the line makes the line raise. */
  lemma {:induction false} LegacyFieldsBadAt(init: Log, pieces: seq<string>, i: nat)
    requires i < |pieces| && BadLegacyField(pieces[i])
    ensures LegacyFields(init, pieces) == Raised(ValueError)
    decreases |pieces|
  {
    var prefix := pieces[..|pieces| - 1];
    if i < |prefix| {
      assert prefix[i] == pieces[i];
      LegacyFieldsBadAt(init, prefix, i);
    } else {
      assert pieces[|pieces| - 1] == pieces[i];
    }
  }

  /** When a line raises, some field of it has no '='. */
  lemma {:induction false} LegacyFieldsBadWitness(init: Log, pieces: seq<string>) returns (i: nat)
    requires LegacyFields(init, pieces).Raised?
    ensures i < |pieces| && BadLegacyField(pieces[i])
    decreases |pieces|
  {
    var prefix := pieces[..|pieces| - 1];
    if LegacyFields(init, prefix).Raised? {
      i := LegacyFieldsBadWitness(init, prefix);
      assert pieces[i] == prefix[i];
    } else {
      i := |pieces| - 1;
    }
  }

  /** A key no field of the line names keeps the value it started with. */
  lemma {:induction false} LegacyFieldsKeep(init: Log, pieces: seq<string>, k: string)
    requires forall i :: 0 <= i < |pieces| && SplitOnce(pieces[i], '=').Some? ==> SplitOnce(pieces[i], '=').value.0 != k
    requires LegacyFields(init, pieces).Ok?
    ensures k in LegacyFields(init, pieces).value <==> k in init
    ensures k in init ==> LegacyFields(init, pieces).value[k] == init[k]
    decreases |pieces|
  {
    if |pieces| > 0 {
      var prefix := pieces[..|pieces| - 1];
      assert forall i :: 0 <= i < |prefix| ==> prefix[i] == pieces[i];
      LegacyFieldsKeep(init, prefix, k);
    }
  }

  // ---------------------------------------------------------------- round trip

  /** The value a written field is meant to carry: digits as a number, any
      other text as it is. */
  function MeantValue(v: string): Value
  {
    if AllDigits(v) then Int(DigitsValue(v)) else Str(v)
  }

  /** The record a sequence of written fields is meant to give, later
      fields winning. */
  function LegacyWritten(init: Log, fs: seq<Field>): Log
    decreases |fs|
  {
    if |fs| == 0 then init
    else LegacyWritten(init, fs[..|fs| - 1])[fs[|fs| - 1].key := MeantValue(fs[|fs| - 1].value)]
  }

  /** The converter reads an escaped value back as meant. */
  lemma LegacyValueEscaped(v: string)
    ensures LegacyValue(Escape(v)) == MeantValue(v)
  {
    var i := ColonIndex(v);
    if i < |v| {
      var j := EscapeHasColon(v, i);
      assert !IsDigit(Escape(v)[j]);
      assert !IsDigit(v[i]);
      UnescapeEscape(v);
    } else {
      EscapeHasNoColonOf(v);
      UnescapeEscape(v);
    }
  }

  /** A written field whose key holds no '=' adds its meant value. */
  lemma AddWrittenLegacyField(g: Log, f: Field)
    requires |f.key| > 0 && forall i :: 0 <= i < |f.key| ==> f.key[i] != '='
    ensures AddLegacyField(g, EncodeField(f)) == Ok(g[f.key := MeantValue(f.value)])
  {
    CutAt(f.key, '=', Escape(f.value));
    LegacyValueEscaped(f.value);
  }

  lemma LegacyFieldsSnoc(init: Log, pieces: seq<string>, field: string, g: Log)
    requires LegacyFields(init, pieces) == Ok(g)
    ensures LegacyFields(init, pieces + [field]) == AddLegacyField(g, field)
  {
    assert (pieces + [field])[..|pieces|] == pieces;
  }

  lemma {:induction false} LegacyFieldsWritten(init: Log, fs: seq<Field>)
    requires forall i :: 0 <= i < |fs| ==> |fs[i].key| > 0 && forall j :: 0 <= j < |fs[i].key| ==> fs[i].key[j] != '='
    ensures LegacyFields(init, EncodeFields(fs)) == Ok(LegacyWritten(init, fs))
    decreases |fs|
  {
    if |fs| > 0 {
      var p := fs[..|fs| - 1];
      var f := fs[|fs| - 1];
      assert forall i :: 0 <= i < |p| ==> p[i] == fs[i];
      LegacyFieldsWritten(init, p);
      EncodeFieldsSnoc(fs);
      LegacyFieldsSnoc(init, EncodeFields(p), EncodeField(f), LegacyWritten(init, p));
      AddWrittenLegacyField(LegacyWritten(init, p), f);
    }
  }

  /** The escaping round trip of a whole line: a line written from fields
      whose keys hold no ':' or '=' and whose values do not end in ':' is
      read back as those fields, numbers as ints, each key holding its last
      value. */
  lemma LegacyLineRoundTrip(init: Log, fs: seq<Field>)
    requires |fs| > 0 && Writable(fs)
    requires forall i :: 0 <= i < |fs| ==> forall j :: 0 <= j < |fs[i].key| ==> fs[i].key[j] != '='
    ensures LegacyFields(init, Split(Join(EncodeFields(fs), ":"))) == Ok(LegacyWritten(init, fs))
  {
    SplitEncoded(fs);
    LegacyFieldsWritten(init, fs);
  }

  // ---------------------------------------------------------------- gid

  /** `calculate_game_gid`: "name:start", without the server. */
  function LegacyGid(log: Log): (r: Result<string>)
    ensures r.Raised? <==> "name" !in log || "start" !in log
    ensures r.Raised? ==> r.error == KeyError(if "name" !in log then "name" else "start")
  {
    if "name" !in log then Raised(KeyError("name"))
    else if "start" !in log then Raised(KeyError("start"))
    else Ok(ValueText(log["name"]) + ":" + ValueText(log["start"]))
  }

  /** The gid gives back the name and the start time when the name holds no
      ':', and does not depend on the server: the same player starting on two
      servers in the same second gets the same gid. */
  lemma LegacyGidParts(log: Log, other: Log)
    requires "name" in log && "start" in log
    requires forall i :: 0 <= i < |ValueText(log["name"])| ==> ValueText(log["name"])[i] != ':'
    requires "name" in other && "start" in other && other["name"] == log["name"] && other["start"] == log["start"]
    ensures LegacyGid(log).Ok?
    ensures SplitOnce(LegacyGid(log).value, ':') == Some((ValueText(log["name"]), ValueText(log["start"])))
    ensures LegacyGid(other) == LegacyGid(log)
  {
    CutAt(ValueText(log["name"]), ':', ValueText(log["start"]));
  }

  // ---------------------------------------------------------------- loading

  /** A file `glob` found: its size in bytes and its lines. */
  datatype Logfile = Logfile(size: nat, lines: seq<string>)

  /** The games table (gid is its primary key) and whether an exception has
      ended the import. Every insert runs on its own, so the rows inserted
      before an exception stay. */
  datatype Loading = Loading(table: map<string, Log>, failed: Option<Error>)

  /** One line: a blank line is skipped, otherwise it is parsed, its gid
      computed and the row inserted; a gid already in the table violates
      the primary key. */
  function LoadLine(st: Loading, line: string): (r: Loading)
    ensures st.failed.Some? ==> r == st
    ensures r.failed.None? ==> st.table.Keys <= r.table.Keys
  {
    if st.failed.Some? || |line| == 0 then st
    else match LegacyFields(map[], Split(line))
      case Raised(e) => st.(failed := Some(e))
      case Ok(log) =>
        match LegacyGid(log)
        case Raised(e) => st.(failed := Some(e))
        case Ok(gid) =>
          if gid in st.table then st.(failed := Some(IntegrityError))
          else st.(table := st.table[gid := log])
  }

  function LoadLines(st: Loading, lines: seq<string>): (r: Loading)
    decreases |lines|
  {
    if |lines| == 0 then st else LoadLine(LoadLines(st, lines[..|lines| - 1]), lines[|lines| - 1])
  }

  /** `load_logfiles`: every non-empty file's lines, in order. */
  function LoadFiles(st: Loading, files: seq<Logfile>): (r: Loading)
    decreases |files|
  {
    if |files| == 0 then st
    else
      var prev := LoadFiles(st, files[..|files| - 1]);
      var f := files[|files| - 1];
      if f.size == 0 then prev else LoadLines(prev, f.lines)
  }

  lemma LoadLinesStep(st: Loading, lines: seq<string>, i: nat)
    requires i < |lines|
    ensures LoadLines(st, lines[..i + 1]) == LoadLine(LoadLines(st, lines[..i]), lines[i])
  {
    assert lines[..i + 1][..i] == lines[..i];
  }

  lemma LoadFilesStep(st: Loading, files: seq<Logfile>, i: nat)
    requires i < |files|
    ensures LoadFiles(st, files[..i + 1])
      == (if files[i].size == 0 then LoadFiles(st, files[..i]) else LoadLines(LoadFiles(st, files[..i]), files[i].lines))
  {
    assert files[..i + 1][..i] == files[..i];
  }

  /** `load_logfiles`, over the files given and the table as it stands. */
  method LoadLogfiles(table: map<string, Log>, files: seq<Logfile>)
    returns (rows: map<string, Log>, failed: Option<Error>)
    ensures Loading(rows, failed) == LoadFiles(Loading(table, None), files)
  {
    rows, failed := table, None;
    var i := 0;
    while i < |files| && failed.None?
      invariant 0 <= i <= |files|
      invariant Loading(rows, failed) == LoadFiles(Loading(table, None), files[..i])
    {
      LoadFilesStep(Loading(table, None), files, i);
      if files[i].size != 0 {
        ghost var start := Loading(rows, failed);
        var lines := files[i].lines;
        var j := 0;
        while j < |lines| && failed.None?
          invariant 0 <= j <= |lines|
          invariant Loading(rows, failed) == LoadLines(start, lines[..j])
        {
          LoadLinesStep(start, lines, j);
          if |lines[j]| > 0 {
            var log := ParseLegacyLine(map[], lines[j]);
            if log.Raised? {
              failed := Some(log.error);
            } else {
              var gid := LegacyGid(log.value);
              if gid.Raised? {
                failed := Some(gid.error);
              } else if gid.value in rows {
                failed := Some(IntegrityError);
              } else {
                rows := rows[gid.value := log.value];
              }
            }
          }
          j := j + 1;
        }
        if failed.Some? {
          LoadLinesFailed(start, lines, j);
        } else {
          assert lines[..j] == lines;
        }
      }
      i := i + 1;
    }
    if failed.Some? {
      LoadFilesFailed(Loading(table, None), files, i);
    } else {
      assert files[..i] == files;
    }
  }

  /** Once an exception is raised, nothing more happens. */
  lemma {:induction false} LoadLinesFailed(st: Loading, lines: seq<string>, j: nat)
    requires j <= |lines| && LoadLines(st, lines[..j]).failed.Some?
    ensures LoadLines(st, lines) == LoadLines(st, lines[..j])
    decreases |lines| - j
  {
    if j < |lines| {
      LoadLinesStep(st, lines, j);
      LoadLinesFailed(st, lines, j + 1);
    } else {
      assert lines[..j] == lines;
    }
  }

  lemma {:induction false} LoadLinesKeepsFailure(st: Loading, lines: seq<string>)
    requires st.failed.Some?
    ensures LoadLines(st, lines) == st
    decreases |lines|
  {
    if |lines| > 0 {
      LoadLinesKeepsFailure(st, lines[..|lines| - 1]);
    }
  }

  lemma {:induction false} LoadFilesFailed(st: Loading, files: seq<Logfile>, i: nat)
    requires i <= |files| && LoadFiles(st, files[..i]).failed.Some?
    ensures LoadFiles(st, files) == LoadFiles(st, files[..i])
    decreases |files| - i
  {
    if i < |files| {
      LoadFilesStep(st, files, i);
      if files[i].size != 0 {
        LoadLinesKeepsFailure(LoadFiles(st, files[..i]), files[i].lines);
      }
      LoadFilesFailed(st, files, i + 1);
    } else {
      assert files[..i] == files;
    }
  }

  /** An empty file is skipped whatever lines it is said to hold. */
  lemma EmptyFileSkipped(st: Loading, files: seq<Logfile>, lines: seq<string>)
    ensures LoadFiles(st, files + [Logfile(0, lines)]) == LoadFiles(st, files)
  {
    assert (files + [Logfile(0, lines)])[..|files|] == files;
  }

  /** A line that loads without an exception is in the table under its
      gid, and nothing else changes. */
  lemma LoadLineInserts(st: Loading, line: string)
    requires st.failed.None? && |line| > 0 && LoadLine(st, line).failed.None?
    ensures var log := LegacyFields(map[], Split(line));
      log.Ok? && LegacyGid(log.value).Ok?
      && LoadLine(st, line).table == st.table[LegacyGid(log.value).value := log.value]
      && LegacyGid(log.value).value !in st.table
  {
  }

  /** When a whole import succeeds, every non-blank line of every non-empty
      file is in the table under its gid, with the record parsed from it. */
  lemma {:induction false} LoadLinesAllIn(st: Loading, lines: seq<string>, k: nat)
    requires LoadLines(st, lines).failed.None? && k < |lines| && |lines[k]| > 0
    ensures var log := LegacyFields(map[], Split(lines[k]));
      log.Ok? && LegacyGid(log.value).Ok?
      && LegacyGid(log.value).value in LoadLines(st, lines).table
      && LoadLines(st, lines).table[LegacyGid(log.value).value] == log.value
    decreases |lines|
  {
    var prefix := lines[..|lines| - 1];
    var prev := LoadLines(st, prefix);
    if k < |prefix| {
      assert prefix[k] == lines[k];
      LoadLinesAllIn(st, prefix, k);
    } else {
      LoadLineInserts(prev, lines[k]);
    }
  }

  /** Lines that load without an exception keep every row already in the
      table. */
  lemma {:induction false} LoadLinesKeeps(st: Loading, lines: seq<string>, gid: string)
    requires LoadLines(st, lines).failed.None? && gid in st.table
    ensures gid in LoadLines(st, lines).table && LoadLines(st, lines).table[gid] == st.table[gid]
    decreases |lines|
  {
    if |lines| > 0 {
      LoadLinesKeeps(st, lines[..|lines| - 1], gid);
    }
  }

  /** The same for the whole import: when no exception ends it, every
      non-blank line of every non-empty file is in the table under its gid,
      with the record parsed from it. */
  lemma {:induction false} LoadFilesAllIn(st: Loading, files: seq<Logfile>, f: nat, k: nat)
    requires LoadFiles(st, files).failed.None?
    requires f < |files| && files[f].size > 0 && k < |files[f].lines| && |files[f].lines[k]| > 0
    ensures var log := LegacyFields(map[], Split(files[f].lines[k]));
      log.Ok? && LegacyGid(log.value).Ok?
      && LegacyGid(log.value).value in LoadFiles(st, files).table
      && LoadFiles(st, files).table[LegacyGid(log.value).value] == log.value
    decreases |files|
  {
    var prefix := files[..|files| - 1];
    var prev := LoadFiles(st, prefix);
    var last := files[|files| - 1];
    if last.size > 0 && prev.failed.Some? {
      LoadLinesKeepsFailure(prev, last.lines);
    }
    if f < |prefix| {
      assert prefix[f] == files[f];
      LoadFilesAllIn(st, prefix, f, k);
      if last.size > 0 {
        var log := LegacyFields(map[], Split(files[f].lines[k]));
        LoadLinesKeeps(prev, last.lines, LegacyGid(log.value).value);
      }
    } else {
      LoadLinesAllIn(prev, last.lines, k);
    }
  }
}

=== FILE: legacy_scoring.dfy ===
/** The scoring pass of the first generation (dcss_scoreboard/scoring.py):
    `score_games` walks every stored game and, for each, reads the player's
    aggregate from a store, applies the same per-player update as the
    statistics pass (`LegacyStats.PlayerStep`), and writes the aggregate
    back. The store's getter and setter are not defined in the repository;
    here the store is a map, and a player it does not hold reads as the
    fresh aggregate. */
module LegacyScoring {
  import opened Basics
  import opened LegacyStats

  /** `PLAYABLE_RACES`, `PLAYABLE_ROLES`, `PLAYABLE_GODS`. */
  const ScoringPlayable: Playable := Playable(
    {"Ce", "DD", "DE", "Dg", "Ds", "Dr", "Fe", "Fo", "Gh", "Gr", "HE", "HO", "Ha",
     "Hu", "Ko", "Mf", "Mi", "Mu", "Na", "Op", "Og", "Sp", "Te", "Tr", "VS", "Vp"},
    {"AE", "AK", "AM", "Ar", "As", "Be", "CK", "Cj", "EE", "En", "FE", "Fi", "Gl",
     "Hu", "IE", "Mo", "Ne", "Sk", "Su", "Tm", "VM", "Wn", "Wr", "Wz"},
    {"Ashenzari", "Beogh", "Cheibriados", "Dithmenos", "Elyvilon", "Fedhas", "Gozag",
     "Jiyva", "Kikubaaqudgha", "Lugonu", "Makhleb", "Nemelex Xobeh", "Okawaru",
     "Pakellas", "Qazlal", "Ru", "Sif Muna", "the Shining One", "Trog", "Vehumet",
     "Xom", "Yredelemnul", "Zin"})

  /** The player-data store `score_games` reads and writes. */
  class ScoreStore {
    var data: map<string, PlayerData>

    constructor (initial: map<string, PlayerData>)
      ensures data == initial
    {
      data := initial;
    }

    /** `get_player_score_data` */
    method Get(name: string) returns (p: PlayerData)
      ensures p == Current(data, name)
    {
      p := Current(data, name);
    }

    /** `set_player_score_data` */
    method Set(name: string, p: PlayerData)
      modifies this
      ensures data == old(data)[name := p]
    {
      data := data[name := p];
    }
  }

  /** The store after one game: the player's aggregate read, updated and
      written back. */
  function ScoreStep(data: map<string, PlayerData>, g: Game, pl: Playable): map<string, PlayerData>
  {
    data[g.name := PlayerStep(Current(data, g.name), g, pl)]
  }

  function ScoreAll(data: map<string, PlayerData>, gs: seq<Game>, pl: Playable): map<string, PlayerData>
    decreases |gs|
  {
    if |gs| == 0 then data else ScoreStep(ScoreAll(data, gs[..|gs| - 1], pl), gs[|gs| - 1], pl)
  }

  lemma ScoreAllStep(data: map<string, PlayerData>, gs: seq<Game>, pl: Playable, i: nat)
    requires i < |gs|
    ensures ScoreAll(data, gs[..i + 1], pl) == ScoreStep(ScoreAll(data, gs[..i], pl), gs[i], pl)
  {
    assert gs[..i + 1][..i] == gs[..i];
  }

  /** `score_games`: every stored game in turn, each reading its player's
      aggregate once and writing it back once; returns how many games were
      scored. */
  method ScoreGames(store: ScoreStore, games: seq<(string, Game)>) returns (scored: nat)
    modifies store
    ensures scored == |games|
    ensures store.data == ScoreAll(old(store.data), Logs(games), ScoringPlayable)
  {
    ghost var start := store.data;
    scored := 0;
    var i := 0;
    while i < |games|
      invariant 0 <= i <= |games| && scored == i
      invariant store.data == ScoreAll(start, Logs(games)[..i], ScoringPlayable)
    {
      ScoreAllStep(start, Logs(games), ScoringPlayable, i);
      var log := games[i].1;
      scored := scored + 1;
      var scoring := store.Get(log.name);
      scoring := PlayerStep(scoring, log, ScoringPlayable);
      store.Set(log.name, scoring);
      i := i + 1;
    }
    assert Logs(games)[..i] == Logs(games);
  }

  /** The records of the `(gid, log)` pairs. */
  function Logs(games: seq<(string, Game)>): (r: seq<Game>)
    ensures |r| == |games| && forall i :: 0 <= i < |games| ==> r[i] == games[i].1
  {
    seq(|games|, i requires 0 <= i < |games| => games[i].1)
  }

  // ---------------------------------------------------------------- properties

  /** One game touches only its own player's entry. */
  lemma ScoreStepOthers(data: map<string, PlayerData>, g: Game, pl: Playable, name: string)
    requires name != g.name
    ensures Lookup(ScoreStep(data, g, pl), name) == Lookup(data, name)
    ensures g.name in ScoreStep(data, g, pl)
  {
  }

  lemma PlayerAfterSnoc(own: seq<Game>, g: Game, pl: Playable)
    ensures PlayerAfter(NewPlayer, own + [g], pl) == PlayerStep(PlayerAfter(NewPlayer, own, pl), g, pl)
  {
    assert (own + [g])[..|own|] == own;
  }

  /** Starting from an empty store, a player's entry is their own games
      folded in order, and a player without games has none. */
  lemma {:induction false} ScoreAllPerPlayer(gs: seq<Game>, pl: Playable, name: string)
    ensures Lookup(ScoreAll(map[], gs, pl), name)
      == if |GamesOf(gs, name)| == 0 then None else Some(PlayerAfter(NewPlayer, GamesOf(gs, name), pl))
    decreases |gs|
  {
    if |gs| > 0 {
      var prefix := gs[..|gs| - 1];
      var g := gs[|gs| - 1];
      ScoreAllPerPlayer(prefix, pl, name);
      GamesOfStep(gs, name);
      if g.name == name {
        PlayerAfterSnoc(GamesOf(prefix, name), g, pl);
      } else {
        ScoreStepOthers(ScoreAll(map[], prefix, pl), g, pl, name);
      }
    }
  }

  /** So a scored player has one game per record, their wins among them,
      wins and boring games together at most their games, the total of
      their scores, and a win rate of the wins before their latest game. */
  lemma ScoredPlayerCounts(gs: seq<Game>, pl: Playable, name: string)
    requires |GamesOf(gs, name)| > 0
    ensures var own := GamesOf(gs, name);
      var e := Lookup(ScoreAll(map[], gs, pl), name);
      e.Some? && var p := e.value;
      p.games == |own| && p.wins == WinsOf(own)
      && p.boringGames + |p.wins| <= p.games && p.totalScore == ScoreSum(own)
      && p.winrate == Ratio(|WinsOf(own[..|own| - 1])|, |own|)
  {
    var own := GamesOf(gs, name);
    ScoreAllPerPlayer(gs, pl, name);
    PlayerAfterGames(own, pl);
    PlayerAfterTotals(own, pl);
    PlayerAfterWinrate(own, pl);
  }

  /** The scoring constants name the same races, roles and gods as the
      statistics pass. */
  lemma SamePlayable()
    ensures ScoringPlayable == ReadLogfilesPlayable
  {
  }
}

=== FILE: legacy_stats.dfy ===
/** The statistics pass of the first generation (dcss_scoreboard/read_logfiles.py):
    `parse_logfiles` reads and sorts the records, `calc_stats` folds them into
    per-player aggregates and the race, role and combo highscore tables, and
    `calc_streaks` finds win streaks. The per-player update is the same code
    `dcss_scoreboard/scoring.py` runs, and is shared with that model. Records
    reach the fold typed; the running win averages (floats) are left out. */
module LegacyStats {
  import opened Basics
  import opened LineSplit
  import opened Sorting
  import LegacyImport

  // ================================================================ parsing

  /** A file `glob` found: its path, its size in bytes and its lines. */
  datatype NamedLogfile = NamedLogfile(path: string, size: nat, lines: seq<string>)

  /** `logfile.split('-', 1)[0]`: the path up to its first '-'. */
  function ServerTag(path: string): (r: string)
    ensures |r| <= |path| && r == path[..|r|]
    ensures forall i :: 0 <= i < |r| ==> r[i] != '-'
    ensures (forall i :: 0 <= i < |path| ==> path[i] != '-') ==> r == path
    ensures |r| < |path| ==> path[|r|] == '-'
  {
    match SplitOnce(path, '-')
    case None => path
    case Some(parts) => parts.0
  }

  /** One line of `parse_logfiles`: the dict starts with the server tag and
      the fields are added in turn. */
  function TaggedLine(tag: string, line: string): Result<LegacyImport.Log>
  {
    LegacyImport.LegacyFields(map["src" := Str(tag)], Split(line))
  }

  /** The non-blank lines of one file, parsed. */
  function TaggedLines(tag: string, lines: seq<string>): (r: Result<seq<LegacyImport.Log>>)
    decreases |lines|
  {
    if |lines| == 0 then Ok([])
    else
      match TaggedLines(tag, lines[..|lines| - 1])
      case Raised(e) => Raised(e)
      case Ok(logs) =>
        var line := lines[|lines| - 1];
        if |line| == 0 then Ok(logs)
        else match TaggedLine(tag, line)
          case Raised(e) => Raised(e)
          case Ok(log) => Ok(logs + [log])
  }

  /** The `unsorted` list: the records of every non-empty file, in order. */
  function TaggedFiles(files: seq<NamedLogfile>): (r: Result<seq<LegacyImport.Log>>)
    decreases |files|
  {
    if |files| == 0 then Ok([])
    else
      match TaggedFiles(files[..|files| - 1])
      case Raised(e) => Raised(e)
      case Ok(logs) =>
        var f := files[|files| - 1];
        if f.size == 0 then Ok(logs)
        else match TaggedLines(ServerTag(f.path), f.lines)
          case Raised(e) => Raised(e)
          case Ok(more) => Ok(logs + more)
  }

  /** A record parsed from a line without a "src" field carries the tag of
      its file. */
  lemma TaggedLineSource(tag: string, line: string)
    requires TaggedLine(tag, line).Ok?
    requires forall i :: 0 <= i < |Split(line)| && SplitOnce(Split(line)[i], '=').Some? ==> SplitOnce(Split(line)[i], '=').value.0 != "src"
    ensures "src" in TaggedLine(tag, line).value && TaggedLine(tag, line).value["src"] == Str(tag)
  {
    LegacyImport.LegacyFieldsKeep(map["src" := Str(tag)], Split(line), "src");
  }

  /** An empty file contributes nothing. */
  lemma EmptyFileContributesNothing(files: seq<NamedLogfile>, f: NamedLogfile)
    requires f.size == 0
    ensures TaggedFiles(files + [f]) == TaggedFiles(files)
  {
    assert (files + [f])[..|files|] == files;
  }

  /** `itemgetter('end')` as a sort key: ints by value, strings by code
      points. Only one kind is ever compared. */
  function EndKey(log: LegacyImport.Log): Key
  {
    if "end" !in log then Key(0, "")
    else match log["end"]
      case Int(n) => Key(n, "")
      case Str(s) => Key(0, s)
  }

  /** `sorted(unsorted, key=itemgetter('end'))`: every key is taken first, so
      a record without "end" raises KeyError; an int end and a string end
      cannot be compared, so a list holding both raises TypeError. */
  function SortByEnd(logs: seq<LegacyImport.Log>): (r: Result<seq<LegacyImport.Log>>)
  {
    if exists i :: 0 <= i < |logs| && "end" !in logs[i] then Raised(KeyError("end"))
    else if exists i, j :: 0 <= i < |logs| && 0 <= j < |logs| && logs[i]["end"].Int? && logs[j]["end"].Str?
    then Raised(TypeError)
    else Ok(SortBy(logs, EndKey))
  }

  /** The sort succeeds exactly when every record has an end of one kind;
      it then orders the records by end, keeps each record, and keeps
      records with equal ends in their file order. */
  lemma SortByEndSpec(logs: seq<LegacyImport.Log>)
    ensures SortByEnd(logs).Ok? <==>
      (forall i :: 0 <= i < |logs| ==> "end" in logs[i])
      && ((forall i :: 0 <= i < |logs| ==> logs[i]["end"].Int?) || (forall i :: 0 <= i < |logs| ==> logs[i]["end"].Str?))
    ensures SortByEnd(logs).Ok? ==>
      var r := SortByEnd(logs).value;
      SortedBy(r, EndKey) && multiset(r) == multiset(logs)
      && forall k :: WithKey(r, EndKey, k) == WithKey(logs, EndKey, k)
  {
    SortByCorrect(logs, EndKey);
  }

  /** `parse_logfiles`: the files' records, stably sorted by end. */
  function ParsedLogfiles(files: seq<NamedLogfile>): Result<seq<LegacyImport.Log>>
  {
    match TaggedFiles(files)
    case Raised(e) => Raised(e)
    case Ok(logs) => SortByEnd(logs)
  }

  lemma TaggedLinesStep(tag: string, lines: seq<string>, i: nat)
    requires i < |lines|
    ensures TaggedLines(tag, lines[..i + 1])
      == match TaggedLines(tag, lines[..i])
         case Raised(e) => Raised(e)
         case Ok(logs) =>
           if |lines[i]| == 0 then Ok(logs)
           else match TaggedLine(tag, lines[i])
             case Raised(e) => Raised(e)
             case Ok(log) => Ok(logs + [log])
  {
    assert lines[..i + 1][..i] == lines[..i];
  }

  lemma TaggedFilesStep(files: seq<NamedLogfile>, i: nat)
    requires i < |files|
    ensures TaggedFiles(files[..i + 1])
      == match TaggedFiles(files[..i])
         case Raised(e) => Raised(e)
         case Ok(logs) =>
           if files[i].size == 0 then Ok(logs)
           else match TaggedLines(ServerTag(files[i].path), files[i].lines)
             case Raised(e) => Raised(e)
             case Ok(more) => Ok(logs + more)
  {
    assert files[..i + 1][..i] == files[..i];
  }

  /** The line loop for one file; the first exception ends it. */
  method ReadTaggedLines(tag: string, lines: seq<string>) returns (r: Result<seq<LegacyImport.Log>>)
    ensures r == TaggedLines(tag, lines)
  {
    var logs: seq<LegacyImport.Log> := [];
    var j := 0;
    while j < |lines|
      invariant 0 <= j <= |lines|
      invariant TaggedLines(tag, lines[..j]) == Ok(logs)
    {
      TaggedLinesStep(tag, lines, j);
      if |lines[j]| > 0 {
        var log := LegacyImport.ParseLegacyLine(map["src" := Str(tag)], lines[j]);
        if log.Raised? {
          TaggedLinesRaised(tag, lines, j + 1);
          return Raised(log.error);
        }
        logs := logs + [log.value];
      }
      j := j + 1;
    }
    assert lines[..j] == lines;
    r := Ok(logs);
  }

  lemma {:induction false} TaggedLinesRaised(tag: string, lines: seq<string>, j: nat)
    requires j <= |lines| && TaggedLines(tag, lines[..j]).Raised?
    ensures TaggedLines(tag, lines) == TaggedLines(tag, lines[..j])
    decreases |lines| - j
  {
    if j < |lines| {
      TaggedLinesStep(tag, lines, j);
      TaggedLinesRaised(tag, lines, j + 1);
    } else {
      assert lines[..j] == lines;
    }
  }

  lemma {:induction false} TaggedFilesRaised(files: seq<NamedLogfile>, i: nat)
    requires i <= |files| && TaggedFiles(files[..i]).Raised?
    ensures TaggedFiles(files) == TaggedFiles(files[..i])
    decreases |files| - i
  {
    if i < |files| {
      TaggedFilesStep(files, i);
      TaggedFilesRaised(files, i + 1);
    } else {
      assert files[..i] == files;
    }
  }

  /** `parse_logfiles`: the loop over the files, skipping empty ones, then
      the sort. */
  method ParseLogfiles(files: seq<NamedLogfile>) returns (r: Result<seq<LegacyImport.Log>>)
    ensures r == ParsedLogfiles(files)
  {
    var unsorted: seq<LegacyImport.Log> := [];
    var i := 0;
    while i < |files|
      invariant 0 <= i <= |files|
      invariant TaggedFiles(files[..i]) == Ok(unsorted)
    {
      TaggedFilesStep(files, i);
      if files[i].size != 0 {
        var more := ReadTaggedLines(ServerTag(files[i].path), files[i].lines);
        if more.Raised? {
          TaggedFilesRaised(files, i + 1);
          return Raised(more.error);
        }
        unsorted := unsorted + more.value;
      }
      i := i + 1;
    }
    assert files[..i] == files;
    r := SortByEnd(unsorted);
  }

  // ================================================================ records

  /** The fields of a record the statistics read, typed. */
  datatype Game = Game(
    name: string, god: Option<string>, sc: int, character: string, ktyp: string,
    dur: int, turn: int, potionsused: Value, scrollsused: Value,
    zigdeepest: Option<Value>, start: string, end: string)

  predicate Won(g: Game)
  {
    g.ktyp == "winning"
  }

  /** Quitting or leaving the dungeon without winning. */
  predicate Boring(g: Game)
  {
    !Won(g) && (g.ktyp == "leaving" || g.ktyp == "quitting")
  }

  /** `log.get('god', 'no_god')` spelled out. */
  function GodOf(g: Game): string
  {
    match g.god
    case None => "no_god"
    case Some(s) => s
  }

  function RaceOf(g: Game): string
  {
    Take(g.character, 2)
  }

  function RoleOf(g: Game): string
  {
    Drop(g.character, 2)
  }

  /** The playable races, roles and gods the coverage achievements compare
      with. */
  datatype Playable = Playable(races: set<string>, roles: set<string>, gods: set<string>)

  /** `ALL_PLAYABLE_RACES`, `ALL_PLAYABLE_ROLES`, `ALL_PLAYABLE_GODS`. */
  const ReadLogfilesPlayable: Playable := Playable(
    {"Ce", "DD", "DE", "Dg", "Ds", "Dr", "Fe", "Fo", "Gh", "Gr", "HE", "HO", "Ha",
     "Hu", "Ko", "Mf", "Mi", "Mu", "Na", "Op", "Og", "Sp", "Te", "Tr", "VS", "Vp"},
    {"AE", "AK", "AM", "Ar", "As", "Be", "CK", "Cj", "EE", "En", "FE", "Fi", "Gl",
     "Hu", "IE", "Mo", "Ne", "Sk", "Su", "Tm", "VM", "Wn", "Wr", "Wz"},
    {"Ashenzari", "Beogh", "Cheibriados", "Dithmenos", "Elyvilon", "Fedhas", "Gozag",
     "Jiyva", "Kikubaaqudgha", "Lugonu", "Makhleb", "Nemelex Xobeh", "Okawaru",
     "Pakellas", "Qazlal", "Ru", "Sif Muna", "the Shining One", "Trog", "Vehumet",
     "Xom", "Yredelemnul", "Zin"})

  // ================================================================ player data

  /** An entry of the `achievements` dict: `True`, or a count. */
  datatype Award = Earned | Times(n: nat)

  /** `x / y`, kept as numerator and denominator. */
  datatype Ratio = Ratio(num: int, den: nat)

  /** A player's aggregate. `avg_score` and `boring_rate` are always
      `total_score / games` and `boring_games / games` and are not kept. */
  datatype PlayerData = PlayerData(
    wins: seq<Game>, games: nat, winrate: Ratio, totalScore: int,
    lastGames: seq<Game>, boringGames: nat,
    godWins: map<string, nat>, raceWins: map<string, nat>, roleWins: map<string, nat>,
    achievements: map<string, Award>,
    fastestRealtime: Option<Game>, fastestTurncount: Option<Game>, highscore: Option<Game>)

  /** The dict a player starts with. */
  const NewPlayer: PlayerData := PlayerData(
    [], 0, Ratio(0, 1), 0, [], 0, map[], map[], map[], map[], None, None, None)

  /** `d[k] = 1` for a new key, `d[k] += 1` otherwise. */
  function Tally(m: map<string, nat>, k: string): (r: map<string, nat>)
    ensures r.Keys == m.Keys + {k}
    ensures r[k] == (if k in m then m[k] + 1 else 1)
    ensures forall j :: j in m && j != k ==> r[j] == m[j]
  {
    if k in m then m[k := m[k] + 1] else m[k := 1]
  }

  /** `a[k] = 1` for a new key, `a[k] += 1` otherwise (`True` counts as 1). */
  function Bump(a: map<string, Award>, k: string): (r: map<string, Award>)
    ensures r.Keys == a.Keys + {k}
    ensures forall j :: j in a && j != k ==> r[j] == a[j]
  {
    if k !in a then a[k := Times(1)]
    else match a[k]
      case Earned => a[k := Times(2)]
      case Times(n) => a[k := Times(n + 1)]
  }

  /** A new key that leaves no playable entry without a win. */
  predicate Completes(m: map<string, nat>, k: string, playable: set<string>)
  {
    k !in m && playable <= m.Keys + {k}
  }

  /** The record kept when it is replaced only by a strictly better one. */
  function Faster(o: Option<Game>, g: Game, byTurns: bool): (r: Option<Game>)
  {
    if o.None? || (if byTurns then g.turn < o.value.turn else g.dur < o.value.dur) then Some(g) else o
  }

  function Higher(o: Option<Game>, g: Game): (r: Option<Game>)
  {
    if o.None? || g.sc > o.value.sc then Some(g) else o
  }

  /** The achievements a win earns, in the order the code grants them;
      `wins` is the number of wins before this one. */
  function WinAwards(a: map<string, Award>, gods: map<string, nat>, races: map<string, nat>, roles: map<string, nat>,
                     g: Game, wins: nat, pl: Playable): map<string, Award>
  {
    var a1 := if Completes(gods, GodOf(g), pl.gods) then a["polytheist" := Earned] else a;
    var a2 := if Completes(races, RaceOf(g), pl.races) then a1["greatplayer" := Earned] else a1;
    var a3 := if Completes(roles, RoleOf(g), pl.roles) && "greatplayer" in a2 then a2["greaterplayer" := Earned] else a2;
    var a4 := if wins == 10 then a3["goodplayer" := Earned] else a3;
    var a5 := if wins == 100 then a4["centuryplayer" := Earned] else a4;
    var a6 := if g.potionsused == Int(0) && g.scrollsused == Int(0) then Bump(a5, "no_potion_or_scroll_win") else a5;
    if g.zigdeepest == Some(Str("27")) then Bump(a6, "cleared_zig") else a6
  }

  /** The per-player update of one game, shared by `calc_stats` and
      `score_games`: `wins` is read before the game is counted. */
  function PlayerStep(p: PlayerData, g: Game, pl: Playable): (r: PlayerData)
  {
    PlayerData(
      if Won(g) then p.wins + [g] else p.wins,
      p.games + 1,
      Ratio(|p.wins|, p.games + 1),
      p.totalScore + g.sc,
      p.lastGames,
      if Boring(g) then p.boringGames + 1 else p.boringGames,
      if Won(g) then Tally(p.godWins, GodOf(g)) else p.godWins,
      if Won(g) then Tally(p.raceWins, RaceOf(g)) else p.raceWins,
      if Won(g) then Tally(p.roleWins, RoleOf(g)) else p.roleWins,
      if Won(g) then WinAwards(p.achievements, p.godWins, p.raceWins, p.roleWins, g, |p.wins|, pl) else p.achievements,
      if Won(g) then Faster(p.fastestRealtime, g, false) else p.fastestRealtime,
      if Won(g) then Faster(p.fastestTurncount, g, true) else p.fastestTurncount,
      Higher(p.highscore, g))
  }

  /** The player's aggregate after a run of their games. */
  function PlayerAfter(p: PlayerData, gs: seq<Game>, pl: Playable): PlayerData
    decreases |gs|
  {
    if |gs| == 0 then p else PlayerStep(PlayerAfter(p, gs[..|gs| - 1], pl), gs[|gs| - 1], pl)
  }

  // ---------------------------------------------------------------- reference counts

  function WinsOf(gs: seq<Game>): (r: seq<Game>)
    ensures |r| <= |gs|
    ensures forall g :: g in r <==> g in gs && Won(g)
  {
    if |gs| == 0 then [] else WinsOf(gs[..|gs| - 1]) + (if Won(gs[|gs| - 1]) then [gs[|gs| - 1]] else [])
  }

  function BoringCount(gs: seq<Game>): (n: nat)
    ensures n + |WinsOf(gs)| <= |gs|
  {
    if |gs| == 0 then 0 else BoringCount(gs[..|gs| - 1]) + (if Boring(gs[|gs| - 1]) then 1 else 0)
  }

  function ScoreSum(gs: seq<Game>): int
  {
    if |gs| == 0 then 0 else ScoreSum(gs[..|gs| - 1]) + gs[|gs| - 1].sc
  }

  /** One game more per record, and the record is among the wins exactly
      when it is a win. */
  lemma {:induction false} PlayerAfterGames(gs: seq<Game>, pl: Playable)
    ensures var p := PlayerAfter(NewPlayer, gs, pl);
      p.games == |gs| && p.wins == WinsOf(gs)
    decreases |gs|
  {
    if |gs| > 0 {
      PlayerAfterGames(gs[..|gs| - 1], pl);
    }
  }

  /** Boring games are counted once each, so wins and boring games together
      never exceed the games; the total score adds up every game. */
  lemma {:induction false} PlayerAfterTotals(gs: seq<Game>, pl: Playable)
    ensures var p := PlayerAfter(NewPlayer, gs, pl);
      p.boringGames == BoringCount(gs) && p.totalScore == ScoreSum(gs)
    decreases |gs|
  {
    if |gs| > 0 {
      PlayerAfterTotals(gs[..|gs| - 1], pl);
    }
  }

  /** The win rate is the wins before the latest game over the games, so it
      lags one game behind a win. */
  lemma PlayerAfterWinrate(gs: seq<Game>, pl: Playable)
    requires |gs| > 0
    ensures var p := PlayerAfter(NewPlayer, gs, pl);
      p.winrate == Ratio(|WinsOf(gs[..|gs| - 1])|, |gs|)
      && p.boringGames + |p.wins| <= p.games
  {
    PlayerAfterGames(gs[..|gs| - 1], pl);
    PlayerAfterGames(gs, pl);
    PlayerAfterTotals(gs, pl);
  }

  // ---------------------------------------------------------------- records kept

  /** The position of the game `Higher` ends on: the first game with the
      highest score. */
  function HighIndex(gs: seq<Game>): (r: Option<nat>)
    ensures r.None? <==> |gs| == 0
    ensures r.Some? ==> r.value < |gs|
    ensures r.Some? ==> forall j :: 0 <= j < |gs| ==> gs[j].sc <= gs[r.value].sc
    ensures r.Some? ==> forall j :: 0 <= j < r.value ==> gs[j].sc < gs[r.value].sc
  {
    if |gs| == 0 then None
    else
      var prev := HighIndex(gs[..|gs| - 1]);
      if prev.None? || gs[|gs| - 1].sc > gs[prev.value].sc then Some(|gs| - 1) else prev
  }

  /** The position of the win `Faster` ends on: the first win with the
      fewest turns (or the shortest duration). */
  function FastIndex(gs: seq<Game>, byTurns: bool): (r: Option<nat>)
    ensures r.None? <==> forall j :: 0 <= j < |gs| ==> !Won(gs[j])
    ensures r.Some? ==> r.value < |gs| && Won(gs[r.value])
    ensures r.Some? && byTurns ==>
      (forall j :: 0 <= j < |gs| && Won(gs[j]) ==> gs[r.value].turn <= gs[j].turn)
      && (forall j :: 0 <= j < r.value && Won(gs[j]) ==> gs[r.value].turn < gs[j].turn)
    ensures r.Some? && !byTurns ==>
      (forall j :: 0 <= j < |gs| && Won(gs[j]) ==> gs[r.value].dur <= gs[j].dur)
      && (forall j :: 0 <= j < r.value && Won(gs[j]) ==> gs[r.value].dur < gs[j].dur)
  {
    if |gs| == 0 then None
    else
      var prev := FastIndex(gs[..|gs| - 1], byTurns);
      var g := gs[|gs| - 1];
      if !Won(g) then prev
      else if prev.None? || (if byTurns then g.turn < gs[prev.value].turn else g.dur < gs[prev.value].dur)
      then Some(|gs| - 1)
      else prev
  }

  function At(gs: seq<Game>, i: Option<nat>): Option<Game>
  {
    if i.Some? && i.value < |gs| then Some(gs[i.value]) else None
  }

  /** The highscore is the first game with the highest score: a tie keeps
      the earlier game. */
  lemma {:induction false} PlayerAfterHighscore(gs: seq<Game>, pl: Playable)
    ensures PlayerAfter(NewPlayer, gs, pl).highscore == At(gs, HighIndex(gs))
    decreases |gs|
  {
    if |gs| > 0 {
      var prefix := gs[..|gs| - 1];
      PlayerAfterHighscore(prefix, pl);
      AtPrefix(gs, HighIndex(prefix));
    }
  }

  /** The fastest wins are the first wins with the fewest turns and with the
      shortest duration. */
  lemma {:induction false} PlayerAfterFastest(gs: seq<Game>, pl: Playable, byTurns: bool)
    ensures var p := PlayerAfter(NewPlayer, gs, pl);
      (if byTurns then p.fastestTurncount else p.fastestRealtime) == At(gs, FastIndex(gs, byTurns))
    decreases |gs|
  {
    if |gs| > 0 {
      var prefix := gs[..|gs| - 1];
      PlayerAfterFastest(prefix, pl, byTurns);
      AtPrefix(gs, FastIndex(prefix, byTurns));
    }
  }

  lemma AtPrefix(gs: seq<Game>, i: Option<nat>)
    requires |gs| > 0 && (i.Some? ==> i.value < |gs| - 1)
    ensures At(gs[..|gs| - 1], i) == At(gs, i)
  {
  }

  // ---------------------------------------------------------------- tallies

  datatype Tallied = ByGod | ByRace | ByRole

  function TallyKey(g: Game, t: Tallied): string
  {
    match t
    case ByGod => GodOf(g)
    case ByRace => RaceOf(g)
    case ByRole => RoleOf(g)
  }

  function TallyOf(p: PlayerData, t: Tallied): map<string, nat>
  {
    match t
    case ByGod => p.godWins
    case ByRace => p.raceWins
    case ByRole => p.roleWins
  }

  /** The wins whose god, race or role is `k`. */
  function WinCount(gs: seq<Game>, t: Tallied, k: string): nat
  {
    if |gs| == 0 then 0
    else WinCount(gs[..|gs| - 1], t, k) + (if Won(gs[|gs| - 1]) && TallyKey(gs[|gs| - 1], t) == k then 1 else 0)
  }

  /** Each god, race and role a player won with is tallied with the number
      of those wins, and nothing else is. */
  lemma {:induction false} PlayerAfterTallies(gs: seq<Game>, pl: Playable, t: Tallied)
    ensures var m := TallyOf(PlayerAfter(NewPlayer, gs, pl), t);
      forall k :: (k in m <==> WinCount(gs, t, k) > 0) && (k in m ==> m[k] == WinCount(gs, t, k))
    decreases |gs|
  {
    if |gs| > 0 {
      PlayerAfterTallies(gs[..|gs| - 1], pl, t);
    }
  }

  // ---------------------------------------------------------------- achievements

  /** The entries a win may set. */
  const AwardNames: set<string> := {"polytheist", "greatplayer", "greaterplayer", "goodplayer",
    "centuryplayer", "no_potion_or_scroll_win", "cleared_zig"}

  lemma WinAwardsKeep(p: PlayerData, g: Game, wins: nat, pl: Playable)
    ensures p.achievements.Keys <= WinAwards(p.achievements, p.godWins, p.raceWins, p.roleWins, g, wins, pl).Keys
    ensures forall k :: k in p.achievements && k !in AwardNames ==> WinAwards(p.achievements, p.godWins, p.raceWins, p.roleWins, g, wins, pl)[k] == p.achievements[k]
  {
  }

  /** What a win adds: polytheist and greatplayer when the win's new god or
      race completes the playable set; greaterplayer only when its new role
      completes the roles while greatplayer is held; goodplayer and
      centuryplayer when 10 or 100 wins came before it. */
  lemma WinAwardsSpec(p: PlayerData, g: Game, wins: nat, pl: Playable)
    ensures var a := WinAwards(p.achievements, p.godWins, p.raceWins, p.roleWins, g, wins, pl);
      ("polytheist" in a <==> "polytheist" in p.achievements || Completes(p.godWins, GodOf(g), pl.gods))
      && ("greatplayer" in a <==> "greatplayer" in p.achievements || Completes(p.raceWins, RaceOf(g), pl.races))
      && ("greaterplayer" in a <==>
            ("greaterplayer" in p.achievements || (Completes(p.roleWins, RoleOf(g), pl.roles) && "greatplayer" in a)))
      && ("goodplayer" in a <==> "goodplayer" in p.achievements || wins == 10)
      && ("centuryplayer" in a <==> "centuryplayer" in p.achievements || wins == 100)
  {
    AwardsCoverage(p.achievements, p.godWins, p.raceWins, p.roleWins, g, wins, pl);
    AwardsCount(p.achievements, p.godWins, p.raceWins, p.roleWins, g, wins, pl);
  }

  lemma AwardsCoverage(a: map<string, Award>, gods: map<string, nat>, races: map<string, nat>, roles: map<string, nat>,
                       g: Game, wins: nat, pl: Playable)
    ensures var r := WinAwards(a, gods, races, roles, g, wins, pl);
      ("polytheist" in r <==> "polytheist" in a || Completes(gods, GodOf(g), pl.gods))
      && ("greatplayer" in r <==> "greatplayer" in a || Completes(races, RaceOf(g), pl.races))
      && ("greaterplayer" in r <==>
            ("greaterplayer" in a || (Completes(roles, RoleOf(g), pl.roles) && "greatplayer" in r)))
  {
  }

  lemma AwardsCount(a: map<string, Award>, gods: map<string, nat>, races: map<string, nat>, roles: map<string, nat>,
                    g: Game, wins: nat, pl: Playable)
    ensures var r := WinAwards(a, gods, races, roles, g, wins, pl);
      ("goodplayer" in r <==> "goodplayer" in a || wins == 10)
      && ("centuryplayer" in r <==> "centuryplayer" in a || wins == 100)
  {
  }

  /** goodplayer is held exactly after the eleventh win and centuryplayer
      after the hundred-and-first: the count read is the one before the
      win. */
  lemma {:induction false} WinCountAwards(gs: seq<Game>, pl: Playable)
    ensures var p := PlayerAfter(NewPlayer, gs, pl);
      ("goodplayer" in p.achievements <==> |WinsOf(gs)| >= 11)
      && ("centuryplayer" in p.achievements <==> |WinsOf(gs)| >= 101)
    decreases |gs|
  {
    if |gs| > 0 {
      var prefix := gs[..|gs| - 1];
      WinCountAwards(prefix, pl);
      PlayerAfterGames(prefix, pl);
      var p := PlayerAfter(NewPlayer, prefix, pl);
      if Won(gs[|gs| - 1]) {
        WinAwardsSpec(p, gs[|gs| - 1], |p.wins|, pl);
      }
    }
  }

  /** polytheist and greatplayer are held exactly when every playable god
      or race has a win; greaterplayer only with greatplayer and every
      playable role won. */
  lemma {:induction false} CoverageAwards(gs: seq<Game>, pl: Playable)
    requires pl.gods != {} && pl.races != {}
    ensures var p := PlayerAfter(NewPlayer, gs, pl);
      ("polytheist" in p.achievements <==> pl.gods <= p.godWins.Keys)
      && ("greatplayer" in p.achievements <==> pl.races <= p.raceWins.Keys)
      && ("greaterplayer" in p.achievements ==> "greatplayer" in p.achievements && pl.roles <= p.roleWins.Keys)
    decreases |gs|
  {
    if |gs| > 0 {
      var prefix := gs[..|gs| - 1];
      CoverageAwards(prefix, pl);
      var p := PlayerAfter(NewPlayer, prefix, pl);
      var g := gs[|gs| - 1];
      if Won(g) {
        WinAwardsSpec(p, g, |p.wins|, pl);
      }
    }
  }

  /** A record parsed by the importer never holds the string '27': digits
      become ints, so cleared_zig is never granted to such records. */
  lemma ZigNeverCleared(v: string)
    ensures LegacyImport.LegacyValue(v) != Str("27")
  {
    UnescapePlain(v);
    assert AllDigits("27");
  }

  /** Unescaping that yields no ':' left the text as it was. */
  lemma {:induction false} UnescapePlain(v: string)
    ensures (forall i :: 0 <= i < |Unescape(v)| ==> Unescape(v)[i] != ':') ==> Unescape(v) == v
    decreases |v|
  {
    if |v| >= 2 && v[0] == ':' && v[1] == ':' {
      assert Unescape(v)[0] == ':';
    } else if |v| > 0 {
      assert Unescape(v) == [v[0]] + Unescape(v[1..]);
      assert forall i :: 0 <= i < |Unescape(v[1..])| ==> Unescape(v[1..])[i] == Unescape(v)[i + 1];
      UnescapePlain(v[1..]);
    }
  }

  // ================================================================ calc_stats

  /** Which highscore table a game enters. */
  datatype Table = RaceTable | RoleTable | ComboTable

  function TableKey(g: Game, t: Table): string
  {
    match t
    case RaceTable => RaceOf(g)
    case RoleTable => RoleOf(g)
    case ComboTable => g.character
  }

  /** `if k not in table or score > table[k]['sc']: table[k] = log` */
  function Enter(table: map<string, Game>, g: Game, t: Table): (r: map<string, Game>)
  {
    var k := TableKey(g, t);
    if k !in table || g.sc > table[k].sc then table[k := g] else table
  }

  /** Everything `calc_stats` fills. */
  datatype Stats = Stats(
    players: map<string, PlayerData>,
    raceHighscores: map<string, Game>, roleHighscores: map<string, Game>, comboHighscores: map<string, Game>)

  /** `deque(maxlen=5).append`: the five most recent games. */
  function LastFive(s: seq<Game>, g: Game): (r: seq<Game>)
    ensures |r| <= 5
  {
    TakeLast(s + [g], 5)
  }

  /** One record of `calc_stats`: the player's entry replaced by `e`, and the
      game entered in the three tables. */
  function StepWith(st: Stats, g: Game, e: PlayerData): Stats
  {
    Stats(st.players[g.name := e],
          Enter(st.raceHighscores, g, RaceTable),
          Enter(st.roleHighscores, g, RoleTable),
          Enter(st.comboHighscores, g, ComboTable))
  }

  /** One record of `calc_stats`. */
  function StatsStep(st: Stats, g: Game, pl: Playable): Stats
  {
    StepWith(st, g, Entry(Current(st.players, g.name), g, pl))
  }

  /** "Make player dictionary": the player's aggregate, created fresh when
      the name is new. */
  function Current(players: map<string, PlayerData>, name: string): PlayerData
  {
    if name in players then players[name] else NewPlayer
  }

  /** A player's entry after one more game: the per-player update, and the
      game added to the five most recent. */
  function Entry(p: PlayerData, g: Game, pl: Playable): PlayerData
  {
    PlayerStep(p, g, pl).(lastGames := LastFive(p.lastGames, g))
  }

  function StatsAfter(st: Stats, gs: seq<Game>, pl: Playable): Stats
    decreases |gs|
  {
    if |gs| == 0 then st else StatsStep(StatsAfter(st, gs[..|gs| - 1], pl), gs[|gs| - 1], pl)
  }

  /** A player's games among the records, in order. */
  function GamesOf(gs: seq<Game>, name: string): (r: seq<Game>)
  {
    if |gs| == 0 then []
    else GamesOf(gs[..|gs| - 1], name) + (if gs[|gs| - 1].name == name then [gs[|gs| - 1]] else [])
  }

  lemma GamesOfStep(gs: seq<Game>, name: string)
    requires |gs| > 0
    ensures GamesOf(gs, name)
      == if gs[|gs| - 1].name == name then GamesOf(gs[..|gs| - 1], name) + [gs[|gs| - 1]] else GamesOf(gs[..|gs| - 1], name)
  {
  }

  /** The games entering table `t` under key `k`. */
  function TableGames(gs: seq<Game>, t: Table, k: string): (r: seq<Game>)
  {
    if |gs| == 0 then []
    else TableGames(gs[..|gs| - 1], t, k) + (if TableKey(gs[|gs| - 1], t) == k then [gs[|gs| - 1]] else [])
  }

  function TableOf(st: Stats, t: Table): map<string, Game>
  {
    match t
    case RaceTable => st.raceHighscores
    case RoleTable => st.roleHighscores
    case ComboTable => st.comboHighscores
  }

  const NoStats: Stats := Stats(map[], map[], map[], map[])

  /** A record touches only its own player's entry. */
  lemma StepWithLookup(st: Stats, g: Game, e: PlayerData, name: string)
    ensures Lookup(StepWith(st, g, e).players, name) == if g.name == name then Some(e) else Lookup(st.players, name)
  {
  }

  /** The last games play no part in the per-player update. */
  lemma PlayerStepIgnoresLast(p: PlayerData, g: Game, pl: Playable, last: seq<Game>, last2: seq<Game>)
    ensures PlayerStep(p.(lastGames := last), g, pl).(lastGames := last2) == PlayerStep(p, g, pl).(lastGames := last2)
  {
  }

  /** A player's own games folded alone, with the five most recent kept. */
  function Folded(own: seq<Game>, pl: Playable): PlayerData
  {
    PlayerAfter(NewPlayer, own, pl).(lastGames := TakeLast(own, 5))
  }

  lemma FoldedStep(own: seq<Game>, g: Game, pl: Playable)
    ensures Folded(own + [g], pl) == Entry(Folded(own, pl), g, pl)
  {
    assert (own + [g])[..|own|] == own;
    var base := PlayerAfter(NewPlayer, own, pl);
    PlayerAfterLastGames(own, pl);
    PlayerStepIgnoresLast(base, g, pl, TakeLast(own, 5), TakeLast(own + [g], 5));
    LastFiveOfAll(own, g);
  }

  /** The player part of one record: the player's entry moves on by one
      game, and every other entry stays as it was. */
  lemma StatsStepLookup(st: Stats, g: Game, pl: Playable, name: string)
    ensures Lookup(StatsStep(st, g, pl).players, name)
      == if g.name == name then Some(Entry(Current(st.players, name), g, pl)) else Lookup(st.players, name)
  {
    StepWithLookup(st, g, Entry(Current(st.players, g.name), g, pl), name);
  }

  /** The dict a player's games so far have built is their fold, a fresh one
      when there are none. */
  lemma CurrentFolded(players: map<string, PlayerData>, name: string, own: seq<Game>, pl: Playable)
    requires Lookup(players, name) == if |own| == 0 then None else Some(Folded(own, pl))
    ensures Current(players, name) == Folded(own, pl)
  {
    if |own| == 0 {
      assert Folded(own, pl) == NewPlayer;
    }
  }

  /** Each player's aggregate is their own games folded alone, and the last
      five games are their five most recent; a player without games has no
      entry. */
  lemma {:induction false} StatsPerPlayer(gs: seq<Game>, pl: Playable, name: string)
    ensures Lookup(StatsAfter(NoStats, gs, pl).players, name)
      == if |GamesOf(gs, name)| == 0 then None else Some(Folded(GamesOf(gs, name), pl))
    decreases |gs|
  {
    if |gs| > 0 {
      var prefix := gs[..|gs| - 1];
      var g := gs[|gs| - 1];
      var prev := StatsAfter(NoStats, prefix, pl);
      var own := GamesOf(prefix, name);
      StatsPerPlayer(prefix, pl, name);
      StatsStepLookup(prev, g, pl, name);
      GamesOfStep(gs, name);
      if g.name == name {
        CurrentFolded(prev.players, name, own, pl);
        FoldedStep(own, g, pl);
      }
    }
  }

  /** `PlayerStep` leaves the last games alone. */
  lemma {:induction false} PlayerAfterLastGames(gs: seq<Game>, pl: Playable)
    ensures PlayerAfter(NewPlayer, gs, pl).lastGames == []
    decreases |gs|
  {
    if |gs| > 0 {
      PlayerAfterLastGames(gs[..|gs| - 1], pl);
    }
  }

  lemma LastFiveOfAll(s: seq<Game>, g: Game)
    ensures LastFive(TakeLast(s, 5), g) == TakeLast(s + [g], 5)
  {
  }

  /** The table part of one record. */
  lemma StatsStepTable(st: Stats, g: Game, pl: Playable, t: Table)
    ensures TableOf(StatsStep(st, g, pl), t) == Enter(TableOf(st, t), g, t)
  {
    StepWithTable(st, g, Entry(Current(st.players, g.name), g, pl), t);
  }

  lemma StepWithTable(st: Stats, g: Game, e: PlayerData, t: Table)
    ensures TableOf(StepWith(st, g, e), t) == Enter(TableOf(st, t), g, t)
  {
  }

  /** One table on its own. */
  function TableAfter(gs: seq<Game>, t: Table): map<string, Game>
  {
    if |gs| == 0 then map[] else Enter(TableAfter(gs[..|gs| - 1], t), gs[|gs| - 1], t)
  }

  lemma {:induction false} StatsTableAlone(gs: seq<Game>, pl: Playable, t: Table)
    ensures TableOf(StatsAfter(NoStats, gs, pl), t) == TableAfter(gs, t)
    decreases |gs|
  {
    if |gs| > 0 {
      StatsTableAlone(gs[..|gs| - 1], pl, t);
      StatsStepTable(StatsAfter(NoStats, gs[..|gs| - 1], pl), gs[|gs| - 1], pl, t);
    }
  }

  /** The entry under `k`, if any. */
  function Lookup<V>(m: map<string, V>, k: string): Option<V>
  {
    if k in m then Some(m[k]) else None
  }

  /** `Higher` keeps the first game of the highest score. */
  lemma HigherStep(s: seq<Game>, g: Game)
    ensures At(s + [g], HighIndex(s + [g])) == Higher(At(s, HighIndex(s)), g)
  {
    assert (s + [g])[..|s|] == s;
    if |s| > 0 {
      AtPrefix(s + [g], HighIndex(s));
    }
  }

  /** Every key played is in the table with the first game of the highest
      score under it, and no other key is. */
  lemma {:induction false} TableAfterSpec(gs: seq<Game>, t: Table, k: string)
    ensures Lookup(TableAfter(gs, t), k) == At(TableGames(gs, t, k), HighIndex(TableGames(gs, t, k)))
    decreases |gs|
  {
    if |gs| > 0 {
      var prefix := gs[..|gs| - 1];
      var g := gs[|gs| - 1];
      var own := TableGames(prefix, t, k);
      TableAfterSpec(prefix, t, k);
      EnterLookup(TableAfter(prefix, t), g, t, k);
      if TableKey(g, t) == k {
        assert TableGames(gs, t, k) == own + [g];
        HigherStep(own, g);
      } else {
        assert TableGames(gs, t, k) == own;
      }
    }
  }

  /** Entering a game changes only the entry under its own key, and that one
      as `Higher` would. */
  lemma EnterLookup(table: map<string, Game>, g: Game, t: Table, k: string)
    ensures Lookup(Enter(table, g, t), k)
      == if TableKey(g, t) == k then Higher(Lookup(table, k), g) else Lookup(table, k)
  {
  }

  /** Every race, role and combo played is in its table with the first game
      of the highest score under that key (a tie keeps the earlier game),
      and no other key is. */
  lemma StatsTables(gs: seq<Game>, pl: Playable, t: Table, k: string)
    ensures Lookup(TableOf(StatsAfter(NoStats, gs, pl), t), k) == At(TableGames(gs, t, k), HighIndex(TableGames(gs, t, k)))
  {
    StatsTableAlone(gs, pl, t);
    TableAfterSpec(gs, t, k);
  }

  lemma StatsAfterStep(st: Stats, gs: seq<Game>, pl: Playable, i: nat)
    requires i < |gs|
    ensures StatsAfter(st, gs[..i + 1], pl) == StatsStep(StatsAfter(st, gs[..i], pl), gs[i], pl)
  {
    assert gs[..i + 1][..i] == gs[..i];
  }

  /** `calc_stats`: the loop over the sorted records, then `calc_streaks`. */
  method CalcStats(logs: seq<Game>, stats: Stats, streaks: seq<Streak>, activeStreaks: seq<seq<Game>>)
    returns (st: Stats, allStreaks: seq<Streak>, active: seq<seq<Game>>)
    ensures st == StatsAfter(stats, logs, ReadLogfilesPlayable)
    ensures (allStreaks, active) == StreaksFound(logs, streaks, activeStreaks)
  {
    st := stats;
    var pl := ReadLogfilesPlayable;
    var i := 0;
    while i < |logs|
      invariant 0 <= i <= |logs|
      invariant st == StatsAfter(stats, logs[..i], pl)
    {
      StatsAfterStep(stats, logs, pl, i);
      var g := logs[i];
      var player := Current(st.players, g.name);
      var updated := PlayerStep(player, g, pl);
      updated := updated.(lastGames := LastFive(player.lastGames, g));
      st := st.(players := st.players[g.name := updated]);
      st := st.(raceHighscores := Enter(st.raceHighscores, g, RaceTable));
      st := st.(roleHighscores := Enter(st.roleHighscores, g, RoleTable));
      st := st.(comboHighscores := Enter(st.comboHighscores, g, ComboTable));
      i := i + 1;
    }
    assert logs[..i] == logs;
    allStreaks, active := CalcStreaks(logs, streaks, activeStreaks);
  }

  // ================================================================ calc_streaks

  /** A recorded streak: its player, its wins, the loss that ended it (none
      for a streak still running), and its start and end. */
  datatype Streak = Streak(player: string, wins: seq<Game>, breaker: Option<Game>, start: string, end: string)

  /** `log['start'][:-1]` */
  function StartMark(g: Game): string
  {
    DropLast(g.start)
  }

  /** Wins of one player, each starting (its start without the last
      character) after the previous one ended, compared as strings. */
  predicate Chained(player: string, ws: seq<Game>)
  {
    (forall i :: 0 <= i < |ws| ==> ws[i].name == player && Won(ws[i]))
    && (forall i :: 0 <= i < |ws| - 1 ==> StrLt(ws[i].end, StartMark(ws[i + 1])))
  }

  /** `active_streak_players`, with its keys in insertion order. */
  datatype Tracker = Tracker(active: map<string, seq<Game>>, order: seq<string>, streaks: seq<Streak>)

  /** One record of `calc_streaks`. */
  function TrackStep(tr: Tracker, g: Game): Tracker
  {
    var player := g.name;
    if Won(g) then
      var tr1 := if player !in tr.active then tr.(active := tr.active[player := []], order := tr.order + [player]) else tr;
      var cur := tr1.active[player];
      if |cur| == 0 then tr1.(active := tr1.active[player := [g]])
      else if StrLt(cur[|cur| - 1].end, StartMark(g)) then tr1.(active := tr1.active[player := cur + [g]])
      else tr1
    else if player !in tr.active then tr
    else
      var cur := tr.active[player];
      var recorded := if |cur| >= 2 then tr.streaks + [Streak(player, cur, Some(g), cur[0].start, cur[|cur| - 1].end)] else tr.streaks;
      Tracker(tr.active[player := []], tr.order, recorded)
  }

  function TrackAfter(tr: Tracker, gs: seq<Game>): Tracker
    decreases |gs|
  {
    if |gs| == 0 then tr else TrackStep(TrackAfter(tr, gs[..|gs| - 1]), gs[|gs| - 1])
  }

  /** A list left after the last record: two or more wins. */
  predicate Leftover(active: map<string, seq<Game>>, name: string)
  {
    name in active && |active[name]| >= 2
  }

  /** The leftover lists, in key order: the active streaks. */
  function LeftActive(active: map<string, seq<Game>>, order: seq<string>): (r: seq<seq<Game>>)
    decreases |order|
  {
    if |order| == 0 then []
    else
      var name := order[|order| - 1];
      LeftActive(active, order[..|order| - 1]) + (if Leftover(active, name) then [active[name]] else [])
  }

  /** The leftover lists recorded as streaks without a breaking loss. */
  function LeftStreaks(active: map<string, seq<Game>>, order: seq<string>): (r: seq<Streak>)
    decreases |order|
  {
    if |order| == 0 then []
    else
      var name := order[|order| - 1];
      LeftStreaks(active, order[..|order| - 1])
        + (if Leftover(active, name) then [StreakOf(name, active[name])] else [])
  }

  function StreakOf(name: string, ws: seq<Game>): Streak
    requires |ws| > 0
  {
    Streak(name, ws, None, ws[0].start, ws[|ws| - 1].end)
  }

  function ActiveKey(ws: seq<Game>): Key
  {
    if |ws| == 0 then Key(0, "") else Key(-|ws|, ws[|ws| - 1].end)
  }

  function StreakKey(s: Streak): Key
  {
    Key(-|s.wins|, s.end)
  }

  /** The two sorted lists `calc_streaks` leaves: all streaks and the active
      ones, each longest first, then by end. */
  function StreaksFound(gs: seq<Game>, streaks: seq<Streak>, activeStreaks: seq<seq<Game>>): (seq<Streak>, seq<seq<Game>>)
  {
    var tr := TrackAfter(Tracker(map[], [], streaks), gs);
    (SortBy(tr.streaks + LeftStreaks(tr.active, tr.order), StreakKey),
     SortBy(activeStreaks + LeftActive(tr.active, tr.order), ActiveKey))
  }

  lemma TrackAfterStep(tr: Tracker, gs: seq<Game>, i: nat)
    requires i < |gs|
    ensures TrackAfter(tr, gs[..i + 1]) == TrackStep(TrackAfter(tr, gs[..i]), gs[i])
  {
    assert gs[..i + 1][..i] == gs[..i];
  }

  lemma LeftStep(active: map<string, seq<Game>>, order: seq<string>, i: nat)
    requires i < |order|
    ensures LeftActive(active, order[..i + 1])
      == LeftActive(active, order[..i]) + (if Leftover(active, order[i]) then [active[order[i]]] else [])
    ensures LeftStreaks(active, order[..i + 1])
      == LeftStreaks(active, order[..i]) + (if Leftover(active, order[i]) then [StreakOf(order[i], active[order[i]])] else [])
  {
    assert order[..i + 1][..i] == order[..i];
  }

  /** `calc_streaks`: the loop over the records, the loop over the leftover
      lists, then the two sorts. */
  method CalcStreaks(logs: seq<Game>, streaks: seq<Streak>, activeStreaks: seq<seq<Game>>)
    returns (allStreaks: seq<Streak>, active: seq<seq<Game>>)
    ensures (allStreaks, active) == StreaksFound(logs, streaks, activeStreaks)
  {
    var tr := Tracker(map[], [], streaks);
    var i := 0;
    while i < |logs|
      invariant 0 <= i <= |logs|
      invariant tr == TrackAfter(Tracker(map[], [], streaks), logs[..i])
    {
      TrackAfterStep(Tracker(map[], [], streaks), logs, i);
      tr := TrackStep(tr, logs[i]);
      i := i + 1;
    }
    assert logs[..i] == logs;
    var all := tr.streaks;
    active := activeStreaks;
    var j := 0;
    while j < |tr.order|
      invariant 0 <= j <= |tr.order|
      invariant all == tr.streaks + LeftStreaks(tr.active, tr.order[..j])
      invariant active == activeStreaks + LeftActive(tr.active, tr.order[..j])
    {
      LeftStep(tr.active, tr.order, j);
      var name := tr.order[j];
      if name in tr.active && |tr.active[name]| >= 2 {
        var streak := tr.active[name];
        active := active + [streak];
        all := all + [Streak(name, streak, None, streak[0].start, streak[|streak| - 1].end)];
      }
      j := j + 1;
    }
    assert tr.order[..j] == tr.order;
    allStreaks := SortBy(all, StreakKey);
    active := SortBy(active, ActiveKey);
  }

  // ---------------------------------------------------------------- streak properties

  /** A streak of two or more chained wins, its start and end those of its
      first and last win, ended by a loss of the same player or still
      running. */
  predicate GoodStreak(s: Streak)
  {
    |s.wins| >= 2 && Chained(s.player, s.wins)
    && s.start == s.wins[0].start && s.end == s.wins[|s.wins| - 1].end
    && (s.breaker.Some? ==> s.breaker.value.name == s.player && !Won(s.breaker.value))
  }

  /** What the tracker keeps true: every list under a player holds that
      player's chained wins, the keys are in the order list, and every
      streak recorded after the first `before` is good. */
  predicate Tracking(tr: Tracker, before: nat)
  {
    (forall p :: p in tr.active ==> Chained(p, tr.active[p]) && p in tr.order)
    && before <= |tr.streaks|
    && forall i :: before <= i < |tr.streaks| ==> GoodStreak(tr.streaks[i])
  }

  /** Each record keeps the tracker sound: a first win starts a list, a
      later win joins only if it started after the last win ended, and a
      loss empties the list, recording it only with two or more wins. */
  lemma TrackStepKeeps(tr: Tracker, g: Game, before: nat)
    requires Tracking(tr, before)
    ensures Tracking(TrackStep(tr, g), before)
    ensures !Won(g) && g.name in tr.active ==> TrackStep(tr, g).active[g.name] == []
    ensures Won(g) && (g.name !in tr.active || tr.active[g.name] == []) ==> TrackStep(tr, g).active[g.name] == [g]
  {
    if Won(g) {
      var tr1 := if g.name !in tr.active then tr.(active := tr.active[g.name := []], order := tr.order + [g.name]) else tr;
      var cur := tr1.active[g.name];
      if |cur| > 0 && StrLt(cur[|cur| - 1].end, StartMark(g)) {
        assert Chained(g.name, cur + [g]);
      }
    }
  }

  lemma {:induction false} TrackAfterKeeps(gs: seq<Game>, streaks: seq<Streak>)
    ensures Tracking(TrackAfter(Tracker(map[], [], streaks), gs), |streaks|)
    decreases |gs|
  {
    if |gs| > 0 {
      TrackAfterKeeps(gs[..|gs| - 1], streaks);
      TrackStepKeeps(TrackAfter(Tracker(map[], [], streaks), gs[..|gs| - 1]), gs[|gs| - 1], |streaks|);
    }
  }

  /** Streaks passed in stay at the front of the recorded list. */
  lemma {:induction false} TrackAfterPrefix(gs: seq<Game>, streaks: seq<Streak>)
    ensures var tr := TrackAfter(Tracker(map[], [], streaks), gs);
      |streaks| <= |tr.streaks| && forall i :: 0 <= i < |streaks| ==> tr.streaks[i] == streaks[i]
    decreases |gs|
  {
    if |gs| > 0 {
      TrackAfterPrefix(gs[..|gs| - 1], streaks);
    }
  }

  /** Leftover lists of chained wins are good streaks and active streaks of
      two or more chained wins. */
  lemma {:induction false} LeftoversGood(active: map<string, seq<Game>>, order: seq<string>)
    requires forall p :: p in active ==> Chained(p, active[p])
    ensures forall i :: 0 <= i < |LeftStreaks(active, order)| ==> GoodStreak(LeftStreaks(active, order)[i])
    ensures forall i :: 0 <= i < |LeftActive(active, order)| ==>
      |LeftActive(active, order)[i]| >= 2 && Chained(LeftActive(active, order)[i][0].name, LeftActive(active, order)[i])
    decreases |order|
  {
    if |order| > 0 {
      LeftoversGood(active, order[..|order| - 1]);
    }
  }

  /** Before sorting: the streaks passed in, then good streaks only. */
  lemma UnsortedStreaks(gs: seq<Game>, streaks: seq<Streak>)
    ensures var tr := TrackAfter(Tracker(map[], [], streaks), gs);
      var u := tr.streaks + LeftStreaks(tr.active, tr.order);
      |streaks| <= |u| && (forall i :: 0 <= i < |streaks| ==> u[i] == streaks[i])
      && forall i :: |streaks| <= i < |u| ==> GoodStreak(u[i])
  {
    var tr := TrackAfter(Tracker(map[], [], streaks), gs);
    TrackAfterKeeps(gs, streaks);
    TrackAfterPrefix(gs, streaks);
    LeftoversGood(tr.active, tr.order);
  }

  /** A sorted copy of a list whose additions are good holds only good
      additions. */
  lemma GoodMembers(u: seq<Streak>, all: seq<Streak>, streaks: seq<Streak>)
    requires multiset(all) == multiset(u)
    requires |streaks| <= |u| && forall i :: 0 <= i < |streaks| ==> u[i] == streaks[i]
    requires forall i :: |streaks| <= i < |u| ==> GoodStreak(u[i])
    ensures forall s :: s in all && s !in streaks ==> GoodStreak(s)
  {
    assert forall i :: 0 <= i < |streaks| ==> u[i] in streaks;
    forall s | s in all && s !in streaks
      ensures GoodStreak(s)
    {
      assert s in multiset(u);
      var k :| 0 <= k < |u| && u[k] == s;
    }
  }

  /** Both lists come out ordered by length (longest first) and then by
      end, and keep every streak they were given. */
  lemma StreaksFoundSorted(gs: seq<Game>, streaks: seq<Streak>, activeStreaks: seq<seq<Game>>)
    ensures var (all, active) := StreaksFound(gs, streaks, activeStreaks);
      SortedBy(all, StreakKey) && SortedBy(active, ActiveKey)
      && multiset(streaks) <= multiset(all) && multiset(activeStreaks) <= multiset(active)
  {
    var tr := TrackAfter(Tracker(map[], [], streaks), gs);
    TrackAfterPrefix(gs, streaks);
    var u := tr.streaks + LeftStreaks(tr.active, tr.order);
    assert tr.streaks == streaks + tr.streaks[|streaks|..];
    SortByCorrect(u, StreakKey);
    SortByCorrect(activeStreaks + LeftActive(tr.active, tr.order), ActiveKey);
  }

  /** Every streak found here has two or more chained wins, ended by a loss
      of the same player or still running. */
  lemma StreaksFoundGood(gs: seq<Game>, streaks: seq<Streak>, activeStreaks: seq<seq<Game>>)
    ensures forall s :: s in StreaksFound(gs, streaks, activeStreaks).0 && s !in streaks ==> GoodStreak(s)
  {
    var tr := TrackAfter(Tracker(map[], [], streaks), gs);
    var u := tr.streaks + LeftStreaks(tr.active, tr.order);
    UnsortedStreaks(gs, streaks);
    SortByCorrect(u, StreakKey);
    GoodMembers(u, SortBy(u, StreakKey), streaks);
  }

  /** Every active streak found here is two or more chained wins of one
      player. */
  lemma ActiveFoundGood(gs: seq<Game>, streaks: seq<Streak>, activeStreaks: seq<seq<Game>>)
    ensures forall a: seq<Game> :: a in StreaksFound(gs, streaks, activeStreaks).1 && a !in activeStreaks ==>
      |a| >= 2 && Chained(a[0].name, a)
  {
    var tr := TrackAfter(Tracker(map[], [], streaks), gs);
    TrackAfterKeeps(gs, streaks);
    var left := LeftActive(tr.active, tr.order);
    LeftoversGood(tr.active, tr.order);
    var u := activeStreaks + left;
    SortByCorrect(u, ActiveKey);
    forall a: seq<Game> | a in SortBy(u, ActiveKey) && a !in activeStreaks
      ensures |a| >= 2 && Chained(a[0].name, a)
    {
      assert a in multiset(u);
      assert a in left;
    }
  }
}

=== FILE: legacy_website.dfy ===
/** The template filters of the first scoreboard generation
    (dcss_scoreboard/write_website.py). Games there are the logfile records
    as parsed: field name to int or string. `prettyint` is Python's
    `"{0:,}"` format, `Basics.CommaInt`; the month shift and field reading of
    `prettycrawldate` are the ones of `ModelUtils`, which the later
    generation copied. */
module LegacyWebsite {
  import opened Basics
  import opened Sorting
  import opened ModelUtils

  // ---------------------------------------------------------------- counters

  function ItemKey(item: (string, int)): Key
  {
    Key(0, item.0)
  }

  /** One counter entry, "k (v)". */
  function CounterEntry(item: (string, int)): string
  {
    item.0 + " (" + DecimalString(item.1) + ")"
  }

  function CounterEntries(items: seq<(string, int)>): (r: seq<string>)
    ensures |r| == |items|
    ensures forall i :: 0 <= i < |items| ==> r[i] == CounterEntry(items[i])
  {
    if |items| == 0 then [] else [CounterEntry(items[0])] + CounterEntries(items[1..])
  }

  /** `prettycounter`: the counter's items sorted by key, written "k (v)" and
      joined by ", ". The items are a dict's, so no key occurs twice. */
  function PrettyCounter(items: seq<(string, int)>): string
  {
    Join(CounterEntries(SortBy(items, ItemKey)), ", ")
  }

  /** The entries are the counter's own items, each once, in strictly
      ascending key order, whatever order the dict had. */
  lemma PrettyCounterOrder(items: seq<(string, int)>)
    requires forall i, j :: 0 <= i < j < |items| ==> items[i].0 != items[j].0
    ensures var sorted := SortBy(items, ItemKey);
      PrettyCounter(items) == Join(CounterEntries(sorted), ", ")
      && multiset(sorted) == multiset(items)
      && forall i, j :: 0 <= i < j < |sorted| ==> StrLt(sorted[i].0, sorted[j].0)
  {
    var sorted := SortBy(items, ItemKey);
    SortByCorrect(items, ItemKey);
    forall i, j | 0 <= i < j < |sorted|
      ensures StrLt(sorted[i].0, sorted[j].0)
    {
      assert KeyLe(ItemKey(sorted[i]), ItemKey(sorted[j]));
      if sorted[i].0 == sorted[j].0 {
        SameKeyTwice(items, sorted, i, j);
      }
    }
  }

  /** Two places of a permutation of a dict's items never hold the same key. */
  lemma SameKeyTwice(items: seq<(string, int)>, sorted: seq<(string, int)>, i: nat, j: nat)
    requires forall a, b :: 0 <= a < b < |items| ==> items[a].0 != items[b].0
    requires multiset(sorted) == multiset(items)
    requires i < j < |sorted|
    ensures sorted[i].0 != sorted[j].0
  {
    if sorted[i].0 == sorted[j].0 {
      assert sorted[i] in multiset(items) && sorted[j] in multiset(items);
      var a :| 0 <= a < |items| && items[a] == sorted[i];
      var b :| 0 <= b < |items| && items[b] == sorted[j];
      if a == b {
        assert sorted[i] == sorted[j];
        MultiplicityAtLeastTwo(sorted, i, j);
        assert multiset(items)[items[a]] >= 2;
        TwiceInSeq(items, a);
      }
    }
  }

  /** An item of a dict's items occurs in them once. */
  lemma TwiceInSeq(items: seq<(string, int)>, a: nat)
    requires forall x, y :: 0 <= x < y < |items| ==> items[x].0 != items[y].0
    requires a < |items|
    ensures multiset(items)[items[a]] == 1
  {
    var d := items[..a] + items[a + 1..];
    assert items == items[..a] + [items[a]] + items[a + 1..];
    assert items[a] !in d by {
      forall k | 0 <= k < |d| ensures d[k] != items[a] {
        if k < a {
          assert d[k] == items[k];
        } else {
          assert d[k] == items[k + 1];
        }
      }
    }
    assert multiset(items) == multiset(items[..a]) + multiset{items[a]} + multiset(items[a + 1..]);
    assert multiset(d) == multiset(items[..a]) + multiset(items[a + 1..]);
  }

  lemma ExampleSorted()
    ensures SortBy([("c", 1), ("b", 3), ("a", 2)], ItemKey) == [("a", 2), ("b", 3), ("c", 1)]
  {
    var items := [("c", 1), ("b", 3), ("a", 2)];
    assert items[..2] == [("c", 1), ("b", 3)] && items[..1] == [("c", 1)];
    assert SortBy(items[..1], ItemKey) == [("c", 1)];
    assert StrLt("b", "c") && StrLt("a", "b");
    assert SortBy(items[..2], ItemKey) == [("b", 3), ("c", 1)];
  }

  lemma ExampleEntries()
    ensures CounterEntries([("a", 2), ("b", 3), ("c", 1)]) == ["a (2)", "b (3)", "c (1)"]
  {
    assert NatString(1) == "1" && NatString(2) == "2" && NatString(3) == "3";
    assert CounterEntry(("a", 2)) == "a (2)";
    assert CounterEntry(("b", 3)) == "b (3)";
    assert CounterEntry(("c", 1)) == "c (1)";
  }

  lemma ExampleJoined()
    ensures Join(["a (2)", "b (3)", "c (1)"], ", ") == "a (2), b (3), c (1)"
  {
    var entries := ["a (2)", "b (3)", "c (1)"];
    assert entries[1..] == ["b (3)", "c (1)"] && entries[1..][1..] == ["c (1)"];
  }

  /** The example of the documentation comment, as the code computes it: the
      entries come out in key order, not in the order the comment shows. */
  lemma PrettyCounterExample()
    ensures PrettyCounter([("c", 1), ("b", 3), ("a", 2)]) == "a (2), b (3), c (1)"
    ensures PrettyCounter([("c", 1), ("b", 3), ("a", 2)]) != "a (2), c (1), b (3)"
  {
    ExampleSorted();
    ExampleEntries();
    ExampleJoined();
    var r := "a (2), b (3), c (1)";
    var w := "a (2), c (1), b (3)";
    assert r[7] != w[7];
  }

  // ---------------------------------------------------------------- crawl dates

  /** What `prettycrawldate` shows: the date (its `%c` rendering is not
      modelled), or the month-shifted text when that is no valid date. */
  datatype CrawlDateText = Formatted(time: DateTime) | Unformatted(text: string)

  /** `prettycrawldate`: a month field that is no number raises ValueError
      before the `try`; any other failure returns the shifted text. */
  function PrettyCrawlDate(d: string): (r: Result<CrawlDateText>)
    ensures r.Raised? <==> PyInt(Slice(d, 4, 6)).None?
    ensures r.Raised? ==> r.error == ValueError
  {
    match ShiftMonth(d)
    case Raised(e) => Raised(e)
    case Ok(e) =>
      match ReadStamp(e)
      case Ok(t) => Ok(Formatted(t))
      case Raised(_) => Ok(Unformatted(e))
  }

  /** Every date a crawl logfile writes is shown as that date. */
  lemma PrettyCrawlDateFormats(t: DateTime, rest: string)
    requires 1000 <= t.year <= 9999 && ValidDateTime(t)
    ensures PrettyCrawlDate(CrawlDate(t) + rest) == Ok(Formatted(t))
  {
    CrawlDateShift(t, rest);
    CrawlDateRead(t, rest);
  }

  /** A date that does not parse after the shift is shown as the shifted text,
      which is never the text the logfile held: its month field now reads one
      higher. */
  lemma PrettyCrawlDateFallback(d: string, m: int)
    requires |d| >= 6 && PyInt(d[4..6]) == Some(m)
    requires ReadStamp(d[..4] + Pad2(m + 1) + d[6..]).Raised?
    ensures PrettyCrawlDate(d) == Ok(Unformatted(d[..4] + Pad2(m + 1) + d[6..]))
    ensures d[..4] + Pad2(m + 1) + d[6..] != d
  {
    ShiftMonthAt(d, m);
    var e := d[..4] + Pad2(m + 1) + d[6..];
    if e == d {
      assert |Pad2(m + 1)| == 2;
      assert e[4..6] == Pad2(m + 1);
      Pad2ReadsBackAll(m + 1);
    }
  }

  // ---------------------------------------------------------------- rows

  /** The row class of `gametotablerow`, from the game's ktyp: a record
      without one raises KeyError. */
  function RowClass(game: map<string, Value>): (r: Result<string>)
    ensures r.Raised? <==> "ktyp" !in game
  {
    if "ktyp" !in game then Raised(KeyError("ktyp"))
    else if game["ktyp"] == Str("winning") then Ok("table-success")
    else if game["ktyp"] == Str("quitting") then Ok("table-danger")
    else Ok("")
  }

  /** Wins are marked as successes and quits as dangers; every other ending
      gets no class, and the three classes are different. */
  lemma RowClassCases(game: map<string, Value>)
    requires "ktyp" in game
    ensures RowClass(game) == Ok("table-success") <==> game["ktyp"] == Str("winning")
    ensures RowClass(game) == Ok("table-danger") <==> game["ktyp"] == Str("quitting")
    ensures RowClass(game) == Ok("") <==> game["ktyp"] !in {Str("winning"), Str("quitting")}
  {
  }

  /** `', '.join(g[key] for g in games)`: `join` first draws every value
      from the generator, so a game without the key raises KeyError whatever
      comes before it; only then does a number where text is wanted raise
      TypeError. Otherwise the text of the field in every game, in order. */
  function TextFields(games: seq<map<string, Value>>, key: string): (r: Result<seq<string>>)
    ensures r.Ok? <==> forall i :: 0 <= i < |games| ==> key in games[i] && games[i][key].Str?
    ensures r.Ok? ==> |r.value| == |games| && forall i :: 0 <= i < |games| ==> games[i][key] == Str(r.value[i])
    ensures r.Raised? ==> r.error in {KeyError(key), TypeError}
    ensures r.Raised? ==> (r.error == KeyError(key) <==> exists i :: 0 <= i < |games| && key !in games[i])
  {
    if forall i :: 0 <= i < |games| ==> key in games[i] then JoinTexts(games, key)
    else Raised(KeyError(key))
  }

  /** The joining half of `TextFields`, once every value has been drawn. */
  function JoinTexts(games: seq<map<string, Value>>, key: string): (r: Result<seq<string>>)
    requires forall i :: 0 <= i < |games| ==> key in games[i]
    ensures r.Ok? <==> forall i :: 0 <= i < |games| ==> games[i][key].Str?
    ensures r.Ok? ==> |r.value| == |games| && forall i :: 0 <= i < |games| ==> games[i][key] == Str(r.value[i])
    ensures r.Raised? ==> r.error == TypeError
  {
    if |games| == 0 then Ok([])
    else if games[0][key].Int? then Raised(TypeError)
    else
      match JoinTexts(games[1..], key)
      case Raised(e) => Raised(e)
      case Ok(rest) => Ok([games[0][key].s] + rest)
  }

  /** The four cells of a streak row. */
  datatype StreakRow = StreakRow(wins: nat, player: string, games: string, versions: string)

  /** `streaktotablerow`: the cells are computed in argument order, so an
      empty streak raises IndexError on its first game, a first game without
      a name KeyError, and then the combos are joined before the versions. */
  function StreakToTableRow(streak: seq<map<string, Value>>): (r: Result<StreakRow>)
    ensures |streak| == 0 ==> r == Raised(IndexError)
    ensures |streak| > 0 && "name" !in streak[0] ==> r == Raised(KeyError("name"))
    ensures |streak| > 0 && "name" in streak[0] ==>
      (r.Raised? <==> TextFields(streak, "char").Raised? || TextFields(streak, "v").Raised?)
    ensures |streak| > 0 && "name" in streak[0] && r.Raised? ==>
      r.error == (if TextFields(streak, "char").Raised? then TextFields(streak, "char").error else TextFields(streak, "v").error)
  {
    if |streak| == 0 then Raised(IndexError)
    else if "name" !in streak[0] then Raised(KeyError("name"))
    else
      match TextFields(streak, "char")
      case Raised(e) => Raised(e)
      case Ok(chars) =>
        match TextFields(streak, "v")
        case Raised(e) => Raised(e)
        case Ok(versions) =>
          Ok(StreakRow(|streak|, ValueText(streak[0]["name"]), Join(chars, ", "), Join(SortedSet(versions), ", ")))
  }

  /** A streak row counts the streak's games, names the player of its first
      game, lists every game's combo in order, and lists the distinct versions
      played, each once, in ascending order. */
  lemma StreakRowSpec(streak: seq<map<string, Value>>)
    requires StreakToTableRow(streak).Ok?
    ensures var row := StreakToTableRow(streak).value;
      var chars := TextFields(streak, "char").value;
      var vs := SortedSet(TextFields(streak, "v").value);
      row.wins == |streak| && row.player == ValueText(streak[0]["name"])
      && row.games == Join(chars, ", ") && (forall i :: 0 <= i < |streak| ==> streak[i]["char"] == Str(chars[i]))
      && row.versions == Join(vs, ", ")
      && (forall x :: x in vs <==> exists i :: 0 <= i < |streak| && streak[i]["v"] == Str(x))
      && (forall i, j :: 0 <= i < j < |vs| ==> StrLt(vs[i], vs[j]))
  {
    var raw := TextFields(streak, "v").value;
    SortedSetCorrect(raw);
    forall x
      ensures x in SortedSet(raw) <==> exists i :: 0 <= i < |streak| && streak[i]["v"] == Str(x)
    {
      if x in raw {
        var i :| 0 <= i < |raw| && raw[i] == x;
        assert streak[i]["v"] == Str(x);
      }
      if exists i :: 0 <= i < |streak| && streak[i]["v"] == Str(x) {
        var i :| 0 <= i < |streak| && streak[i]["v"] == Str(x);
        assert raw[i] == x;
      }
    }
  }
}

=== FILE: line_split.dfy ===
/** The logfile line splitter shared by every generation of the importer:
    `re.split('(?<!:):(?!:)', line)`. A ':' separates two fields only when
    neither neighbour is a ':'; the writer escapes a ':' inside a value as
    "::", so a run of two or more colons never separates anything. */
module LineSplit {
  import opened Basics

  /** Position i of s matches `(?<!:):(?!:)`. */
  predicate IsSeparator(s: string, i: int)
  {
    0 <= i < |s| && s[i] == ':'
    && (i == 0 || s[i - 1] != ':')
    && (i + 1 == |s| || s[i + 1] != ':')
  }

  /** The first separator at or after `from`, or |s| when there is none. */
  function NextSeparator(s: string, from: nat): (k: nat)
    requires from <= |s|
    ensures from <= k <= |s|
    ensures k < |s| ==> IsSeparator(s, k)
    ensures forall j :: from <= j < k ==> !IsSeparator(s, j)
    decreases |s| - from
  {
    if from == |s| then |s|
    else if IsSeparator(s, from) then from
    else NextSeparator(s, from + 1)
  }

  /** The fields of s[from..], cut at the separators of the whole line. */
  function Pieces(s: string, from: nat): (r: seq<string>)
    requires from <= |s|
    ensures |r| >= 1
    decreases |s| - from
  {
    var k := NextSeparator(s, from);
    if k == |s| then [s[from..]] else [s[from..k]] + Pieces(s, k + 1)
  }

  /** `re.split(LINE_SPLIT_PATTERN, line)` */
  function Split(line: string): seq<string>
  {
    Pieces(line, 0)
  }

  lemma {:induction false} PiecesJoin(s: string, from: nat)
    requires from <= |s|
    ensures Join(Pieces(s, from), ":") == s[from..]
    decreases |s| - from
  {
    var k := NextSeparator(s, from);
    if k < |s| {
      PiecesJoin(s, k + 1);
      var rest := Pieces(s, k + 1);
      assert Pieces(s, from) == [s[from..k]] + rest;
      JoinCons(s[from..k], rest, ":");
      SliceAround(s, from, k);
    }
  }

  lemma JoinCons(a: string, rest: seq<string>, sep: string)
    requires |rest| > 0
    ensures Join([a] + rest, sep) == a + sep + Join(rest, sep)
  {
    assert ([a] + rest)[1..] == rest;
  }

  /** A line is its part before position k, the separator, and the rest. */
  lemma SliceAround(s: string, from: nat, k: nat)
    requires from <= k < |s| && s[k] == ':'
    ensures s[from..] == s[from..k] + ":" + s[k + 1..]
  {
  }

  /** Splitting loses nothing: joining the fields with ':' gives the line back. */
  lemma SplitJoin(line: string)
    ensures Join(Split(line), ":") == line
  {
    PiecesJoin(line, 0);
  }

  /** Two neighbouring colons never separate fields, so a "::" run stays inside
      one field. */
  lemma ColonRunNotSeparator(s: string, i: int)
    requires 0 <= i < |s| && s[i] == ':'
    requires (i > 0 && s[i - 1] == ':') || (i + 1 < |s| && s[i + 1] == ':')
    ensures !IsSeparator(s, i)
  {
  }

  lemma {:induction false} NextSeparatorIs(s: string, from: nat, k: nat)
    requires from <= k <= |s|
    requires forall j :: from <= j < k ==> !IsSeparator(s, j)
    requires k < |s| ==> IsSeparator(s, k)
    ensures NextSeparator(s, from) == k
    decreases k - from
  {
    if from < k {
      NextSeparatorIs(s, from + 1, k);
    }
  }

  /** Pieces where the last cut is the end of the line. */
  lemma PiecesLast(s: string, from: nat)
    requires from <= |s| && NextSeparator(s, from) == |s|
    ensures Pieces(s, from) == [s[from..]]
  {
  }

  /** One piece in front of the pieces after the separator that ends it. */
  lemma PiecesCons(s: string, from: nat, k: nat, piece: string, tail: seq<string>)
    requires from <= k < |s| && k == NextSeparator(s, from)
    requires s[from..k] == piece && Pieces(s, k + 1) == tail
    ensures Pieces(s, from) == [piece] + tail
  {
  }

  lemma SuffixSplit<T>(s: seq<T>, from: nat, a: seq<T>, b: seq<T>)
    requires from <= |s| && s[from..] == a + b
    ensures from + |a| <= |s| && s[from..from + |a|] == a && s[from + |a|..] == b
  {
    assert s[from..from + |a|] == s[from..][..|a|];
    assert s[from + |a|..] == s[from..][|a|..];
  }

  // ---------------------------------------------------------------- clean pieces

  /** A ':' at position i of s has a ':' right before or right after it. */
  predicate PairedAt(s: string, i: int)
  {
    0 <= i < |s| && s[i] == ':' ==> (i > 0 && s[i - 1] == ':') || (i + 1 < |s| && s[i + 1] == ':')
  }

  /** Every ':' of s has a ':' right before or right after it. */
  predicate ColonsPaired(s: string)
  {
    forall i :: 0 <= i < |s| ==> PairedAt(s, i)
  }

  /** A piece the splitter keeps whole wherever it stands between separators:
      non-empty, not starting or ending with ':', and with every ':' inside a
      run of two or more. */
  predicate Clean(x: string)
  {
    |x| > 0 && x[0] != ':' && x[|x| - 1] != ':' && ColonsPaired(x)
  }

  lemma PairedAppend(a: string, b: string)
    requires ColonsPaired(a) && ColonsPaired(b)
    ensures ColonsPaired(a + b)
  {
    var s := a + b;
    forall i | 0 <= i < |s| && s[i] == ':' ensures PairedAt(s, i) {
      if i < |a| {
        assert a[i] == ':' && PairedAt(a, i);
        if i > 0 && a[i - 1] == ':' {
          assert s[i - 1] == a[i - 1];
        } else {
          assert s[i + 1] == a[i + 1];
        }
      } else {
        var n := i - |a|;
        assert b[n] == ':' && PairedAt(b, n);
        if n > 0 && b[n - 1] == ':' {
          assert s[i - 1] == b[n - 1];
        } else {
          assert s[i + 1] == b[n + 1];
        }
      }
    }
  }

  /** No position inside a clean piece separates, whatever surrounds it. */
  lemma CleanNoSeparator(x: string, s: string, at: nat)
    requires Clean(x) && at + |x| <= |s| && s[at..at + |x|] == x
    ensures forall j :: at <= j < at + |x| ==> !IsSeparator(s, j)
  {
    forall j | at <= j < at + |x| ensures !IsSeparator(s, j) {
      var i := j - at;
      assert s[j] == x[i];
      if x[i] == ':' {
        assert PairedAt(x, i);
        if i > 0 && x[i - 1] == ':' {
          assert s[j - 1] == x[i - 1];
        } else {
          assert s[j + 1] == x[i + 1];
        }
      }
    }
  }

  /** A clean piece at `at` is cut exactly at its end: at the lone ':' that
      follows it, or at the end of the line. */
  lemma CleanCut(x: string, s: string, at: nat)
    requires Clean(x) && at + |x| <= |s| && s[at..at + |x|] == x
    requires at + |x| < |s| ==> s[at + |x|] == ':' && at + |x| + 1 < |s| && s[at + |x| + 1] != ':'
    ensures NextSeparator(s, at) == at + |x|
  {
    var end := at + |x|;
    CleanNoSeparator(x, s, at);
    if end < |s| {
      assert s[end - 1] == x[|x| - 1];
      assert IsSeparator(s, end);
    }
    NextSeparatorIs(s, at, end);
  }

  lemma JoinFirst(xs: seq<string>)
    requires |xs| > 0 && |xs[0]| > 0
    ensures |Join(xs, ":")| > 0 && Join(xs, ":")[0] == xs[0][0]
  {
  }

  /** The first piece of a joined rest of a line ends at the first separator,
      and after that separator come the other pieces. */
  lemma FirstPiece(s: string, from: nat, xs: seq<string>)
    requires |xs| > 0 && Clean(xs[0]) && (|xs| > 1 ==> Clean(xs[1]))
    requires from <= |s| && s[from..] == Join(xs, ":")
    ensures var end := from + |xs[0]|;
      end <= |s| && NextSeparator(s, from) == end && s[from..end] == xs[0]
      && (|xs| == 1 ==> end == |s|)
      && (|xs| > 1 ==> end < |s| && s[end + 1..] == Join(xs[1..], ":"))
  {
    var x := xs[0];
    var end := from + |x|;
    if |xs| == 1 {
      SuffixSplit(s, from, x, []);
    } else {
      var t := Join(xs[1..], ":");
      assert Join(xs, ":") == x + (":" + t);
      JoinFirst(xs[1..]);
      SuffixSplit(s, from, x, ":" + t);
      SuffixSplit(s, end, ":", t);
      assert s[end] == s[end..][0] == ':';
      assert s[end + 1] == t[0];
    }
    CleanCut(x, s, from);
  }

  /** From the start of the line or just after a separator, a line joined from
      clean pieces splits into exactly those pieces. */
  lemma {:induction false} PiecesOfClean(s: string, from: nat, xs: seq<string>)
    requires |xs| > 0 && forall i :: 0 <= i < |xs| ==> Clean(xs[i])
    requires from <= |s| && s[from..] == Join(xs, ":")
    ensures Pieces(s, from) == xs
    decreases |xs|
  {
    if |xs| == 1 {
      PiecesOfOne(s, from, xs);
    } else {
      var end := from + |xs[0]|;
      var rest := xs[1..];
      FirstPiece(s, from, xs);
      assert forall i :: 0 <= i < |rest| ==> rest[i] == xs[i + 1];
      PiecesOfClean(s, end + 1, rest);
      PiecesCons(s, from, end, xs[0], rest);
      assert xs == [xs[0]] + rest;
    }
  }

  lemma PiecesOfOne(s: string, from: nat, xs: seq<string>)
    requires |xs| == 1 && Clean(xs[0])
    requires from <= |s| && s[from..] == Join(xs, ":")
    ensures Pieces(s, from) == xs
  {
    FirstPiece(s, from, xs);
    PiecesLast(s, from);
  }

  /** Joining clean pieces with ':' and splitting again gives them back. */
  lemma SplitClean(xs: seq<string>)
    requires |xs| > 0 && forall i :: 0 <= i < |xs| ==> Clean(xs[i])
    ensures Split(Join(xs, ":")) == xs
  {
    var line := Join(xs, ":");
    assert line[0..] == line;
    PiecesOfClean(line, 0, xs);
  }

  // ---------------------------------------------------------------- writing

  /** One `key=value` field as the game writes it. */
  datatype Field = Field(key: string, value: string)

  function EncodeField(f: Field): string
  {
    f.key + "=" + Escape(f.value)
  }

  function EncodeFields(fs: seq<Field>): (r: seq<string>)
    ensures |r| == |fs|
    ensures forall i :: 0 <= i < |fs| ==> r[i] == EncodeField(fs[i])
  {
    if |fs| == 0 then [] else [EncodeField(fs[0])] + EncodeFields(fs[1..])
  }

  lemma {:induction false} EncodeFieldsSnoc(fs: seq<Field>)
    requires |fs| > 0
    ensures EncodeFields(fs) == EncodeFields(fs[..|fs| - 1]) + [EncodeField(fs[|fs| - 1])]
  {
    if |fs| > 1 {
      EncodeFieldsSnoc(fs[1..]);
      assert fs[1..][..|fs| - 2] == fs[..|fs| - 1][1..];
    }
  }

  /** A line the splitter can take apart again: keys are non-empty and hold no
      ':', and no value ends with ':' (its escaped "::" would merge with the
      separator after it). */
  predicate Writable(fs: seq<Field>)
  {
    forall i :: 0 <= i < |fs| ==>
      |fs[i].key| > 0 && (forall c :: c in fs[i].key ==> c != ':')
      && (|fs[i].value| > 0 ==> fs[i].value[|fs[i].value| - 1] != ':')
  }

  lemma {:induction false} EscapedColonsPaired(v: string)
    ensures ColonsPaired(Escape(v))
  {
    if |v| > 0 {
      EscapedColonsPaired(v[1..]);
      if v[0] == ':' {
        PairedAppend("::", Escape(v[1..]));
      } else {
        PairedAppend([v[0]], Escape(v[1..]));
      }
    }
  }

  lemma EscapeLastChar(v: string)
    requires |v| > 0 && v[|v| - 1] != ':'
    ensures |Escape(v)| > 0 && Escape(v)[|Escape(v)| - 1] == v[|v| - 1]
    decreases |v|
  {
    if |v| > 1 {
      EscapeLastChar(v[1..]);
    }
  }

  /** A field of a writable line is a clean piece. */
  lemma EncodedClean(f: Field)
    requires |f.key| > 0 && (forall c :: c in f.key ==> c != ':')
    requires |f.value| > 0 ==> f.value[|f.value| - 1] != ':'
    ensures Clean(EncodeField(f))
  {
    var head := f.key + "=";
    forall i | 0 <= i < |head| ensures head[i] != ':' {
      if i < |f.key| {
        assert head[i] == f.key[i] && f.key[i] in f.key;
      }
    }
    EscapedColonsPaired(f.value);
    PairedAppend(head, Escape(f.value));
    assert EncodeField(f) == head + Escape(f.value);
    assert EncodeField(f)[0] == f.key[0] && f.key[0] in f.key;
    if |f.value| > 0 {
      EscapeLastChar(f.value);
    }
  }

  /** The escaping round trip at the level of fields: splitting a line written
      from fields gives back exactly the written fields. */
  lemma SplitEncoded(fs: seq<Field>)
    requires |fs| > 0 && Writable(fs)
    ensures Split(Join(EncodeFields(fs), ":")) == EncodeFields(fs)
  {
    var es := EncodeFields(fs);
    forall i | 0 <= i < |es| ensures Clean(es[i]) {
      EncodedClean(fs[i]);
    }
    SplitClean(es);
  }
}

=== FILE: log_import.dfy ===
/** The current logfile importer (scoreboard/log_import.py). A logfile line
    `k=v:k=v:...` becomes a record of typed fields, which is validated and
    normalised and then handed to the store with retries. A logfile is read
    from the byte cursor saved for it, and the cursor is saved once the file
    has been read to its end. */
module LogImport {
  import opened Basics
  import opened LineSplit
  import Model

  /** The `game` dict `parse_line` fills. */
  type Record = map<string, Value>

  /** No whitespace at either end: `strip` leaves such a string alone. */
  predicate NoEdgeSpace(s: string)
  {
    |s| == 0 || (!IsSpace(s[0]) && !IsSpace(s[|s| - 1]))
  }

  lemma StripEdges(s: string)
    requires NoEdgeSpace(s)
    ensures Strip(s) == s
  {
    assert StripLeft(s) == s;
  }

  // ---------------------------------------------------------------- fields

  /** `parse_field`: strips key and value; the value becomes an int when
      `int()` accepts it, except under the key "name"; a value that stays a
      string has its "::" turned back into ":". */
  function ParseField(k: string, v: string): (r: (string, Value))
    ensures r.0 == Strip(k)
    ensures Strip(k) == "name" ==> r.1.Str?
    ensures r.1.Str? ==> |r.1.s| <= |Strip(v)|
  {
    var key := Strip(k);
    var value := Strip(v);
    if key != "name" && PyInt(value).Some? then (key, Int(PyInt(value).value))
    else (key, Str(Unescape(value)))
  }

  /** The value a field written by the game is meant to carry: its integer
      when it reads as one (never for "name"), its text otherwise. */
  function FieldValue(f: Field): Value
  {
    if f.key != "name" && PyInt(f.value).Some? then Int(PyInt(f.value).value) else Str(f.value)
  }

  /** A field the writer can emit and the reader takes back: a key with no
      '=' and no surrounding whitespace, a value without surrounding
      whitespace that does not end in ':'. */
  predicate CleanField(f: Field)
  {
    (forall i :: 0 <= i < |f.key| ==> f.key[i] != '=')
    && NoEdgeSpace(f.key) && NoEdgeSpace(f.value)
    && (|f.value| > 0 ==> f.value[|f.value| - 1] != ':')
  }

  /** A value holding a ':' is not an integer, escaped or not. */
  lemma ColonNotInt(s: string, i: nat)
    requires NoEdgeSpace(s) && i < |s| && s[i] == ':'
    ensures PyInt(s).None?
  {
    StripEdges(s);
    assert !AllDigits(s) by {
      assert !IsDigit(s[i]);
    }
    if |s| > 1 && (s[0] == '-' || s[0] == '+') {
      assert i > 0;
      assert s[1..][i - 1] == ':';
    }
  }

  lemma EscapeFirstChar(v: string)
    requires |v| > 0
    ensures |Escape(v)| > 0 && Escape(v)[0] == v[0]
  {
  }

  /** Escaping does not change what `int()` makes of a value. */
  lemma EscapeKeepsInt(v: string)
    requires NoEdgeSpace(v) && (|v| > 0 ==> v[|v| - 1] != ':')
    ensures NoEdgeSpace(Escape(v))
    ensures PyInt(Escape(v)) == PyInt(v)
  {
    if |v| > 0 {
      EscapeFirstChar(v);
      EscapeLastChar(v);
    }
    var i := ColonIndex(v);
    if i < |v| {
      ColonNotInt(v, i);
      var j := EscapeHasColon(v, i);
      ColonNotInt(Escape(v), j);
    } else {
      EscapeHasNoColonOf(v);
    }
  }

  /** The round trip of one field: a written `key=value` is cut at the
      '=' after the key, and `parse_field` gives back the key and the meant
      value. */
  lemma ParseFieldWritten(f: Field)
    requires CleanField(f)
    ensures SplitOnce(EncodeField(f), '=') == Some((f.key, Escape(f.value)))
    ensures ParseField(f.key, Escape(f.value)) == (f.key, FieldValue(f))
  {
    CutAt(f.key, '=', Escape(f.value));
    ParseFieldEscaped(f);
  }

  lemma ParseFieldEscaped(f: Field)
    requires CleanField(f)
    ensures ParseField(f.key, Escape(f.value)) == (f.key, FieldValue(f))
  {
    StripEdges(f.key);
    EscapeKeepsInt(f.value);
    StripEdges(Escape(f.value));
    UnescapeEscape(f.value);
  }

  // ---------------------------------------------------------------- lines

  /** A non-blank field without '=': `parse_line` raises ValueError on it. */
  predicate BadField(field: string)
  {
    !IsBlank(field) && SplitOnce(field, '=').None?
  }

  /** One turn of the field loop of `parse_line`. */
  function AddField(g: Record, field: string): (r: Result<Record>)
    ensures r.Raised? <==> BadField(field)
    ensures r.Raised? ==> r.error == ValueError
    ensures IsBlank(field) ==> r == Ok(g)
  {
    if IsBlank(field) then Ok(g)
    else match SplitOnce(field, '=')
      case None => Raised(ValueError)
      case Some(kv) =>
        var f := ParseField(kv.0, kv.1);
        Ok(g[f.0 := f.1])
  }

  /** The field loop of `parse_line` over the pieces of a line: each field
      is added in turn, so a later key overwrites an earlier one. */
  function FillFields(init: Record, pieces: seq<string>): (r: Result<Record>)
    ensures r.Raised? ==> r.error == ValueError
    decreases |pieces|
  {
    if |pieces| == 0 then Ok(init)
    else
      match FillFields(init, pieces[..|pieces| - 1])
      case Raised(e) => Raised(e)
      case Ok(g) => AddField(g, pieces[|pieces| - 1])
  }

  /** One more turn of the field loop. */
  lemma FillFieldsStep(init: Record, pieces: seq<string>, i: nat, g: Record)
    requires i < |pieces| && FillFields(init, pieces[..i]) == Ok(g)
    ensures FillFields(init, pieces[..i + 1]) == AddField(g, pieces[i])
  {
    assert pieces[..i + 1][..i] == pieces[..i];
  }

  /** A bad field anywhere in the line makes the field loop raise. */
  lemma {:induction false} FillFieldsBadAt(init: Record, pieces: seq<string>, i: nat)
    requires i < |pieces| && BadField(pieces[i])
    ensures FillFields(init, pieces) == Raised(ValueError)
    decreases |pieces|
  {
    var prefix := pieces[..|pieces| - 1];
    if i < |prefix| {
      assert prefix[i] == pieces[i];
      FillFieldsBadAt(init, prefix, i);
      assert FillFields(init, prefix).Raised?;
    } else {
      var field := pieces[|pieces| - 1];
      assert field == pieces[i];
      if FillFields(init, prefix).Ok? {
        assert AddField(FillFields(init, prefix).value, field) == Raised(ValueError);
      }
    }
  }

  /** When the field loop raises, some piece is a bad field. */
  lemma {:induction false} FillFieldsBadWitness(init: Record, pieces: seq<string>) returns (i: nat)
    requires FillFields(init, pieces).Raised?
    ensures i < |pieces| && BadField(pieces[i])
    decreases |pieces|
  {
    assert |pieces| > 0;
    var prefix := pieces[..|pieces| - 1];
    var before := FillFields(init, prefix);
    if before.Raised? {
      i := FillFieldsBadWitness(init, prefix);
      assert pieces[i] == prefix[i];
    } else {
      i := |pieces| - 1;
      assert AddField(before.value, pieces[i]).Raised?;
    }
  }

  /** The record a sequence of written fields is meant to give: each field's
      value under its key, later fields winning. */
  function Written(init: Record, fs: seq<Field>): (r: Record)
    decreases |fs|
  {
    if |fs| == 0 then init
    else Written(init, fs[..|fs| - 1])[fs[|fs| - 1].key := FieldValue(fs[|fs| - 1])]
  }

  /** The field loop adds a written field under its key with its meant value. */
  lemma AddWrittenField(g: Record, f: Field)
    requires CleanField(f)
    ensures AddField(g, EncodeField(f)) == Ok(g[f.key := FieldValue(f)])
  {
    ParseFieldWritten(f);
    NotBlankAt(EncodeField(f), |f.key|);
  }

  lemma NotBlankAt(s: string, i: nat)
    requires i < |s| && !IsSpace(s[i])
    ensures !IsBlank(s)
  {
    BlankIffAllSpace(s);
  }

  lemma FillFieldsSnoc(init: Record, pieces: seq<string>, field: string, g: Record)
    requires FillFields(init, pieces) == Ok(g)
    ensures FillFields(init, pieces + [field]) == AddField(g, field)
  {
    assert (pieces + [field])[..|pieces|] == pieces;
  }

  lemma {:induction false} FillFieldsWritten(init: Record, fs: seq<Field>)
    requires forall i :: 0 <= i < |fs| ==> CleanField(fs[i])
    ensures FillFields(init, EncodeFields(fs)) == Ok(Written(init, fs))
    decreases |fs|
  {
    if |fs| > 0 {
      var p := fs[..|fs| - 1];
      var f := fs[|fs| - 1];
      assert forall i :: 0 <= i < |p| ==> p[i] == fs[i];
      FillFieldsWritten(init, p);
      EncodeFieldsSnoc(fs);
      FillFieldsSnoc(init, EncodeFields(p), EncodeField(f), Written(init, p));
      AddWrittenField(Written(init, p), f);
    }
  }

  /** The escaping round trip of a whole line: splitting a written line and
      running the field loop gives the written fields, each key holding the
      value of its last occurrence. */
  lemma LineRoundTrip(init: Record, fs: seq<Field>)
    requires |fs| > 0 && Writable(fs)
    requires forall i :: 0 <= i < |fs| ==> CleanField(fs[i])
    ensures FillFields(init, Split(Join(EncodeFields(fs), ":"))) == Ok(Written(init, fs))
  {
    SplitEncoded(fs);
    FillFieldsWritten(init, fs);
  }

  /** A field whose key does not occur later gives that key its value:
      a repeated key keeps its last value. */
  lemma {:induction false} WrittenLast(init: Record, fs: seq<Field>, i: nat)
    requires i < |fs| && forall j :: i < j < |fs| ==> fs[j].key != fs[i].key
    ensures fs[i].key in Written(init, fs) && Written(init, fs)[fs[i].key] == FieldValue(fs[i])
    decreases |fs|
  {
    if i < |fs| - 1 {
      var p := fs[..|fs| - 1];
      assert p[i] == fs[i];
      WrittenLast(init, p, i);
    }
  }

  /** A key no field uses keeps its initial value (so only a field named
      "src" can override the server the importer sets). */
  lemma {:induction false} WrittenUntouched(init: Record, fs: seq<Field>, k: string)
    requires forall i :: 0 <= i < |fs| ==> fs[i].key != k
    ensures k in Written(init, fs) <==> k in init
    ensures k in init ==> Written(init, fs)[k] == init[k]
    decreases |fs|
  {
    if |fs| > 0 {
      var p := fs[..|fs| - 1];
      assert forall i :: 0 <= i < |p| ==> p[i] == fs[i];
      WrittenUntouched(init, p, k);
    }
  }

  // ---------------------------------------------------------------- records

  /** `calculate_game_gid`: "name:src:start", each part as `%s` prints it. */
  function GameGid(g: Record): (r: Result<string>)
    ensures r.Raised? <==> "name" !in g || "src" !in g || "start" !in g
    ensures r.Raised? ==> r.error == KeyError(if "name" !in g then "name" else if "src" !in g then "src" else "start")
  {
    if "name" !in g then Raised(KeyError("name"))
    else if "src" !in g then Raised(KeyError("src"))
    else if "start" !in g then Raised(KeyError("start"))
    else Ok(ValueText(g["name"]) + ":" + ValueText(g["src"]) + ":" + ValueText(g["start"]))
  }

  /** The gid can be taken apart again at its first two colons when the
      name and the server hold no ':'. */
  lemma GameGidSplits(g: Record)
    requires "name" in g && "src" in g && "start" in g
    requires forall i :: 0 <= i < |ValueText(g["name"])| ==> ValueText(g["name"])[i] != ':'
    requires forall i :: 0 <= i < |ValueText(g["src"])| ==> ValueText(g["src"])[i] != ':'
    ensures GameGid(g).Ok?
    ensures var rest := ValueText(g["src"]) + ":" + ValueText(g["start"]);
            SplitOnce(GameGid(g).value, ':') == Some((ValueText(g["name"]), rest))
            && SplitOnce(rest, ':') == Some((ValueText(g["src"]), ValueText(g["start"])))
  {
    var name := ValueText(g["name"]);
    var rest := ValueText(g["src"]) + ":" + ValueText(g["start"]);
    assert GameGid(g).value == name + ":" + rest;
    CutAt(name, ':', rest);
    CutAt(ValueText(g["src"]), ':', ValueText(g["start"]));
  }

  /** The length of the run of digits starting at `from`. */
  function DigitRun(s: string, from: nat): (n: nat)
    requires from <= |s|
    ensures from + n <= |s|
    ensures forall i :: from <= i < from + n ==> IsDigit(s[i])
    ensures from + n < |s| ==> !IsDigit(s[from + n])
    decreases |s| - from
  {
    if from < |s| && IsDigit(s[from]) then 1 + DigitRun(s, from + 1) else 0
  }

  /** `re.match('(0.\d+)', v).group()`: "0", one character other than a
      newline, then the longest run of digits, which must not be empty;
      None where the match fails. */
  function VersionPrefix(v: string): (r: Option<string>)
    ensures r.Some? <==> |v| >= 3 && v[0] == '0' && v[1] != '\n' && IsDigit(v[2])
    ensures r.Some? ==> 3 <= |r.value| <= |v| && r.value == v[..|r.value|]
    ensures r.Some? ==> forall i :: 2 <= i < |r.value| ==> IsDigit(v[i])
    ensures r.Some? && |r.value| < |v| ==> !IsDigit(v[|r.value|])
  {
    if |v| >= 3 && v[0] == '0' && v[1] != '\n' && IsDigit(v[2]) then Some(v[..2 + DigitRun(v, 2)])
    else None
  }

  /** Cutting a version is idempotent: a cut version is its own match. */
  lemma VersionPrefixIdempotent(v: string)
    requires VersionPrefix(v).Some?
    ensures VersionPrefix(VersionPrefix(v).value) == VersionPrefix(v)
  {
    var c := VersionPrefix(v).value;
    assert forall i :: 2 <= i < |c| ==> IsDigit(c[i]);
    assert c[..|c|] == c;
  }

  /** The fields `parse_line` adds or replaces after validation. */
  predicate Derived(k: string)
  {
    k == "rc" || k == "bg" || k == "gid" || k == "v" || k == "tmsg" || k == "god"
  }

  lemma KeysDistinct()
    ensures "rc" != "bg" && "rc" != "gid" && "rc" != "v" && "rc" != "tmsg" && "rc" != "god"
    ensures "bg" != "gid" && "bg" != "v" && "bg" != "tmsg" && "bg" != "god"
    ensures "gid" != "v" && "gid" != "tmsg" && "gid" != "god"
    ensures "v" != "tmsg" && "v" != "god" && "tmsg" != "god"
    ensures !Derived("name") && !Derived("src") && !Derived("start")
  {
  }

  /** The validation and derivation steps of `parse_line` once the fields
      are read: None for a record without "start" or with a level other than
      the string "0.1"; errors where the code indexes a missing key
      (KeyError), slices or matches an int (TypeError) or reads the group of
      a failed match (AttributeError). */
  function Normalise(g: Record): (r: Result<Option<Record>>)
    ensures r == Ok(None) <==> "start" !in g || ("lv" in g && g["lv"] != Str("0.1"))
    ensures r.Raised? ==> r.error != ValueError && r.error != LogImportError
  {
    if "start" !in g then Ok(None)
    else if "lv" !in g then Raised(KeyError("lv"))
    else if g["lv"] != Str("0.1") then Ok(None)
    else if "char" !in g then Raised(KeyError("char"))
    else if !g["char"].Str? then Raised(TypeError)
    else
      var g1 := SplitChar(g, g["char"].s);
      match GameGid(g1)
      case Raised(e) => Raised(e)
      case Ok(gid) =>
        var g2 := g1["gid" := Str(gid)];
        if "v" !in g2 then Raised(KeyError("v"))
        else if !g2["v"].Str? then Raised(TypeError)
        else match VersionPrefix(g2["v"].s)
          case None => Raised(AttributeError)
          case Some(v) => Ok(Some(Defaults(g2["v" := Str(v)])))
  }

  /** `rc` and `bg`: the first two characters of `char` and the rest. */
  function SplitChar(g: Record, ch: string): (r: Record)
    ensures r.Keys == g.Keys + {"rc", "bg"}
    ensures r["rc"] == Str(Take(ch, 2)) && r["bg"] == Str(Drop(ch, 2))
    ensures forall k :: k in g && k != "rc" && k != "bg" ==> r[k] == g[k]
  {
    KeysDistinct();
    g["rc" := Str(Take(ch, 2))]["bg" := Str(Drop(ch, 2))]
  }

  /** `setdefault('tmsg', '')` and the "Atheist" default for `god`. */
  function Defaults(g: Record): (r: Record)
    ensures r.Keys == g.Keys + {"tmsg", "god"}
    ensures r["tmsg"] == (if "tmsg" in g then g["tmsg"] else Str(""))
    ensures r["god"] == (if "god" in g then g["god"] else Str("Atheist"))
    ensures forall k :: k in g && k != "tmsg" && k != "god" ==> r[k] == g[k]
  {
    KeysDistinct();
    var g1 := if "tmsg" in g then g else g["tmsg" := Str("")];
    if "god" in g1 then g1 else g1["god" := Str("Atheist")]
  }

  /** The record an accepted `g` becomes, step by step. */
  function Accepted(g: Record): Record
    requires "char" in g && g["char"].Str?
    requires "name" in g && "src" in g && "start" in g && "v" in g && g["v"].Str?
    requires VersionPrefix(g["v"].s).Some?
  {
    var g1 := SplitChar(g, g["char"].s);
    var g2 := g1["gid" := Str(ValueText(g["name"]) + ":" + ValueText(g["src"]) + ":" + ValueText(g["start"]))];
    Defaults(g2["v" := Str(VersionPrefix(g["v"].s).value)])
  }

  lemma NormaliseIsAccepted(g: Record)
    requires Normalise(g).Ok? && Normalise(g).value.Some?
    ensures "start" in g && "lv" in g && g["lv"] == Str("0.1") && "char" in g && g["char"].Str?
    ensures "name" in g && "src" in g && "v" in g && g["v"].Str? && VersionPrefix(g["v"].s).Some?
    ensures Normalise(g).value.value == Accepted(g)
  {
    KeysDistinct();
    var g1 := SplitChar(g, g["char"].s);
    assert g1["name"] == g["name"] && g1["src"] == g["src"] && g1["start"] == g["start"];
    var g2 := g1["gid" := Str(GameGid(g1).value)];
    assert g2["v"] == g["v"];
  }

  /** What an accepted record holds: every field read, unchanged unless it
      is one of the derived fields, plus rc/bg from `char`, the gid, the cut
      version and the defaults for tmsg and god. */
  lemma NormaliseAccepted(g: Record)
    requires Normalise(g).Ok? && Normalise(g).value.Some?
    ensures "start" in g && "lv" in g && g["lv"] == Str("0.1") && "char" in g && g["char"].Str?
    ensures "name" in g && "src" in g && "v" in g && g["v"].Str? && VersionPrefix(g["v"].s).Some?
    ensures var out := Normalise(g).value.value;
      && (forall k :: k in g ==> k in out)
      && (forall k :: k in g && !Derived(k) ==> out[k] == g[k])
      && "rc" in out && out["rc"] == Str(Take(g["char"].s, 2))
      && "bg" in out && out["bg"] == Str(Drop(g["char"].s, 2))
      && "gid" in out
      && out["gid"] == Str(ValueText(g["name"]) + ":" + ValueText(g["src"]) + ":" + ValueText(g["start"]))
      && "v" in out && out["v"] == Str(VersionPrefix(g["v"].s).value)
      && "tmsg" in out && out["tmsg"] == (if "tmsg" in g then g["tmsg"] else Str(""))
      && "god" in out && out["god"] == (if "god" in g then g["god"] else Str("Atheist"))
  {
    NormaliseIsAccepted(g);
    AcceptedFields(g);
  }

  lemma AcceptedFields(g: Record)
    requires "char" in g && g["char"].Str?
    requires "name" in g && "src" in g && "start" in g && "v" in g && g["v"].Str?
    requires VersionPrefix(g["v"].s).Some?
    ensures var out := Accepted(g);
      && (forall k :: k in g ==> k in out)
      && (forall k :: k in g && !Derived(k) ==> out[k] == g[k])
      && "rc" in out && out["rc"] == Str(Take(g["char"].s, 2))
      && "bg" in out && out["bg"] == Str(Drop(g["char"].s, 2))
      && "gid" in out
      && out["gid"] == Str(ValueText(g["name"]) + ":" + ValueText(g["src"]) + ":" + ValueText(g["start"]))
      && "v" in out && out["v"] == Str(VersionPrefix(g["v"].s).value)
      && "tmsg" in out && out["tmsg"] == (if "tmsg" in g then g["tmsg"] else Str(""))
      && "god" in out && out["god"] == (if "god" in g then g["god"] else Str("Atheist"))
  {
    KeysDistinct();
    var g1 := SplitChar(g, g["char"].s);
    var g2 := g1["gid" := Str(ValueText(g["name"]) + ":" + ValueText(g["src"]) + ":" + ValueText(g["start"]))];
    var g3 := g2["v" := Str(VersionPrefix(g["v"].s).value)];
    assert g3["rc"] == g1["rc"] && g3["bg"] == g1["bg"];
  }

  /** The record `parse_line` starts from. */
  function InitialRecord(src: string): (r: Record)
    ensures r.Keys == {"src"} && r["src"] == Str(src)
  {
    map["src" := Str(src)]
  }

  /** What `parse_line` returns: None for a line holding a NUL character;
      ValueError for a bad field; otherwise the normalised record. */
  function ParsedLine(line: string, src: string): (r: Result<Option<Record>>)
    ensures '\0' in line ==> r == Ok(None)
    ensures r.Raised? ==> r.error != LogImportError
  {
    if '\0' in line then Ok(None)
    else match FillFields(InitialRecord(src), Split(line))
      case Raised(e) => Raised(e)
      case Ok(g) => Normalise(g)
  }

  /** Without a NUL character, a line raises ValueError exactly when one
      of its pieces is a non-blank field without '='. */
  lemma ParsedLineValueError(line: string, src: string)
    requires '\0' !in line
    ensures ParsedLine(line, src) == Raised(ValueError)
            <==> exists i :: 0 <= i < |Split(line)| && BadField(Split(line)[i])
  {
    var pieces := Split(line);
    if ParsedLine(line, src) == Raised(ValueError) {
      var i := FillFieldsBadWitness(InitialRecord(src), pieces);
    }
    if exists i :: 0 <= i < |pieces| && BadField(pieces[i]) {
      var i :| 0 <= i < |pieces| && BadField(pieces[i]);
      FillFieldsBadAt(InitialRecord(src), pieces, i);
    }
  }

  /** `parse_line` */
  method ParseLine(line: string, src: string) returns (r: Result<Option<Record>>)
    ensures r == ParsedLine(line, src)
  {
    if '\0' in line {
      return Ok(None);
    }
    var game := InitialRecord(src);
    var pieces := Split(line);
    var i := 0;
    while i < |pieces|
      invariant 0 <= i <= |pieces|
      invariant FillFields(InitialRecord(src), pieces[..i]) == Ok(game)
    {
      var field := pieces[i];
      FillFieldsStep(InitialRecord(src), pieces, i, game);
      if !IsBlank(field) {
        match SplitOnce(field, '=') {
          case None =>
            FillFieldsBadAt(InitialRecord(src), pieces, i);
            return Raised(ValueError);
          case Some(kv) =>
            var f := ParseField(kv.0, kv.1);
            game := game[f.0 := f.1];
        }
      }
      i := i + 1;
    }
    assert pieces[..|pieces|] == pieces;
    r := Normalise(game);
  }

  // ---------------------------------------------------------------- storing

  /** What `handle_line` returns: False for a line that is not a game, True
      once the insert succeeds, LogImportError when the insert raises
      DBError three times. `failures` is how many times in a row the insert
      raises DBError before it succeeds. */
  function HandledLine(line: string, src: string, failures: nat): (r: Result<bool>)
    ensures r == Ok(false) <==> ParsedLine(line, src) == Ok(None)
    ensures r == Ok(true) <==> ParsedLine(line, src).Ok? && ParsedLine(line, src).value.Some? && failures < 3
    ensures r == Raised(LogImportError) <==>
      ParsedLine(line, src).Ok? && ParsedLine(line, src).value.Some? && failures >= 3
    ensures ParsedLine(line, src).Raised? ==> r == Raised(ParsedLine(line, src).error)
  {
    match ParsedLine(line, src)
    case Raised(e) => Raised(e)
    case Ok(None) => Ok(false)
    case Ok(Some(_)) => if failures < 3 then Ok(true) else Raised(LogImportError)
  }

  /** `handle_line` with its retry loop; `attempts` counts the calls to the
      insert, never more than three. */
  method HandleLine(line: string, src: string, failures: nat) returns (r: Result<bool>, attempts: nat)
    ensures r == HandledLine(line, src, failures)
    ensures attempts == (if r == Ok(true) then failures + 1 else if r == Raised(LogImportError) then 3 else 0)
    ensures attempts <= 3
  {
    var game := ParseLine(line, src);
    attempts := 0;
    if game.Raised? {
      return Raised(game.error), 0;
    }
    if game.value.None? {
      return Ok(false), 0;
    }
    var tries := 0;
    var success := false;
    while !success
      invariant !success ==> attempts == tries && tries <= failures && tries < 3
      invariant success ==> attempts == failures + 1 && failures < 3
      decreases !success, 3 - tries
    {
      attempts := attempts + 1;
      if attempts <= failures {
        // the insert raised DBError and the session is rolled back
        tries := tries + 1;
        if tries == 3 {
          return Raised(LogImportError), attempts;
        }
      } else {
        success := true;
      }
    }
    r := Ok(success);
  }

  // ---------------------------------------------------------------- logfiles

  function Concat(r: seq<string>): string
  {
    if |r| == 0 then "" else r[0] + Concat(r[1..])
  }

  /** The length of the first line of a non-empty text, its '\n' included. */
  function LineLength(s: string): (n: nat)
    requires |s| > 0
    ensures 0 < n <= |s|
    ensures n < |s| ==> s[n - 1] == '\n'
    decreases |s|
  {
    if s[0] == '\n' || |s| == 1 then 1 else 1 + LineLength(s[1..])
  }

  /** A first line holds no '\n' before its end. */
  lemma {:induction false} LineLengthFirst(s: string)
    requires |s| > 0
    ensures forall j :: 0 <= j < LineLength(s) - 1 ==> s[j] != '\n'
    decreases |s|
  {
    if s[0] != '\n' && |s| > 1 {
      LineLengthFirst(s[1..]);
      forall j | 0 < j < LineLength(s) - 1 ensures s[j] != '\n' {
        assert s[j] == s[1..][j - 1];
      }
    }
  }

  /** Iterating over a text file: the text cut after every '\n'. */
  function Lines(s: string): seq<string>
    decreases |s|
  {
    if |s| == 0 then [] else [s[..LineLength(s)]] + Lines(s[LineLength(s)..])
  }

  /** The lines make up the text. */
  lemma {:induction false} LinesConcat(s: string)
    ensures Concat(Lines(s)) == s
    decreases |s|
  {
    if |s| > 0 {
      var n := LineLength(s);
      var rest := s[n..];
      LinesConcat(rest);
      assert Lines(s) == [s[..n]] + Lines(rest);
      assert s == s[..n] + rest;
    }
  }

  /** Each line is non-empty, holds a '\n' only at its end, and all but the
      last end with one. */
  lemma {:induction false} LinesShape(s: string)
    ensures forall i :: 0 <= i < |Lines(s)| ==> |Lines(s)[i]| > 0
    ensures forall i, j :: 0 <= i < |Lines(s)| && 0 <= j < |Lines(s)[i]| - 1 ==> Lines(s)[i][j] != '\n'
    ensures forall i :: 0 <= i < |Lines(s)| - 1 ==> Lines(s)[i][|Lines(s)[i]| - 1] == '\n'
    decreases |s|
  {
    if |s| > 0 {
      var n := LineLength(s);
      var rest := s[n..];
      var tail := Lines(rest);
      LinesShape(rest);
      LineLengthFirst(s);
      var r := Lines(s);
      assert r == [s[..n]] + tail;
      forall i | 0 < i < |r| ensures r[i] == tail[i - 1] {
      }
    }
  }

  /** The first line of a text that has a line break is unchanged by text
      added after it. */
  lemma {:induction false} LineLengthAppend(a: string, b: string)
    requires |a| > 0 && a[|a| - 1] == '\n'
    ensures LineLength(a + b) == LineLength(a)
    decreases |a|
  {
    if a[0] != '\n' {
      assert (a + b)[1..] == a[1..] + b;
      LineLengthAppend(a[1..], b);
    }
  }

  /** Text read in two parts, the first ending at a line break, gives the
      lines of the whole: resuming at a saved cursor loses or repeats no
      line. */
  lemma {:induction false} LinesAppend(a: string, b: string)
    requires |a| == 0 || a[|a| - 1] == '\n'
    ensures Lines(a + b) == Lines(a) + Lines(b)
    decreases |a|
  {
    if |a| == 0 {
      assert a + b == b;
    } else {
      var n := LineLength(a);
      LineLengthAppend(a, b);
      var ab := a + b;
      assert ab[..n] == a[..n];
      assert ab[n..] == a[n..] + b;
      LinesAppend(a[n..], b);
    }
  }

  /** How `load_logfile` sees one line: the outcome of `handle_line`. */
  function Handler(src: string, failures: string -> nat): string -> Result<bool>
  {
    line => HandledLine(line, src, failures(line))
  }

  /** A line that ends the reading of its logfile: a non-blank line whose
      handling raises anything but LogImportError. */
  predicate Aborts(line: string, handle: string -> Result<bool>)
  {
    !IsBlank(line) && handle(line).Raised? && handle(line).error != LogImportError
  }

  /** The two counters of `load_logfile` after reading `lines` (lines read,
      and non-blank lines whose handling did not raise), or the error that
      ended the reading. */
  function LoadLines(lines: seq<string>, handle: string -> Result<bool>): (r: Result<(nat, nat)>)
    ensures r.Ok? ==> r.value.0 == |lines| && r.value.1 <= |lines|
    ensures r.Raised? ==> r.error != LogImportError
    decreases |lines|
  {
    if |lines| == 0 then Ok((0, 0))
    else LoadStep(LoadLines(lines[..|lines| - 1], handle), lines[|lines| - 1], handle)
  }

  /** One turn of the reading loop of `load_logfile`. */
  function LoadStep(prev: Result<(nat, nat)>, line: string, handle: string -> Result<bool>): (r: Result<(nat, nat)>)
    ensures prev.Raised? ==> r == prev
    ensures prev.Ok? && r.Ok? ==> r.value.0 == prev.value.0 + 1
    ensures prev.Ok? && r.Ok? ==> r.value.1 == prev.value.1 + (if IsBlank(line) || handle(line).Raised? then 0 else 1)
    ensures r.Raised? && prev.Ok? <==> prev.Ok? && Aborts(line, handle)
    ensures r.Raised? ==> prev.Raised? || r.error == handle(line).error
  {
    match prev
    case Raised(e) => Raised(e)
    case Ok(counts) =>
      if IsBlank(line) then Ok((counts.0 + 1, counts.1))
      else match handle(line)
        case Ok(_) => Ok((counts.0 + 1, counts.1 + 1))
        case Raised(e) =>
          if e == LogImportError then Ok((counts.0 + 1, counts.1)) else Raised(e)
  }

  lemma LoadLinesStep(lines: seq<string>, i: nat, handle: string -> Result<bool>)
    requires i < |lines|
    ensures LoadLines(lines[..i + 1], handle) == LoadStep(LoadLines(lines[..i], handle), lines[i], handle)
  {
    assert lines[..i + 1][..i] == lines[..i];
  }

  /** A line that aborts ends the reading of the whole file with an error. */
  lemma {:induction false} LoadLinesAbortAt(lines: seq<string>, i: nat, handle: string -> Result<bool>)
    requires i < |lines| && Aborts(lines[i], handle)
    ensures LoadLines(lines, handle).Raised?
    decreases |lines|
  {
    var prefix := lines[..|lines| - 1];
    if i < |prefix| {
      assert prefix[i] == lines[i];
      LoadLinesAbortAt(prefix, i, handle);
      assert LoadLines(prefix, handle).Raised?;
    } else {
      var line := lines[|lines| - 1];
      assert line == lines[i];
      assert !IsBlank(line) && handle(line).Raised? && handle(line).error != LogImportError;
    }
  }

  /** When the reading ends with an error, some line aborted it. */
  lemma {:induction false} LoadLinesAbortWitness(lines: seq<string>, handle: string -> Result<bool>) returns (i: nat)
    requires LoadLines(lines, handle).Raised?
    ensures i < |lines| && Aborts(lines[i], handle)
    decreases |lines|
  {
    var prefix := lines[..|lines| - 1];
    if LoadLines(prefix, handle).Raised? {
      i := LoadLinesAbortWitness(prefix, handle);
      assert lines[i] == prefix[i];
    } else {
      i := |lines| - 1;
    }
  }

  /** Once a line has aborted the reading, later lines change nothing. */
  lemma {:induction false} LoadLinesAbortStays(lines: seq<string>, i: nat, handle: string -> Result<bool>)
    requires i <= |lines| && LoadLines(lines[..i], handle).Raised?
    ensures LoadLines(lines, handle) == LoadLines(lines[..i], handle)
    decreases |lines| - i
  {
    if i < |lines| {
      assert lines[..i + 1][..i] == lines[..i];
      LoadLinesAbortStays(lines, i + 1, handle);
    } else {
      assert lines[..i] == lines;
    }
  }

  /** Reading in two sessions adds up to reading once: the counters of the
      second part add to those of the first. */
  lemma {:induction false} LoadLinesAppend(a: seq<string>, b: seq<string>, handle: string -> Result<bool>)
    requires LoadLines(a, handle).Ok?
    ensures LoadLines(a + b, handle).Ok? <==> LoadLines(b, handle).Ok?
    ensures LoadLines(b, handle).Ok? ==>
      LoadLines(a + b, handle).value.1 == LoadLines(a, handle).value.1 + LoadLines(b, handle).value.1
    decreases |b|
  {
    if |b| > 0 {
      var bp := b[..|b| - 1];
      var x := b[|b| - 1];
      var first := LoadLines(a, handle).value;
      LoadLinesAppend(a, bp, handle);
      LoadLinesAppendStep(a, b, handle);
      var r1 := LoadLines(a + bp, handle);
      var r2 := LoadLines(bp, handle);
      assert LoadLines(a + b, handle) == LoadStep(r1, x, handle);
      assert LoadLines(b, handle) == LoadStep(r2, x, handle);
      if r2.Ok? {
        assert first.0 == |a| && r2.value.0 == |bp|;
        LoadStepShift(r2.value, first, r1.value, x, handle);
      }
    } else {
      assert a + b == a;
    }
  }

  lemma LoadLinesAppendStep(a: seq<string>, b: seq<string>, handle: string -> Result<bool>)
    requires |b| > 0
    ensures LoadLines(a + b, handle) == LoadStep(LoadLines(a + b[..|b| - 1], handle), b[|b| - 1], handle)
  {
    AppendInit(a, b);
  }

  lemma AppendInit<T>(a: seq<T>, b: seq<T>)
    requires |b| > 0
    ensures (a + b)[..|a + b| - 1] == a + b[..|b| - 1] && (a + b)[|a + b| - 1] == b[|b| - 1]
  {
  }

  /** A turn does not depend on the counters it starts from. */
  lemma LoadStepShift(c: (nat, nat), d: (nat, nat), e: (nat, nat), line: string, handle: string -> Result<bool>)
    requires e.0 == c.0 + d.0 && e.1 == c.1 + d.1
    ensures var r := LoadStep(Ok(c), line, handle);
      var q := LoadStep(Ok(e), line, handle);
      r.Ok? == q.Ok? && (r.Ok? ==> q.value.0 == r.value.0 + d.0 && q.value.1 == r.value.1 + d.1)
  {
  }

  /** A line that is a game the insert takes within three attempts. */
  predicate Importable(line: string, src: string, failures: string -> nat)
  {
    !IsBlank(line) && ParsedLine(line, src).Ok? && ParsedLine(line, src).value.Some?
    && failures(line) < 3
  }

  /** Such a line is handled as a new game. */
  lemma ImportableHandled(line: string, src: string, failures: string -> nat)
    requires Importable(line, src, failures)
    ensures Handler(src, failures)(line) == Ok(true)
  {
  }

  /** A non-blank line handled as a new game counts as read and as new. */
  lemma LoadStepImported(c: (nat, nat), line: string, handle: string -> Result<bool>)
    requires !IsBlank(line) && handle(line) == Ok(true)
    ensures LoadStep(Ok(c), line, handle) == Ok((c.0 + 1, c.1 + 1))
  {
    var r := LoadStep(Ok(c), line, handle);
    assert r.Ok?;
    assert r.value.0 == c.0 + 1;
    assert r.value.1 == c.1 + 1;
  }

  /** A file whose lines are all games that the insert takes within three
      attempts is imported whole. */
  lemma {:induction false} LoadLinesAllImported(lines: seq<string>, src: string, failures: string -> nat)
    requires forall i :: 0 <= i < |lines| ==> Importable(lines[i], src, failures)
    ensures LoadLines(lines, Handler(src, failures)) == Ok((|lines|, |lines|))
    decreases |lines|
  {
    if |lines| > 0 {
      var p := lines[..|lines| - 1];
      var n := |p|;
      assert forall i :: 0 <= i < |p| ==> p[i] == lines[i];
      LoadLinesAllImported(p, src, failures);
      assert LoadLines(lines, Handler(src, failures))
        == LoadStep(LoadLines(p, Handler(src, failures)), lines[n], Handler(src, failures));
      ImportableHandled(lines[n], src, failures);
      LoadStepImported((n, n), lines[n], Handler(src, failures));
    }
  }

  /** `handle_line` as written: the insert calls `model.add_game`, a name
      the model module does not define, so every line that parses to a game
      raises AttributeError, which the retry loop (it catches DBError only)
      lets through. */
  function HandledLineAsWritten(line: string, src: string): (r: Result<bool>)
    ensures r == Ok(false) <==> ParsedLine(line, src) == Ok(None)
    ensures ParsedLine(line, src).Ok? && ParsedLine(line, src).value.Some? ==> r == Raised(AttributeError)
    ensures ParsedLine(line, src).Raised? ==> r == Raised(ParsedLine(line, src).error)
  {
    match ParsedLine(line, src)
    case Raised(e) => Raised(e)
    case Ok(None) => Ok(false)
    case Ok(Some(_)) => Raised(AttributeError)
  }

  /** The insert `handle_line` calls: as written a name the model module
      does not define, or as intended an insert that raises DBError
      `failures(line)` times in a row before it succeeds. */
  datatype AddGame = Undefined | Inserts(failures: string -> nat)

  /** How `load_logfile` sees one line, for either insert. */
  function LineHandler(src: string, add: AddGame): string -> Result<bool>
  {
    match add
    case Undefined => line => HandledLineAsWritten(line, src)
    case Inserts(failures) => Handler(src, failures)
  }

  /** `handle_line` for either insert; the undefined name raises at the
      first call, before the retry loop can catch anything. */
  method HandleLineWith(line: string, src: string, add: AddGame) returns (r: Result<bool>)
    ensures r == LineHandler(src, add)(line)
  {
    match add
    case Undefined =>
      r := HandledLineAsWritten(line, src);
    case Inserts(failures) =>
      var attempts;
      r, attempts := HandleLine(line, src, failures(line));
  }

  /** As written, one line that parses to a game ends the reading of its
      file with an error (AttributeError, unless an earlier line raised). */
  lemma LoadLinesAsWrittenStops(lines: seq<string>, src: string, i: nat)
    requires i < |lines| && !IsBlank(lines[i])
    requires ParsedLine(lines[i], src).Ok? && ParsedLine(lines[i], src).value.Some?
    ensures LoadLines(lines, LineHandler(src, Undefined)).Raised?
  {
    LoadLinesAbortAt(lines, i, LineHandler(src, Undefined));
  }

  function Max(a: nat, b: nat): nat
  {
    if a < b then b else a
  }

  /** The byte cursor stored for a logfile; a file never seen starts at 0. */
  function Cursor(progress: map<string, nat>, logfile: string): nat
  {
    if logfile in progress then progress[logfile] else 0
  }

  /** Reading a cursor leaves the progress table as it would be with the
      cursor written back: a file already seen keeps its table as it was,
      and a file never seen gets a new entry at 0. */
  lemma CursorCreated(progress: map<string, nat>, logfile: string)
    ensures logfile in progress ==> progress == progress[logfile := Cursor(progress, logfile)]
    ensures logfile !in progress ==> Cursor(progress, logfile) == 0
    ensures var after := progress[logfile := Cursor(progress, logfile)];
            logfile in after && after[logfile] == Cursor(progress, logfile)
            && forall f :: f != logfile ==> (f in after <==> f in progress)
  {
  }

  lemma Overwrite(m: map<string, nat>, k: string, a: nat, b: nat)
    ensures m[k := a][k := b] == m[k := b]
  {
  }

  /** The reading loop of `load_logfile`: counts every line, skips blank
      ones, reports a LogImportError and goes on, and stops at any other
      error. */
  method ReadLines(lines: seq<string>, src: string, add: AddGame) returns (r: Result<(nat, nat)>)
    ensures r == LoadLines(lines, LineHandler(src, add))
  {
    ghost var handle := LineHandler(src, add);
    var count := 0;
    var newGames := 0;
    var i := 0;
    while i < |lines|
      invariant 0 <= i <= |lines|
      invariant LoadLines(lines[..i], handle) == Ok((count, newGames))
    {
      var line := lines[i];
      LoadLinesStep(lines, i, handle);
      ghost var next := LoadStep(Ok((count, newGames)), line, handle);
      count := count + 1;
      if !IsBlank(line) {
        var handled := HandleLineWith(line, src, add);
        if handled.Raised? && handled.error != LogImportError {
          assert next == Raised(handled.error);
          LoadLinesAbortStays(lines, i + 1, handle);
          return Raised(handled.error);
        }
        if handled.Ok? {
          newGames := newGames + 1;
        }
      }
      assert next == Ok((count, newGames));
      i := i + 1;
    }
    assert lines[..|lines|] == lines;
    r := Ok((count, newGames));
  }

  /** `load_logfile`. The file's text is `data`; `add` is the insert behind
      each line, and what it adds to the games, accounts and players tables
      is outside this model. An empty
      file is left alone. Otherwise reading resumes at the stored cursor, and the cursor
      moves to the end of the file only when the reading was not ended by an
      error. The counters of the closing message are returned. */
  method LoadLogfile(store: Model.Store, logfile: string, src: string, data: string,
                     add: AddGame) returns (r: Result<(nat, nat)>)
    modifies store
    ensures |data| == 0 ==> r == Ok((0, 0)) && store.progress == old(store.progress)
    ensures |data| > 0 ==>
      r == LoadLines(Lines(Drop(data, old(Cursor(store.progress, logfile)))), LineHandler(src, add))
    ensures |data| > 0 && r.Ok? ==>
      store.progress == old(store.progress)[logfile := Max(old(Cursor(store.progress, logfile)), |data|)]
    ensures |data| > 0 && r.Raised? ==>
      store.progress == old(store.progress)[logfile := old(Cursor(store.progress, logfile))]
    ensures store.streaks == old(store.streaks) && store.catalogue == old(store.catalogue)
  {
    if |data| == 0 {
      return Ok((0, 0));
    }
    ghost var before := store.progress;
    ghost var start := Cursor(before, logfile);
    var pos := store.GetLogfileProgress(logfile);
    assert pos == start && store.progress == before[logfile := start] by {
      CursorCreated(before, logfile);
    }
    var lines := Lines(Drop(data, pos));
    r := ReadLines(lines, src, add);
    if r.Ok? {
      store.SaveLogfileProgress(logfile, Max(pos, |data|));
      Overwrite(before, logfile, pos, Max(pos, |data|));
    }
  }

  /** `load_logfile` as written: once a line after the stored cursor parses
      to a game, the reading ends with an error and the cursor stays where
      it was, so the same lines are read again on every run. */
  method LoadLogfileAsWritten(store: Model.Store, logfile: string, src: string, data: string, i: nat)
      returns (r: Result<(nat, nat)>)
    requires |data| > 0
    requires var lines := Lines(Drop(data, Cursor(store.progress, logfile)));
             i < |lines| && !IsBlank(lines[i])
             && ParsedLine(lines[i], src).Ok? && ParsedLine(lines[i], src).value.Some?
    modifies store
    ensures r.Raised?
    ensures store.progress == old(store.progress)[logfile := old(Cursor(store.progress, logfile))]
    ensures Cursor(store.progress, logfile) == old(Cursor(store.progress, logfile))
  {
    LoadLinesAsWrittenStops(Lines(Drop(data, Cursor(store.progress, logfile))), src, i);
    r := LoadLogfile(store, logfile, src, data, Undefined);
  }
}

=== FILE: model.dfy ===
/** The scoreboard database as an in-memory store (scoreboard/model.py):
    get-or-create of players and accounts, the logfile progress cursor,
    catalogue loaders, streak creation and the read-only queries. Row ids are
    positions in the store's sequences. SQL leaves the order of rows with equal
    sort keys open; the model keeps them in insertion order. */
module Model {
  import opened Basics
  import opened Sorting
  import opened Orm

  // ---------------------------------------------------------------- errors

  /** What a wrapped database call can raise. */
  datatype Exception =
    | KeyboardInterrupt
    | DBErrorExc
    | DBIntegrityErrorExc
    | SqlIntegrityError
    | OtherException(name: string)

  /** `_reraise_dberror`: the exception the decorated call lets out. */
  function ReraiseDbError(e: Exception): (r: Exception)
    ensures r.KeyboardInterrupt? || r.DBErrorExc? || r.DBIntegrityErrorExc?
    ensures (e.KeyboardInterrupt? || e.DBErrorExc? || e.DBIntegrityErrorExc?) ==> r == e
    ensures e.SqlIntegrityError? ==> r == DBIntegrityErrorExc
    ensures e.OtherException? ==> r == DBErrorExc
  {
    match e
    case KeyboardInterrupt => e
    case DBErrorExc => e
    case DBIntegrityErrorExc => e
    case SqlIntegrityError => DBIntegrityErrorExc
    case OtherException(_) => DBErrorExc
  }

  /** Wrapping twice is wrapping once: an already wrapped error is not re-wrapped. */
  lemma ReraiseIdempotent(e: Exception)
    ensures ReraiseDbError(ReraiseDbError(e)) == ReraiseDbError(e)
  {
  }

  datatype Outcome<T> = Returned(value: T) | Threw(exc: Exception)

  /** The decorated function: results pass through, exceptions are mapped. */
  function Reraising<T>(o: Outcome<T>): (r: Outcome<T>)
    ensures o.Returned? ==> r == o
    ensures o.Threw? ==> r == Threw(ReraiseDbError(o.exc))
  {
    match o
    case Returned(_) => o
    case Threw(e) => Threw(ReraiseDbError(e))
  }

  // ---------------------------------------------------------------- invariants

  predicate PlayerNamesUnique(ps: seq<Player>)
  {
    forall i, j :: 0 <= i < j < |ps| ==> Lower(ps[i].name) != Lower(ps[j].name)
  }

  /** Every account points at an existing player of the same lowercased name,
      and no two accounts share a lowercased name on one server. */
  predicate AccountsLinked(accs: seq<Account>, ps: seq<Player>)
  {
    (forall i :: 0 <= i < |accs| ==>
       accs[i].playerId < |ps| && Lower(ps[accs[i].playerId].name) == Lower(accs[i].name))
    && (forall i, j :: 0 <= i < j < |accs| ==>
       !(Lower(accs[i].name) == Lower(accs[j].name) && accs[i].server == accs[j].server))
  }

  predicate StreaksOwned(sts: seq<Streak>, ps: seq<Player>)
  {
    forall i :: 0 <= i < |sts| ==> sts[i].playerId < |ps|
  }

  /** Games point at existing accounts and streaks, and gids are unique. */
  predicate GamesLinked(gs: seq<Game>, accs: seq<Account>, sts: seq<Streak>)
  {
    (forall i :: 0 <= i < |gs| ==>
       gs[i].accountId < |accs| && (gs[i].streak.Some? ==> gs[i].streak.value < |sts|))
    && (forall i, j :: 0 <= i < j < |gs| ==> gs[i].gid != gs[j].gid)
  }

  predicate HasActiveStreak(sts: seq<Streak>, pid: nat)
  {
    exists i :: 0 <= i < |sts| && sts[i].playerId == pid && sts[i].active
  }

  /** The promise of the Streak table: at most one active streak per player. */
  predicate OneActiveStreakPerPlayer(sts: seq<Streak>)
  {
    forall i, j :: 0 <= i < j < |sts| && sts[i].active && sts[j].active ==>
      sts[i].playerId != sts[j].playerId
  }

  // ---------------------------------------------------------------- lookups

  /** The first player whose lowercased name matches. */
  function FindPlayer(ps: seq<Player>, name: string): (r: Option<nat>)
    ensures r.Some? ==> r.value < |ps| && Lower(ps[r.value].name) == Lower(name)
    ensures r.None? <==> forall i :: 0 <= i < |ps| ==> Lower(ps[i].name) != Lower(name)
  {
    if |ps| == 0 then None
    else if Lower(ps[0].name) == Lower(name) then Some(0)
    else match FindPlayer(ps[1..], name)
         case None => None
         case Some(k) => Some(k + 1)
  }

  /** The account with this lowercased name on this server. */
  function FindAccount(accs: seq<Account>, name: string, server: string): (r: Option<nat>)
    ensures r.Some? ==> r.value < |accs| && Lower(accs[r.value].name) == Lower(name)
                        && accs[r.value].server == server
    ensures r.None? <==> forall i :: 0 <= i < |accs| ==>
                           !(Lower(accs[i].name) == Lower(name) && accs[i].server == server)
  {
    if |accs| == 0 then None
    else if Lower(accs[0].name) == Lower(name) && accs[0].server == server then Some(0)
    else match FindAccount(accs[1..], name, server)
         case None => None
         case Some(k) => Some(k + 1)
  }

  /** The first row of a catalogue whose key matches. */
  function FindKey<T>(rows: seq<T>, key: T -> string, k: string): (r: Option<nat>)
    ensures r.Some? ==> r.value < |rows| && key(rows[r.value]) == k
    ensures r.None? <==> forall i :: 0 <= i < |rows| ==> key(rows[i]) != k
  {
    if |rows| == 0 then None
    else if key(rows[0]) == k then Some(0)
    else match FindKey(rows[1..], key, k)
         case None => None
         case Some(i) => Some(i + 1)
  }

  lemma AddPlayerKeepsInvariants(ps: seq<Player>, accs: seq<Account>, sts: seq<Streak>, name: string)
    requires PlayerNamesUnique(ps) && AccountsLinked(accs, ps) && StreaksOwned(sts, ps)
    requires FindPlayer(ps, name).None?
    ensures var ps' := ps + [Player(name, [])];
            PlayerNamesUnique(ps') && AccountsLinked(accs, ps') && StreaksOwned(sts, ps')
  {
    var ps' := ps + [Player(name, [])];
    forall i | 0 <= i < |accs| ensures ps'[accs[i].playerId] == ps[accs[i].playerId] {
    }
  }

  // ---------------------------------------------------------------- catalogues

  /** The rows of a catalogue whose key is not yet stored, in catalogue order.
      Keys are checked against the stored rows only, as the loaders query the
      table before one bulk insert. */
  function Missing<T>(existing: seq<T>, cat: seq<T>, key: T -> string): (r: seq<T>)
    ensures forall x :: x in r ==> x in cat && FindKey(existing, key, key(x)).None?
    ensures forall x :: x in cat && FindKey(existing, key, key(x)).None? ==> x in r
  {
    if |cat| == 0 then []
    else
      var prev := Missing(existing, cat[..|cat| - 1], key);
      var x := cat[|cat| - 1];
      assert forall y :: y in cat[..|cat| - 1] ==> y in cat;
      assert forall y :: y in cat ==> y in cat[..|cat| - 1] || y == x;
      if FindKey(existing, key, key(x)).None? then prev + [x] else prev
  }

  lemma FindKeyAppend<T>(s: seq<T>, t: seq<T>, key: T -> string, k: string)
    ensures FindKey(s + t, key, k).None? <==> FindKey(s, key, k).None? && FindKey(t, key, k).None?
  {
    var st := s + t;
    if FindKey(s, key, k).Some? {
      assert st[FindKey(s, key, k).value] == s[FindKey(s, key, k).value];
    } else if FindKey(t, key, k).Some? {
      assert st[|s| + FindKey(t, key, k).value] == t[FindKey(t, key, k).value];
    } else {
      forall i | 0 <= i < |st| ensures key(st[i]) != k {
        if i < |s| {
          assert st[i] == s[i];
        } else {
          assert st[i] == t[i - |s|];
        }
      }
    }
  }

  /** Loading a catalogue twice adds nothing the second time. */
  lemma MissingAfterLoad<T>(existing: seq<T>, cat: seq<T>, key: T -> string)
    ensures Missing(existing + Missing(existing, cat, key), cat, key) == []
  {
    var loaded := existing + Missing(existing, cat, key);
    var m := Missing(existing, cat, key);
    forall x | x in cat ensures FindKey(loaded, key, key(x)).Some? {
      FindKeyAppend(existing, m, key, key(x));
      if FindKey(existing, key, key(x)).None? {
        assert x in m;
        var i :| 0 <= i < |m| && m[i] == x;
        assert key(m[i]) == key(x);
      }
    }
    MissingNone(loaded, cat, key);
  }

  lemma {:induction false} MissingNone<T>(existing: seq<T>, cat: seq<T>, key: T -> string)
    requires forall x :: x in cat ==> FindKey(existing, key, key(x)).Some?
    ensures Missing(existing, cat, key) == []
  {
    if |cat| > 0 {
      assert cat[|cat| - 1] in cat;
      MissingNone(existing, cat[..|cat| - 1], key);
    }
  }

  function SpeciesKey(c: CharType): string { c.short }
  function SpeciesName(c: CharType): string { c.name }
  function GodKey(g: God): string { g.name }
  function KtypKey(k: string): string { k }
  function BranchKey(b: Branch): string { b.short }
  function BranchName(b: Branch): string { b.name }

  /** No two rows share a value of the unique column `col`. */
  ghost predicate ColumnUnique<T>(rows: seq<T>, col: T -> string)
  {
    forall i, j :: 0 <= i < j < |rows| ==> col(rows[i]) != col(rows[j])
  }

  /** Whether some row of `added` repeats a value of column `col` that an
      earlier added row or a stored row already has. */
  function Clash<T>(existing: seq<T>, added: seq<T>, col: T -> string): bool
  {
    if |added| == 0 then false
    else Clash(existing, added[..|added| - 1], col)
         || FindKey(existing + added[..|added| - 1], col, col(added[|added| - 1])).Some?
  }

  /** One bulk insert into a table with the unique columns `key` and `name`:
      the database refuses the whole insert when a value would repeat. */
  function BulkInsert<T>(existing: seq<T>, added: seq<T>, key: T -> string, name: T -> string): (r: Result<seq<T>>)
    ensures r.Ok? ==> r.value == existing + added
    ensures r.Raised? ==> r.error == DBIntegrityError
  {
    if Clash(existing, added, key) || Clash(existing, added, name) then Raised(DBIntegrityError)
    else Ok(existing + added)
  }

  lemma ColumnUniqueSnoc<T>(s: seq<T>, x: T, col: T -> string)
    ensures ColumnUnique(s + [x], col) <==> ColumnUnique(s, col) && FindKey(s, col, col(x)).None?
  {
    var t := s + [x];
    if ColumnUnique(t, col) {
      forall i, j | 0 <= i < j < |s| ensures col(s[i]) != col(s[j]) {
        assert t[i] == s[i] && t[j] == s[j];
      }
      forall i | 0 <= i < |s| ensures col(s[i]) != col(x) {
        assert t[i] == s[i] && t[|s|] == x;
      }
    }
    if ColumnUnique(s, col) && FindKey(s, col, col(x)).None? {
      forall i, j | 0 <= i < j < |t| ensures col(t[i]) != col(t[j]) {
        assert t[i] == s[i];
        if j < |s| {
          assert t[j] == s[j];
        }
      }
    }
  }

  /** Over a table whose column is unique, the insert clashes exactly when
      the column would no longer be unique afterwards. */
  lemma {:induction false} ClashIff<T>(existing: seq<T>, added: seq<T>, col: T -> string)
    requires ColumnUnique(existing, col)
    ensures !Clash(existing, added, col) <==> ColumnUnique(existing + added, col)
  {
    if |added| > 0 {
      var init := added[..|added| - 1];
      var x := added[|added| - 1];
      ClashIff(existing, init, col);
      assert existing + added == (existing + init) + [x];
      ColumnUniqueSnoc(existing + init, x, col);
      if ColumnUnique(existing + added, col) {
        assert ColumnUnique(existing + init, col);
      }
    }
  }

  /** A bulk insert succeeds exactly when both unique columns stay unique. */
  lemma BulkInsertUnique<T>(existing: seq<T>, added: seq<T>, key: T -> string, name: T -> string)
    requires ColumnUnique(existing, key) && ColumnUnique(existing, name)
    ensures BulkInsert(existing, added, key, name).Ok?
            <==> ColumnUnique(existing + added, key) && ColumnUnique(existing + added, name)
  {
    ClashIff(existing, added, key);
    ClashIff(existing, added, name);
  }

  /** After a loader has stored its missing rows, running it again inserts
      nothing and cannot fail. */
  lemma SetupTwice<T>(existing: seq<T>, cat: seq<T>, key: T -> string, name: T -> string)
    ensures var t := existing + Missing(existing, cat, key);
            BulkInsert(t, Missing(t, cat, key), key, name) == Ok(t)
  {
    MissingAfterLoad(existing, cat, key);
    var t := existing + Missing(existing, cat, key);
    assert t + [] == t;
  }
  function AchievementKey(a: Achievement): string { a.name }

  /** A manual achievement and the players it is awarded to. */
  datatype AchievementProto = AchievementProto(key: string, name: string, description: string, players: seq<string>)

  function ProtoAchievement(p: AchievementProto): Achievement
  {
    Achievement(p.key, p.name, p.description)
  }

  /** The achievements `setup_achievements` adds: each prototype whose name is
      not stored yet, including the ones added earlier in the same run. */
  function NewAchievements(existing: seq<Achievement>, protos: seq<AchievementProto>): (r: seq<AchievementProto>)
    ensures forall p :: p in r ==> p in protos
    decreases |protos|
  {
    if |protos| == 0 then []
    else
      var prev := NewAchievements(existing, protos[..|protos| - 1]);
      var p := protos[|protos| - 1];
      assert forall y :: y in protos[..|protos| - 1] ==> y in protos;
      if FindKey(existing + ProtoAchievements(prev), AchievementKey, p.name).None? then prev + [p] else prev
  }

  function ProtoAchievements(ps: seq<AchievementProto>): (r: seq<Achievement>)
    ensures |r| == |ps|
    ensures forall i :: 0 <= i < |ps| ==> r[i] == ProtoAchievement(ps[i])
  {
    if |ps| == 0 then [] else ProtoAchievements(ps[..|ps| - 1]) + [ProtoAchievement(ps[|ps| - 1])]
  }

  // ---------------------------------------------------------------- game queries

  /** The keyword arguments of `_games`. `player` is a player id, `account` an
      account id; None leaves that filter off. */
  datatype GameQuery = GameQuery(
    player: Option<nat>,
    account: Option<nat>,
    scored: Option<bool>,
    gid: Option<string>,
    winning: Option<bool>,
    boring: Option<bool>,
    reverseOrder: Option<bool>,
    limit: Option<nat>)

  /** The query `count_games` and a plain `list_games()` build: no filters,
      newest first. */
  const AllGames := GameQuery(None, None, None, None, None, None, Some(false), None)

  predicate IsBoringKtyp(k: string)
  {
    k == "quitting" || k == "leaving" || k == "wizmode"
  }

  /** The player a game belongs to, through its account. */
  function GamePlayer(g: Game, accs: seq<Account>): Option<nat>
  {
    if g.accountId < |accs| then Some(accs[g.accountId].playerId) else None
  }

  predicate Matches(g: Game, accs: seq<Account>, q: GameQuery)
  {
    (q.player.Some? ==> GamePlayer(g, accs) == Some(q.player.value))
    && (q.account.Some? ==> g.accountId == q.account.value)
    && (q.scored.Some? ==> g.scored == q.scored.value)
    && (q.gid.Some? ==> g.gid == q.gid.value)
    && (q.winning.Some? ==> (g.ktyp == "winning") == q.winning.value)
    && (q.boring.Some? ==> IsBoringKtyp(g.ktyp) == q.boring.value)
  }

  function FilterGames(gs: seq<Game>, accs: seq<Account>, q: GameQuery): (r: seq<Game>)
    ensures |r| <= |gs|
    ensures forall g :: g in r <==> g in gs && Matches(g, accs, q)
  {
    if |gs| == 0 then []
    else
      var rest := FilterGames(gs[..|gs| - 1], accs, q);
      var g := gs[|gs| - 1];
      assert forall y :: y in gs <==> y in gs[..|gs| - 1] || y == g;
      if Matches(g, accs, q) then rest + [g] else rest
  }

  function EndAscending(g: Game): Key { Key(g.end, "") }
  function EndDescending(g: Game): Key { Key(-g.end, "") }
  function ScoreDescending(g: Game): Key { Key(-g.score, "") }

  /** The order `_games` asks for: newest first, oldest first, or none. */
  function OrderByEnd(gs: seq<Game>, reverseOrder: Option<bool>): seq<Game>
  {
    if reverseOrder == Some(false) then SortBy(gs, EndDescending)
    else if reverseOrder == Some(true) then SortBy(gs, EndAscending)
    else gs
  }

  predicate EndsDescending(s: seq<Game>)
  {
    forall i, j :: 0 <= i < j < |s| ==> s[i].end >= s[j].end
  }

  predicate EndsAscending(s: seq<Game>)
  {
    forall i, j :: 0 <= i < j < |s| ==> s[i].end <= s[j].end
  }

  /** Ordering keeps every game exactly as often and sorts by end time. */
  lemma OrderByEndCorrect(gs: seq<Game>, reverseOrder: Option<bool>)
    ensures multiset(OrderByEnd(gs, reverseOrder)) == multiset(gs)
    ensures reverseOrder == Some(false) ==> EndsDescending(OrderByEnd(gs, reverseOrder))
    ensures reverseOrder == Some(true) ==> EndsAscending(OrderByEnd(gs, reverseOrder))
  {
    var r := OrderByEnd(gs, reverseOrder);
    if reverseOrder == Some(false) {
      SortByCorrect(gs, EndDescending);
      forall i, j | 0 <= i < j < |r| ensures r[i].end >= r[j].end {
        assert KeyLe(EndDescending(r[i]), EndDescending(r[j]));
      }
    } else if reverseOrder == Some(true) {
      SortByCorrect(gs, EndAscending);
      forall i, j | 0 <= i < j < |r| ensures r[i].end <= r[j].end {
        assert KeyLe(EndAscending(r[i]), EndAscending(r[j]));
      }
    }
  }

  /** `_games(...).all()`: filter, order by end (descending unless
      reverse_order), then keep at most `limit`. */
  function SelectGames(gs: seq<Game>, accs: seq<Account>, q: GameQuery): seq<Game>
  {
    var ordered := OrderByEnd(FilterGames(gs, accs, q), q.reverseOrder);
    if q.limit.Some? then Take(ordered, q.limit.value) else ordered
  }

  lemma TakeKeepsOrder(s: seq<Game>, n: nat)
    ensures EndsDescending(s) ==> EndsDescending(Take(s, n))
    ensures EndsAscending(s) ==> EndsAscending(Take(s, n))
    ensures forall g :: g in Take(s, n) ==> g in s
  {
    var t := Take(s, n);
    assert t == s[..|t|];
    forall g | g in t ensures g in s {
      var i :| 0 <= i < |t| && t[i] == g;
      assert s[i] == g;
    }
  }

  /** Every selected game is in the table and satisfies every filter given;
      without a limit the selection holds each matching game as often as the
      table does; the order is by end time as requested; a limit keeps a
      prefix of the unlimited selection. */
  lemma SelectGamesCorrect(gs: seq<Game>, accs: seq<Account>, q: GameQuery)
    ensures forall g :: g in SelectGames(gs, accs, q) ==> g in gs && Matches(g, accs, q)
    ensures q.limit.None? ==> multiset(SelectGames(gs, accs, q)) == multiset(FilterGames(gs, accs, q))
    ensures q.limit.Some? ==> |SelectGames(gs, accs, q)| <= q.limit.value
    ensures q.limit.Some? ==> SelectGames(gs, accs, q) == Take(SelectGames(gs, accs, q.(limit := None)), q.limit.value)
    ensures q.reverseOrder == Some(false) ==> EndsDescending(SelectGames(gs, accs, q))
    ensures q.reverseOrder == Some(true) ==> EndsAscending(SelectGames(gs, accs, q))
  {
    var matching := FilterGames(gs, accs, q);
    var ordered := OrderByEnd(matching, q.reverseOrder);
    OrderByEndCorrect(matching, q.reverseOrder);
    FilterIgnoresLimit(gs, accs, q);
    forall g | g in ordered ensures g in gs && Matches(g, accs, q) {
      assert g in multiset(ordered);
    }
    if q.limit.Some? {
      TakeKeepsOrder(ordered, q.limit.value);
    }
  }

  lemma FilterIgnoresLimit(gs: seq<Game>, accs: seq<Account>, q: GameQuery)
    ensures FilterGames(gs, accs, q.(limit := None)) == FilterGames(gs, accs, q)
    ensures FilterGames(gs, accs, q.(reverseOrder := None)) == FilterGames(gs, accs, q)
  {
    FilterSameFilters(gs, accs, q.(limit := None), q);
    FilterSameFilters(gs, accs, q.(reverseOrder := None), q);
  }

  /** Two queries with the same filters. */
  predicate SameFilters(q1: GameQuery, q2: GameQuery)
  {
    q1.player == q2.player && q1.account == q2.account && q1.scored == q2.scored
    && q1.gid == q2.gid && q1.winning == q2.winning && q1.boring == q2.boring
  }

  /** The filtered games depend only on the filters. */
  lemma {:induction false} FilterSameFilters(gs: seq<Game>, accs: seq<Account>, q1: GameQuery, q2: GameQuery)
    requires SameFilters(q1, q2)
    ensures FilterGames(gs, accs, q1) == FilterGames(gs, accs, q2)
    decreases |gs|
  {
    if |gs| > 0 {
      FilterSameFilters(gs[..|gs| - 1], accs, q1, q2);
      assert Matches(gs[|gs| - 1], accs, q1) == Matches(gs[|gs| - 1], accs, q2);
    }
  }

  /** `_games` as written filters on `Game.player_id`, a column the Game
      table does not declare, so building a query with a player raises
      AttributeError; every other query runs. */
  function GamesQueryAsWritten(gs: seq<Game>, accs: seq<Account>, q: GameQuery): (r: Result<seq<Game>>)
  {
    if q.player.Some? then Raised(AttributeError) else Ok(SelectGames(gs, accs, q))
  }

  lemma PlayerFilterRaisesAsWritten(gs: seq<Game>, accs: seq<Account>, q: GameQuery)
    requires q.player.Some?
    ensures GamesQueryAsWritten(gs, accs, q) == Raised(AttributeError)
    ensures GamesQueryAsWritten(gs, accs, q.(player := None)).Ok?
  {
  }

  /** `count_games` as written: the count of `_games` without a limit, so it
      raises exactly when `_games` does, and otherwise counts the games that
      pass every filter. */
  function CountGamesAsWritten(gs: seq<Game>, accs: seq<Account>, q: GameQuery): (r: Result<nat>)
    ensures r.Raised? <==> q.player.Some?
    ensures r.Raised? ==> r.error == AttributeError
    ensures r.Ok? ==> r.value == |FilterGames(gs, accs, q)|
  {
    match GamesQueryAsWritten(gs, accs, q.(limit := None))
    case Raised(e) => Raised(e)
    case Ok(listed) =>
      FilterIgnoresLimit(gs, accs, q);
      SortByCorrect(FilterGames(gs, accs, q), EndDescending);
      SortByCorrect(FilterGames(gs, accs, q), EndAscending);
      Ok(|listed|)
  }

  /** With the filter going through the game's account, every game listed for
      a player is one of that player's games, and every game of the player is
      counted. */
  lemma PlayerFilterCorrected(gs: seq<Game>, accs: seq<Account>, pid: nat)
    ensures var q := AllGames.(player := Some(pid));
            (forall g :: g in SelectGames(gs, accs, q) <==> g in gs && GamePlayer(g, accs) == Some(pid))
            && multiset(SelectGames(gs, accs, q)) == multiset(OfPlayer(gs, accs, pid))
  {
    var q := AllGames.(player := Some(pid));
    SelectGamesCorrect(gs, accs, q);
    FilterOfPlayer(gs, accs, pid);
    var r := SelectGames(gs, accs, q);
    forall g ensures g in r <==> g in gs && GamePlayer(g, accs) == Some(pid) {
      assert g in r <==> g in multiset(r);
      assert g in FilterGames(gs, accs, q) <==> g in multiset(FilterGames(gs, accs, q));
    }
  }

  /** The games of one player, in table order. */
  function OfPlayer(gs: seq<Game>, accs: seq<Account>, pid: nat): seq<Game>
  {
    if |gs| == 0 then []
    else OfPlayer(gs[..|gs| - 1], accs, pid)
         + (if GamePlayer(gs[|gs| - 1], accs) == Some(pid) then [gs[|gs| - 1]] else [])
  }

  lemma {:induction false} FilterOfPlayer(gs: seq<Game>, accs: seq<Account>, pid: nat)
    ensures FilterGames(gs, accs, AllGames.(player := Some(pid))) == OfPlayer(gs, accs, pid)
  {
    if |gs| > 0 {
      FilterOfPlayer(gs[..|gs| - 1], accs, pid);
    }
  }

  /** With no filters every game is counted. */
  lemma {:induction false} FilterAll(gs: seq<Game>, accs: seq<Account>)
    ensures FilterGames(gs, accs, AllGames) == gs
  {
    if |gs| > 0 {
      FilterAll(gs[..|gs| - 1], accs);
      assert gs == gs[..|gs| - 1] + [gs[|gs| - 1]];
    }
  }

  predicate ScoresDescending(s: seq<Game>)
  {
    forall i, j :: 0 <= i < j < |s| ==> s[i].score >= s[j].score
  }

  /** `highscores`: games by descending score, optionally one player's, at
      most `limit` of them. */
  function Highscores(gs: seq<Game>, accs: seq<Account>, limit: nat, player: Option<nat>): seq<Game>
  {
    Take(HighscoreList(gs, accs, player), limit)
  }

  /** `highscores` without its limit. */
  function HighscoreList(gs: seq<Game>, accs: seq<Account>, player: Option<nat>): seq<Game>
  {
    FilterGames(SortBy(gs, ScoreDescending), accs, AllGames.(player := player, reverseOrder := None))
  }

  /** Without the limit every game of the table (of the player, when asked)
      is listed as often as the table holds it, by descending score. */
  lemma HighscoreListComplete(gs: seq<Game>, accs: seq<Account>, player: Option<nat>)
    ensures var q := AllGames.(player := player, reverseOrder := None);
            multiset(HighscoreList(gs, accs, player)) == multiset(FilterGames(gs, accs, q))
            && ScoresDescending(HighscoreList(gs, accs, player))
  {
    var q := AllGames.(player := player, reverseOrder := None);
    var ordered := SortBy(gs, ScoreDescending);
    HighscoreListSorted(gs, accs, player);
    SortByCorrect(gs, ScoreDescending);
    FilterPermutation(ordered, gs, accs, q);
  }

  /** Filtering two orderings of the same games gives two orderings of the
      same matches. */
  lemma FilterPermutation(a: seq<Game>, b: seq<Game>, accs: seq<Account>, q: GameQuery)
    requires multiset(a) == multiset(b)
    ensures multiset(FilterGames(a, accs, q)) == multiset(FilterGames(b, accs, q))
  {
    forall g ensures multiset(FilterGames(a, accs, q))[g] == multiset(FilterGames(b, accs, q))[g] {
      FilterCount(a, accs, q, g);
      FilterCount(b, accs, q, g);
    }
  }

  lemma HighscoreListSorted(gs: seq<Game>, accs: seq<Account>, player: Option<nat>)
    ensures ScoresDescending(HighscoreList(gs, accs, player))
  {
    var q := AllGames.(player := player, reverseOrder := None);
    var ordered := SortBy(gs, ScoreDescending);
    SortByCorrect(gs, ScoreDescending);
    forall i, j | 0 <= i < j < |ordered| ensures ordered[i].score >= ordered[j].score {
      assert KeyLe(ScoreDescending(ordered[i]), ScoreDescending(ordered[j]));
    }
    FilterSorted(ordered, accs, q);
  }

  /** Filtering keeps each matching game as often as it occurs, and drops
      the others. */
  lemma {:induction false} FilterCount(gs: seq<Game>, accs: seq<Account>, q: GameQuery, g: Game)
    ensures multiset(FilterGames(gs, accs, q))[g] == if Matches(g, accs, q) then multiset(gs)[g] else 0
  {
    if |gs| > 0 {
      var init := gs[..|gs| - 1];
      var x := gs[|gs| - 1];
      var rest := FilterGames(init, accs, q);
      FilterCount(init, accs, q, g);
      assert gs == init + [x];
      assert multiset(gs) == multiset(init) + multiset{x};
      if Matches(x, accs, q) {
        assert FilterGames(gs, accs, q) == rest + [x];
        assert multiset(rest + [x]) == multiset(rest) + multiset{x};
      } else {
        assert FilterGames(gs, accs, q) == rest;
      }
    }
  }

  /** With a limit, `highscores` keeps the first `limit` games of the
      unlimited list, so fewer come back only when fewer games exist, and no
      game left out scored more than a game kept. */
  lemma HighscoresTop(gs: seq<Game>, accs: seq<Account>, limit: nat, player: Option<nat>)
    ensures var r := Highscores(gs, accs, limit, player);
            var all := HighscoreList(gs, accs, player);
            r == Take(all, limit)
            && forall i, j :: 0 <= i < |r| <= j < |all| ==> r[i].score >= all[j].score
  {
    var r := Highscores(gs, accs, limit, player);
    var all := HighscoreList(gs, accs, player);
    HighscoreListComplete(gs, accs, player);
    forall i, j | 0 <= i < |r| <= j < |all| ensures r[i].score >= all[j].score {
      assert r[i] == all[i];
    }
  }

  lemma HighscoresCorrect(gs: seq<Game>, accs: seq<Account>, limit: nat, player: Option<nat>)
    ensures |Highscores(gs, accs, limit, player)| <= limit
    ensures forall g :: g in Highscores(gs, accs, limit, player) ==>
      g in gs && (player.Some? ==> GamePlayer(g, accs) == player)
    ensures ScoresDescending(Highscores(gs, accs, limit, player))
  {
    var ordered := SortBy(gs, ScoreDescending);
    var q := AllGames.(player := player, reverseOrder := None);
    var mine := FilterGames(ordered, accs, q);
    SortByCorrect(gs, ScoreDescending);
    forall i, j | 0 <= i < j < |ordered| ensures ordered[i].score >= ordered[j].score {
      assert KeyLe(ScoreDescending(ordered[i]), ScoreDescending(ordered[j]));
    }
    FilterSorted(ordered, accs, q);
    var r := Highscores(gs, accs, limit, player);
    assert r == mine[..|r|];
    forall g | g in r ensures g in gs && (player.Some? ==> GamePlayer(g, accs) == player) {
      var i :| 0 <= i < |r| && r[i] == g;
      assert mine[i] == g;
      assert g in ordered;
      assert g in multiset(ordered);
    }
  }

  /** Filtering keeps the elements' relative order, so a score-sorted input
      stays score-sorted. */
  lemma {:induction false} FilterSorted(gs: seq<Game>, accs: seq<Account>, q: GameQuery)
    requires ScoresDescending(gs)
    ensures ScoresDescending(FilterGames(gs, accs, q))
  {
    if |gs| > 0 {
      var init := gs[..|gs| - 1];
      FilterSorted(init, accs, q);
      var rest := FilterGames(init, accs, q);
      forall i | 0 <= i < |rest| ensures rest[i].score >= gs[|gs| - 1].score {
        assert rest[i] in init;
        var m :| 0 <= m < |init| && init[m] == rest[i];
        assert gs[m] == init[m];
      }
    }
  }

  /** `highscores` as written also filters on `Game.player_id`. */
  function HighscoresAsWritten(gs: seq<Game>, accs: seq<Account>, limit: nat, player: Option<nat>): Result<seq<Game>>
  {
    if player.Some? then Raised(AttributeError) else Ok(Highscores(gs, accs, limit, player))
  }

  lemma HighscoresPlayerRaisesAsWritten(gs: seq<Game>, accs: seq<Account>, limit: nat, pid: nat)
    ensures HighscoresAsWritten(gs, accs, limit, Some(pid)) == Raised(AttributeError)
    ensures HighscoresAsWritten(gs, accs, limit, None) == Ok(Highscores(gs, accs, limit, None))
  {
  }

  /** The top-scoring game among `gs`: the first of them ordered by
      descending score. */
  function TopScoring(gs: seq<Game>): Option<Game>
  {
    var ordered := SortBy(gs, ScoreDescending);
    if |ordered| == 0 then None else Some(ordered[0])
  }

  lemma TopScoringCorrect(gs: seq<Game>)
    ensures TopScoring(gs).None? <==> |gs| == 0
    ensures TopScoring(gs).Some? ==>
      TopScoring(gs).value in gs && forall g :: g in gs ==> g.score <= TopScoring(gs).value.score
  {
    var ordered := SortBy(gs, ScoreDescending);
    SortByCorrect(gs, ScoreDescending);
    if |ordered| > 0 {
      assert ordered[0] in multiset(ordered);
      forall g | g in gs ensures g.score <= ordered[0].score {
        assert g in multiset(ordered);
        var i :| 0 <= i < |ordered| && ordered[i] == g;
        if i > 0 {
          assert KeyLe(ScoreDescending(ordered[0]), ScoreDescending(ordered[i]));
        }
      }
    }
  }

  function NameKey(c: CharType): Key { Key(0, c.name) }

  /** `_generic_char_type_lister`: rows with the requested playable flag
      (all rows when it is None), ordered by name. */
  function ListCharTypes(rows: seq<CharType>, playable: Option<bool>): seq<CharType>
  {
    var chosen := if playable.Some? then FilterPlayable(rows, playable.value) else rows;
    SortBy(chosen, NameKey)
  }

  function FilterPlayable(rows: seq<CharType>, flag: bool): (r: seq<CharType>)
    ensures forall x :: x in r <==> x in rows && x.playable == flag
  {
    if |rows| == 0 then []
    else
      var rest := FilterPlayable(rows[..|rows| - 1], flag);
      var x := rows[|rows| - 1];
      assert forall y :: y in rows <==> y in rows[..|rows| - 1] || y == x;
      if x.playable == flag then rest + [x] else rest
  }

  lemma ListCharTypesCorrect(rows: seq<CharType>, playable: Option<bool>)
    ensures forall x :: x in ListCharTypes(rows, playable) <==>
      x in rows && (playable.Some? ==> x.playable == playable.value)
    ensures forall i, j :: 0 <= i < j < |ListCharTypes(rows, playable)| ==>
      StrLe(ListCharTypes(rows, playable)[i].name, ListCharTypes(rows, playable)[j].name)
  {
    var chosen := if playable.Some? then FilterPlayable(rows, playable.value) else rows;
    var r := ListCharTypes(rows, playable);
    SortByCorrect(chosen, NameKey);
    forall x ensures x in r <==> x in chosen {
      assert x in r <==> x in multiset(r);
      assert x in chosen <==> x in multiset(chosen);
    }
    forall i, j | 0 <= i < j < |r| ensures StrLe(r[i].name, r[j].name) {
      assert KeyLe(NameKey(r[i]), NameKey(r[j]));
    }
  }

  function GamesWithKey(gs: seq<Game>, column: Game -> string, k: string): (r: seq<Game>)
    ensures forall g :: g in r <==> g in gs && column(g) == k
  {
    if |gs| == 0 then []
    else
      var rest := GamesWithKey(gs[..|gs| - 1], column, k);
      var g := gs[|gs| - 1];
      assert forall y :: y in gs <==> y in gs[..|gs| - 1] || y == g;
      if column(g) == k then rest + [g] else rest
  }

  /** `_highscores_helper`: for each key in turn, its top-scoring game, when
      there is one. */
  function HighscoresByKey(gs: seq<Game>, keys: seq<string>, column: Game -> string): seq<Game>
  {
    if |keys| == 0 then []
    else
      var prev := HighscoresByKey(gs, keys[..|keys| - 1], column);
      match TopScoring(GamesWithKey(gs, column, keys[|keys| - 1]))
      case None => prev
      case Some(g) => prev + [g]
  }

  /** One result per key that has a game, in key order; each is a game of its
      key with no game of that key scoring higher. */
  lemma {:induction false} HighscoresByKeyCorrect(gs: seq<Game>, keys: seq<string>, column: Game -> string)
    ensures var r := HighscoresByKey(gs, keys, column);
            |r| == |KeysWithGames(gs, keys, column)|
            && forall i :: 0 <= i < |r| ==>
                 r[i] in gs && column(r[i]) == KeysWithGames(gs, keys, column)[i]
                 && forall g :: g in gs && column(g) == column(r[i]) ==> g.score <= r[i].score
  {
    if |keys| > 0 {
      var init := keys[..|keys| - 1];
      var k := keys[|keys| - 1];
      HighscoresByKeyCorrect(gs, init, column);
      TopScoringCorrect(GamesWithKey(gs, column, k));
    }
  }

  /** The keys, in order, that some game has. */
  function KeysWithGames(gs: seq<Game>, keys: seq<string>, column: Game -> string): seq<string>
  {
    if |keys| == 0 then []
    else
      var prev := KeysWithGames(gs, keys[..|keys| - 1], column);
      if |GamesWithKey(gs, column, keys[|keys| - 1])| > 0 then prev + [keys[|keys| - 1]] else prev
  }

  function Shorts(rows: seq<CharType>): (r: seq<string>)
    ensures |r| == |rows| && forall i :: 0 <= i < |rows| ==> r[i] == rows[i].short
  {
    if |rows| == 0 then [] else Shorts(rows[..|rows| - 1]) + [rows[|rows| - 1].short]
  }

  function SpeciesColumn(g: Game): string { g.species }
  function BackgroundColumn(g: Game): string { g.background }
  function GodColumn(g: Game): string { g.god }

  function GodNameKey(g: God): Key { Key(0, g.name) }

  function PlayableGodNames(gods: seq<God>): seq<string>
  {
    GodNames(SortBy(PlayableGods(gods), GodNameKey))
  }

  /** `species_highscores`: the top game of each playable species, by name. */
  function SpeciesHighscores(gs: seq<Game>, species: seq<CharType>): seq<Game>
  {
    HighscoresByKey(gs, Shorts(ListCharTypes(species, Some(true))), SpeciesColumn)
  }

  /** `background_highscores` */
  function BackgroundHighscores(gs: seq<Game>, backgrounds: seq<CharType>): seq<Game>
  {
    HighscoresByKey(gs, Shorts(ListCharTypes(backgrounds, Some(true))), BackgroundColumn)
  }

  /** `god_highscores` */
  function GodHighscores(gs: seq<Game>, gods: seq<God>): seq<Game>
  {
    HighscoresByKey(gs, PlayableGodNames(gods), GodColumn)
  }

  /** Each species highscore is a game of a playable species that no game of
      the same species outscores, and there is one per playable species that
      has a game. */
  lemma SpeciesHighscoresCorrect(gs: seq<Game>, species: seq<CharType>)
    ensures var r := SpeciesHighscores(gs, species);
            var keys := Shorts(ListCharTypes(species, Some(true)));
            |r| == |KeysWithGames(gs, keys, SpeciesColumn)|
            && forall i :: 0 <= i < |r| ==>
                 r[i] in gs && r[i].species in keys
                 && forall g :: g in gs && g.species == r[i].species ==> g.score <= r[i].score
  {
    var keys := Shorts(ListCharTypes(species, Some(true)));
    HighscoresByKeyCorrect(gs, keys, SpeciesColumn);
    KeysWithGamesSub(gs, keys, SpeciesColumn);
  }

  lemma {:induction false} KeysWithGamesSub(gs: seq<Game>, keys: seq<string>, column: Game -> string)
    ensures forall k :: k in KeysWithGames(gs, keys, column) ==> k in keys
  {
    if |keys| > 0 {
      KeysWithGamesSub(gs, keys[..|keys| - 1], column);
      assert forall k :: k in keys[..|keys| - 1] ==> k in keys;
    }
  }

  function PlayableGods(gods: seq<God>): (r: seq<God>)
    ensures forall x :: x in r <==> x in gods && x.playable
  {
    if |gods| == 0 then []
    else
      var rest := PlayableGods(gods[..|gods| - 1]);
      var x := gods[|gods| - 1];
      assert forall y :: y in gods <==> y in gods[..|gods| - 1] || y == x;
      if x.playable then rest + [x] else rest
  }

  function GodNames(gods: seq<God>): (r: seq<string>)
    ensures |r| == |gods| && forall i :: 0 <= i < |gods| ==> r[i] == gods[i].name
  {
    if |gods| == 0 then [] else GodNames(gods[..|gods| - 1]) + [gods[|gods| - 1].name]
  }

  /** `combo_highscores`: for every playable species (by name), for every
      playable background (by name), the top-scoring game of that pair. */
  function ComboHighscores(gs: seq<Game>, species: seq<CharType>, backgrounds: seq<CharType>): seq<Game>
  {
    var sps := ListCharTypes(species, Some(true));
    var bgs := ListCharTypes(backgrounds, Some(true));
    ComboRows(gs, sps, bgs)
  }

  function ComboRows(gs: seq<Game>, sps: seq<CharType>, bgs: seq<CharType>): seq<Game>
  {
    if |sps| == 0 then []
    else ComboRows(gs, sps[..|sps| - 1], bgs) + ComboRow(gs, sps[|sps| - 1], bgs)
  }

  function ComboRow(gs: seq<Game>, sp: CharType, bgs: seq<CharType>): seq<Game>
  {
    if |bgs| == 0 then []
    else
      var prev := ComboRow(gs, sp, bgs[..|bgs| - 1]);
      match TopScoring(GamesOfCombo(gs, sp.short, bgs[|bgs| - 1].short))
      case None => prev
      case Some(g) => prev + [g]
  }

  function GamesOfCombo(gs: seq<Game>, sp: string, bg: string): (r: seq<Game>)
    ensures forall g :: g in r <==> g in gs && g.species == sp && g.background == bg
  {
    if |gs| == 0 then []
    else
      var rest := GamesOfCombo(gs[..|gs| - 1], sp, bg);
      var g := gs[|gs| - 1];
      assert forall y :: y in gs <==> y in gs[..|gs| - 1] || y == g;
      if g.species == sp && g.background == bg then rest + [g] else rest
  }

  /** The keys with a game are exactly the listed keys some game has. */
  lemma {:induction false} KeysWithGamesExactly(gs: seq<Game>, keys: seq<string>, column: Game -> string)
    ensures forall k :: k in KeysWithGames(gs, keys, column) <==>
              k in keys && exists g :: g in gs && column(g) == k
  {
    if |keys| > 0 {
      var init := keys[..|keys| - 1];
      var last := keys[|keys| - 1];
      KeysWithGamesExactly(gs, init, column);
      assert forall k :: k in keys <==> k in init || k == last;
      var ws := GamesWithKey(gs, column, last);
      if |ws| > 0 {
        assert ws[0] in ws;
      }
    }
  }

  /** Filtering by species and background at once is filtering by species,
      then by background. */
  lemma {:induction false} GamesOfComboNested(gs: seq<Game>, sp: string, bg: string)
    ensures GamesOfCombo(gs, sp, bg)
            == GamesWithKey(GamesWithKey(gs, SpeciesColumn, sp), BackgroundColumn, bg)
  {
    if |gs| > 0 {
      var init := gs[..|gs| - 1];
      var g := gs[|gs| - 1];
      GamesOfComboNested(init, sp, bg);
      var inner := GamesWithKey(init, SpeciesColumn, sp);
      if g.species == sp {
        assert GamesWithKey(gs, SpeciesColumn, sp) == inner + [g];
        assert (inner + [g])[..|inner|] == inner;
      }
    }
  }

  /** A species row is the per-background highscore list over that
      species' games. */
  lemma {:induction false} ComboRowByKey(gs: seq<Game>, sp: CharType, bgs: seq<CharType>)
    ensures ComboRow(gs, sp, bgs)
            == HighscoresByKey(GamesWithKey(gs, SpeciesColumn, sp.short), Shorts(bgs), BackgroundColumn)
  {
    if |bgs| > 0 {
      var init := bgs[..|bgs| - 1];
      ComboRowByKey(gs, sp, init);
      GamesOfComboNested(gs, sp.short, bgs[|bgs| - 1].short);
      assert Shorts(bgs)[..|bgs| - 1] == Shorts(init);
    }
  }

  /** A species row holds, in background order, one game for each playable
      background that has a game of the species, each unbeaten for its pair. */
  lemma {:induction false} ComboRowCorrect(gs: seq<Game>, sp: CharType, bgs: seq<CharType>)
    ensures |ComboRow(gs, sp, bgs)| <= |bgs|
    ensures forall h :: h in ComboRow(gs, sp, bgs) ==>
      h in gs && h.species == sp.short
      && forall g :: g in gs && g.species == h.species && g.background == h.background ==> g.score <= h.score
    ensures var r := ComboRow(gs, sp, bgs);
            var ks := KeysWithGames(GamesWithKey(gs, SpeciesColumn, sp.short), Shorts(bgs), BackgroundColumn);
            |r| == |ks| && forall i :: 0 <= i < |r| ==> r[i].background == ks[i]
    ensures forall k :: k in KeysWithGames(GamesWithKey(gs, SpeciesColumn, sp.short), Shorts(bgs), BackgroundColumn)
              <==> k in Shorts(bgs) && exists g :: g in gs && g.species == sp.short && g.background == k
  {
    if |bgs| > 0 {
      ComboRowCorrect(gs, sp, bgs[..|bgs| - 1]);
      TopScoringCorrect(GamesOfCombo(gs, sp.short, bgs[|bgs| - 1].short));
    }
    var own := GamesWithKey(gs, SpeciesColumn, sp.short);
    ComboRowByKey(gs, sp, bgs);
    HighscoresByKeyCorrect(own, Shorts(bgs), BackgroundColumn);
    KeysWithGamesExactly(own, Shorts(bgs), BackgroundColumn);
  }

  /** Every combo highscore is a game that no game of the same species and
      background outscores. */
  lemma {:induction false} ComboRowsCorrect(gs: seq<Game>, sps: seq<CharType>, bgs: seq<CharType>)
    ensures forall h :: h in ComboRows(gs, sps, bgs) ==>
      h in gs && forall g :: g in gs && g.species == h.species && g.background == h.background ==> g.score <= h.score
  {
    if |sps| > 0 {
      ComboRowsCorrect(gs, sps[..|sps| - 1], bgs);
      ComboRowCorrect(gs, sps[|sps| - 1], bgs);
    }
  }

  /** A game of the species and of a listed background has its pair's
      highscore in the species row. */
  lemma ComboRowHas(gs: seq<Game>, sp: CharType, bgs: seq<CharType>, g: Game)
    requires g in gs && g.species == sp.short && g.background in Shorts(bgs)
    ensures exists h :: h in ComboRow(gs, sp, bgs) && h.species == g.species && h.background == g.background
  {
    var r := ComboRow(gs, sp, bgs);
    var ks := KeysWithGames(GamesWithKey(gs, SpeciesColumn, sp.short), Shorts(bgs), BackgroundColumn);
    ComboRowCorrect(gs, sp, bgs);
    assert g.background in ks;
    var i :| 0 <= i < |ks| && ks[i] == g.background;
    assert r[i] in r;
  }

  /** Every combo highscore belongs to a listed species and a listed
      background. */
  lemma ComboRowListed(gs: seq<Game>, sp: CharType, bgs: seq<CharType>, h: Game)
    requires h in ComboRow(gs, sp, bgs)
    ensures h.species == sp.short && h.background in Shorts(bgs)
  {
    var r := ComboRow(gs, sp, bgs);
    var own := GamesWithKey(gs, SpeciesColumn, sp.short);
    var ks := KeysWithGames(own, Shorts(bgs), BackgroundColumn);
    ComboRowCorrect(gs, sp, bgs);
    KeysWithGamesSub(own, Shorts(bgs), BackgroundColumn);
    var i :| 0 <= i < |r| && r[i] == h;
    assert ks[i] in ks;
  }

  /** Every playable pair with a game has a combo highscore: for the
      species at position `j` and any game of it with a listed background,
      the combo list holds a game of that pair. */
  lemma {:induction false} ComboRowsComplete(gs: seq<Game>, sps: seq<CharType>, bgs: seq<CharType>, j: nat, g: Game)
    requires j < |sps| && g in gs && g.species == sps[j].short && g.background in Shorts(bgs)
    ensures exists h :: h in ComboRows(gs, sps, bgs) && h.species == g.species && h.background == g.background
  {
    var init := sps[..|sps| - 1];
    var row := ComboRow(gs, sps[|sps| - 1], bgs);
    assert ComboRows(gs, sps, bgs) == ComboRows(gs, init, bgs) + row;
    if j == |sps| - 1 {
      ComboRowHas(gs, sps[j], bgs, g);
      var h :| h in row && h.species == g.species && h.background == g.background;
      assert h in ComboRows(gs, sps, bgs);
    } else {
      assert init[j] == sps[j];
      ComboRowsComplete(gs, init, bgs, j, g);
      var h :| h in ComboRows(gs, init, bgs) && h.species == g.species && h.background == g.background;
      assert h in ComboRows(gs, sps, bgs);
    }
  }

  /** Every combo highscore is of a listed species and a listed background. */
  lemma {:induction false} ComboRowsListed(gs: seq<Game>, sps: seq<CharType>, bgs: seq<CharType>, h: Game)
    requires h in ComboRows(gs, sps, bgs)
    ensures h.species in Shorts(sps) && h.background in Shorts(bgs)
  {
    var init := sps[..|sps| - 1];
    var row := ComboRow(gs, sps[|sps| - 1], bgs);
    assert Shorts(sps)[..|sps| - 1] == Shorts(init);
    if h in row {
      ComboRowListed(gs, sps[|sps| - 1], bgs, h);
      assert Shorts(sps)[|sps| - 1] == sps[|sps| - 1].short;
    } else {
      ComboRowsListed(gs, init, bgs, h);
      assert forall k :: k in Shorts(init) ==> k in Shorts(sps);
    }
  }

  /** `combo_highscores` holds, for every playable species and playable
      background pair that has a game, a game of that pair scoring at least
      as much as that game. */
  lemma ComboHighscoresComplete(gs: seq<Game>, species: seq<CharType>, backgrounds: seq<CharType>,
                                sp: CharType, bg: CharType, g: Game)
    requires sp in species && sp.playable && bg in backgrounds && bg.playable
    requires g in gs && g.species == sp.short && g.background == bg.short
    ensures exists h :: h in ComboHighscores(gs, species, backgrounds)
                        && h.species == sp.short && h.background == bg.short
                        && h.score >= g.score
  {
    var sps := ListCharTypes(species, Some(true));
    var bgs := ListCharTypes(backgrounds, Some(true));
    ListCharTypesCorrect(species, Some(true));
    ListCharTypesCorrect(backgrounds, Some(true));
    var j :| 0 <= j < |sps| && sps[j] == sp;
    var k :| 0 <= k < |bgs| && bgs[k] == bg;
    assert Shorts(bgs)[k] == bg.short;
    ComboRowsComplete(gs, sps, bgs, j, g);
    ComboRowsCorrect(gs, sps, bgs);
  }

  /** The position of `name`'s group, if it has one. */
  function FindGroup(groups: seq<(string, seq<Game>)>, name: string): (r: Option<nat>)
    ensures r.Some? ==> r.value < |groups| && groups[r.value].0 == name
    ensures r.None? <==> forall i :: 0 <= i < |groups| ==> groups[i].0 != name
  {
    if |groups| == 0 then None
    else if groups[0].0 == name then Some(0)
    else match FindGroup(groups[1..], name)
         case None => None
         case Some(k) => Some(k + 1)
  }

  /** The dictionary `results.setdefault(player, []).append(game)` builds,
      in insertion order. */
  function Group(owned: seq<(string, Game)>): (r: seq<(string, seq<Game>)>)
  {
    if |owned| == 0 then []
    else
      var prev := Group(owned[..|owned| - 1]);
      var (n, g) := owned[|owned| - 1];
      match FindGroup(prev, n)
      case Some(i) => prev[i := (n, prev[i].1 + [g])]
      case None => prev + [(n, [g])]
  }

  /** How many of the owned games belong to `name`. */
  function CountOwned(owned: seq<(string, Game)>, name: string): nat
  {
    if |owned| == 0 then 0
    else CountOwned(owned[..|owned| - 1], name) + (if owned[|owned| - 1].0 == name then 1 else 0)
  }

  /** One step of the grouping, spelled out. */
  lemma GroupStep(owned: seq<(string, Game)>)
    requires |owned| > 0
    ensures var prev := Group(owned[..|owned| - 1]);
            var n := owned[|owned| - 1].0;
            var g := owned[|owned| - 1].1;
            && (FindGroup(prev, n).Some? ==>
                  Group(owned) == prev[FindGroup(prev, n).value := (n, prev[FindGroup(prev, n).value].1 + [g])])
            && (FindGroup(prev, n).None? ==> Group(owned) == prev + [(n, [g])])
            && CountOwned(owned, n) == CountOwned(owned[..|owned| - 1], n) + 1
            && forall m :: m != n ==> CountOwned(owned, m) == CountOwned(owned[..|owned| - 1], m)
  {
  }

  /** Group names are distinct. */
  lemma {:induction false} GroupDistinct(owned: seq<(string, Game)>)
    ensures forall i, j :: 0 <= i < j < |Group(owned)| ==> Group(owned)[i].0 != Group(owned)[j].0
  {
    if |owned| > 0 {
      GroupStep(owned);
      var init := owned[..|owned| - 1];
      GroupDistinct(init);
      var prev := Group(init);
      var r := Group(owned);
      var n := owned[|owned| - 1].0;
      if FindGroup(prev, n).Some? {
        assert forall i :: 0 <= i < |r| ==> r[i].0 == prev[i].0;
      } else {
        assert r == prev + [(n, [owned[|owned| - 1].1])];
      }
    }
  }

  /** A name has a group exactly when it owns a game. */
  lemma {:induction false} GroupOwners(owned: seq<(string, Game)>, m: string)
    ensures FindGroup(Group(owned), m).Some? <==> CountOwned(owned, m) > 0
  {
    if |owned| > 0 {
      GroupStep(owned);
      var init := owned[..|owned| - 1];
      GroupOwners(init, m);
      var prev := Group(init);
      var r := Group(owned);
      var n := owned[|owned| - 1].0;
      if FindGroup(prev, n).Some? {
        assert forall i :: 0 <= i < |r| ==> r[i].0 == prev[i].0;
        GroupOwners(init, n);
        if FindGroup(prev, m).Some? {
          assert r[FindGroup(prev, m).value].0 == m;
        }
        if FindGroup(r, m).Some? {
          assert prev[FindGroup(r, m).value].0 == m;
        }
      } else {
        assert r == prev + [(n, [owned[|owned| - 1].1])];
        if m == n {
          assert r[|prev|].0 == n;
        } else {
          if FindGroup(prev, m).Some? {
            assert r[FindGroup(prev, m).value] == prev[FindGroup(prev, m).value];
          }
          if FindGroup(r, m).Some? {
            assert r[FindGroup(r, m).value] == prev[FindGroup(r, m).value];
          }
        }
      }
    }
  }

  /** Each group holds as many games as its owner owns. */
  lemma {:induction false} GroupSizes(owned: seq<(string, Game)>)
    ensures var r := Group(owned);
            forall i :: 0 <= i < |r| ==> |r[i].1| == CountOwned(owned, r[i].0)
  {
    if |owned| > 0 {
      GroupStep(owned);
      var init := owned[..|owned| - 1];
      GroupSizes(init);
      GroupDistinct(init);
      var prev := Group(init);
      var r := Group(owned);
      var n := owned[|owned| - 1].0;
      if FindGroup(prev, n).Some? {
        var k := FindGroup(prev, n).value;
        forall i | 0 <= i < |r| ensures |r[i].1| == CountOwned(owned, r[i].0) {
          if i != k {
            assert r[i] == prev[i];
          }
        }
      } else {
        GroupOwners(init, n);
        assert r == prev + [(n, [owned[|owned| - 1].1])];
        forall i | 0 <= i < |r| ensures |r[i].1| == CountOwned(owned, r[i].0) {
          if i < |prev| {
            assert r[i] == prev[i];
          }
        }
      }
    }
  }

  /** Every grouped game is one of its owner's games. */
  lemma {:induction false} GroupMembers(owned: seq<(string, Game)>)
    ensures var r := Group(owned);
            forall i, g :: 0 <= i < |r| && g in r[i].1 ==> (r[i].0, g) in owned
  {
    if |owned| > 0 {
      GroupStep(owned);
      var init := owned[..|owned| - 1];
      GroupMembers(init);
      var prev := Group(init);
      var r := Group(owned);
      var (n, g) := owned[|owned| - 1];
      assert forall x :: x in init ==> x in owned;
      if FindGroup(prev, n).Some? {
        var k := FindGroup(prev, n).value;
        forall i, h | 0 <= i < |r| && h in r[i].1 ensures (r[i].0, h) in owned {
          if i != k {
            assert r[i] == prev[i];
          } else if h !in prev[k].1 {
            assert h == g;
          }
        }
      } else {
        assert r == prev + [(n, [g])];
        forall i, h | 0 <= i < |r| && h in r[i].1 ensures (r[i].0, h) in owned {
          if i < |prev| {
            assert r[i] == prev[i];
          }
        }
      }
    }
  }

  function GroupSizeDescending(p: (string, seq<Game>)): Key
  {
    Key(0 - |p.1|, "")
  }

  /** `combo_highscore_holders` over the owners of the combo highscores:
      groups by owner, the largest first (equal sizes in first-seen order),
      at most `limit` of them. */
  function Holders(owned: seq<(string, Game)>, limit: nat): seq<(string, seq<Game>)>
  {
    Take(SortedGroups(owned), limit)
  }

  /** The players' groups, most games first. */
  function SortedGroups(owned: seq<(string, Game)>): seq<(string, seq<Game>)>
  {
    SortBy(Group(owned), GroupSizeDescending)
  }

  lemma HoldersCorrect(owned: seq<(string, Game)>, limit: nat)
    ensures var r := Holders(owned, limit);
            |r| <= limit
            && (forall i :: 0 <= i < |r| ==> |r[i].1| == CountOwned(owned, r[i].0) > 0)
            && (forall i, j :: 0 <= i < j < |r| ==> |r[i].1| >= |r[j].1|)
            && (forall i, j :: 0 <= i < j < |r| ==> r[i].0 != r[j].0)
  {
    var sorted := SortedGroups(owned);
    SortedGroupsCounted(owned);
    SortedGroupsOrdered(owned);
    SortedGroupsDistinct(owned);
    var r := Holders(owned, limit);
    assert r == sorted[..|r|];
    forall i, j | 0 <= i < j < |r|
      ensures |r[i].1| >= |r[j].1| && r[i].0 != r[j].0
    {
      assert r[i] == sorted[i] && r[j] == sorted[j];
    }
    forall i | 0 <= i < |r|
      ensures |r[i].1| == CountOwned(owned, r[i].0) > 0
    {
      assert r[i] == sorted[i];
    }
  }

  /** With a limit the groups kept are the first `limit` sorted groups, so
      fewer come back only when fewer players own a highscore, and no group
      left out is larger than a group kept. */
  lemma HoldersTop(owned: seq<(string, Game)>, limit: nat)
    ensures var r := Holders(owned, limit);
            var sorted := SortedGroups(owned);
            r == Take(sorted, limit)
            && forall i, j :: 0 <= i < |r| <= j < |sorted| ==> |r[i].1| >= |sorted[j].1|
  {
    var r := Holders(owned, limit);
    var sorted := SortedGroups(owned);
    SortedGroupsOrdered(owned);
    forall i, j | 0 <= i < |r| <= j < |sorted| ensures |r[i].1| >= |sorted[j].1| {
      assert r[i] == sorted[i];
    }
  }

  /** Every player who owns a highscore has a sorted group. */
  lemma SortedGroupsComplete(owned: seq<(string, Game)>, name: string)
    requires CountOwned(owned, name) > 0
    ensures exists i :: 0 <= i < |SortedGroups(owned)| && SortedGroups(owned)[i].0 == name
  {
    var grouped := Group(owned);
    var sorted := SortedGroups(owned);
    GroupOwners(owned, name);
    var k := FindGroup(grouped, name).value;
    SortByCorrect(grouped, GroupSizeDescending);
    assert grouped[k] in multiset(sorted);
    var i :| 0 <= i < |sorted| && sorted[i] == grouped[k];
  }

  /** Each sorted group holds all of its player's games, and has some. */
  lemma SortedGroupsCounted(owned: seq<(string, Game)>)
    ensures var sorted := SortedGroups(owned);
      forall i :: 0 <= i < |sorted| ==> |sorted[i].1| == CountOwned(owned, sorted[i].0) > 0
  {
    var grouped := Group(owned);
    var sorted := SortBy(grouped, GroupSizeDescending);
    GroupSizes(owned);
    SortByCorrect(grouped, GroupSizeDescending);
    forall i | 0 <= i < |sorted| ensures |sorted[i].1| == CountOwned(owned, sorted[i].0) > 0 {
      assert sorted[i] in multiset(grouped);
      var k :| 0 <= k < |grouped| && grouped[k] == sorted[i];
      GroupOwners(owned, grouped[k].0);
      assert FindGroup(grouped, grouped[k].0).Some?;
    }
  }

  /** The sorted groups run from the most games to the fewest. */
  lemma SortedGroupsOrdered(owned: seq<(string, Game)>)
    ensures var sorted := SortedGroups(owned);
      forall i, j :: 0 <= i < j < |sorted| ==> |sorted[i].1| >= |sorted[j].1|
  {
    var grouped := Group(owned);
    var sorted := SortBy(grouped, GroupSizeDescending);
    SortByCorrect(grouped, GroupSizeDescending);
    forall i, j | 0 <= i < j < |sorted| ensures |sorted[i].1| >= |sorted[j].1| {
      assert KeyLe(GroupSizeDescending(sorted[i]), GroupSizeDescending(sorted[j]));
    }
  }

  /** No player has two sorted groups. */
  lemma SortedGroupsDistinct(owned: seq<(string, Game)>)
    ensures var sorted := SortedGroups(owned);
      forall i, j :: 0 <= i < j < |sorted| ==> sorted[i].0 != sorted[j].0
  {
    var grouped := Group(owned);
    GroupDistinct(owned);
    SortByCorrect(grouped, GroupSizeDescending);
    DistinctKept(grouped, SortedGroups(owned));
  }

  /** Reordering a group list with distinct names keeps them distinct. */
  lemma DistinctKept(grouped: seq<(string, seq<Game>)>, sorted: seq<(string, seq<Game>)>)
    requires multiset(grouped) == multiset(sorted)
    requires forall i, j :: 0 <= i < j < |grouped| ==> grouped[i].0 != grouped[j].0
    ensures forall i, j :: 0 <= i < j < |sorted| ==> sorted[i].0 != sorted[j].0
  {
    forall i, j | 0 <= i < j < |sorted| ensures sorted[i].0 != sorted[j].0 {
      if sorted[i].0 == sorted[j].0 {
        assert sorted[i] in multiset(grouped) && sorted[j] in multiset(grouped);
        var a :| 0 <= a < |grouped| && grouped[a] == sorted[i];
        var b :| 0 <= b < |grouped| && grouped[b] == sorted[j];
        if a == b {
          MultiplicityAtLeastTwo(sorted, i, j);
          DistinctPairs(grouped, a);
        }
      }
    }
  }

  /** A group list with distinct names holds each group once. */
  lemma DistinctPairs(grouped: seq<(string, seq<Game>)>, a: nat)
    requires a < |grouped|
    requires forall i, j :: 0 <= i < j < |grouped| ==> grouped[i].0 != grouped[j].0
    ensures multiset(grouped)[grouped[a]] == 1
  {
    var x := grouped[a];
    assert grouped == grouped[..a] + [x] + grouped[a + 1..];
    assert x !in grouped[..a] by {
      forall i | 0 <= i < a ensures grouped[..a][i] != x {
        assert grouped[i].0 != grouped[a].0;
      }
    }
    assert x !in grouped[a + 1..] by {
      forall i | a + 1 <= i < |grouped| ensures grouped[i] != x {
        assert grouped[i].0 != grouped[a].0;
      }
    }
  }

  // ---------------------------------------------------------------- streak queries

  /** The number of games attached to a streak. */
  function StreakLength(gs: seq<Game>, sid: nat): nat
  {
    if |gs| == 0 then 0
    else StreakLength(gs[..|gs| - 1], sid) + (if gs[|gs| - 1].streak == Some(sid) then 1 else 0)
  }

  /** The active streaks of one player, by id. */
  function ActiveStreaksOf(sts: seq<Streak>, pid: nat): (r: seq<nat>)
    ensures forall k: nat :: k in r <==> k < |sts| && sts[k].playerId == pid && sts[k].active
    ensures forall i, j :: 0 <= i < j < |r| ==> r[i] < r[j]
  {
    if |sts| == 0 then []
    else
      var rest := ActiveStreaksOf(sts[..|sts| - 1], pid);
      var k := |sts| - 1;
      forall i | 0 <= i < |rest| ensures rest[i] < k {
        var x := rest[i];
        assert x in rest;
      }
      if sts[k].playerId == pid && sts[k].active then rest + [k] else rest
  }

  /** `get_player_streak`: `one_or_none` over the player's active streaks. */
  function PlayerStreak(sts: seq<Streak>, pid: nat): (r: Result<Option<nat>>)
    ensures r.Ok? && r.value.Some? ==>
      r.value.value < |sts| && sts[r.value.value].playerId == pid && sts[r.value.value].active
    ensures r == Ok(None) <==> !HasActiveStreak(sts, pid)
  {
    var act := ActiveStreaksOf(sts, pid);
    ActiveStreaksWitness(sts, pid);
    if |act| == 0 then Ok(None)
    else if |act| == 1 then (assert act[0] in act; Ok(Some(act[0])))
    else Raised(MultipleResultsFound)
  }

  lemma ActiveStreaksWitness(sts: seq<Streak>, pid: nat)
    ensures HasActiveStreak(sts, pid) <==> |ActiveStreaksOf(sts, pid)| > 0
  {
    var act := ActiveStreaksOf(sts, pid);
    if HasActiveStreak(sts, pid) {
      var i :| 0 <= i < |sts| && sts[i].playerId == pid && sts[i].active;
      assert i in act;
    }
    if |act| > 0 {
      assert act[0] in act;
    }
  }

  /** Under the one-active-streak invariant the lookup never raises. */
  lemma PlayerStreakNeverRaises(sts: seq<Streak>, pid: nat)
    requires OneActiveStreakPerPlayer(sts)
    ensures PlayerStreak(sts, pid).Ok?
  {
    TwoActiveBreakInvariant(sts, pid);
  }

  lemma TwoActiveBreakInvariant(sts: seq<Streak>, pid: nat)
    ensures |ActiveStreaksOf(sts, pid)| > 1 ==> !OneActiveStreakPerPlayer(sts)
  {
    var act := ActiveStreaksOf(sts, pid);
    if |act| > 1 {
      assert act[0] in act && act[1] in act;
      assert act[0] < act[1];
    }
  }

  function StreakIds(n: nat): (r: seq<nat>)
    ensures |r| == n && forall i :: 0 <= i < n ==> r[i] == i
  {
    if n == 0 then [] else StreakIds(n - 1) + [n - 1]
  }

  /** The streaks with more than one game and the requested active flag. */
  function LongStreaks(sts: seq<Streak>, gs: seq<Game>, ids: seq<nat>, active: Option<bool>): (r: seq<nat>)
    ensures forall k: nat :: k in r <==>
      (k in ids && k < |sts| && StreakLength(gs, k) > 1 && (active.Some? ==> sts[k].active == active.value))
  {
    if |ids| == 0 then []
    else
      var rest := LongStreaks(sts, gs, ids[..|ids| - 1], active);
      var k := ids[|ids| - 1];
      assert forall y :: y in ids <==> y in ids[..|ids| - 1] || y == k;
      if k < |sts| && StreakLength(gs, k) > 1 && (active.Some? ==> sts[k].active == active.value)
      then rest + [k] else rest
  }

  /** `get_streaks`: streaks of two or more games, longest first, optionally
      only those with a given active flag, at most `limit` of them. */
  function GetStreaks(sts: seq<Streak>, gs: seq<Game>, active: Option<bool>, limit: Option<nat>): seq<nat>
  {
    var chosen := LongStreaks(sts, gs, StreakIds(|sts|), active);
    var ordered := SortBy(chosen, (k: nat) => Key(0 - StreakLength(gs, k) as int, ""));
    if limit.Some? then Take(ordered, limit.value) else ordered
  }

  lemma GetStreaksCorrect(sts: seq<Streak>, gs: seq<Game>, active: Option<bool>, limit: Option<nat>)
    ensures var r := GetStreaks(sts, gs, active, limit);
            (forall k :: k in r ==> k < |sts| && StreakLength(gs, k) > 1
                                    && (active.Some? ==> sts[k].active == active.value))
            && (limit.Some? ==> |r| <= limit.value)
            && (limit.None? ==>
                  forall k: nat :: (k < |sts| && StreakLength(gs, k) > 1
                                    && (active.Some? ==> sts[k].active == active.value)) ==> k in r)
            && forall i, j :: 0 <= i < j < |r| ==> StreakLength(gs, r[i]) >= StreakLength(gs, r[j])
  {
    GetStreaksChosen(sts, gs, active, limit);
    GetStreaksOrdered(sts, gs, active, limit);
  }

  /** Which streaks the query returns. */
  lemma GetStreaksChosen(sts: seq<Streak>, gs: seq<Game>, active: Option<bool>, limit: Option<nat>)
    ensures var r := GetStreaks(sts, gs, active, limit);
            (forall k :: k in r ==> k < |sts| && StreakLength(gs, k) > 1
                                    && (active.Some? ==> sts[k].active == active.value))
            && (limit.Some? ==> |r| <= limit.value)
            && (limit.None? ==>
                  forall k: nat :: (k < |sts| && StreakLength(gs, k) > 1
                                    && (active.Some? ==> sts[k].active == active.value)) ==> k in r)
  {
    var chosen := LongStreaks(sts, gs, StreakIds(|sts|), active);
    var key := (k: nat) => Key(0 - StreakLength(gs, k) as int, "");
    var ordered := SortBy(chosen, key);
    SortByCorrect(chosen, key);
    var r := GetStreaks(sts, gs, active, limit);
    forall k | k in r ensures k in chosen {
      assert k in ordered;
      assert k in multiset(ordered);
    }
    if limit.None? {
      forall k: nat | k < |sts| && StreakLength(gs, k) > 1 && (active.Some? ==> sts[k].active == active.value)
        ensures k in r
      {
        assert StreakIds(|sts|)[k] == k;
        assert k in chosen;
        assert k in multiset(ordered);
      }
    }
  }

  /** With a limit the query keeps the first `limit` streaks of the
      unlimited one, so fewer come back only when fewer qualify, and no
      streak left out is longer than a streak kept. */
  lemma GetStreaksTop(sts: seq<Streak>, gs: seq<Game>, active: Option<bool>, limit: nat)
    ensures var r := GetStreaks(sts, gs, active, Some(limit));
            var all := GetStreaks(sts, gs, active, None);
            r == Take(all, limit)
            && forall i, j :: 0 <= i < |r| <= j < |all| ==> StreakLength(gs, r[i]) >= StreakLength(gs, all[j])
  {
    var r := GetStreaks(sts, gs, active, Some(limit));
    var all := GetStreaks(sts, gs, active, None);
    GetStreaksOrdered(sts, gs, active, None);
    forall i, j | 0 <= i < |r| <= j < |all| ensures StreakLength(gs, r[i]) >= StreakLength(gs, all[j]) {
      assert r[i] == all[i];
    }
  }

  /** The returned streaks run from the longest down. */
  lemma GetStreaksOrdered(sts: seq<Streak>, gs: seq<Game>, active: Option<bool>, limit: Option<nat>)
    ensures var r := GetStreaks(sts, gs, active, limit);
            forall i, j :: 0 <= i < j < |r| ==> StreakLength(gs, r[i]) >= StreakLength(gs, r[j])
  {
    var chosen := LongStreaks(sts, gs, StreakIds(|sts|), active);
    var key := (k: nat) => Key(0 - StreakLength(gs, k) as int, "");
    var ordered := SortBy(chosen, key);
    SortByCorrect(chosen, key);
    var r := GetStreaks(sts, gs, active, limit);
    forall i, j | 0 <= i < j < |r| ensures StreakLength(gs, r[i]) >= StreakLength(gs, r[j]) {
      assert KeyLe(key(ordered[i]), key(ordered[j]));
    }
  }

  // ---------------------------------------------------------------- the store

  /** Players are only added at the end, keep their names, and only gain
      achievements. */
  predicate PlayersGrow(ps: seq<Player>, ps': seq<Player>)
  {
    |ps| <= |ps'|
    && forall i :: 0 <= i < |ps| ==> ps'[i].name == ps[i].name && ps[i].achievements <= ps'[i].achievements
  }

  lemma PlayersGrowTransitive(a: seq<Player>, b: seq<Player>, c: seq<Player>)
    requires PlayersGrow(a, b) && PlayersGrow(b, c)
    ensures PlayersGrow(a, c)
  {
    forall i | 0 <= i < |a| ensures a[i].achievements <= c[i].achievements {
      PrefixTransitive(a[i].achievements, b[i].achievements, c[i].achievements);
    }
  }

  lemma PrefixTransitive(x: seq<nat>, y: seq<nat>, z: seq<nat>)
    requires x <= y && y <= z
    ensures x <= z
  {
    assert x == y[..|x|];
  }

  /** With unique names, the lookup finds the one player of that name. */
  lemma FindPlayerUnique(ps: seq<Player>, name: string, k: nat)
    requires PlayerNamesUnique(ps) && k < |ps| && Lower(ps[k].name) == Lower(name)
    ensures FindPlayer(ps, name) == Some(k)
  {
  }

  /** Appending `aid` to the achievements of the player `name` was looked
      up (or created) at. */
  lemma AwardedAfter(before: seq<Player>, found: seq<Player>, name: string, pid: nat, aid: nat)
    requires PlayerNamesUnique(found) && pid < |found| && Lower(found[pid].name) == Lower(name)
    requires FindPlayer(before, name).Some? ==> found == before && pid == FindPlayer(before, name).value
    requires FindPlayer(before, name).None? ==> found == before + [Player(name, [])] && pid == |before|
    ensures var after := found[pid := found[pid].(achievements := found[pid].achievements + [aid])];
      PlayersGrow(before, after) && Awarded(after, aid, name) && FindPlayer(after, name) == Some(pid)
      && after[pid].achievements == (if pid < |before| then before[pid].achievements else []) + [aid]
      && (forall i :: 0 <= i < |before| && i != pid ==> after[i] == before[i])
      && |after| == |found| && (forall i :: 0 <= i < |found| ==> after[i].name == found[i].name)
  {
    var after := found[pid := found[pid].(achievements := found[pid].achievements + [aid])];
    FindPlayerUnique(found, name, pid);
    assert PlayersGrow(found, after);
    FindPlayerStable(found, after, name);
  }

  /** Changing anything but the names of the players keeps the links to
      them. */
  lemma SameNamesValid(ps: seq<Player>, ps': seq<Player>, accs: seq<Account>, sts: seq<Streak>)
    requires |ps| == |ps'| && forall i :: 0 <= i < |ps| ==> ps'[i].name == ps[i].name
    requires PlayerNamesUnique(ps) && AccountsLinked(accs, ps) && StreaksOwned(sts, ps)
    ensures PlayerNamesUnique(ps') && AccountsLinked(accs, ps') && StreaksOwned(sts, ps')
  {
    forall i | 0 <= i < |accs|
      ensures ps'[accs[i].playerId].name == ps[accs[i].playerId].name
    {
    }
  }

  /** The player called `name` holds achievement `aid`. */
  predicate Awarded(ps: seq<Player>, aid: nat, name: string)
  {
    FindPlayer(ps, name).Some? && aid in ps[FindPlayer(ps, name).value].achievements
  }

  lemma {:induction false} FindPlayerStable(ps: seq<Player>, ps': seq<Player>, name: string)
    requires PlayersGrow(ps, ps') && FindPlayer(ps, name).Some?
    ensures FindPlayer(ps', name) == FindPlayer(ps, name)
  {
    if Lower(ps[0].name) != Lower(name) {
      assert PlayersGrow(ps[1..], ps'[1..]);
      FindPlayerStable(ps[1..], ps'[1..], name);
    }
  }

  /** An award survives any later growth of the players. */
  lemma AwardedStable(ps: seq<Player>, ps': seq<Player>, aid: nat, name: string)
    requires PlayersGrow(ps, ps') && Awarded(ps, aid, name)
    ensures Awarded(ps', aid, name)
  {
    FindPlayerStable(ps, ps', name);
    var k := FindPlayer(ps, name).value;
    assert ps[k].achievements == ps'[k].achievements[..|ps[k].achievements|];
  }

  /** Every named player holds achievement `aid`. */
  predicate AwardedAll(ps: seq<Player>, aid: nat, names: seq<string>)
  {
    forall n :: n in names ==> Awarded(ps, aid, n)
  }

  lemma AwardedAllStable(ps: seq<Player>, ps': seq<Player>, aid: nat, names: seq<string>)
    requires PlayersGrow(ps, ps') && AwardedAll(ps, aid, names)
    ensures AwardedAll(ps', aid, names)
  {
    forall n | n in names ensures Awarded(ps', aid, n) {
      AwardedStable(ps, ps', aid, n);
    }
  }

  /** Every added achievement is held by all its players; the k-th added
      achievement has id `base + k`. */
  predicate AllAwarded(ps: seq<Player>, base: nat, added: seq<AchievementProto>)
    decreases |added|
  {
    |added| == 0
    || (AllAwarded(ps, base, added[..|added| - 1])
        && AwardedAll(ps, base + |added| - 1, added[|added| - 1].players))
  }

  lemma {:induction false} AllAwardedStable(ps: seq<Player>, ps': seq<Player>, base: nat, added: seq<AchievementProto>)
    requires PlayersGrow(ps, ps') && AllAwarded(ps, base, added)
    ensures AllAwarded(ps', base, added)
  {
    if |added| > 0 {
      AllAwardedStable(ps, ps', base, added[..|added| - 1]);
      AwardedAllStable(ps, ps', base + |added| - 1, added[|added| - 1].players);
    }
  }

  /** Spelled out: the player of every name listed by the k-th added
      achievement holds achievement `base + k`. */
  lemma {:induction false} AllAwardedMeaning(ps: seq<Player>, base: nat, added: seq<AchievementProto>, k: nat, n: string)
    requires AllAwarded(ps, base, added)
    requires k < |added| && n in added[k].players
    ensures Awarded(ps, base + k, n)
  {
    if k < |added| - 1 {
      AllAwardedMeaning(ps, base, added[..|added| - 1], k, n);
    }
  }

  lemma NewAchievementsStep(base: seq<Achievement>, protos: seq<AchievementProto>, i: nat)
    requires i < |protos|
    ensures var prev := NewAchievements(base, protos[..i]);
            var p := protos[i];
            NewAchievements(base, protos[..i + 1])
              == if FindKey(base + ProtoAchievements(prev), AchievementKey, p.name).None? then prev + [p] else prev
  {
    assert protos[..i + 1][..i] == protos[..i];
  }

  /** The stored achievements grow by the one just added. */
  lemma CatalogueSnoc(base: seq<Achievement>, prev: seq<AchievementProto>, p: AchievementProto)
    ensures base + ProtoAchievements(prev + [p]) == (base + ProtoAchievements(prev)) + [ProtoAchievement(p)]
  {
    assert (prev + [p])[..|prev|] == prev;
  }

  /** One round of the achievement loader keeps the stored achievements equal
      to the base plus the ones added so far. */
  lemma SetupCatalogueStep(base: seq<Achievement>, protos: seq<AchievementProto>, i: nat,
                           cat1: seq<Achievement>, cat2: seq<Achievement>)
    requires i < |protos|
    requires cat1 == base + ProtoAchievements(NewAchievements(base, protos[..i]))
    requires FindKey(cat1, AchievementKey, protos[i].name).None? ==> cat2 == cat1 + [ProtoAchievement(protos[i])]
    requires FindKey(cat1, AchievementKey, protos[i].name).Some? ==> cat2 == cat1
    ensures cat2 == base + ProtoAchievements(NewAchievements(base, protos[..i + 1]))
    ensures NewAchievements(base, protos[..i + 1])
            == if FindKey(cat1, AchievementKey, protos[i].name).None?
               then NewAchievements(base, protos[..i]) + [protos[i]]
               else NewAchievements(base, protos[..i])
    ensures |cat1| == |base| + |NewAchievements(base, protos[..i])|
  {
    var prev := NewAchievements(base, protos[..i]);
    NewAchievementsStep(base, protos, i);
    CatalogueSnoc(base, prev, protos[i]);
  }

  /** ... and keeps every added achievement awarded to its players. */
  lemma SetupAwardStep(ps1: seq<Player>, ps2: seq<Player>, base: nat, prev: seq<AchievementProto>,
                       p: AchievementProto, added: bool, aid: nat)
    requires PlayersGrow(ps1, ps2) && AllAwarded(ps1, base, prev)
    requires added ==> aid == base + |prev| && AwardedAll(ps2, aid, p.players)
    ensures AllAwarded(ps2, base, if added then prev + [p] else prev)
  {
    AllAwardedStable(ps1, ps2, base, prev);
    if added {
      AllAwardedSnoc(ps2, base, prev, p, aid);
    }
  }

  lemma AllAwardedSnoc(ps: seq<Player>, base: nat, prev: seq<AchievementProto>, p: AchievementProto, aid: nat)
    requires AllAwarded(ps, base, prev)
    requires aid == base + |prev|
    requires AwardedAll(ps, aid, p.players)
    ensures AllAwarded(ps, base, prev + [p])
  {
    assert (prev + [p])[..|prev|] == prev;
  }

  /** The players that own the given games, through their accounts. */
  predicate Owned(gs: seq<Game>, accs: seq<Account>, ps: seq<Player>)
  {
    forall i :: 0 <= i < |gs| ==> gs[i].accountId < |accs| && accs[gs[i].accountId].playerId < |ps|
  }

  /** Each game paired with the name of the player owning it. */
  function Owners(gs: seq<Game>, accs: seq<Account>, ps: seq<Player>): (r: seq<(string, Game)>)
    requires Owned(gs, accs, ps)
    ensures |r| == |gs|
  {
    if |gs| == 0 then []
    else
      var g := gs[|gs| - 1];
      Owners(gs[..|gs| - 1], accs, ps) + [(ps[accs[g.accountId].playerId].name, g)]
  }

  /** Extending the owned prefix by one game adds that game's owner. */
  lemma OwnersStep(gs: seq<Game>, accs: seq<Account>, ps: seq<Player>, i: nat)
    requires Owned(gs, accs, ps) && i < |gs|
    ensures Owned(gs[..i], accs, ps) && Owned(gs[..i + 1], accs, ps)
    ensures var g := gs[i];
            var o := Owners(gs[..i + 1], accs, ps);
            |o| > 0 && o[..|o| - 1] == Owners(gs[..i], accs, ps)
            && o[|o| - 1] == (ps[accs[g.accountId].playerId].name, g)
  {
    assert gs[..i + 1][..i] == gs[..i];
  }

  predicate ComboOwned(gs: seq<Game>, accs: seq<Account>, ps: seq<Player>, cat: Catalogue)
  {
    Owned(ComboHighscores(gs, cat.species, cat.backgrounds), accs, ps)
  }

  /** The combo highscores are games of the table, so each has an owner. */
  lemma ComboHighscoresOwned(gs: seq<Game>, accs: seq<Account>, ps: seq<Player>, cat: Catalogue)
    requires Owned(gs, accs, ps)
    ensures ComboOwned(gs, accs, ps, cat)
  {
    var highs := ComboHighscores(gs, cat.species, cat.backgrounds);
    ComboRowsCorrect(gs, ListCharTypes(cat.species, Some(true)), ListCharTypes(cat.backgrounds, Some(true)));
    forall i | 0 <= i < |highs| ensures highs[i].accountId < |accs| && accs[highs[i].accountId].playerId < |ps| {
      assert highs[i] in highs;
      var m :| 0 <= m < |gs| && gs[m] == highs[i];
    }
  }

  datatype Catalogue = Catalogue(
    species: seq<CharType>,
    backgrounds: seq<CharType>,
    gods: seq<God>,
    ktyps: seq<string>,
    branches: seq<Branch>,
    achievements: seq<Achievement>)

  /** The rows of a catalogue that are not stored yet, collected one by one
      before a single insert. */
  method CollectMissing<T>(existing: seq<T>, cat: seq<T>, key: T -> string) returns (added: seq<T>)
    ensures added == Missing(existing, cat, key)
  {
    added := [];
    var i := 0;
    while i < |cat|
      invariant 0 <= i <= |cat|
      invariant added == Missing(existing, cat[..i], key)
    {
      assert cat[..i + 1][..i] == cat[..i];
      if FindKey(existing, key, key(cat[i])).None? {
        added := added + [cat[i]];
      }
      i := i + 1;
    }
    assert cat[..|cat|] == cat;
  }

  class Store {
    var players: seq<Player>
    var accounts: seq<Account>
    var games: seq<Game>
    var streaks: seq<Streak>
    var progress: map<string, nat>
    var catalogue: Catalogue

    ghost predicate Valid()
      reads this
    {
      PlayerNamesUnique(players) && AccountsLinked(accounts, players)
      && StreaksOwned(streaks, players) && GamesLinked(games, accounts, streaks)
    }

    constructor()
      ensures Valid() && OneActiveStreakPerPlayer(streaks)
      ensures players == [] && accounts == [] && games == [] && streaks == [] && progress == map[]
      ensures catalogue == Catalogue([], [], [], [], [], [])
    {
      players := [];
      accounts := [];
      games := [];
      streaks := [];
      progress := map[];
      catalogue := Catalogue([], [], [], [], [], []);
    }

    /** `get_player_id`: the player whose lowercased name matches, created
        with the given capitalisation on a miss. */
    method GetPlayerId(name: string) returns (id: nat)
      requires Valid()
      modifies this
      ensures Valid()
      ensures id < |players| && Lower(players[id].name) == Lower(name)
      ensures old(FindPlayer(players, name)).Some? ==>
        players == old(players) && id == old(FindPlayer(players, name)).value
      ensures old(FindPlayer(players, name)).None? ==>
        players == old(players) + [Player(name, [])] && id == old(|players|)
      ensures accounts == old(accounts) && games == old(games) && streaks == old(streaks)
      ensures progress == old(progress) && catalogue == old(catalogue)
    {
      var found := FindPlayer(players, name);
      if found.Some? {
        id := found.value;
      } else {
        AddPlayerKeepsInvariants(players, accounts, streaks, name);
        players := players + [Player(name, [])];
        id := |players| - 1;
      }
    }

    /** `get_player`: the same lookup, returning the row. */
    method GetPlayer(name: string) returns (p: Player)
      requires Valid()
      modifies this
      ensures Valid()
      ensures p in players && Lower(p.name) == Lower(name)
      ensures old(FindPlayer(players, name)).Some? ==>
        players == old(players) && p == old(players[FindPlayer(players, name).value])
      ensures old(FindPlayer(players, name)).None? ==>
        players == old(players) + [Player(name, [])] && p == Player(name, [])
      ensures accounts == old(accounts) && games == old(games) && streaks == old(streaks)
      ensures progress == old(progress) && catalogue == old(catalogue)
    {
      var id := GetPlayerId(name);
      p := players[id];
    }

    /** `get_account_id`: first makes sure the player exists, then finds the
        account by lowercased name and server, creating it on a miss. */
    method GetAccountId(name: string, server: string) returns (id: nat)
      requires Valid()
      modifies this
      ensures Valid()
      ensures id < |accounts| && Lower(accounts[id].name) == Lower(name) && accounts[id].server == server
      ensures Lower(players[accounts[id].playerId].name) == Lower(name)
      ensures old(FindAccount(accounts, name, server)).Some? ==>
        accounts == old(accounts) && id == old(FindAccount(accounts, name, server)).value
      ensures old(FindAccount(accounts, name, server)).None? ==>
        accounts == old(accounts) + [Account(name, server, accounts[id].playerId, false)]
        && id == old(|accounts|)
      ensures old(FindPlayer(players, name)).Some? ==> players == old(players)
      ensures old(FindPlayer(players, name)).None? ==> players == old(players) + [Player(name, [])]
      ensures games == old(games) && streaks == old(streaks)
      ensures progress == old(progress) && catalogue == old(catalogue)
    {
      var pid := GetPlayerId(name);
      var found := FindAccount(accounts, name, server);
      if found.Some? {
        id := found.value;
      } else {
        accounts := accounts + [Account(name, server, pid, false)];
        id := |accounts| - 1;
        assert AccountsLinked(accounts, players);
      }
    }

    /** `create_streak`: a new active streak for the player. It does not look
        for an existing one; the caller must. */
    method CreateStreak(pid: nat) returns (sid: nat)
      requires Valid() && pid < |players|
      modifies this
      ensures Valid()
      ensures streaks == old(streaks) + [Streak(pid, true)] && sid == old(|streaks|)
      ensures old(OneActiveStreakPerPlayer(streaks)) && old(!HasActiveStreak(streaks, pid)) ==>
        OneActiveStreakPerPlayer(streaks)
      ensures players == old(players) && accounts == old(accounts) && games == old(games)
      ensures progress == old(progress) && catalogue == old(catalogue)
    {
      streaks := streaks + [Streak(pid, true)];
      sid := |streaks| - 1;
      if OneActiveStreakPerPlayer(old(streaks)) && !HasActiveStreak(old(streaks), pid) {
        forall i, j | 0 <= i < j < |streaks| && streaks[i].active && streaks[j].active
          ensures streaks[i].playerId != streaks[j].playerId
        {
          if j == sid {
            assert old(streaks)[i] == streaks[i];
          }
        }
      }
    }

    /** `get_logfile_progress`: the stored byte count, creating the row with
        0 on first sight. */
    method GetLogfileProgress(logfile: string) returns (bytes: nat)
      modifies this
      ensures logfile in old(progress) ==> progress == old(progress) && bytes == old(progress)[logfile]
      ensures logfile !in old(progress) ==> progress == old(progress)[logfile := 0] && bytes == 0
      ensures players == old(players) && accounts == old(accounts) && games == old(games)
      ensures streaks == old(streaks) && catalogue == old(catalogue)
    {
      if logfile in progress {
        bytes := progress[logfile];
      } else {
        progress := progress[logfile := NewLogfileProgress(logfile).bytesParsed];
        bytes := 0;
      }
    }

    /** `save_logfile_progress`: sets this logfile's byte count and nothing else. */
    method SaveLogfileProgress(logfile: string, pos: nat)
      modifies this
      ensures progress == old(progress)[logfile := pos]
      ensures players == old(players) && accounts == old(accounts) && games == old(games)
      ensures streaks == old(streaks) && catalogue == old(catalogue)
    {
      var _ := GetLogfileProgress(logfile);
      progress := progress[logfile := pos];
    }

    /** `add_games` behind `_reraise_dberror`: a bulk insert that fails as a
        whole with DBIntegrityError when a gid is already taken, repeated in
        the batch, or an account does not exist. */
    method AddGames(rows: seq<GameRow>) returns (r: Result<()>)
      requires Valid()
      modifies this
      ensures Valid()
      ensures r.Ok? <==> old(InsertableRows(games, accounts, rows))
      ensures r.Ok? ==> games == old(games) + NewGames(rows)
      ensures r.Raised? ==> r.error == DBIntegrityError && games == old(games)
      ensures players == old(players) && accounts == old(accounts) && streaks == old(streaks)
      ensures progress == old(progress) && catalogue == old(catalogue)
    {
      if InsertableRows(games, accounts, rows) {
        var added := NewGames(rows);
        games := games + added;
        forall i, j | 0 <= i < j < |games| ensures games[i].gid != games[j].gid {
          if j >= |old(games)| {
            assert games[j].gid == rows[j - |old(games)|].gid;
            if i >= |old(games)| {
              assert games[i].gid == rows[i - |old(games)|].gid;
            }
          }
        }
        r := Ok(());
      } else {
        // the IntegrityError of the insert, as `_reraise_dberror` lets it out
        r := Raised(DBIntegrityError);
      }
    }

    /** `setup_species`: one insert of the species whose short code is not stored; refused as a whole when a
        short code or a name would repeat. */
    method SetupSpecies(cat: seq<CharType>) returns (r: Result<()>)
      modifies this
      ensures var t := BulkInsert(old(catalogue.species), Missing(old(catalogue.species), cat, SpeciesKey), SpeciesKey, SpeciesName);
              (r.Ok? <==> t.Ok?) && (r.Raised? ==> r.error == DBIntegrityError)
              && catalogue == old(catalogue).(species := if t.Ok? then t.value else old(catalogue.species))
      ensures players == old(players) && accounts == old(accounts) && games == old(games)
      ensures streaks == old(streaks) && progress == old(progress)
    {
      var added := CollectMissing(catalogue.species, cat, SpeciesKey);
      match BulkInsert(catalogue.species, added, SpeciesKey, SpeciesName)
      case Ok(t) =>
        catalogue := catalogue.(species := t);
        r := Ok(());
      case Raised(e) =>
        r := Raised(e);
    }

    /** `setup_backgrounds`: one insert of the backgrounds whose short code is not stored; refused as a whole when
        a short code or a name would repeat. */
    method SetupBackgrounds(cat: seq<CharType>) returns (r: Result<()>)
      modifies this
      ensures var t := BulkInsert(old(catalogue.backgrounds), Missing(old(catalogue.backgrounds), cat, SpeciesKey), SpeciesKey, SpeciesName);
              (r.Ok? <==> t.Ok?) && (r.Raised? ==> r.error == DBIntegrityError)
              && catalogue == old(catalogue).(backgrounds := if t.Ok? then t.value else old(catalogue.backgrounds))
      ensures players == old(players) && accounts == old(accounts) && games == old(games)
      ensures streaks == old(streaks) && progress == old(progress)
    {
      var added := CollectMissing(catalogue.backgrounds, cat, SpeciesKey);
      match BulkInsert(catalogue.backgrounds, added, SpeciesKey, SpeciesName)
      case Ok(t) =>
        catalogue := catalogue.(backgrounds := t);
        r := Ok(());
      case Raised(e) =>
        r := Raised(e);
    }

    /** `setup_gods`: one insert of the gods whose name is not stored; refused as a whole when a name
        would repeat. */
    method SetupGods(cat: seq<God>) returns (r: Result<()>)
      modifies this
      ensures var t := BulkInsert(old(catalogue.gods), Missing(old(catalogue.gods), cat, GodKey), GodKey, GodKey);
              (r.Ok? <==> t.Ok?) && (r.Raised? ==> r.error == DBIntegrityError)
              && catalogue == old(catalogue).(gods := if t.Ok? then t.value else old(catalogue.gods))
      ensures players == old(players) && accounts == old(accounts) && games == old(games)
      ensures streaks == old(streaks) && progress == old(progress)
    {
      var added := CollectMissing(catalogue.gods, cat, GodKey);
      match BulkInsert(catalogue.gods, added, GodKey, GodKey)
      case Ok(t) =>
        catalogue := catalogue.(gods := t);
        r := Ok(());
      case Raised(e) =>
        r := Raised(e);
    }

    /** `setup_ktyps`: one insert of the ktyp names not stored; refused as a whole when a name would repeat. */
    method SetupKtyps(cat: seq<string>) returns (r: Result<()>)
      modifies this
      ensures var t := BulkInsert(old(catalogue.ktyps), Missing(old(catalogue.ktyps), cat, KtypKey), KtypKey, KtypKey);
              (r.Ok? <==> t.Ok?) && (r.Raised? ==> r.error == DBIntegrityError)
              && catalogue == old(catalogue).(ktyps := if t.Ok? then t.value else old(catalogue.ktyps))
      ensures players == old(players) && accounts == old(accounts) && games == old(games)
      ensures streaks == old(streaks) && progress == old(progress)
    {
      var added := CollectMissing(catalogue.ktyps, cat, KtypKey);
      match BulkInsert(catalogue.ktyps, added, KtypKey, KtypKey)
      case Ok(t) =>
        catalogue := catalogue.(ktyps := t);
        r := Ok(());
      case Raised(e) =>
        r := Raised(e);
    }

    /** `setup_branches`: one insert of the branches whose short name is not stored; refused as a whole when a
        short name or a full name would repeat. */
    method SetupBranches(cat: seq<Branch>) returns (r: Result<()>)
      modifies this
      ensures var t := BulkInsert(old(catalogue.branches), Missing(old(catalogue.branches), cat, BranchKey), BranchKey, BranchName);
              (r.Ok? <==> t.Ok?) && (r.Raised? ==> r.error == DBIntegrityError)
              && catalogue == old(catalogue).(branches := if t.Ok? then t.value else old(catalogue.branches))
      ensures players == old(players) && accounts == old(accounts) && games == old(games)
      ensures streaks == old(streaks) && progress == old(progress)
    {
      var added := CollectMissing(catalogue.branches, cat, BranchKey);
      match BulkInsert(catalogue.branches, added, BranchKey, BranchName)
      case Ok(t) =>
        catalogue := catalogue.(branches := t);
        r := Ok(());
      case Raised(e) =>
        r := Raised(e);
    }

    /** Awards achievement `aid` to the player called `name` (created when
        missing); nothing else about the players changes. */
    method Award(name: string, aid: nat)
      requires Valid()
      modifies this
      ensures Valid()
      ensures PlayersGrow(old(players), players)
      ensures Awarded(players, aid, name)
      ensures var id := FindPlayer(players, name).value;
              players[id].achievements
                == (if id < old(|players|) then old(players)[id].achievements else []) + [aid]
              && forall i :: 0 <= i < old(|players|) && i != id ==> players[i] == old(players)[i]
      ensures accounts == old(accounts) && games == old(games) && streaks == old(streaks)
      ensures progress == old(progress) && catalogue == old(catalogue)
    {
      ghost var before := players;
      var pid := GetPlayerId(name);
      AwardedAfter(before, players, name, pid, aid);
      ghost var found := players;
      var p := players[pid];
      players := players[pid := p.(achievements := p.achievements + [aid])];
      SameNamesValid(found, players, accounts, streaks);
    }

    /** Awards achievement `aid` to each named player in turn. */
    method AwardAll(names: seq<string>, aid: nat)
      requires Valid()
      modifies this
      ensures Valid()
      ensures PlayersGrow(old(players), players)
      ensures AwardedAll(players, aid, names)
      ensures accounts == old(accounts) && games == old(games) && streaks == old(streaks)
      ensures progress == old(progress) && catalogue == old(catalogue)
    {
      var j := 0;
      while j < |names|
        invariant 0 <= j <= |names|
        invariant Valid()
        invariant PlayersGrow(old(players), players)
        invariant forall jj :: 0 <= jj < j ==> Awarded(players, aid, names[jj])
        invariant accounts == old(accounts) && games == old(games) && streaks == old(streaks)
        invariant progress == old(progress) && catalogue == old(catalogue)
      {
        ghost var before := players;
        Award(names[j], aid);
        PlayersGrowTransitive(old(players), before, players);
        forall jj | 0 <= jj < j ensures Awarded(players, aid, names[jj]) {
          AwardedStable(before, players, aid, names[jj]);
        }
        j := j + 1;
      }
    }

    /** One round of `setup_achievements`: adds the achievement unless its
        name is stored, then awards it to its players. */
    method AddAchievement(p: AchievementProto)
      requires Valid()
      modifies this
      ensures Valid()
      ensures old(FindKey(catalogue.achievements, AchievementKey, p.name)).None? ==>
        catalogue == old(catalogue).(achievements := old(catalogue.achievements) + [ProtoAchievement(p)])
        && AwardedAll(players, old(|catalogue.achievements|), p.players)
      ensures old(FindKey(catalogue.achievements, AchievementKey, p.name)).Some? ==>
        catalogue == old(catalogue) && players == old(players)
      ensures PlayersGrow(old(players), players)
      ensures accounts == old(accounts) && games == old(games) && streaks == old(streaks)
      ensures progress == old(progress)
    {
      if FindKey(catalogue.achievements, AchievementKey, p.name).None? {
        var aid := |catalogue.achievements|;
        catalogue := catalogue.(achievements := catalogue.achievements + [ProtoAchievement(p)]);
        AwardAll(p.players, aid);
      }
    }

    /** `setup_achievements`: adds each achievement whose name is not stored
        yet, in order, and awards each added one to its players. */
    method SetupAchievements(protos: seq<AchievementProto>)
      requires Valid()
      modifies this
      ensures Valid()
      ensures catalogue == old(catalogue).(achievements := old(catalogue.achievements)
                + ProtoAchievements(NewAchievements(old(catalogue.achievements), protos)))
      ensures PlayersGrow(old(players), players)
      ensures AllAwarded(players, old(|catalogue.achievements|), NewAchievements(old(catalogue.achievements), protos))
      ensures accounts == old(accounts) && games == old(games) && streaks == old(streaks)
      ensures progress == old(progress)
    {
      ghost var base := catalogue.achievements;
      var i := 0;
      while i < |protos|
        invariant 0 <= i <= |protos|
        invariant Valid()
        invariant catalogue == old(catalogue).(achievements := catalogue.achievements)
        invariant catalogue.achievements == base + ProtoAchievements(NewAchievements(base, protos[..i]))
        invariant PlayersGrow(old(players), players)
        invariant AllAwarded(players, |base|, NewAchievements(base, protos[..i]))
        invariant accounts == old(accounts) && games == old(games) && streaks == old(streaks)
        invariant progress == old(progress)
      {
        ghost var ps1 := players;
        ghost var cat1 := catalogue.achievements;
        ghost var isNew := FindKey(cat1, AchievementKey, protos[i].name).None?;
        AddAchievement(protos[i]);
        SetupCatalogueStep(base, protos, i, cat1, catalogue.achievements);
        SetupAwardStep(ps1, players, |base|, NewAchievements(base, protos[..i]), protos[i], isNew, |cat1|);
        PlayersGrowTransitive(old(players), ps1, players);
        i := i + 1;
      }
      assert protos[..|protos|] == protos;
    }

    /** `combo_highscore_holders`: walks the combo highscores once, grouping
        them by the name of the player owning each. */
    method ComboHighscoreHolders(limit: nat) returns (r: seq<(string, seq<Game>)>)
      requires Valid()
      ensures ComboOwned(games, accounts, players, catalogue)
      ensures r == Holders(Owners(ComboHighscores(games, catalogue.species, catalogue.backgrounds), accounts, players), limit)
    {
      var highs := ComboHighscores(games, catalogue.species, catalogue.backgrounds);
      assert Owned(games, accounts, players) by {
        forall j | 0 <= j < |games| ensures accounts[games[j].accountId].playerId < |players| {
        }
      }
      ComboHighscoresOwned(games, accounts, players, catalogue);
      var results: seq<(string, seq<Game>)> := [];
      var i := 0;
      while i < |highs|
        invariant 0 <= i <= |highs|
        invariant Owned(highs[..i], accounts, players)
        invariant results == Group(Owners(highs[..i], accounts, players))
      {
        var g := highs[i];
        var name := players[accounts[g.accountId].playerId].name;
        OwnersStep(highs, accounts, players, i);
        GroupStep(Owners(highs[..i + 1], accounts, players));
        match FindGroup(results, name) {
          case Some(k) =>
            results := results[k := (name, results[k].1 + [g])];
          case None =>
            results := results + [(name, [g])];
        }
        i := i + 1;
      }
      assert highs[..|highs|] == highs;
      r := Take(SortBy(results, GroupSizeDescending), limit);
    }

    /** `list_games` as written: a player filter raises AttributeError,
        any other query lists the matching games of the table. */
    function ListGames(q: GameQuery): (r: Result<seq<Game>>)
      reads this
      ensures r.Raised? <==> q.player.Some?
      ensures r.Raised? ==> r.error == AttributeError
      ensures r.Ok? ==> forall g :: g in r.value ==> g in games && Matches(g, accounts, q)
      ensures r.Ok? ==> r.value == SelectGames(games, accounts, q)
    {
      SelectGamesCorrect(games, accounts, q);
      GamesQueryAsWritten(games, accounts, q)
    }

    /** `count_games` as written, on the store's tables. */
    function CountGames(q: GameQuery): (r: Result<nat>)
      reads this
      ensures r.Raised? <==> q.player.Some?
      ensures r.Ok? ==> (ListGames(q.(limit := None)).Ok? && r.value == |ListGames(q.(limit := None)).value|)
    {
      FilterIgnoresLimit(games, accounts, q);
      SortByCorrect(FilterGames(games, accounts, q), EndDescending);
      SortByCorrect(FilterGames(games, accounts, q), EndAscending);
      CountGamesAsWritten(games, accounts, q)
    }

    /** `get_player_streak` */
    function GetPlayerStreak(pid: nat): Result<Option<nat>>
      reads this
    {
      PlayerStreak(streaks, pid)
    }
  }

  /** Rows `add_games` can insert: fresh, distinct gids and existing accounts. */
  predicate InsertableRows(gs: seq<Game>, accs: seq<Account>, rows: seq<GameRow>)
  {
    (forall i :: 0 <= i < |rows| ==> rows[i].accountId < |accs|)
    && (forall i, j :: 0 <= i < |gs| && 0 <= j < |rows| ==> gs[i].gid != rows[j].gid)
    && (forall i, j :: 0 <= i < j < |rows| ==> rows[i].gid != rows[j].gid)
  }

  function NewGames(rows: seq<GameRow>): (r: seq<Game>)
    ensures |r| == |rows| && forall i :: 0 <= i < |rows| ==> r[i] == NewGame(rows[i])
  {
    if |rows| == 0 then [] else NewGames(rows[..|rows| - 1]) + [NewGame(rows[|rows| - 1])]
  }
}

=== FILE: modelutils.dfy ===
/** The date and URL helpers of the current scoreboard
    (scoreboard/modelutils.py): reading a crawl logfile time stamp, and the
    morgue-file address of a game. */
module ModelUtils {
  import opened Basics

  /** A `datetime.datetime` value (no time zone, no microseconds). */
  datatype DateTime = DateTime(year: int, month: int, day: int, hour: int, minute: int, second: int)

  predicate IsLeapYear(y: int)
  {
    y % 4 == 0 && (y % 100 != 0 || y % 400 == 0)
  }

  function DaysInMonth(y: int, m: int): (r: int)
    requires 1 <= m <= 12
    ensures 28 <= r <= 31
  {
    if m == 2 then (if IsLeapYear(y) then 29 else 28)
    else if m == 4 || m == 6 || m == 9 || m == 11 then 30
    else 31
  }

  /** The component ranges `datetime.datetime` accepts. */
  predicate ValidDateTime(t: DateTime)
  {
    1 <= t.year <= 9999 && 1 <= t.month <= 12 && 1 <= t.day <= DaysInMonth(t.year, t.month)
    && 0 <= t.hour < 24 && 0 <= t.minute < 60 && 0 <= t.second < 60
  }

  /** `datetime.datetime(year=..., ...)`: ValueError for an out-of-range
      component. */
  function MakeDateTime(t: DateTime): (r: Result<DateTime>)
    ensures r.Ok? <==> ValidDateTime(t)
    ensures r.Ok? ==> r.value == t
    ensures r.Raised? ==> r.error == ValueError
  {
    if ValidDateTime(t) then Ok(t) else Raised(ValueError)
  }

  // ---------------------------------------------------------------- crawl dates

  /** The first step of `crawl_date_to_datetime`: the two characters at
      offsets 4-5 are read with `int()` and replaced by `"%02d"` of the next
      number. */
  function ShiftMonth(d: string): (r: Result<string>)
    ensures r.Raised? <==> PyInt(Slice(d, 4, 6)).None?
    ensures r.Raised? ==> r.error == ValueError
  {
    match PyInt(Slice(d, 4, 6))
    case None => Raised(ValueError)
    case Some(m) => Ok(Take(d, 4) + Pad2(m + 1) + Drop(d, 6))
  }

  /** The second step of `crawl_date_to_datetime`: year, month, day, hour,
      minute and second are read with `int()` from offsets 0-3, 4-5, 6-7,
      8-9, 10-11 and 12-13, and anything after offset 13 is ignored. */
  function ReadStamp(e: string): (r: Result<DateTime>)
    ensures r.Ok? ==> ValidDateTime(r.value)
    ensures r.Raised? ==> r.error == ValueError
  {
    var year := PyInt(Slice(e, 0, 4));
    var month := PyInt(Slice(e, 4, 6));
    var day := PyInt(Slice(e, 6, 8));
    var hour := PyInt(Slice(e, 8, 10));
    var minute := PyInt(Slice(e, 10, 12));
    var second := PyInt(Slice(e, 12, 14));
    if year.None? || month.None? || day.None? || hour.None? || minute.None? || second.None? then
      Raised(ValueError)
    else
      MakeDateTime(DateTime(year.value, month.value, day.value, hour.value, minute.value, second.value))
  }

  /** `crawl_date_to_datetime`: the month is shifted, then the fields are read. */
  function CrawlDateToDateTime(d: string): (r: Result<DateTime>)
    ensures r.Ok? ==> ValidDateTime(r.value)
    ensures r.Raised? ==> r.error == ValueError
  {
    match ShiftMonth(d)
    case Raised(e) => Raised(e)
    case Ok(e) => ReadStamp(e)
  }

  /** How a crawl logfile writes a time: a four-digit year, the month counted
      from zero, then day, hour, minute and second, two digits each. */
  function CrawlDate(t: DateTime): (r: string)
    requires 1000 <= t.year <= 9999 && ValidDateTime(t)
  {
    NatString(t.year) + Pad2(t.month - 1) + Pad2(t.day) + Pad2(t.hour) + Pad2(t.minute) + Pad2(t.second)
  }

  /** A four-digit number's decimal string has four digits. */
  lemma FourDigits(n: nat)
    requires 1000 <= n <= 9999
    ensures |NatString(n)| == 4 && PyInt(NatString(n)) == Some(n)
  {
    NatStringLength(n);
    NatStringValue(n);
    PyIntOfDigits(NatString(n));
    if |NatString(n)| > 4 {
      Pow10Monotone(4, |NatString(n)| - 1);
    }
    if |NatString(n)| < 4 {
      Pow10Monotone(|NatString(n)|, 3);
    }
  }

  /** Appending to a text keeps its slices. */
  lemma Appended(s: string, t: string, a: nat, b: nat)
    requires a <= b <= |s|
    ensures (s + t)[a..b] == s[a..b]
  {
  }

  /** Where the six fields of a stamp sit. */
  lemma StampFields(y: string, p1: string, p2: string, p3: string, p4: string, p5: string, rest: string)
    requires |y| == 4 && |p1| == 2 && |p2| == 2 && |p3| == 2 && |p4| == 2 && |p5| == 2
    ensures var e := y + p1 + p2 + p3 + p4 + p5 + rest;
      |e| >= 14 && e[0..4] == y && e[4..6] == p1 && e[6..8] == p2 && e[8..10] == p3
      && e[10..12] == p4 && e[12..14] == p5 && e[6..] == p2 + p3 + p4 + p5 + rest
  {
    var e5 := y + p1 + p2 + p3 + p4 + p5;
    var e := e5 + rest;
    assert e5[0..4] == y && e5[4..6] == p1 && e5[6..8] == p2 && e5[8..10] == p3 && e5[10..12] == p4 && e5[12..14] == p5;
    Appended(e5, rest, 0, 4);
    Appended(e5, rest, 4, 6);
    Appended(e5, rest, 6, 8);
    Appended(e5, rest, 8, 10);
    Appended(e5, rest, 10, 12);
    Appended(e5, rest, 12, 14);
    assert e[6..] == p2 + p3 + p4 + p5 + rest;
  }

  /** Shifting the month of a stamp whose offsets 4-5 read as `m` writes
      m + 1 there and keeps the rest. */
  lemma ShiftMonthAt(d: string, m: int)
    requires |d| >= 6 && PyInt(d[4..6]) == Some(m)
    ensures ShiftMonth(d) == Ok(d[..4] + Pad2(m + 1) + d[6..])
  {
    assert Slice(d, 4, 6) == d[4..6];
  }

  /** Six fields, each reading back as a component of a valid time, are read
      as that time whatever follows them. */
  lemma ReadStampAt(e: string, t: DateTime)
    requires |e| >= 14
    requires PyInt(e[0..4]) == Some(t.year) && PyInt(e[4..6]) == Some(t.month)
    requires PyInt(e[6..8]) == Some(t.day) && PyInt(e[8..10]) == Some(t.hour)
    requires PyInt(e[10..12]) == Some(t.minute) && PyInt(e[12..14]) == Some(t.second)
    requires ValidDateTime(t)
    ensures ReadStamp(e) == Ok(t)
  {
  }

  /** Replacing the month field of `y + p0 + tail`. */
  lemma ShiftMonthOfParts(y: string, p0: string, tail: string, m: int)
    requires |y| == 4 && |p0| == 2 && PyInt(p0) == Some(m)
    ensures ShiftMonth(y + p0 + tail) == Ok(y + Pad2(m + 1) + tail)
  {
    var d := y + p0 + tail;
    assert d[..4] == y && d[4..6] == p0 && d[6..] == tail;
    ShiftMonthAt(d, m);
  }

  lemma Regroup(y: string, p: string, p2: string, p3: string, p4: string, p5: string, rest: string)
    ensures y + p + p2 + p3 + p4 + p5 + rest == y + p + (p2 + p3 + p4 + p5 + rest)
  {
  }

  /** The first step on a crawl date turns the zero-based month into the
      calendar month and leaves the other fields alone. */
  lemma CrawlDateShift(t: DateTime, rest: string)
    requires 1000 <= t.year <= 9999 && ValidDateTime(t)
    ensures ShiftMonth(CrawlDate(t) + rest)
      == Ok(NatString(t.year) + Pad2(t.month) + Pad2(t.day) + Pad2(t.hour) + Pad2(t.minute) + Pad2(t.second) + rest)
  {
    var y := NatString(t.year);
    var p0, p2, p3, p4, p5 := Pad2(t.month - 1), Pad2(t.day), Pad2(t.hour), Pad2(t.minute), Pad2(t.second);
    var tail := p2 + p3 + p4 + p5 + rest;
    assert CrawlDate(t) + rest == y + p0 + tail by {
      Regroup(y, p0, p2, p3, p4, p5, rest);
    }
    assert y + Pad2(t.month - 1 + 1) + tail == y + Pad2(t.month) + p2 + p3 + p4 + p5 + rest by {
      Regroup(y, Pad2(t.month), p2, p3, p4, p5, rest);
    }
    FourDigits(t.year);
    Pad2ReadsBack(t.month - 1);
    ShiftMonthOfParts(y, p0, tail, t.month - 1);
  }

  /** The second step reads back a stamp written field by field. */
  lemma CrawlDateRead(t: DateTime, rest: string)
    requires 1000 <= t.year <= 9999 && ValidDateTime(t)
    ensures ReadStamp(NatString(t.year) + Pad2(t.month) + Pad2(t.day) + Pad2(t.hour) + Pad2(t.minute) + Pad2(t.second) + rest) == Ok(t)
  {
    FourDigits(t.year);
    Pad2ReadsBack(t.month);
    Pad2ReadsBack(t.day);
    Pad2ReadsBack(t.hour);
    Pad2ReadsBack(t.minute);
    Pad2ReadsBack(t.second);
    StampFields(NatString(t.year), Pad2(t.month), Pad2(t.day), Pad2(t.hour), Pad2(t.minute), Pad2(t.second), rest);
    ReadStampAt(NatString(t.year) + Pad2(t.month) + Pad2(t.day) + Pad2(t.hour) + Pad2(t.minute) + Pad2(t.second) + rest, t);
  }

  /** Every time a crawl logfile writes, followed by anything at all, is read
      back as that time: the zero-based month comes back one higher. */
  lemma CrawlDateRoundTrip(t: DateTime, rest: string)
    requires 1000 <= t.year <= 9999 && ValidDateTime(t)
    ensures CrawlDateToDateTime(CrawlDate(t) + rest) == Ok(t)
  {
    CrawlDateShift(t, rest);
    CrawlDateRead(t, rest);
  }

  /** A month field above 12 makes reading fail. */
  lemma ReadStampBadMonth(e: string, k: int)
    requires |e| >= 6 && PyInt(e[4..6]) == Some(k) && k > 12
    ensures ReadStamp(e).Raised?
  {
    assert Slice(e, 4, 6) == e[4..6];
  }

  /** A two-digit stored month is replaced by its successor. */
  lemma StoredMonthShift(d: string)
    requires |d| >= 6 && AllDigits(d[4..6])
    ensures ShiftMonth(d) == Ok(d[..4] + Pad2(DigitsValue(d[4..6]) + 1) + d[6..])
  {
    PyIntOfDigits(d[4..6]);
    ShiftMonthAt(d, DigitsValue(d[4..6]));
  }

  /** A stored month of 12 or more (two digits, so at most 98 here) becomes a
      month of 13 or more, which `datetime` refuses: the zero-based
      convention is what the shift is for. */
  lemma StoredMonthTooLarge(d: string)
    requires |d| >= 6 && AllDigits(d[4..6])
    requires 12 <= DigitsValue(d[4..6]) <= 98
    ensures CrawlDateToDateTime(d).Raised?
  {
    var m := DigitsValue(d[4..6]);
    StoredMonthShift(d);
    var e := d[..4] + Pad2(m + 1) + d[6..];
    Pad2ReadsBack(m + 1);
    assert e[4..6] == Pad2(m + 1);
    ReadStampBadMonth(e, m + 1);
  }

  // ---------------------------------------------------------------- versions

  /** The position of the last `c` in `s`. */
  function LastIndexOf(s: string, c: char): (r: Option<nat>)
    ensures r.Some? ==> r.value < |s| && s[r.value] == c
                        && forall j :: r.value < j < |s| ==> s[j] != c
    ensures r.None? ==> forall j :: 0 <= j < |s| ==> s[j] != c
  {
    if |s| == 0 then None
    else if s[|s| - 1] == c then Some(|s| - 1)
    else LastIndexOf(s[..|s| - 1], c)
  }

  /** `version_url`: "trunk" for a version ending in "a0"; otherwise a
      version longer than four characters loses everything from its last '.'
      on, and any other version is kept. */
  function VersionUrl(version: string): (r: string)
  {
    if TakeLast(version, 2) == "a0" then "trunk"
    else if |version| > 4 then
      match LastIndexOf(version, '.')
      case Some(k) => version[..k]
      case None => version
    else version
  }

  /** Trunk versions map to "trunk"; every other version maps to a prefix of
      itself, cut exactly before its last '.' when it is longer than four
      characters and has one, and unchanged otherwise. */
  lemma VersionUrlCuts(version: string)
    ensures EndsWith(version, "a0") ==> VersionUrl(version) == "trunk"
    ensures !EndsWith(version, "a0") ==>
      var r := VersionUrl(version);
      |r| <= |version| && r == version[..|r|]
      && (|version| > 4 && '.' in version <==> |r| < |version|)
      && (|r| < |version| ==> version[|r|] == '.' && forall j :: |r| < j < |version| ==> version[j] != '.')
  {
    assert EndsWith(version, "a0") <==> TakeLast(version, 2) == "a0";
  }

  // ---------------------------------------------------------------- morgues

  /** The servers `_morgue_prefix` knows, lower-cased. */
  const MorgueServers: set<string> :=
    {"cao", "cdo", "cszo", "cue", "clan", "cbro", "cxc", "lld", "cpo", "cjr", "cwz"}

  /** The servers whose morgues are not published. */
  const NoMorgueServers: set<string> := {"ckr", "csn", "rhf"}

  /** The if-chain of `_morgue_prefix`, on the lower-cased server name:
      cdo, lld and cwz append the cleaned version; ckr, csn and rhf have none;
      any other server raises ValueError. */
  function ServerPrefix(s: string, cleaned: string): (r: Result<Option<string>>)
  {
    if s == "cao" then Ok(Some("http://crawl.akrasiac.org/rawdata"))
    else if s == "cdo" then Ok(Some("http://crawl.develz.org/morgues" + "/" + cleaned))
    else if s == "cszo" then Ok(Some("http://dobrazupa.org/morgue"))
    else if s == "cue" || s == "clan" then Ok(Some("http://underhound.eu:81/crawl/morgue"))
    else if s == "cbro" then Ok(Some("http://crawl.berotato.org/crawl/morgue"))
    else if s == "cxc" then Ok(Some("http://crawl.xtahua.com/crawl/morgue"))
    else if s == "lld" then Ok(Some("http://lazy-life.ddo.jp:8080/morgue" + "/" + cleaned))
    else if s == "cpo" then Ok(Some("https://crawl.project357.org/morgue"))
    else if s == "cjr" then Ok(Some("http://www.jorgrun.rocks/morgue"))
    else if s == "cwz" then Ok(Some("http://webzook.net/soup/morgue/" + "/" + cleaned))
    else if s == "ckr" || s == "csn" || s == "rhf" then Ok(None)
    else Raised(ValueError)
  }

  /** `_morgue_prefix`: the morgue directory of a server; the name is
      lower-cased first. */
  function MorguePrefix(src: string, version: string): (r: Result<Option<string>>)
  {
    ServerPrefix(Lower(src), VersionUrl(version))
  }

  /** The server name is compared without case. */
  lemma MorguePrefixIgnoresCase(src: string, version: string)
    ensures MorguePrefix(Lower(src), version) == MorguePrefix(src, version)
  {
    LowerIdempotent(src);
  }

  /** The prefix raises exactly for unknown servers, and with ValueError. */
  lemma ServerPrefixRaises(s: string, cleaned: string)
    ensures ServerPrefix(s, cleaned).Raised? <==> s !in MorgueServers && s !in NoMorgueServers
    ensures ServerPrefix(s, cleaned).Raised? ==> ServerPrefix(s, cleaned).error == ValueError
  {
  }

  /** The prefix is absent exactly for ckr, csn and rhf. */
  lemma ServerPrefixAbsent(s: string, cleaned: string)
    ensures ServerPrefix(s, cleaned) == Ok(None) <==> s in NoMorgueServers
  {
  }

  /** Every prefix there is is a non-empty address. */
  lemma ServerPrefixNonEmpty(s: string, cleaned: string)
    ensures var r := ServerPrefix(s, cleaned);
      r.Ok? && r.value.Some? ==> |r.value.value| > 0
  {
  }

  lemma EndsWithAppended(a: string, b: string)
    ensures EndsWith(a + b, b)
  {
    assert (a + b)[|a + b| - |b|..] == b;
  }

  /** cdo, lld and cwz keep their morgues per version: their prefix ends with
      '/' and the cleaned version. */
  lemma ServerPrefixVersioned(cleaned: string)
    ensures ServerPrefix("cdo", cleaned).Ok? && ServerPrefix("cdo", cleaned).value.Some?
      && EndsWith(ServerPrefix("cdo", cleaned).value.value, "/" + cleaned)
    ensures ServerPrefix("lld", cleaned).Ok? && ServerPrefix("lld", cleaned).value.Some?
      && EndsWith(ServerPrefix("lld", cleaned).value.value, "/" + cleaned)
    ensures ServerPrefix("cwz", cleaned).Ok? && ServerPrefix("cwz", cleaned).value.Some?
      && EndsWith(ServerPrefix("cwz", cleaned).value.value, "/" + cleaned)
  {
    EndsWithAppended("http://crawl.develz.org/morgues", "/" + cleaned);
    EndsWithAppended("http://lazy-life.ddo.jp:8080/morgue", "/" + cleaned);
    EndsWithAppended("http://webzook.net/soup/morgue/", "/" + cleaned);
  }

  /** `strftime("%Y%m%d-%H%M%S")` */
  function Timestamp(t: DateTime): (r: string)
    requires ValidDateTime(t)
  {
    ZeroFill(t.year, 4) + Pad2(t.month) + Pad2(t.day) + "-" + Pad2(t.hour) + Pad2(t.minute) + Pad2(t.second)
  }

  /** Where the six fields of a morgue file's time stamp sit. */
  lemma TimestampLayout(y: string, p1: string, p2: string, p3: string, p4: string, p5: string)
    requires |y| == 4 && |p1| == 2 && |p2| == 2 && |p3| == 2 && |p4| == 2 && |p5| == 2
    ensures var u := y + p1 + p2 + "-" + p3 + p4 + p5;
      |u| == 15 && u[0..4] == y && u[4..6] == p1 && u[6..8] == p2 && u[8] == '-'
      && u[9..11] == p3 && u[11..13] == p4 && u[13..15] == p5
  {
  }

  /** The time stamp of a morgue file reads back as the game's end time,
      field by field, with a '-' between date and time. */
  lemma TimestampReadsBack(t: DateTime)
    requires ValidDateTime(t)
    ensures var u := Timestamp(t);
      |u| == 15 && u[8] == '-'
      && PyInt(u[0..4]) == Some(t.year) && PyInt(u[4..6]) == Some(t.month) && PyInt(u[6..8]) == Some(t.day)
      && PyInt(u[9..11]) == Some(t.hour) && PyInt(u[11..13]) == Some(t.minute) && PyInt(u[13..15]) == Some(t.second)
  {
    ZeroFillValue(t.year, 4);
    ZeroFillWidth(t.year, 4);
    PyIntOfDigits(ZeroFill(t.year, 4));
    Pad2ReadsBack(t.month);
    Pad2ReadsBack(t.day);
    Pad2ReadsBack(t.hour);
    Pad2ReadsBack(t.minute);
    Pad2ReadsBack(t.second);
    TimestampLayout(ZeroFill(t.year, 4), Pad2(t.month), Pad2(t.day), Pad2(t.hour), Pad2(t.minute), Pad2(t.second));
  }

  /** A four-digit year is written as is. */
  lemma YearStamp(y: nat)
    requires 1000 <= y <= 9999
    ensures ZeroFill(y, 4) == NatString(y)
  {
    FourDigits(y);
  }

  /** The morgue file name carries the game's real month where the logfile
      has the zero-based one; every other digit is copied. */
  lemma TimestampOfCrawlDate(t: DateTime)
    requires 1000 <= t.year <= 9999 && ValidDateTime(t)
    ensures var c := CrawlDate(t);
      |c| == 14
      && Timestamp(t) == c[0..4] + Pad2(t.month) + c[6..8] + "-" + c[8..10] + c[10..12] + c[12..14]
  {
    Pad2Width(t.month - 1);
    Pad2Width(t.month);
    Pad2Width(t.day);
    Pad2Width(t.hour);
    Pad2Width(t.minute);
    Pad2Width(t.second);
    YearStamp(t.year);
    FourDigits(t.year);
    StampSwap(NatString(t.year), Pad2(t.month - 1), Pad2(t.month), Pad2(t.day), Pad2(t.hour), Pad2(t.minute), Pad2(t.second));
  }

  lemma Pad2Width(n: nat)
    requires n < 100
    ensures |Pad2(n)| == 2
  {
    Pad2Digits(n);
  }

  /** A stamp with its second field replaced and a '-' between date and
      time, read off the stamp's own offsets. */
  lemma StampSwap(y: string, p0: string, p1: string, p2: string, p3: string, p4: string, p5: string)
    requires |y| == 4 && |p0| == 2 && |p1| == 2 && |p2| == 2 && |p3| == 2 && |p4| == 2 && |p5| == 2
    ensures var c := y + p0 + p2 + p3 + p4 + p5;
      |c| == 14 && y + p1 + p2 + "-" + p3 + p4 + p5 == c[0..4] + p1 + c[6..8] + "-" + c[8..10] + c[10..12] + c[12..14]
  {
    StampFields(y, p0, p2, p3, p4, p5, "");
    var c := y + p0 + p2 + p3 + p4 + p5;
    assert c + "" == c;
  }

  /** `morgue_url`: nothing when the server publishes no morgues (an empty
      prefix would count as none too, though no server has one), otherwise
      "<prefix>/<account>/morgue-<account>-<end time>.txt". An unknown server
      raises ValueError. */
  function MorgueUrl(src: string, version: string, account: string, end: DateTime): (r: Result<Option<string>>)
    requires ValidDateTime(end)
    ensures r.Raised? <==> MorguePrefix(src, version).Raised?
  {
    match MorguePrefix(src, version)
    case Raised(e) => Raised(e)
    case Ok(prefix) =>
      if prefix.None? || prefix.value == "" then Ok(None)
      else Ok(Some(prefix.value + "/" + account + "/morgue-" + account + "-" + Timestamp(end) + ".txt"))
  }

  /** There is no morgue address exactly for the servers that publish no
      morgues. */
  lemma MorgueUrlAbsent(src: string, version: string, account: string, end: DateTime)
    requires ValidDateTime(end)
    ensures MorgueUrl(src, version, account, end) == Ok(None) <==> Lower(src) in NoMorgueServers
  {
    ServerPrefixAbsent(Lower(src), VersionUrl(version));
    ServerPrefixNonEmpty(Lower(src), VersionUrl(version));
  }

  /** Otherwise the address is the server's prefix, then the account's
      directory, then a file named after the account and the end time. */
  lemma MorgueUrlOf(src: string, version: string, account: string, end: DateTime, prefix: string)
    requires ValidDateTime(end) && MorguePrefix(src, version) == Ok(Some(prefix))
    ensures MorgueUrl(src, version, account, end)
      == Ok(Some(prefix + "/" + account + "/morgue-" + account + "-" + Timestamp(end) + ".txt"))
  {
    ServerPrefixNonEmpty(Lower(src), VersionUrl(version));
  }
}

=== FILE: orm.dfy ===
/** The rows of the scoreboard database and their computed properties
    (scoreboard/orm.py). Foreign keys are indices into the store's tables;
    species, backgrounds, gods, ktyps and versions are referred to by their
    unique key strings. */
module Orm {
  import opened Basics

  datatype Player = Player(name: string, achievements: seq<nat>)

  /** One user name on one server, linked to its player. */
  datatype Account = Account(name: string, server: string, playerId: nat, blacklisted: bool)

  /** `Account.canonical_name`: names are compared without case. */
  function CanonicalName(a: Account): (r: string)
    ensures |r| == |a.name|
    ensures forall i :: 0 <= i < |r| ==> r[i] == LowerChar(a.name[i])
    ensures forall i :: 0 <= i < |r| ==> !('A' <= r[i] <= 'Z')
  {
    Lower(a.name)
  }

  /** Two accounts whose names differ only in letter case have the same
      canonical name, and canonicalising twice changes nothing. */
  lemma CanonicalNameIgnoresCase(a: Account, b: Account)
    requires |a.name| == |b.name|
    requires forall i :: 0 <= i < |a.name| ==> LowerChar(a.name[i]) == LowerChar(b.name[i])
    ensures CanonicalName(a) == CanonicalName(b)
    ensures Lower(CanonicalName(a)) == CanonicalName(a)
  {
  }

  /** A catalogue row for species and backgrounds. */
  datatype CharType = CharType(short: string, name: string, playable: bool)

  datatype God = God(name: string, playable: bool)

  datatype Branch = Branch(short: string, name: string, multilevel: bool, playable: bool)

  /** A level of a branch; single-level branches have level 1. */
  datatype Place = Place(branch: Branch, level: int)

  /** `Place.as_string`: "D:15" for a level of a multilevel branch, "Temple"
      for a single-level one. */
  function PlaceAsString(p: Place): (r: string)
    ensures |r| >= |p.branch.short| && r[..|p.branch.short|] == p.branch.short
    ensures p.branch.multilevel <==> |r| > |p.branch.short|
    ensures p.branch.multilevel ==> r[|p.branch.short|] == ':'
  {
    if p.branch.multilevel then p.branch.short + ":" + DecimalString(p.level)
    else p.branch.short
  }

  /** The place string can be read back: for a branch whose short name has no
      ':', the text before the first ':' is the branch and the rest parses as
      the level. */
  lemma PlaceAsStringParses(p: Place)
    requires forall i :: 0 <= i < |p.branch.short| ==> p.branch.short[i] != ':'
    ensures var r := PlaceAsString(p);
            if p.branch.multilevel then
              SplitOnce(r, ':').Some? && SplitOnce(r, ':').value.0 == p.branch.short
              && PyInt(SplitOnce(r, ':').value.1) == Some(p.level)
            else SplitOnce(r, ':').None? && r == p.branch.short
  {
    var r := PlaceAsString(p);
    var short := p.branch.short;
    if p.branch.multilevel {
      var lv := DecimalString(p.level);
      assert r == short + [':'] + lv;
      var k := |short|;
      assert r[k] == ':';
      assert forall j :: 0 <= j < k ==> r[j] != ':' by {
        forall j | 0 <= j < k ensures r[j] != ':' {
          assert r[j] == short[j];
        }
      }
      assert IndexOf(r, ':') == Some(k) by {
        IndexOfFirst(r, ':', k);
      }
      assert r[k + 1..] == lv;
      PyIntDecimalString(p.level);
    }
  }

  lemma {:induction false} IndexOfFirst(s: string, c: char, k: nat)
    requires k < |s| && s[k] == c
    requires forall j :: 0 <= j < k ==> s[j] != c
    ensures IndexOf(s, c) == Some(k)
  {
    if k > 0 {
      IndexOfFirst(s[1..], c, k - 1);
    }
  }

  datatype Streak = Streak(playerId: nat, active: bool)

  datatype Achievement = Achievement(key: string, name: string, description: string)

  /** A game row. Keyed by gid; `scored` and `streak` are the two columns the
      scorer updates. */
  datatype Game = Game(
    gid: string,
    accountId: nat,
    species: string,
    background: string,
    god: string,
    version: string,
    ktyp: string,
    score: int,
    turn: int,
    dur: int,
    start: int,
    end: int,
    potionsUsed: int,
    scrollsUsed: int,
    scored: bool,
    streak: Option<nat>)

  /** The columns an insert supplies; the others take their declared defaults. */
  datatype GameRow = GameRow(
    gid: string,
    accountId: nat,
    species: string,
    background: string,
    god: string,
    version: string,
    ktyp: string,
    score: int,
    turn: int,
    dur: int,
    start: int,
    end: int,
    potionsUsed: int,
    scrollsUsed: int)

  /** A freshly inserted game: `scored` defaults to False and `streak_id` is
      empty; every supplied column is kept. */
  function NewGame(r: GameRow): (g: Game)
    ensures !g.scored && g.streak.None?
    ensures g.gid == r.gid && g.accountId == r.accountId && g.ktyp == r.ktyp
    ensures g.score == r.score && g.start == r.start && g.end == r.end
    ensures g.species == r.species && g.background == r.background && g.god == r.god
    ensures g.version == r.version && g.turn == r.turn && g.dur == r.dur
    ensures g.potionsUsed == r.potionsUsed && g.scrollsUsed == r.scrollsUsed
  {
    Game(r.gid, r.accountId, r.species, r.background, r.god, r.version, r.ktyp,
         r.score, r.turn, r.dur, r.start, r.end, r.potionsUsed, r.scrollsUsed,
         false, None)
  }

  /** `Game.won` */
  predicate Won(g: Game)
  {
    g.ktyp == "winning"
  }

  /** `Game.quit` */
  predicate Quit(g: Game)
  {
    g.ktyp == "quitting"
  }

  /** A game is never both won and quit. */
  lemma WonQuitExclusive(g: Game)
    ensures !(Won(g) && Quit(g))
  {
    assert "winning"[0] != "quitting"[0];
  }

  /** `Game.char`: species code then background code, e.g. "MiFi". */
  function Char(g: Game): (r: string)
    ensures |r| == |g.species| + |g.background|
    ensures r[..|g.species|] == g.species && r[|g.species|..] == g.background
  {
    g.species + g.background
  }

  /** With two-letter species codes the importer's split of `char` (first two
      characters, then the rest) recovers species and background. */
  lemma CharSplits(g: Game)
    requires |g.species| == 2
    ensures Take(Char(g), 2) == g.species && Drop(Char(g), 2) == g.background
  {
  }

  /** `LogfileProgress`: keyed by file name, bytes_parsed defaults to 0. */
  datatype LogfileProgress = LogfileProgress(name: string, bytesParsed: nat)

  function NewLogfileProgress(name: string): (p: LogfileProgress)
    ensures p.name == name && p.bytesParsed == 0
  {
    LogfileProgress(name, 0)
  }

  /** The database URI `setup_database` builds; ValueError for an unknown
      database type. Empty credentials count as none, as Python's truth test
      does. */
  function DatabaseUri(database: string, credentials: Option<string>): (r: Result<string>)
    ensures r.Raised? <==> database != "sqlite" && database != "postgres"
    ensures r.Raised? ==> r.error == ValueError
    ensures database == "sqlite" ==> r == Ok("sqlite:///database.db3")
    ensures database == "postgres" && credentials.Some? && credentials.value != "" ==>
      r == Ok("postgresql+psycopg2://" + credentials.value + "@localhost/scoreboard")
    ensures database == "postgres" && (credentials.None? || credentials.value == "") ==>
      r == Ok("postgresql+psycopg2://localhost/scoreboard")
  {
    if database == "sqlite" then Ok("sqlite:///database.db3")
    else if database == "postgres" then
      if credentials.Some? && credentials.value != "" then
        Ok("postgresql+psycopg2://" + credentials.value + "@localhost/scoreboard")
      else Ok("postgresql+psycopg2://localhost/scoreboard")
    else Raised(ValueError)
  }

  /** The SQLite speed pragmas are installed exactly for the sqlite database:
      only its URI starts with "sqlite". */
  lemma SqlitePragmasOnlyForSqlite(database: string, credentials: Option<string>)
    requires DatabaseUri(database, credentials).Ok?
    ensures var uri := DatabaseUri(database, credentials).value;
            (|uri| >= 6 && uri[..6] == "sqlite") <==> database == "sqlite"
  {
    if database == "postgres" {
      if credentials.Some? && credentials.value != "" {
        PostgresScheme(credentials.value + "@localhost/scoreboard");
      } else {
        PostgresScheme("localhost/scoreboard");
      }
    } else {
      SqliteScheme();
    }
  }

  lemma PostgresScheme(rest: string)
    ensures var u := "postgresql+psycopg2://" + rest; |u| >= 6 && u[..6] != "sqlite"
  {
    var u := "postgresql+psycopg2://" + rest;
    assert u[0] == 'p';
    assert "sqlite"[0] == 's';
  }

  lemma SqliteScheme()
    ensures var u := "sqlite:///database.db3"; |u| >= 6 && u[..6] == "sqlite"
  {
  }

  /** The module-level session factory: unset until `setup_database` runs. */
  class Database {
    var sessionUri: Option<string>

    constructor()
      ensures sessionUri.None?
    {
      sessionUri := None;
    }

    /** `setup_database`: binds the session factory to the chosen URI, or
        raises ValueError and leaves it as it was. */
    method SetupDatabase(database: string, credentials: Option<string>) returns (r: Result<()>)
      modifies this
      ensures r.Ok? <==> DatabaseUri(database, credentials).Ok?
      ensures r.Ok? ==> sessionUri == Some(DatabaseUri(database, credentials).value)
      ensures r.Raised? ==> r.error == ValueError && sessionUri == old(sessionUri)
    {
      var uri := DatabaseUri(database, credentials);
      if uri.Ok? {
        sessionUri := Some(uri.value);
        r := Ok(());
      } else {
        r := Raised(ValueError);
      }
    }

    /** `get_session`: raises until the database has been set up. */
    method GetSession() returns (r: Result<string>)
      ensures r.Raised? <==> sessionUri.None?
      ensures r.Raised? ==> r.error == NotInitialised
      ensures r.Ok? ==> sessionUri == Some(r.value)
    {
      if sessionUri.None? {
        r := Raised(NotInitialised);
      } else {
        r := Ok(sessionUri.value);
      }
    }
  }
}

=== FILE: raw_stats.dfy ===
/** The top-level script of the second generation (read-logfiles.py): it
    reads one logfile into dicts of raw strings and folds every record into
    per-player statistics and race, role and combo highscore tables. Values
    are never converted, except the score (and, for wins, the armour,
    evasion and shield values behind the averages, which are left out). */
module RawStats {
  import opened Basics
  import opened LineSplit
  import opened LegacyStats

  // ================================================================ reading

  /** A record: every value is the raw text after its '='. */
  type RawLog = map<string, string>

  /** `k, v = field.split('=', 1)`; blank fields are skipped and a field
      without '=' cannot be unpacked (ValueError). */
  function AddRawField(log: RawLog, field: string): Result<RawLog>
  {
    if |field| == 0 then Ok(log)
    else match SplitOnce(field, '=')
      case None => Raised(ValueError)
      case Some(kv) => Ok(log[kv.0 := kv.1])
  }

  function RawFields(log: RawLog, fields: seq<string>): Result<RawLog>
    decreases |fields|
  {
    if |fields| == 0 then Ok(log)
    else match RawFields(log, fields[..|fields| - 1])
      case Raised(e) => Raised(e)
      case Ok(l) => AddRawField(l, fields[|fields| - 1])
  }

  /** One line read into a record. */
  function RawLine(line: string): Result<RawLog>
  {
    RawFields(map[], Split(line))
  }

  /** The records of the file's lines; an empty string is skipped. */
  function RawLines(lines: seq<string>): Result<seq<RawLog>>
    decreases |lines|
  {
    if |lines| == 0 then Ok([])
    else match RawLines(lines[..|lines| - 1])
      case Raised(e) => Raised(e)
      case Ok(logs) =>
        var line := lines[|lines| - 1];
        if |line| == 0 then Ok(logs)
        else match RawLine(line)
          case Raised(e) => Raised(e)
          case Ok(log) => Ok(logs + [log])
  }

  lemma RawFieldsStep(log: RawLog, fields: seq<string>, i: nat)
    requires i < |fields|
    ensures RawFields(log, fields[..i + 1])
      == match RawFields(log, fields[..i])
         case Raised(e) => Raised(e)
         case Ok(l) => AddRawField(l, fields[i])
  {
    assert fields[..i + 1][..i] == fields[..i];
  }

  lemma {:induction false} RawFieldsRaised(log: RawLog, fields: seq<string>, i: nat)
    requires i <= |fields| && RawFields(log, fields[..i]).Raised?
    ensures RawFields(log, fields) == RawFields(log, fields[..i])
    decreases |fields| - i
  {
    if i < |fields| {
      RawFieldsStep(log, fields, i);
      RawFieldsRaised(log, fields, i + 1);
    } else {
      assert fields[..i] == fields;
    }
  }

  lemma RawLinesStep(lines: seq<string>, i: nat)
    requires i < |lines|
    ensures RawLines(lines[..i + 1])
      == match RawLines(lines[..i])
         case Raised(e) => Raised(e)
         case Ok(logs) =>
           if |lines[i]| == 0 then Ok(logs)
           else match RawLine(lines[i])
             case Raised(e) => Raised(e)
             case Ok(log) => Ok(logs + [log])
  {
    assert lines[..i + 1][..i] == lines[..i];
  }

  lemma {:induction false} RawLinesRaised(lines: seq<string>, i: nat)
    requires i <= |lines| && RawLines(lines[..i]).Raised?
    ensures RawLines(lines) == RawLines(lines[..i])
    decreases |lines| - i
  {
    if i < |lines| {
      RawLinesStep(lines, i);
      RawLinesRaised(lines, i + 1);
    } else {
      assert lines[..i] == lines;
    }
  }

  /** The field loop of one line. */
  method ReadRawLine(line: string) returns (r: Result<RawLog>)
    ensures r == RawLine(line)
  {
    var fields := Split(line);
    var log: RawLog := map[];
    var j := 0;
    while j < |fields|
      invariant 0 <= j <= |fields|
      invariant RawFields(map[], fields[..j]) == Ok(log)
    {
      RawFieldsStep(map[], fields, j);
      var field := fields[j];
      if |field| > 0 {
        var kv := SplitOnce(field, '=');
        if kv.None? {
          RawFieldsRaised(map[], fields, j + 1);
          return Raised(ValueError);
        }
        log := log[kv.value.0 := kv.value.1];
      }
      j := j + 1;
    }
    assert fields[..j] == fields;
    r := Ok(log);
  }

  /** The line loop: `all_logs`. */
  method ReadRawLogs(lines: seq<string>) returns (r: Result<seq<RawLog>>)
    ensures r == RawLines(lines)
  {
    var logs: seq<RawLog> := [];
    var i := 0;
    while i < |lines|
      invariant 0 <= i <= |lines|
      invariant RawLines(lines[..i]) == Ok(logs)
    {
      RawLinesStep(lines, i);
      if |lines[i]| > 0 {
        var log := ReadRawLine(lines[i]);
        if log.Raised? {
          RawLinesRaised(lines, i + 1);
          return Raised(log.error);
        }
        logs := logs + [log.value];
      }
      i := i + 1;
    }
    assert lines[..i] == lines;
    r := Ok(logs);
  }

  // ---------------------------------------------------------------- reading properties

  /** A field that cannot be unpacked. */
  predicate Malformed(field: string)
  {
    |field| > 0 && SplitOnce(field, '=').None?
  }

  /** Reading a line fails exactly when one of its non-blank fields has no
      '=', and then with ValueError. */
  lemma {:induction false} RawFieldsFail(log: RawLog, fields: seq<string>)
    ensures RawFields(log, fields).Raised? <==> exists i :: 0 <= i < |fields| && Malformed(fields[i])
    ensures RawFields(log, fields).Raised? ==> RawFields(log, fields).error == ValueError
    decreases |fields|
  {
    if |fields| > 0 {
      var p := fields[..|fields| - 1];
      RawFieldsFail(log, p);
      assert forall i :: 0 <= i < |p| ==> p[i] == fields[i];
      if exists i :: 0 <= i < |p| && Malformed(p[i]) {
        var i :| 0 <= i < |p| && Malformed(p[i]);
        assert Malformed(fields[i]);
      }
    }
  }

  /** The records as written: each key holds the escaped text of its last
      value; the script never unescapes. */
  function RawWritten(fs: seq<Field>): RawLog
    decreases |fs|
  {
    if |fs| == 0 then map[]
    else RawWritten(fs[..|fs| - 1])[fs[|fs| - 1].key := Escape(fs[|fs| - 1].value)]
  }

  lemma {:induction false} RawFieldsWritten(fs: seq<Field>)
    requires forall i :: 0 <= i < |fs| ==> |fs[i].key| > 0 && forall j :: 0 <= j < |fs[i].key| ==> fs[i].key[j] != '='
    ensures RawFields(map[], EncodeFields(fs)) == Ok(RawWritten(fs))
    decreases |fs|
  {
    if |fs| > 0 {
      var p := fs[..|fs| - 1];
      var f := fs[|fs| - 1];
      assert forall i :: 0 <= i < |p| ==> p[i] == fs[i];
      RawFieldsWritten(p);
      EncodeFieldsSnoc(fs);
      var e := EncodeFields(fs);
      assert e[..|e| - 1] == EncodeFields(p);
      CutAt(f.key, '=', Escape(f.value));
      assert EncodeField(f) == f.key + ['='] + Escape(f.value);
    }
  }

  /** A line written from fields whose keys hold no ':' or '=' and whose
      values do not end in ':' reads back as those keys, each holding the
      escaped text of its last value. */
  lemma RawLineRoundTrip(fs: seq<Field>)
    requires |fs| > 0 && Writable(fs)
    requires forall i :: 0 <= i < |fs| ==> forall j :: 0 <= j < |fs[i].key| ==> fs[i].key[j] != '='
    ensures RawLine(Join(EncodeFields(fs), ":")) == Ok(RawWritten(fs))
  {
    SplitEncoded(fs);
    RawFieldsWritten(fs);
  }

  /** Lines keep their newline, so the blank-line test never fires: a line
      holding only a newline is one field without '=' and raises
      ValueError. */
  lemma BlankLineRaises()
    ensures RawLines(["\n"]) == Raised(ValueError)
  {
    assert NextSeparator("\n", 0) == 1 by {
      assert !IsSeparator("\n", 0);
    }
    assert Split("\n") == ["\n"];
    assert ["\n"][..0] == [];
    assert RawFields(map[], ["\n"]) == AddRawField(map[], "\n") by {
      assert ["\n"][..0] == [];
    }
  }

  // ================================================================ records

  /** The fields the fold reads, in the order it reads them. The duration
      and turn count are read only for a win; a loss carries empty text. */
  datatype RawGame = RawGame(
    name: string, god: string, score: int, character: string, ktyp: string,
    dur: string, turn: string, zigdeepest: Option<string>, end: string)

  /** `int(log[k])`. */
  function IntField(log: RawLog, k: string): (r: Result<int>)
    ensures r.Ok? <==> k in log && PyInt(log[k]).Some?
  {
    if k !in log then Raised(KeyError(k))
    else match PyInt(log[k])
      case None => Raised(ValueError)
      case Some(n) => Ok(n)
  }

  /** What a win reads beyond the common fields, in order: `dur`, `turn`,
      `int(ac)`, `int(ev)`, `int(sh)` and `potionsused`; the first failure. */
  function WinFieldError(log: RawLog): (r: Option<Error>)
    ensures r.None? <==>
      "dur" in log && "turn" in log && IntField(log, "ac").Ok? && IntField(log, "ev").Ok?
      && IntField(log, "sh").Ok? && "potionsused" in log
  {
    if "dur" !in log then Some(KeyError("dur"))
    else if "turn" !in log then Some(KeyError("turn"))
    else if IntField(log, "ac").Raised? then Some(IntField(log, "ac").error)
    else if IntField(log, "ev").Raised? then Some(IntField(log, "ev").error)
    else if IntField(log, "sh").Raised? then Some(IntField(log, "sh").error)
    else if "potionsused" !in log then Some(KeyError("potionsused"))
    else None
  }

  /** Everything one iteration of the fold reads from a record, or the
      exception the first missing or non-numeric field raises. An exception
      ends the script, so reading first and updating after is the same. */
  function RawGameOf(log: RawLog): (r: Result<RawGame>)
  {
    if "name" !in log then Raised(KeyError("name"))
    else match IntField(log, "sc")
      case Raised(e) => Raised(e)
      case Ok(score) =>
        if "char" !in log then Raised(KeyError("char"))
        else if "ktyp" !in log then Raised(KeyError("ktyp"))
        else if log["ktyp"] == "winning" && WinFieldError(log).Some? then Raised(WinFieldError(log).value)
        else if "end" !in log then Raised(KeyError("end"))
        else
          var won := log["ktyp"] == "winning";
          Ok(RawGame(log["name"], if "god" in log then log["god"] else "no_god", score,
                     log["char"], log["ktyp"],
                     if won then log["dur"] else "", if won then log["turn"] else "",
                     if "zigdeepest" in log then Some(log["zigdeepest"]) else None,
                     log["end"]))
  }

  /** A record is taken exactly when it has a name, an integer score, a
      character, a death type and an end, and a win also has a duration,
      a turn count, integer armour, evasion and shield values and a potion
      count; the score is the integer value of its text. */
  lemma RawGameOfSpec(log: RawLog)
    ensures RawGameOf(log).Ok? <==>
      "name" in log && IntField(log, "sc").Ok? && "char" in log && "ktyp" in log && "end" in log
      && (log["ktyp"] == "winning" ==> WinFieldError(log).None?)
    ensures RawGameOf(log).Ok? ==>
      var g := RawGameOf(log).value;
      Some(g.score) == PyInt(log["sc"]) && g.name == log["name"] && g.character == log["char"]
      && (g.ktyp == "winning" ==> g.dur == log["dur"] && g.turn == log["turn"])
  {
  }

  predicate RawWon(g: RawGame)
  {
    g.ktyp == "winning"
  }

  // ================================================================ the fold

  /** The dict each new player starts with; `fastest_*` hold the text "N/A"
      until the first win, and `last_game_end` the int 0 until a game is
      read. The win averages are floats and are left out. */
  datatype RawPlayer = RawPlayer(
    wins: nat, games: nat, winrate: Ratio, highscore: int,
    fastestRealtime: string, fastestTurncount: string,
    totalScore: int, activeStreak: nat, longestStreak: nat,
    lastScores: seq<int>, boringGames: nat,
    godWins: map<string, nat>, raceWins: map<string, nat>, roleWins: map<string, nat>,
    achievements: set<string>, lastGameEnd: Value)

  const NewRawPlayer: RawPlayer := RawPlayer(
    0, 0, Ratio(0, 1), 0, "N/A", "N/A", 0, 0, 0, [], 0, map[], map[], map[], {}, Int(0))

  /** `all_playable_races`, `all_playable_roles`, `all_playable_gods`. */
  const ScriptPlayable: Playable := Playable(
    {"Ce", "DD", "DE", "Dg", "Ds", "Dr", "Fe", "Fo", "Gh", "Gr", "HE", "HO", "Ha",
     "Hu", "Ko", "Mf", "Mi", "Mu", "Na", "Op", "Og", "Sp", "Te", "Tr", "VS", "Vp"},
    {"AE", "AK", "AM", "Ar", "As", "Be", "CK", "Cj", "EE", "En", "FE", "Fi", "Gl",
     "Hu", "IE", "Mo", "Ne", "Sk", "Su", "Tm", "VM", "Wn", "Wr", "Wz"},
    {"Ashenzari", "Beogh", "Cheibriados", "Dithmenos", "Elyvilon", "Fedhas", "Gozag",
     "Jiyva", "Kikubaaqudgha", "Lugonu", "Makhleb", "Nemelex Xobeh", "Okawaru",
     "Pakellas", "Qazlal", "Ru", "Sif Muna", "the Shining One", "Trog", "Vehumet",
     "Xom", "Yredelemnul", "Zin"})

  /** The achievements a win adds; `wins` already counts it. The raw potion
      count is text and never equals the int 0, so no_potion_or_scroll_win
      is never added. */
  function RawAwards(a: set<string>, gods: map<string, nat>, races: map<string, nat>, roles: map<string, nat>,
                     g: RawGame, wins: nat, pl: Playable): set<string>
  {
    var a1 := if Completes(gods, g.god, pl.gods) then a + {"polytheist"} else a;
    var a2 := if Completes(races, Take(g.character, 2), pl.races) then a1 + {"greatplayer"} else a1;
    var a3 := if Completes(roles, Drop(g.character, 2), pl.roles) && "greatplayer" in a2 then a2 + {"greaterplayer"} else a2;
    var a4 := if wins == 10 then a3 + {"goodplayer"} else a3;
    var a5 := if wins == 100 then a4 + {"centuryplayer"} else a4;
    if g.zigdeepest == Some("27") then a5 + {"cleared_zig"} else a5
  }

  /** `fastest` keeps the first value, then any that sorts before it as
      text. */
  function Quicker(cur: string, v: string): string
  {
    if cur == "N/A" || StrLt(v, cur) then v else cur
  }

  /** One record for its player: the win count goes up first, so the win
      rate and the win-count achievements see this game. */
  function RawPlayerStep(p: RawPlayer, g: RawGame, pl: Playable): RawPlayer
  {
    var won := RawWon(g);
    var wins := if won then p.wins + 1 else p.wins;
    var streak := if won then p.activeStreak + 1 else 0;
    RawPlayer(
      wins,
      p.games + 1,
      Ratio(wins, p.games + 1),
      if g.score > p.highscore then g.score else p.highscore,
      if won then Quicker(p.fastestRealtime, g.dur) else p.fastestRealtime,
      if won then Quicker(p.fastestTurncount, g.turn) else p.fastestTurncount,
      p.totalScore + g.score,
      streak,
      if streak > p.longestStreak then streak else p.longestStreak,
      Take([g.score] + p.lastScores, 5),
      if !won && (g.ktyp == "leaving" || g.ktyp == "quitting") then p.boringGames + 1 else p.boringGames,
      if won then Tally(p.godWins, g.god) else p.godWins,
      if won then Tally(p.raceWins, Take(g.character, 2)) else p.raceWins,
      if won then Tally(p.roleWins, Drop(g.character, 2)) else p.roleWins,
      if won then RawAwards(p.achievements, p.godWins, p.raceWins, p.roleWins, g, wins, pl) else p.achievements,
      Str(g.end))
  }

  function RawPlayerAfter(p: RawPlayer, gs: seq<RawGame>, pl: Playable): RawPlayer
    decreases |gs|
  {
    if |gs| == 0 then p else RawPlayerStep(RawPlayerAfter(p, gs[..|gs| - 1], pl), gs[|gs| - 1], pl)
  }

  /** The script's whole state. */
  datatype Tables = Tables(
    players: map<string, RawPlayer>,
    raceHighscores: map<string, int>, roleHighscores: map<string, int>, comboHighscores: map<string, int>)

  const NoTables: Tables := Tables(map[], map[], map[], map[])

  /** `if k not in table or score > table[k]: table[k] = score` */
  function EnterScore(table: map<string, int>, k: string, score: int): (r: map<string, int>)
    ensures r.Keys == table.Keys + {k}
    ensures r[k] == (if k in table && table[k] >= score then table[k] else score)
    ensures forall j :: j in table && j != k ==> r[j] == table[j]
  {
    if k !in table || score > table[k] then table[k := score] else table
  }

  function RawStep(st: Tables, g: RawGame, pl: Playable): Tables
  {
    var p := if g.name in st.players then st.players[g.name] else NewRawPlayer;
    Tables(st.players[g.name := RawPlayerStep(p, g, pl)],
           EnterScore(st.raceHighscores, Take(g.character, 2), g.score),
           EnterScore(st.roleHighscores, Drop(g.character, 2), g.score),
           EnterScore(st.comboHighscores, g.character, g.score))
  }

  function RawAfter(st: Tables, gs: seq<RawGame>, pl: Playable): Tables
    decreases |gs|
  {
    if |gs| == 0 then st else RawStep(RawAfter(st, gs[..|gs| - 1], pl), gs[|gs| - 1], pl)
  }

  /** The games of the records that read, in order, or the exception of
      the first that does not. */
  function Collect(rs: seq<Result<RawGame>>): Result<seq<RawGame>>
    decreases |rs|
  {
    if |rs| == 0 then Ok([])
    else match Collect(rs[..|rs| - 1])
      case Raised(e) => Raised(e)
      case Ok(gs) =>
        match rs[|rs| - 1]
        case Raised(e) => Raised(e)
        case Ok(g) => Ok(gs + [g])
  }

  /** Each record read on its own. */
  function Results(logs: seq<RawLog>): (rs: seq<Result<RawGame>>)
    ensures |rs| == |logs| && forall i :: 0 <= i < |logs| ==> rs[i] == RawGameOf(logs[i])
  {
    seq(|logs|, i requires 0 <= i < |logs| => RawGameOf(logs[i]))
  }

  /** The loop over `all_logs`: the first exception ends it, and until then
      each record is folded in as it is read (an exception ends the script,
      so folding what was read is the same). */
  function RawRun(logs: seq<RawLog>, pl: Playable): Result<Tables>
  {
    match Collect(Results(logs))
    case Raised(e) => Raised(e)
    case Ok(gs) => Ok(RawAfter(NoTables, gs, pl))
  }

  lemma CollectStep(rs: seq<Result<RawGame>>, i: nat)
    requires i < |rs|
    ensures Collect(rs[..i + 1])
      == match Collect(rs[..i])
         case Raised(e) => Raised(e)
         case Ok(gs) =>
           match rs[i]
           case Raised(e) => Raised(e)
           case Ok(g) => Ok(gs + [g])
  {
    assert rs[..i + 1][..i] == rs[..i];
  }

  lemma {:induction false} CollectRaised(rs: seq<Result<RawGame>>, i: nat)
    requires i <= |rs| && Collect(rs[..i]).Raised?
    ensures Collect(rs) == Collect(rs[..i])
    decreases |rs| - i
  {
    if i < |rs| {
      CollectStep(rs, i);
      CollectRaised(rs, i + 1);
    } else {
      assert rs[..i] == rs;
    }
  }

  lemma RawAfterSnoc(st: Tables, gs: seq<RawGame>, g: RawGame, pl: Playable)
    ensures RawAfter(st, gs + [g], pl) == RawStep(RawAfter(st, gs, pl), g, pl)
  {
    assert (gs + [g])[..|gs|] == gs;
  }

  /** The body of the stats loop for one record that read. */
  method AddGame(st: Tables, game: RawGame, pl: Playable) returns (next: Tables)
    ensures next == RawStep(st, game, pl)
  {
    var player := if game.name in st.players then st.players[game.name] else NewRawPlayer;
    player := RawPlayerStep(player, game, pl);
    next := Tables(st.players[game.name := player],
                   EnterScore(st.raceHighscores, Take(game.character, 2), game.score),
                   EnterScore(st.roleHighscores, Drop(game.character, 2), game.score),
                   EnterScore(st.comboHighscores, game.character, game.score));
  }

  /** The script's stats loop over the records. */
  method RawCalc(logs: seq<RawLog>) returns (r: Result<Tables>)
    ensures r == RawRun(logs, ScriptPlayable)
  {
    var pl := ScriptPlayable;
    ghost var rs := Results(logs);
    var st := NoTables;
    ghost var read: seq<RawGame> := [];
    var i := 0;
    while i < |logs|
      invariant 0 <= i <= |logs|
      invariant Collect(rs[..i]) == Ok(read) && st == RawAfter(NoTables, read, pl)
    {
      CollectStep(rs, i);
      var g := RawGameOf(logs[i]);
      if g.Raised? {
        CollectRaised(rs, i + 1);
        return Raised(g.error);
      }
      RawAfterSnoc(NoTables, read, g.value, pl);
      read := read + [g.value];
      st := AddGame(st, g.value, pl);
      i := i + 1;
    }
    assert rs[..i] == rs;
    r := Ok(st);
  }

  // ================================================================ one player

  function RawWins(gs: seq<RawGame>): (n: nat)
    ensures n <= |gs|
    ensures n == 0 <==> forall i :: 0 <= i < |gs| ==> !RawWon(gs[i])
  {
    if |gs| == 0 then 0 else RawWins(gs[..|gs| - 1]) + (if RawWon(gs[|gs| - 1]) then 1 else 0)
  }

  /** A loss by leaving or quitting. */
  predicate RawBoring(g: RawGame)
  {
    !RawWon(g) && (g.ktyp == "leaving" || g.ktyp == "quitting")
  }

  function RawBoringCount(gs: seq<RawGame>): (n: nat)
    ensures n + RawWins(gs) <= |gs|
  {
    if |gs| == 0 then 0 else RawBoringCount(gs[..|gs| - 1]) + (if RawBoring(gs[|gs| - 1]) then 1 else 0)
  }

  function RawScoreSum(gs: seq<RawGame>): int
  {
    if |gs| == 0 then 0 else RawScoreSum(gs[..|gs| - 1]) + gs[|gs| - 1].score
  }

  /** The length of the run of wins the games end with. */
  function TrailingWins(gs: seq<RawGame>): (n: nat)
    ensures n <= |gs|
    ensures forall i :: |gs| - n <= i < |gs| ==> RawWon(gs[i])
    ensures n < |gs| ==> !RawWon(gs[|gs| - 1 - n])
  {
    if |gs| == 0 || !RawWon(gs[|gs| - 1]) then 0 else TrailingWins(gs[..|gs| - 1]) + 1
  }

  /** The longest run of consecutive wins. */
  function LongestRun(gs: seq<RawGame>): (n: nat)
    ensures TrailingWins(gs) <= n <= |gs|
  {
    if |gs| == 0 then 0
    else
      var prev := LongestRun(gs[..|gs| - 1]);
      if TrailingWins(gs) > prev then TrailingWins(gs) else prev
  }

  /** Every run of consecutive wins fits in the longest. */
  lemma {:induction false} RunsFit(gs: seq<RawGame>, i: nat, j: nat)
    requires i <= j <= |gs| && forall k :: i <= k < j ==> RawWon(gs[k])
    ensures j - i <= LongestRun(gs)
    decreases |gs|
  {
    if j < |gs| {
      var prefix := gs[..|gs| - 1];
      assert forall k :: i <= k < j ==> prefix[k] == gs[k];
      RunsFit(prefix, i, j);
    }
  }

  /** Games, wins, boring games and the score total are counted once per
      record, the win rate counts this game's win, and the last game end is
      the newest record's. */
  lemma {:induction false} RawPlayerCounts(gs: seq<RawGame>, pl: Playable)
    ensures var p := RawPlayerAfter(NewRawPlayer, gs, pl);
      p.games == |gs| && p.wins == RawWins(gs) && p.boringGames == RawBoringCount(gs)
      && p.totalScore == RawScoreSum(gs)
      && p.lastGameEnd == (if |gs| == 0 then Int(0) else Str(gs[|gs| - 1].end))
      && (|gs| > 0 ==> p.winrate == Ratio(RawWins(gs), |gs|))
    decreases |gs|
  {
    if |gs| > 0 {
      RawPlayerCounts(gs[..|gs| - 1], pl);
    }
  }

  /** The active streak is the run of wins the games end with, and the
      longest streak the longest run of wins. */
  lemma {:induction false} RawPlayerStreaks(gs: seq<RawGame>, pl: Playable)
    ensures var p := RawPlayerAfter(NewRawPlayer, gs, pl);
      p.activeStreak == TrailingWins(gs) && p.longestStreak == LongestRun(gs)
    decreases |gs|
  {
    if |gs| > 0 {
      RawPlayerStreaks(gs[..|gs| - 1], pl);
    }
  }

  /** The highscore starts at 0, so it is the highest score or 0, whichever
      is larger. */
  lemma {:induction false} RawPlayerHighscore(gs: seq<RawGame>, pl: Playable)
    ensures var h := RawPlayerAfter(NewRawPlayer, gs, pl).highscore;
      h >= 0 && (forall i :: 0 <= i < |gs| ==> gs[i].score <= h)
      && (h == 0 || exists i :: 0 <= i < |gs| && gs[i].score == h)
    decreases |gs|
  {
    if |gs| > 0 {
      var prefix := gs[..|gs| - 1];
      RawPlayerHighscore(prefix, pl);
      var h0 := RawPlayerAfter(NewRawPlayer, prefix, pl).highscore;
      assert forall i :: 0 <= i < |prefix| ==> prefix[i] == gs[i];
      if h0 != 0 && gs[|gs| - 1].score <= h0 {
        var i :| 0 <= i < |prefix| && prefix[i].score == h0;
        assert gs[i].score == h0;
      }
    }
  }

  /** The text a fastest record compares. */
  function WinText(g: RawGame, byTurns: bool): string
  {
    if byTurns then g.turn else g.dur
  }

  function FastestOf(p: RawPlayer, byTurns: bool): string
  {
    if byTurns then p.fastestTurncount else p.fastestRealtime
  }

  /** The kept text is the first or the newer one, nothing kept sorts
      before it, and neither does the newer. */
  lemma QuickerLeast(cur: string, v: string)
    ensures var r := Quicker(cur, v);
      (r == cur || r == v) && (cur == "N/A" ==> r == v) && !StrLt(v, r)
      && forall w :: cur != "N/A" && !StrLt(w, cur) ==> !StrLt(w, r)
  {
    StrLtIrreflexive(v);
    forall w | cur != "N/A" && !StrLt(w, cur)
      ensures !StrLt(w, Quicker(cur, v))
    {
      if StrLt(v, cur) && StrLt(w, v) {
        StrLtTransitive(w, v, cur);
      }
    }
  }

  lemma RawStepFastest(p: RawPlayer, g: RawGame, pl: Playable, byTurns: bool)
    ensures FastestOf(RawPlayerStep(p, g, pl), byTurns)
      == if RawWon(g) then Quicker(FastestOf(p, byTurns), WinText(g, byTurns)) else FastestOf(p, byTurns)
  {
  }

  /** The text a fastest record ends on, over the games alone. */
  function FastestText(gs: seq<RawGame>, byTurns: bool): string
    decreases |gs|
  {
    if |gs| == 0 then "N/A"
    else
      var f := FastestText(gs[..|gs| - 1], byTurns);
      if RawWon(gs[|gs| - 1]) then Quicker(f, WinText(gs[|gs| - 1], byTurns)) else f
  }

  lemma {:induction false} RawPlayerFastestText(gs: seq<RawGame>, pl: Playable, byTurns: bool)
    ensures FastestOf(RawPlayerAfter(NewRawPlayer, gs, pl), byTurns) == FastestText(gs, byTurns)
    decreases |gs|
  {
    if |gs| > 0 {
      RawPlayerFastestText(gs[..|gs| - 1], pl, byTurns);
      RawStepFastest(RawPlayerAfter(NewRawPlayer, gs[..|gs| - 1], pl), gs[|gs| - 1], pl, byTurns);
    }
  }

  /** Fastest text compares as text: it stays "N/A" until the first win,
      and is then the text of a win that no win's text sorts before (so
      "1000" beats "999"). */
  lemma {:induction false} FastestTextSpec(gs: seq<RawGame>, byTurns: bool)
    requires forall i :: 0 <= i < |gs| && RawWon(gs[i]) ==> WinText(gs[i], byTurns) != "N/A"
    ensures var f := FastestText(gs, byTurns);
      (f == "N/A" <==> RawWins(gs) == 0)
      && (f != "N/A" ==> exists i :: 0 <= i < |gs| && RawWon(gs[i]) && WinText(gs[i], byTurns) == f)
      && (forall i :: 0 <= i < |gs| && RawWon(gs[i]) ==> !StrLt(WinText(gs[i], byTurns), f))
    decreases |gs|
  {
    if |gs| > 0 {
      var prefix := gs[..|gs| - 1];
      var g := gs[|gs| - 1];
      assert forall i :: 0 <= i < |prefix| ==> prefix[i] == gs[i];
      FastestTextSpec(prefix, byTurns);
      var f0 := FastestText(prefix, byTurns);
      if RawWon(g) {
        QuickerLeast(f0, WinText(g, byTurns));
        if f0 != "N/A" {
          var i0 :| 0 <= i0 < |prefix| && RawWon(prefix[i0]) && WinText(prefix[i0], byTurns) == f0;
          assert RawWon(gs[i0]) && WinText(gs[i0], byTurns) == f0;
        }
      }
    }
  }

  /** So a player's fastest records are as `FastestTextSpec` says. */
  lemma RawPlayerFastest(gs: seq<RawGame>, pl: Playable, byTurns: bool)
    requires forall i :: 0 <= i < |gs| && RawWon(gs[i]) ==> WinText(gs[i], byTurns) != "N/A"
    ensures var f := FastestOf(RawPlayerAfter(NewRawPlayer, gs, pl), byTurns);
      (f == "N/A" <==> RawWins(gs) == 0)
      && (f != "N/A" ==> exists i :: 0 <= i < |gs| && RawWon(gs[i]) && WinText(gs[i], byTurns) == f)
      && (forall i :: 0 <= i < |gs| && RawWon(gs[i]) ==> !StrLt(WinText(gs[i], byTurns), f))
  {
    RawPlayerFastestText(gs, pl, byTurns);
    FastestTextSpec(gs, byTurns);
  }

  /** The last scores are the newest five, newest first. */
  lemma {:induction false} RawPlayerLastScores(gs: seq<RawGame>, pl: Playable)
    ensures var l := RawPlayerAfter(NewRawPlayer, gs, pl).lastScores;
      |l| == (if |gs| < 5 then |gs| else 5)
      && forall i :: 0 <= i < |l| ==> l[i] == gs[|gs| - 1 - i].score
    decreases |gs|
  {
    if |gs| > 0 {
      var prefix := gs[..|gs| - 1];
      var p0 := RawPlayerAfter(NewRawPlayer, prefix, pl);
      RawPlayerLastScores(prefix, pl);
      assert RawPlayerStep(p0, gs[|gs| - 1], pl).lastScores == Take([gs[|gs| - 1].score] + p0.lastScores, 5);
      assert forall i :: 0 <= i < |prefix| ==> prefix[i] == gs[i];
    }
  }

  /** The wins whose god, race or role is `k`. */
  function RawTallyKey(g: RawGame, t: Tallied): string
  {
    match t
    case ByGod => g.god
    case ByRace => Take(g.character, 2)
    case ByRole => Drop(g.character, 2)
  }

  function RawTallyOf(p: RawPlayer, t: Tallied): map<string, nat>
  {
    match t
    case ByGod => p.godWins
    case ByRace => p.raceWins
    case ByRole => p.roleWins
  }

  function RawWinCount(gs: seq<RawGame>, t: Tallied, k: string): nat
  {
    if |gs| == 0 then 0
    else RawWinCount(gs[..|gs| - 1], t, k) + (if RawWon(gs[|gs| - 1]) && RawTallyKey(gs[|gs| - 1], t) == k then 1 else 0)
  }

  /** Each god, race and role a player won with is tallied with the number
      of those wins, and nothing else is. */
  lemma {:induction false} RawPlayerTallies(gs: seq<RawGame>, pl: Playable, t: Tallied)
    ensures var m := RawTallyOf(RawPlayerAfter(NewRawPlayer, gs, pl), t);
      forall k :: (k in m <==> RawWinCount(gs, t, k) > 0) && (k in m ==> m[k] == RawWinCount(gs, t, k))
    decreases |gs|
  {
    if |gs| > 0 {
      RawPlayerTallies(gs[..|gs| - 1], pl, t);
    }
  }

  /** What a step does to the achievements and the tallies they read. */
  lemma RawStepAwards(p: RawPlayer, g: RawGame, pl: Playable)
    ensures var q := RawPlayerStep(p, g, pl);
      q.wins == (if RawWon(g) then p.wins + 1 else p.wins)
      && q.achievements == (if RawWon(g) then RawAwards(p.achievements, p.godWins, p.raceWins, p.roleWins, g, q.wins, pl) else p.achievements)
      && q.godWins.Keys == (if RawWon(g) then p.godWins.Keys + {g.god} else p.godWins.Keys)
      && q.raceWins.Keys == (if RawWon(g) then p.raceWins.Keys + {Take(g.character, 2)} else p.raceWins.Keys)
      && q.roleWins.Keys == (if RawWon(g) then p.roleWins.Keys + {Drop(g.character, 2)} else p.roleWins.Keys)
  {
  }

  /** The names a win can add, and when. */
  lemma RawAwardsSpec(a: set<string>, gods: map<string, nat>, races: map<string, nat>, roles: map<string, nat>,
                      g: RawGame, wins: nat, pl: Playable)
    ensures var r := RawAwards(a, gods, races, roles, g, wins, pl);
      ("goodplayer" in r <==> "goodplayer" in a || wins == 10)
      && ("centuryplayer" in r <==> "centuryplayer" in a || wins == 100)
      && ("no_potion_or_scroll_win" in r <==> "no_potion_or_scroll_win" in a)
      && ("cleared_zig" in r <==> "cleared_zig" in a || g.zigdeepest == Some("27"))
      && ("polytheist" in r <==> "polytheist" in a || Completes(gods, g.god, pl.gods))
      && ("greatplayer" in r <==> "greatplayer" in a || Completes(races, Take(g.character, 2), pl.races))
      && ("greaterplayer" in r <==>
            "greaterplayer" in a || (Completes(roles, Drop(g.character, 2), pl.roles) && "greatplayer" in r))
  {
  }

  /** goodplayer is held from the tenth win and centuryplayer from the
      hundredth: the count read already holds this win. */
  lemma {:induction false} RawWinCountAwards(gs: seq<RawGame>, pl: Playable)
    ensures var p := RawPlayerAfter(NewRawPlayer, gs, pl);
      p.wins == RawWins(gs)
      && ("goodplayer" in p.achievements <==> RawWins(gs) >= 10)
      && ("centuryplayer" in p.achievements <==> RawWins(gs) >= 100)
    decreases |gs|
  {
    if |gs| > 0 {
      var prefix := gs[..|gs| - 1];
      var p := RawPlayerAfter(NewRawPlayer, prefix, pl);
      RawWinCountAwards(prefix, pl);
      RawStepAwards(p, gs[|gs| - 1], pl);
      RawAwardsSpec(p.achievements, p.godWins, p.raceWins, p.roleWins, gs[|gs| - 1], p.wins + 1, pl);
    }
  }

  /** A zig cleared on a win. */
  predicate ZigWin(gs: seq<RawGame>, i: int)
  {
    0 <= i < |gs| && RawWon(gs[i]) && gs[i].zigdeepest == Some("27")
  }

  /** no_potion_or_scroll_win is never held, since the raw potion count is
      text and never equals the int 0; cleared_zig is held exactly after a
      win whose deepest Ziggurat level reads "27". */
  lemma {:induction false} RawZigAwards(gs: seq<RawGame>, pl: Playable)
    ensures var a := RawPlayerAfter(NewRawPlayer, gs, pl).achievements;
      "no_potion_or_scroll_win" !in a
      && ("cleared_zig" in a <==> exists i :: ZigWin(gs, i))
    decreases |gs|
  {
    if |gs| > 0 {
      var prefix := gs[..|gs| - 1];
      var p := RawPlayerAfter(NewRawPlayer, prefix, pl);
      RawZigAwards(prefix, pl);
      RawStepAwards(p, gs[|gs| - 1], pl);
      RawAwardsSpec(p.achievements, p.godWins, p.raceWins, p.roleWins, gs[|gs| - 1], p.wins + 1, pl);
      if exists i :: ZigWin(prefix, i) {
        var i :| ZigWin(prefix, i);
        assert prefix[i] == gs[i];
        assert ZigWin(gs, i);
      }
      if ZigWin(gs, |gs| - 1) {
        assert "cleared_zig" in RawPlayerAfter(NewRawPlayer, gs, pl).achievements;
      } else if exists i :: ZigWin(gs, i) {
        var i :| ZigWin(gs, i);
        assert prefix[i] == gs[i];
        assert ZigWin(prefix, i);
      }
    }
  }

  /** polytheist and greatplayer are held exactly when every playable god
      or race has a win; greaterplayer only with greatplayer and every
      playable role won. */
  lemma {:induction false} RawCoverageAwards(gs: seq<RawGame>, pl: Playable)
    requires pl.gods != {} && pl.races != {}
    ensures var p := RawPlayerAfter(NewRawPlayer, gs, pl);
      ("polytheist" in p.achievements <==> pl.gods <= p.godWins.Keys)
      && ("greatplayer" in p.achievements <==> pl.races <= p.raceWins.Keys)
      && ("greaterplayer" in p.achievements ==> "greatplayer" in p.achievements && pl.roles <= p.roleWins.Keys)
    decreases |gs|
  {
    if |gs| > 0 {
      var prefix := gs[..|gs| - 1];
      var p := RawPlayerAfter(NewRawPlayer, prefix, pl);
      RawCoverageAwards(prefix, pl);
      RawStepAwards(p, gs[|gs| - 1], pl);
      RawAwardsSpec(p.achievements, p.godWins, p.raceWins, p.roleWins, gs[|gs| - 1], p.wins + 1, pl);
    }
  }

  // ================================================================ the whole run

  function RawTableKey(g: RawGame, t: Table): string
  {
    match t
    case RaceTable => Take(g.character, 2)
    case RoleTable => Drop(g.character, 2)
    case ComboTable => g.character
  }

  function RawTableOf(st: Tables, t: Table): map<string, int>
  {
    match t
    case RaceTable => st.raceHighscores
    case RoleTable => st.roleHighscores
    case ComboTable => st.comboHighscores
  }

  /** One highscore table over the games alone. */
  function TableScores(gs: seq<RawGame>, t: Table): map<string, int>
    decreases |gs|
  {
    if |gs| == 0 then map[]
    else EnterScore(TableScores(gs[..|gs| - 1], t), RawTableKey(gs[|gs| - 1], t), gs[|gs| - 1].score)
  }

  lemma RawStepTable(st: Tables, g: RawGame, pl: Playable, t: Table)
    ensures RawTableOf(RawStep(st, g, pl), t) == EnterScore(RawTableOf(st, t), RawTableKey(g, t), g.score)
  {
  }

  lemma {:induction false} RawTablesAre(gs: seq<RawGame>, pl: Playable, t: Table)
    ensures RawTableOf(RawAfter(NoTables, gs, pl), t) == TableScores(gs, t)
    decreases |gs|
  {
    if |gs| > 0 {
      RawTablesAre(gs[..|gs| - 1], pl, t);
      RawStepTable(RawAfter(NoTables, gs[..|gs| - 1], pl), gs[|gs| - 1], pl, t);
    }
  }

  /** A game filed under key `k` of table `t`. */
  predicate FiledUnder(gs: seq<RawGame>, t: Table, k: string, i: int)
  {
    0 <= i < |gs| && RawTableKey(gs[i], t) == k
  }

  /** A key is in a table exactly when a game is filed under it. */
  lemma TableScoresKeys(gs: seq<RawGame>, t: Table, k: string)
    ensures k in TableScores(gs, t) <==> exists i :: FiledUnder(gs, t, k, i)
  {
    if k in TableScores(gs, t) {
      var i := TableScoresReached(gs, t, k);
    }
    if exists i :: FiledUnder(gs, t, k, i) {
      var i :| FiledUnder(gs, t, k, i);
      TableScoresUpper(gs, t, k, i);
    }
  }

  /** A key holds the highest score filed under it, reached by one of
      those games. */
  lemma TableScoresBest(gs: seq<RawGame>, t: Table, k: string)
    requires k in TableScores(gs, t)
    ensures var m := TableScores(gs, t);
      (forall i :: FiledUnder(gs, t, k, i) ==> gs[i].score <= m[k])
      && exists i :: FiledUnder(gs, t, k, i) && gs[i].score == m[k]
  {
    forall i | FiledUnder(gs, t, k, i) ensures gs[i].score <= TableScores(gs, t)[k] {
      TableScoresUpper(gs, t, k, i);
    }
    var i := TableScoresReached(gs, t, k);
  }

  /** No game filed under a key scored above what the key holds. */
  lemma {:induction false} TableScoresUpper(gs: seq<RawGame>, t: Table, k: string, i: int)
    requires FiledUnder(gs, t, k, i)
    ensures k in TableScores(gs, t) && gs[i].score <= TableScores(gs, t)[k]
    decreases |gs|
  {
    var prefix := gs[..|gs| - 1];
    var m0 := TableScores(prefix, t);
    if i < |prefix| {
      assert prefix[i] == gs[i];
      assert FiledUnder(prefix, t, k, i);
      TableScoresUpper(prefix, t, k, i);
      assert k in m0 && gs[i].score <= m0[k];
    }
  }

  /** The score a key holds is the score of a game filed under it. */
  lemma {:induction false} TableScoresReached(gs: seq<RawGame>, t: Table, k: string) returns (i: int)
    requires k in TableScores(gs, t)
    ensures FiledUnder(gs, t, k, i) && gs[i].score == TableScores(gs, t)[k]
    decreases |gs|
  {
    var prefix := gs[..|gs| - 1];
    var g := gs[|gs| - 1];
    var m0 := TableScores(prefix, t);
    if RawTableKey(g, t) == k && (k !in m0 || m0[k] < g.score) {
      i := |gs| - 1;
    } else {
      assert k in m0;
      i := TableScoresReached(prefix, t, k);
      assert prefix[i] == gs[i];
    }
  }

  /** So the race, role and combo tables hold the best score of each
      key a game was filed under, and no other key. */
  lemma RawTables(gs: seq<RawGame>, pl: Playable, t: Table, k: string)
    ensures var m := RawTableOf(RawAfter(NoTables, gs, pl), t);
      (k in m <==> exists i :: FiledUnder(gs, t, k, i))
      && (k in m ==> (forall i :: FiledUnder(gs, t, k, i) ==> gs[i].score <= m[k])
                     && exists i :: FiledUnder(gs, t, k, i) && gs[i].score == m[k])
  {
    RawTablesAre(gs, pl, t);
    TableScoresKeys(gs, t, k);
    if k in TableScores(gs, t) {
      TableScoresBest(gs, t, k);
    }
  }

  /** A player's games among the records, in order. */
  function RawGamesOf(gs: seq<RawGame>, name: string): seq<RawGame>
    decreases |gs|
  {
    if |gs| == 0 then []
    else RawGamesOf(gs[..|gs| - 1], name) + (if gs[|gs| - 1].name == name then [gs[|gs| - 1]] else [])
  }

  lemma RawGamesOfStep(gs: seq<RawGame>, name: string)
    requires |gs| > 0
    ensures RawGamesOf(gs, name)
      == if gs[|gs| - 1].name == name then RawGamesOf(gs[..|gs| - 1], name) + [gs[|gs| - 1]] else RawGamesOf(gs[..|gs| - 1], name)
  {
  }

  lemma RawStepPlayers(st: Tables, g: RawGame, pl: Playable, name: string)
    ensures Lookup(RawStep(st, g, pl).players, name)
      == if name == g.name then Some(RawPlayerStep(if name in st.players then st.players[name] else NewRawPlayer, g, pl))
         else Lookup(st.players, name)
  {
  }

  lemma RawPlayerAfterSnoc(own: seq<RawGame>, g: RawGame, pl: Playable)
    ensures RawPlayerAfter(NewRawPlayer, own + [g], pl) == RawPlayerStep(RawPlayerAfter(NewRawPlayer, own, pl), g, pl)
  {
    assert (own + [g])[..|own|] == own;
  }

  /** Each player's entry is their own games folded in order, and a name
      without games has none: players do not affect each other. */
  lemma {:induction false} RawPerPlayer(gs: seq<RawGame>, pl: Playable, name: string)
    ensures Lookup(RawAfter(NoTables, gs, pl).players, name)
      == if |RawGamesOf(gs, name)| == 0 then None else Some(RawPlayerAfter(NewRawPlayer, RawGamesOf(gs, name), pl))
    decreases |gs|
  {
    if |gs| > 0 {
      var prefix := gs[..|gs| - 1];
      var g := gs[|gs| - 1];
      RawPerPlayer(prefix, pl, name);
      RawGamesOfStep(gs, name);
      RawStepPlayers(RawAfter(NoTables, prefix, pl), g, pl, name);
      if g.name == name {
        RawPlayerAfterSnoc(RawGamesOf(prefix, name), g, pl);
      }
    }
  }

  /** Collecting succeeds exactly when every record read, and then yields
      every record's game in order. */
  lemma {:induction false} CollectOk(rs: seq<Result<RawGame>>)
    ensures Collect(rs).Ok? <==> forall i :: 0 <= i < |rs| ==> rs[i].Ok?
    ensures Collect(rs).Ok? ==>
      |Collect(rs).value| == |rs| && forall i :: 0 <= i < |rs| ==> Collect(rs).value[i] == rs[i].value
    decreases |rs|
  {
    if |rs| > 0 {
      var prefix := rs[..|rs| - 1];
      CollectOk(prefix);
      assert forall i :: 0 <= i < |prefix| ==> prefix[i] == rs[i];
    }
  }

  /** A failed collection carries the error of the first record that did
      not read. */
  lemma {:induction false} CollectError(rs: seq<Result<RawGame>>)
    requires Collect(rs).Raised?
    ensures exists i :: (0 <= i < |rs| && rs[i] == Raised(Collect(rs).error)
      && forall j :: 0 <= j < i ==> rs[j].Ok?)
    decreases |rs|
  {
    var prefix := rs[..|rs| - 1];
    assert forall i :: 0 <= i < |prefix| ==> prefix[i] == rs[i];
    if Collect(prefix).Raised? {
      CollectError(prefix);
      var i :| 0 <= i < |prefix| && prefix[i] == Raised(Collect(prefix).error)
        && forall j :: 0 <= j < i ==> prefix[j].Ok?;
      assert rs[i] == Raised(Collect(rs).error);
    } else {
      CollectOk(prefix);
      assert rs[|rs| - 1] == Raised(Collect(rs).error);
    }
  }

  /** So the run succeeds exactly when every record reads, folding the
      games read in order, and otherwise raises the error of the first
      record that does not read. */
  lemma RawRunSpec(logs: seq<RawLog>, pl: Playable)
    ensures RawRun(logs, pl).Ok? <==> forall i :: 0 <= i < |logs| ==> RawGameOf(logs[i]).Ok?
    ensures RawRun(logs, pl).Ok? ==> exists gs: seq<RawGame> ::
      (|gs| == |logs| && (forall i :: 0 <= i < |logs| ==> Ok(gs[i]) == RawGameOf(logs[i]))
       && RawRun(logs, pl) == Ok(RawAfter(NoTables, gs, pl)))
    ensures RawRun(logs, pl).Raised? ==>
      exists i :: (0 <= i < |logs| && RawGameOf(logs[i]) == Raised(RawRun(logs, pl).error)
        && forall j :: 0 <= j < i ==> RawGameOf(logs[j]).Ok?)
  {
    var rs := Results(logs);
    CollectOk(rs);
    if Collect(rs).Raised? {
      CollectError(rs);
      var i :| 0 <= i < |rs| && rs[i] == Raised(Collect(rs).error) && forall j :: 0 <= j < i ==> rs[j].Ok?;
      assert RawGameOf(logs[i]) == Raised(RawRun(logs, pl).error);
    } else {
      var gs := Collect(rs).value;
      forall i | 0 <= i < |logs| ensures Ok(gs[i]) == RawGameOf(logs[i]) {
        assert rs[i].Ok?;
      }
      assert RawRun(logs, pl) == Ok(RawAfter(NoTables, gs, pl));
    }
  }
}

=== FILE: scoring.dfy ===
/** Scoring of imported games (scoreboard/scoring.py): streak bookkeeping for
    one game, and the loop that scores every unscored game in batches. Games
    and streaks are addressed by their position in the store's tables. */
module Scoring {
  import opened Basics
  import opened Sorting
  import opened Orm
  import opened Model

  // ---------------------------------------------------------------- predicates

  /** `is_valid_streak_addition`: every game may join the current streak, and
      any game may start one; the start-time check is not written. */
  function ValidStreakAddition(g: Game, current: Option<nat>): (r: bool)
    ensures r
  {
    if current.None? then true else true
  }

  /** The anti-griefing thresholds of `is_grief`: a game that used a potion or
      a scroll is a grief under 600 seconds or 1000 turns; one that used
      neither, under 1200 seconds or 5000 turns. */
  predicate GriefThresholds(g: Game)
  {
    if g.potionsUsed > 0 || g.scrollsUsed > 0 then g.dur < 600 || g.turn < 1000
    else g.dur < 1200 || g.turn < 5000
  }

  /** The thresholds for a game that used consumables are the tighter ones:
      such a game counted as a grief would also count without them. */
  lemma ConsumablesTighten(g: Game)
    requires g.potionsUsed > 0 || g.scrollsUsed > 0
    ensures GriefThresholds(g) ==> GriefThresholds(g.(potionsUsed := 0, scrollsUsed := 0))
    ensures GriefThresholds(g) <==> g.dur < 600 || g.turn < 1000
  {
  }

  /** The query `is_grief` runs: the account's games, oldest first, at most one. */
  function FirstGameQuery(aid: nat): (q: GameQuery)
    ensures q.account == Some(aid) && q.player.None? && q.scored.None?
    ensures q.gid.None? && q.winning.None? && q.boring.None?
    ensures q.reverseOrder == Some(true) && q.limit == Some(1)
  {
    AllGames.(account := Some(aid), reverseOrder := Some(true), limit := Some(1))
  }

  /** The two operands of `first_game != game` as written: the list that
      `list_games` returns and a game row. Values of different kinds never
      compare equal. */
  datatype Operand = ListOf(items: seq<Game>) | RowOf(row: Game)

  /** `is_grief` as written: the list is compared with the row itself, the
      comparison always finds them different, and the function returns False
      before the thresholds are looked at. */
  function IsGriefAsWritten(gs: seq<Game>, accs: seq<Account>, g: Game): (r: bool)
  {
    var first := SelectGames(gs, accs, FirstGameQuery(g.accountId));
    if ListOf(first) != RowOf(g) then false else GriefThresholds(g)
  }

  /** `is_grief` with the list compared against a one-element list of the
      game: only an account's first game can be a grief, and only under the
      thresholds. */
  function IsGrief(gs: seq<Game>, accs: seq<Account>, g: Game): (r: bool)
    ensures r ==> GriefThresholds(g)
    ensures r ==> g in gs
    ensures r ==> forall h :: h in gs && h.accountId == g.accountId ==> g.end <= h.end
  {
    var first := SelectGames(gs, accs, FirstGameQuery(g.accountId));
    FirstGameIsEarliest(gs, accs, g.accountId);
    first == [g] && GriefThresholds(g)
  }

  /** The first game of the query is a game of the account that ended no
      later than any other game of the account. */
  lemma FirstGameIsEarliest(gs: seq<Game>, accs: seq<Account>, aid: nat)
    ensures var first := SelectGames(gs, accs, FirstGameQuery(aid));
            |first| <= 1
            && (|first| == 1 ==>
                  first[0] in gs && first[0].accountId == aid
                  && forall h :: h in gs && h.accountId == aid ==> first[0].end <= h.end)
            && (|first| == 0 ==> forall h :: h in gs ==> h.accountId != aid)
  {
    var q := FirstGameQuery(aid);
    var first := SelectGames(gs, accs, q);
    var all := SelectGames(gs, accs, q.(limit := None));
    SelectGamesCorrect(gs, accs, q);
    SelectGamesCorrect(gs, accs, q.(limit := None));
    assert first == Take(all, 1);
    forall h | h in gs && h.accountId == aid
      ensures |all| > 0 && all[0].end <= h.end
    {
      assert Matches(h, accs, q.(limit := None));
      assert h in FilterGames(gs, accs, q.(limit := None));
      assert h in multiset(all);
      var k :| 0 <= k < |all| && all[k] == h;
      if k > 0 {
        assert EndsAscending(all);
      }
    }
    if |first| == 1 {
      assert first[0] == all[0] && all[0] in all;
    }
  }

  /** The thresholds decide for a game that ended strictly before every other
      game of its account. */
  lemma IsGriefOfEarliest(gs: seq<Game>, accs: seq<Account>, g: Game)
    requires g in gs
    requires forall h :: h in gs && h.accountId == g.accountId && h != g ==> g.end < h.end
    ensures IsGrief(gs, accs, g) <==> GriefThresholds(g)
  {
    var first := SelectGames(gs, accs, FirstGameQuery(g.accountId));
    FirstGameIsEarliest(gs, accs, g.accountId);
    assert |first| == 1;
    assert first == [first[0]];
  }

  /** As written the grief test never fires. */
  lemma IsGriefAsWrittenNever(gs: seq<Game>, accs: seq<Account>, g: Game)
    ensures !IsGriefAsWritten(gs, accs, g)
  {
  }

  /** An account whose only game is a 10-turn, 10-second loss: the corrected
      test calls it a grief, the test as written does not. */
  lemma GriefMissedAsWritten()
    ensures var g := Game("g", 0, "Mi", "Fi", "Trog", "0.21", "quitting",
                          0, 10, 10, 1, 2, 0, 0, false, None);
            IsGrief([g], [], g) && !IsGriefAsWritten([g], [], g)
  {
    var g := Game("g", 0, "Mi", "Fi", "Trog", "0.21", "quitting",
                  0, 10, 10, 1, 2, 0, 0, false, None);
    IsGriefOfEarliest([g], [], g);
  }

  /** Which grief test the scorer runs: `is_grief` as the repository writes
      it, or with the comparison it evidently intends. */
  datatype GriefTest = AsWritten | Corrected

  function Grief(test: GriefTest, gs: seq<Game>, accs: seq<Account>, g: Game): (r: bool)
    ensures test.AsWritten? ==> !r
    ensures test.Corrected? ==> r == IsGrief(gs, accs, g)
  {
    IsGriefAsWrittenNever(gs, accs, g);
    if test.AsWritten? then IsGriefAsWritten(gs, accs, g) else IsGrief(gs, accs, g)
  }

  // ---------------------------------------------------------------- one game

  /** The two tables scoring changes. */
  datatype Tables = Tables(games: seq<Game>, streaks: seq<Streak>)

  /** What the scorer needs of the tables: every game's account exists, and
      no player has two active streaks. */
  predicate Scorable(t: Tables, accs: seq<Account>)
  {
    (forall i :: 0 <= i < |t.games| ==> t.games[i].accountId < |accs|)
    && OneActiveStreakPerPlayer(t.streaks)
  }

  /** The player a game of the tables belongs to. */
  function Owner(t: Tables, accs: seq<Account>, gi: nat): nat
    requires gi < |t.games| && t.games[gi].accountId < |accs|
  {
    accs[t.games[gi].accountId].playerId
  }

  /** Only game `gi` may change, and only its streak. */
  predicate OnlyStreakOf(gs: seq<Game>, gs': seq<Game>, gi: nat)
  {
    |gs'| == |gs| && gi < |gs|
    && gs'[gi] == gs[gi].(streak := gs'[gi].streak)
    && forall i :: 0 <= i < |gs| && i != gi ==> gs'[i] == gs[i]
  }

  /** `handle_player_streak` for game `gi`: a win joins the player's active
      streak, starting one when there is none; a loss closes the active
      streak unless the grief test flags it. */
  function StreakStep(t: Tables, accs: seq<Account>, test: GriefTest, gi: nat): (r: Tables)
    requires Scorable(t, accs) && gi < |t.games|
    ensures Scorable(r, accs)
    ensures OnlyStreakOf(t.games, r.games, gi)
    ensures |r.streaks| >= |t.streaks|
  {
    var g := t.games[gi];
    var pid := Owner(t, accs, gi);
    PlayerStreakNeverRaises(t.streaks, pid);
    var current := PlayerStreak(t.streaks, pid).value;
    if Won(g) then
      if current.None? then
        var sts := t.streaks + [Streak(pid, true)];
        CreatedStreakKeepsOne(t.streaks, pid);
        Tables(t.games[gi := g.(streak := Some(|t.streaks|))], sts)
      else if ValidStreakAddition(g, current) then
        Tables(t.games[gi := g.(streak := current)], t.streaks)
      else t
    else if current.None? || Grief(test, t.games, accs, g) then t
    else
      var sid := current.value;
      ClosedStreakKeepsOne(t.streaks, sid);
      Tables(t.games, t.streaks[sid := t.streaks[sid].(active := false)])
  }

  lemma CreatedStreakKeepsOne(sts: seq<Streak>, pid: nat)
    requires OneActiveStreakPerPlayer(sts) && !HasActiveStreak(sts, pid)
    ensures OneActiveStreakPerPlayer(sts + [Streak(pid, true)])
  {
    var sts' := sts + [Streak(pid, true)];
    forall i, j | 0 <= i < j < |sts'| && sts'[i].active && sts'[j].active
      ensures sts'[i].playerId != sts'[j].playerId
    {
      if j == |sts| {
        assert sts'[i] == sts[i];
      }
    }
  }

  lemma ClosedStreakKeepsOne(sts: seq<Streak>, sid: nat)
    requires OneActiveStreakPerPlayer(sts) && sid < |sts|
    ensures OneActiveStreakPerPlayer(sts[sid := sts[sid].(active := false)])
  {
  }

  /** A win ends up on an active streak of its player: the one the player
      already had, or a new one appended to the table. */
  lemma StreakStepWon(t: Tables, accs: seq<Account>, test: GriefTest, gi: nat)
    requires Scorable(t, accs) && gi < |t.games| && Won(t.games[gi])
    ensures var r := StreakStep(t, accs, test, gi);
            var pid := Owner(t, accs, gi);
            r.games[gi].streak.Some?
            && r.games[gi].streak.value < |r.streaks|
            && r.streaks[r.games[gi].streak.value] == Streak(pid, true)
            && (HasActiveStreak(t.streaks, pid) ==>
                  r.streaks == t.streaks && PlayerStreak(t.streaks, pid) == Ok(r.games[gi].streak))
            && (!HasActiveStreak(t.streaks, pid) ==>
                  r.streaks == t.streaks + [Streak(pid, true)]
                  && r.games[gi].streak == Some(|t.streaks|))
  {
    var pid := Owner(t, accs, gi);
    PlayerStreakNeverRaises(t.streaks, pid);
  }

  /** A loss never touches the games. With no active streak, or for a grief,
      it changes nothing; otherwise the player's active streak is kept but
      closed, and the player has no active streak left. */
  lemma StreakStepLost(t: Tables, accs: seq<Account>, test: GriefTest, gi: nat)
    requires Scorable(t, accs) && gi < |t.games| && !Won(t.games[gi])
    ensures var r := StreakStep(t, accs, test, gi);
            var pid := Owner(t, accs, gi);
            r.games == t.games
            && (!HasActiveStreak(t.streaks, pid) || Grief(test, t.games, accs, t.games[gi]) ==> r == t)
            && (HasActiveStreak(t.streaks, pid) && !Grief(test, t.games, accs, t.games[gi]) ==>
                  |r.streaks| == |t.streaks| && !HasActiveStreak(r.streaks, pid)
                  && exists sid :: 0 <= sid < |t.streaks| && t.streaks[sid] == Streak(pid, true)
                                   && r.streaks == t.streaks[sid := Streak(pid, false)])
  {
    var pid := Owner(t, accs, gi);
    PlayerStreakNeverRaises(t.streaks, pid);
    var r := StreakStep(t, accs, test, gi);
    if HasActiveStreak(t.streaks, pid) && !Grief(test, t.games, accs, t.games[gi]) {
      var sid := PlayerStreak(t.streaks, pid).value.value;
      assert r.streaks == t.streaks[sid := Streak(pid, false)];
      forall i | 0 <= i < |r.streaks| && r.streaks[i].playerId == pid
        ensures !r.streaks[i].active
      {
        if i != sid {
          assert r.streaks[i] == t.streaks[i];
        }
      }
    }
  }

  /** As written the grief test never fires, so a loss of a player with an
      active streak always closes it. */
  lemma StreakStepLostAsWritten(t: Tables, accs: seq<Account>, gi: nat)
    requires Scorable(t, accs) && gi < |t.games| && !Won(t.games[gi])
    ensures var r := StreakStep(t, accs, AsWritten, gi);
            var pid := Owner(t, accs, gi);
            r.games == t.games
            && (!HasActiveStreak(t.streaks, pid) ==> r == t)
            && (HasActiveStreak(t.streaks, pid) ==>
                  |r.streaks| == |t.streaks| && !HasActiveStreak(r.streaks, pid)
                  && exists sid :: 0 <= sid < |t.streaks| && t.streaks[sid] == Streak(pid, true)
                                   && r.streaks == t.streaks[sid := Streak(pid, false)])
  {
    StreakStepLost(t, accs, AsWritten, gi);
  }

  /** Where the two tests part: a loss the corrected test calls a grief keeps
      the player's active streak open, while the scorer as written closes it. */
  lemma GriefChangesScoring(t: Tables, accs: seq<Account>, gi: nat)
    requires Scorable(t, accs) && gi < |t.games| && !Won(t.games[gi])
    requires HasActiveStreak(t.streaks, Owner(t, accs, gi))
    requires IsGrief(t.games, accs, t.games[gi])
    ensures StreakStep(t, accs, Corrected, gi) == t
    ensures !HasActiveStreak(StreakStep(t, accs, AsWritten, gi).streaks, Owner(t, accs, gi))
  {
    StreakStepLost(t, accs, Corrected, gi);
    StreakStepLost(t, accs, AsWritten, gi);
  }

  /** Every game on a streak belongs to the streak's player. */
  predicate StreaksMatchOwners(t: Tables, accs: seq<Account>)
  {
    forall i :: 0 <= i < |t.games| && t.games[i].streak.Some? ==>
      t.games[i].accountId < |accs| && t.games[i].streak.value < |t.streaks|
      && t.streaks[t.games[i].streak.value].playerId == accs[t.games[i].accountId].playerId
  }

  /** Handling a streak keeps games pointing at existing streaks of their
      own player, and streaks pointing at existing players. */
  lemma StreakStepLinked(t: Tables, accs: seq<Account>, test: GriefTest, ps: seq<Player>, gi: nat)
    requires Scorable(t, accs) && gi < |t.games|
    requires AccountsLinked(accs, ps) && StreaksOwned(t.streaks, ps)
    requires GamesLinked(t.games, accs, t.streaks) && StreaksMatchOwners(t, accs)
    ensures var r := StreakStep(t, accs, test, gi);
            StreaksOwned(r.streaks, ps) && GamesLinked(r.games, accs, r.streaks)
            && StreaksMatchOwners(r, accs)
  {
    var r := StreakStep(t, accs, test, gi);
    var pid := Owner(t, accs, gi);
    PlayerStreakNeverRaises(t.streaks, pid);
    if Won(t.games[gi]) {
      StreakStepWon(t, accs, test, gi);
      assert forall k :: 0 <= k < |t.streaks| ==> r.streaks[k].playerId == t.streaks[k].playerId;
    } else {
      StreakStepLost(t, accs, test, gi);
      assert forall k :: 0 <= k < |t.streaks| ==> r.streaks[k].playerId == t.streaks[k].playerId;
    }
    assert forall i :: 0 <= i < |r.games| ==> r.games[i].gid == t.games[i].gid;
  }

  /** `score_game`: games of blacklisted accounts get no streak handling. */
  function ScoreGameStep(t: Tables, accs: seq<Account>, test: GriefTest, gi: nat): (r: Tables)
    requires Scorable(t, accs) && gi < |t.games|
    ensures Scorable(r, accs) && OnlyStreakOf(t.games, r.games, gi)
    ensures accs[t.games[gi].accountId].blacklisted ==> r == t
    ensures !accs[t.games[gi].accountId].blacklisted ==> r == StreakStep(t, accs, test, gi)
  {
    if accs[t.games[gi].accountId].blacklisted then t else StreakStep(t, accs, test, gi)
  }

  // ---------------------------------------------------------------- batches

  /** Positions of the unscored games, in table order. */
  function UnscoredIds(gs: seq<Game>): (r: seq<nat>)
    ensures forall k :: 0 <= k < |r| ==> r[k] < |gs| && !gs[r[k]].scored
    ensures forall i: nat :: i < |gs| && !gs[i].scored ==> i in r
  {
    if |gs| == 0 then []
    else
      var rest := UnscoredIds(gs[..|gs| - 1]);
      if gs[|gs| - 1].scored then rest else rest + [|gs| - 1]
  }

  /** The number of unscored games. */
  function CountUnscored(gs: seq<Game>): nat
  {
    if |gs| == 0 then 0
    else CountUnscored(gs[..|gs| - 1]) + (if gs[|gs| - 1].scored then 0 else 1)
  }

  /** Scoring more games, and at least one more, lowers the count. */
  lemma {:induction false} CountDrops(gs: seq<Game>, gs': seq<Game>, j: nat)
    requires |gs'| == |gs|
    requires forall i :: 0 <= i < |gs| && gs[i].scored ==> gs'[i].scored
    ensures CountUnscored(gs') <= CountUnscored(gs)
    ensures j < |gs| && !gs[j].scored && gs'[j].scored ==> CountUnscored(gs') < CountUnscored(gs)
  {
    if |gs| > 0 {
      var n := |gs| - 1;
      CountDrops(gs[..n], gs'[..n], j);
      assert gs[..n][..] == gs[..n];
    }
  }

  /** Sorting key of a game position: its end time. */
  function EndOf(gs: seq<Game>): nat -> Key
  {
    (i: nat) => Key(if i < |gs| then gs[i].end else 0, "")
  }

  const BatchSize: nat := 100

  /** `list_games(scored=False, limit=100, reverse_order=True)`: up to 100
      unscored games, oldest end time first. */
  function Batch(gs: seq<Game>): (r: seq<nat>)
    ensures |r| <= BatchSize
    ensures forall k :: 0 <= k < |r| ==> r[k] < |gs| && !gs[r[k]].scored
    ensures |r| == 0 <==> forall i :: 0 <= i < |gs| ==> gs[i].scored
  {
    SortedUnscored(gs);
    Take(SortBy<nat>(UnscoredIds(gs), EndOf(gs)), BatchSize)
  }

  lemma SortedUnscored(gs: seq<Game>)
    ensures var sorted := SortBy<nat>(UnscoredIds(gs), EndOf(gs));
            (forall k :: 0 <= k < |sorted| ==> sorted[k] < |gs| && !gs[sorted[k]].scored)
            && (|sorted| == 0 <==> forall i :: 0 <= i < |gs| ==> gs[i].scored)
  {
    var ids := UnscoredIds(gs);
    var sorted := SortBy<nat>(ids, EndOf(gs));
    SortByElements(ids, EndOf(gs));
    forall k | 0 <= k < |sorted| ensures sorted[k] < |gs| && !gs[sorted[k]].scored {
      assert sorted[k] in sorted;
      var m :| 0 <= m < |ids| && ids[m] == sorted[k];
    }
    if |sorted| == 0 {
      assert ids == [];
    }
  }

  /** The batch is in end-time order, and every unscored game left out of it
      ended no earlier than any game in it. */
  lemma BatchOldestFirst(gs: seq<Game>)
    ensures var r := Batch(gs);
            (forall k, l :: 0 <= k < l < |r| ==> gs[r[k]].end <= gs[r[l]].end)
            && (forall k, i :: 0 <= k < |r| && 0 <= i < |gs| && !gs[i].scored && i !in r ==>
                  gs[r[k]].end <= gs[i].end)
  {
    var ids := UnscoredIds(gs);
    var key := EndOf(gs);
    var sorted := SortBy(ids, key);
    var r := Batch(gs);
    SortByOrdered(ids, key);
    SortByElements(ids, key);
    assert r == sorted[..|r|];
    forall k, l | 0 <= k < l < |r| ensures gs[r[k]].end <= gs[r[l]].end {
      assert KeyLe(key(sorted[k]), key(sorted[l]));
    }
    forall k, i | 0 <= k < |r| && 0 <= i < |gs| && !gs[i].scored && i !in r
      ensures gs[r[k]].end <= gs[i].end
    {
      assert i in sorted;
      var m :| 0 <= m < |sorted| && sorted[m] == i;
      assert KeyLe(key(sorted[k]), key(sorted[m]));
    }
  }

  /** Scoring one game: its streak is handled, then it is marked scored. */
  function ScoreOne(t: Tables, accs: seq<Account>, test: GriefTest, gi: nat): (r: Tables)
    requires Scorable(t, accs) && gi < |t.games|
    ensures Scorable(r, accs) && |r.games| == |t.games|
  {
    var s := ScoreGameStep(t, accs, test, gi);
    Tables(s.games[gi := s.games[gi].(scored := true)], s.streaks)
  }

  /** Scoring one game marks it scored, may change its streak, and leaves
      every other game as it was. */
  lemma ScoreOneEffect(t: Tables, accs: seq<Account>, test: GriefTest, gi: nat)
    requires Scorable(t, accs) && gi < |t.games|
    ensures var r := ScoreOne(t, accs, test, gi);
            r.games[gi].scored
            && r.games[gi] == t.games[gi].(scored := true, streak := r.games[gi].streak)
            && forall i :: 0 <= i < |t.games| && i != gi ==> r.games[i] == t.games[i]
  {
  }

  /** Only the games at `ids` may change, and only in `scored` and `streak`;
      exactly those become scored. */
  predicate ScoredOnly(gs: seq<Game>, gs': seq<Game>, ids: seq<nat>)
  {
    |gs'| == |gs|
    && (forall i :: 0 <= i < |gs| ==>
          gs'[i] == gs[i].(scored := gs'[i].scored, streak := gs'[i].streak))
    && (forall i :: 0 <= i < |gs| ==> (gs'[i].scored <==> gs[i].scored || i in ids))
    && (forall i :: 0 <= i < |gs| && i !in ids ==> gs'[i] == gs[i])
  }

  /** The `for game in games` loop of `score_games` over one batch. */
  function ScoreList(t: Tables, accs: seq<Account>, test: GriefTest, ids: seq<nat>): (r: Tables)
    requires Scorable(t, accs)
    requires forall k :: 0 <= k < |ids| ==> ids[k] < |t.games|
    ensures Scorable(r, accs) && |r.games| == |t.games|
  {
    if |ids| == 0 then t
    else ScoreOne(ScoreList(t, accs, test, ids[..|ids| - 1]), accs, test, ids[|ids| - 1])
  }

  /** A batch marks exactly its games scored and changes nothing else but
      their streaks. */
  lemma {:induction false} ScoreListEffect(t: Tables, accs: seq<Account>, test: GriefTest, ids: seq<nat>)
    requires Scorable(t, accs)
    requires forall k :: 0 <= k < |ids| ==> ids[k] < |t.games|
    ensures ScoredOnly(t.games, ScoreList(t, accs, test, ids).games, ids)
  {
    if |ids| > 0 {
      var init := ids[..|ids| - 1];
      var x := ids[|ids| - 1];
      ScoreListEffect(t, accs, test, init);
      ScoreOneEffect(ScoreList(t, accs, test, init), accs, test, x);
      assert forall i :: i in ids <==> i in init || i == x;
    }
  }

  lemma ScoreListStep(t: Tables, accs: seq<Account>, test: GriefTest, ids: seq<nat>, j: nat)
    requires Scorable(t, accs)
    requires forall k :: 0 <= k < |ids| ==> ids[k] < |t.games|
    requires j < |ids|
    ensures ScoreList(t, accs, test, ids[..j + 1]) == ScoreOne(ScoreList(t, accs, test, ids[..j]), accs, test, ids[j])
  {
    assert ids[..j + 1][..j] == ids[..j];
  }

  /** The name of the player of the game at `i`, or "" off the tables. */
  function PlayerNameAt(gs: seq<Game>, accs: seq<Account>, ps: seq<Player>, i: nat): string
  {
    if i < |gs| && gs[i].accountId < |accs| && accs[gs[i].accountId].playerId < |ps|
    then ps[accs[gs[i].accountId].playerId].name
    else ""
  }

  /** The names of the players of the games at the given positions. */
  function NameSet(gs: seq<Game>, accs: seq<Account>, ps: seq<Player>, ids: set<nat>): set<string>
  {
    set i | i in ids :: PlayerNameAt(gs, accs, ps, i)
  }

  function Elements(ids: seq<nat>): set<nat>
  {
    set k | 0 <= k < |ids| :: ids[k]
  }

  /** `scored_players.add(game.player.name)` over a batch. */
  function BatchNames(gs: seq<Game>, accs: seq<Account>, ps: seq<Player>, ids: seq<nat>): set<string>
  {
    if |ids| == 0 then {}
    else BatchNames(gs, accs, ps, ids[..|ids| - 1]) + {PlayerNameAt(gs, accs, ps, ids[|ids| - 1])}
  }

  /** The names collected are those of the batch's games. */
  lemma {:induction false} BatchNamesSet(gs: seq<Game>, accs: seq<Account>, ps: seq<Player>, ids: seq<nat>)
    ensures BatchNames(gs, accs, ps, ids) == NameSet(gs, accs, ps, Elements(ids))
  {
    if |ids| > 0 {
      var n := |ids| - 1;
      BatchNamesSet(gs, accs, ps, ids[..n]);
      ElementsSnoc(ids, n);
      assert ids[..n + 1] == ids;
    }
  }

  lemma BatchNamesStep(gs: seq<Game>, accs: seq<Account>, ps: seq<Player>, ids: seq<nat>, j: nat)
    requires j < |ids|
    ensures BatchNames(gs, accs, ps, ids[..j + 1])
            == BatchNames(gs, accs, ps, ids[..j]) + {PlayerNameAt(gs, accs, ps, ids[j])}
  {
    assert ids[..j + 1][..j] == ids[..j];
  }

  /** The state at the end of `score_games`: the tables and the players touched. */
  datatype Run = Run(tables: Tables, players: set<string>)

  /** `score_games`: batches until no unscored game is left, each scored in
      turn; `acc` holds the names collected so far. */
  function ScoreBatches(t: Tables, accs: seq<Account>, test: GriefTest, ps: seq<Player>, acc: set<string>): Run
    requires Scorable(t, accs)
    decreases CountUnscored(t.games)
  {
    var batch := Batch(t.games);
    if |batch| == 0 then Run(t, acc)
    else
      var next := ScoreList(t, accs, test, batch);
      assert batch[0] in batch;
      ScoreListEffect(t, accs, test, batch);
      CountDrops(t.games, next.games, batch[0]);
      ScoreBatches(next, accs, test, ps, acc + BatchNames(t.games, accs, ps, batch))
  }

  /** The positions of the unscored games. */
  function UnscoredSet(gs: seq<Game>): set<nat>
  {
    set i: nat | i < |gs| && !gs[i].scored
  }

  /** One round of `score_games`: no batch ends the loop, otherwise the
      batch is scored and its players are added. */
  lemma ScoreBatchesUnfold(t: Tables, accs: seq<Account>, test: GriefTest, ps: seq<Player>, acc: set<string>)
    requires Scorable(t, accs)
    ensures var batch := Batch(t.games);
            (|batch| == 0 ==> ScoreBatches(t, accs, test, ps, acc) == Run(t, acc))
            && (|batch| > 0 ==>
                  CountUnscored(ScoreList(t, accs, test, batch).games) < CountUnscored(t.games)
                  && ScoreBatches(t, accs, test, ps, acc)
                     == ScoreBatches(ScoreList(t, accs, test, batch), accs, test, ps, acc + BatchNames(t.games, accs, ps, batch)))
  {
    var batch := Batch(t.games);
    if |batch| > 0 {
      assert batch[0] in batch;
      ScoreListEffect(t, accs, test, batch);
      CountDrops(t.games, ScoreList(t, accs, test, batch).games, batch[0]);
    }
  }

  /** Every game is scored; scored games are untouched and the others changed
      only in `scored` and `streak`. */
  predicate Finished(gs: seq<Game>, gs': seq<Game>)
  {
    |gs'| == |gs|
    && (forall i :: 0 <= i < |gs| ==> gs'[i].scored)
    && (forall i :: 0 <= i < |gs| ==> gs'[i] == gs[i].(scored := true, streak := gs'[i].streak))
    && (forall i :: 0 <= i < |gs| && gs[i].scored ==> gs'[i] == gs[i])
  }

  lemma FinishedAfterBatch(gs: seq<Game>, mid: seq<Game>, final: seq<Game>, batch: seq<nat>)
    requires ScoredOnly(gs, mid, batch) && Finished(mid, final)
    requires forall k :: 0 <= k < |batch| ==> batch[k] < |gs| && !gs[batch[k]].scored
    ensures Finished(gs, final)
  {
    forall i | 0 <= i < |gs| && gs[i].scored ensures final[i] == gs[i] {
      assert i !in batch;
    }
  }

  /** `score_games` leaves every game scored, already scored games
      untouched, the others changed only in `scored` and `streak`, and at most
      one active streak per player. */
  lemma {:induction false} ScoreBatchesTables(t: Tables, accs: seq<Account>, test: GriefTest, ps: seq<Player>, acc: set<string>)
    requires Scorable(t, accs)
    ensures var run := ScoreBatches(t, accs, test, ps, acc);
            Scorable(run.tables, accs) && Finished(t.games, run.tables.games)
    decreases CountUnscored(t.games)
  {
    var batch := Batch(t.games);
    ScoreBatchesUnfold(t, accs, test, ps, acc);
    if |batch| > 0 {
      var next := ScoreList(t, accs, test, batch);
      ScoreBatchesTables(next, accs, test, ps, acc + BatchNames(t.games, accs, ps, batch));
      ScoreListEffect(t, accs, test, batch);
      FinishedAfterBatch(t.games, next.games, ScoreBatches(t, accs, test, ps, acc).tables.games, batch);
    }
  }

  /** `score_games` returns the names of the players of the games that were
      unscored when it started. */
  lemma {:induction false} ScoreBatchesPlayers(t: Tables, accs: seq<Account>, test: GriefTest, ps: seq<Player>, acc: set<string>)
    requires Scorable(t, accs)
    ensures ScoreBatches(t, accs, test, ps, acc).players == acc + NameSet(t.games, accs, ps, UnscoredSet(t.games))
    decreases CountUnscored(t.games)
  {
    var batch := Batch(t.games);
    ScoreBatchesUnfold(t, accs, test, ps, acc);
    if |batch| == 0 {
      NoneUnscored(t.games);
    } else {
      var next := ScoreList(t, accs, test, batch);
      ScoreBatchesPlayers(next, accs, test, ps, acc + BatchNames(t.games, accs, ps, batch));
      BatchScored(t, accs, test, ps, batch);
      var all := UnscoredSet(t.games);
      var part := Elements(batch);
      NameSetSplit(t.games, accs, ps, all, part);
      var named := BatchNames(t.games, accs, ps, batch);
      var rest := NameSet(next.games, accs, ps, UnscoredSet(next.games));
      assert ScoreBatches(t, accs, test, ps, acc).players == acc + named + rest;
      BatchNamesSet(t.games, accs, ps, batch);
      assert named == NameSet(t.games, accs, ps, part);
      assert rest == NameSet(t.games, accs, ps, all - part);
      UnionRegroup(acc, named, rest, NameSet(t.games, accs, ps, all));
    }
  }

  lemma UnionRegroup<T>(acc: set<T>, a: set<T>, b: set<T>, c: set<T>)
    requires a + b == c
    ensures acc + a + b == acc + c
  {
  }

  lemma NoneUnscored(gs: seq<Game>)
    requires forall i :: 0 <= i < |gs| ==> gs[i].scored
    ensures UnscoredSet(gs) == {}
  {
  }

  /** After a batch the unscored games are the old ones minus the batch, with
      unchanged owners. */
  lemma BatchScored(t: Tables, accs: seq<Account>, test: GriefTest, ps: seq<Player>, batch: seq<nat>)
    requires Scorable(t, accs)
    requires forall k :: 0 <= k < |batch| ==> batch[k] < |t.games| && !t.games[batch[k]].scored
    ensures var next := ScoreList(t, accs, test, batch);
            Elements(batch) <= UnscoredSet(t.games)
            && UnscoredSet(next.games) == UnscoredSet(t.games) - Elements(batch)
            && NameSet(next.games, accs, ps, UnscoredSet(next.games))
               == NameSet(t.games, accs, ps, UnscoredSet(next.games))
  {
    var next := ScoreList(t, accs, test, batch);
    ScoreListEffect(t, accs, test, batch);
    forall i | i in Elements(batch) ensures i in UnscoredSet(t.games) {
      var k :| 0 <= k < |batch| && batch[k] == i;
    }
    forall i: nat ensures i in UnscoredSet(next.games) <==> i in UnscoredSet(t.games) - Elements(batch) {
      if i in batch {
        var k :| 0 <= k < |batch| && batch[k] == i;
        assert i in Elements(batch);
      }
      if i in Elements(batch) {
        var k :| 0 <= k < |batch| && batch[k] == i;
        assert i in batch;
      }
    }
    forall i | i in UnscoredSet(next.games)
      ensures PlayerNameAt(next.games, accs, ps, i) == PlayerNameAt(t.games, accs, ps, i)
    {
      assert next.games[i].accountId == t.games[i].accountId;
    }
  }

  lemma NameSetSplit(gs: seq<Game>, accs: seq<Account>, ps: seq<Player>, all: set<nat>, part: set<nat>)
    requires part <= all
    ensures NameSet(gs, accs, ps, part) + NameSet(gs, accs, ps, all - part) == NameSet(gs, accs, ps, all)
  {
    forall x | x in NameSet(gs, accs, ps, all)
      ensures x in NameSet(gs, accs, ps, part) + NameSet(gs, accs, ps, all - part)
    {
      var i :| i in all && PlayerNameAt(gs, accs, ps, i) == x;
      if i in part {
        assert x in NameSet(gs, accs, ps, part);
      } else {
        assert x in NameSet(gs, accs, ps, all - part);
      }
    }
  }

  // ---------------------------------------------------------------- the store

  /** The store's tables. */
  function TablesOf(store: Store): Tables
    reads store
  {
    Tables(store.games, store.streaks)
  }

  /** `game.streak = current_streak` */
  method AttachToStreak(store: Store, gi: nat, sid: nat)
    requires store.Valid() && gi < |store.games| && sid < |store.streaks|
    modifies store
    ensures store.Valid()
    ensures store.games == old(store.games)[gi := old(store.games)[gi].(streak := Some(sid))]
    ensures store.streaks == old(store.streaks)
    ensures store.players == old(store.players) && store.accounts == old(store.accounts)
    ensures store.progress == old(store.progress) && store.catalogue == old(store.catalogue)
  {
    store.games := store.games[gi := store.games[gi].(streak := Some(sid))];
    assert forall i :: 0 <= i < |store.games| ==> store.games[i].gid == old(store.games)[i].gid;
  }

  /** `current_streak.active = False` */
  method CloseStreak(store: Store, sid: nat)
    requires store.Valid() && sid < |store.streaks|
    modifies store
    ensures store.Valid()
    ensures store.streaks == old(store.streaks)[sid := old(store.streaks)[sid].(active := false)]
    ensures store.games == old(store.games)
    ensures store.players == old(store.players) && store.accounts == old(store.accounts)
    ensures store.progress == old(store.progress) && store.catalogue == old(store.catalogue)
  {
    store.streaks := store.streaks[sid := store.streaks[sid].(active := false)];
  }

  /** `handle_player_streak` on the store: a win joins the player's active
      streak, or a new one `create_streak` adds; a loss closes the active
      streak unless `is_grief` fires, which as written it never does. */
  method HandlePlayerStreak(store: Store, gi: nat)
    requires store.Valid() && Scorable(TablesOf(store), store.accounts) && gi < |store.games|
    modifies store
    ensures store.Valid() && Scorable(TablesOf(store), store.accounts)
    ensures TablesOf(store) == StreakStep(old(TablesOf(store)), old(store.accounts), AsWritten, gi)
    ensures store.players == old(store.players) && store.accounts == old(store.accounts)
    ensures store.progress == old(store.progress) && store.catalogue == old(store.catalogue)
  {
    var g := store.games[gi];
    var pid := store.accounts[g.accountId].playerId;
    PlayerStreakNeverRaises(store.streaks, pid);
    var current := store.GetPlayerStreak(pid).value;
    if Won(g) {
      var sid: nat;
      if current.None? {
        sid := store.CreateStreak(pid);
      } else {
        sid := current.value;
      }
      if current.None? || ValidStreakAddition(g, current) {
        AttachToStreak(store, gi, sid);
      }
    } else if current.Some? && !Grief(AsWritten, store.games, store.accounts, g) {
      CloseStreak(store, current.value);
    }
  }

  /** `score_game`: streak handling unless the account is blacklisted. The
      debugging hook for one player is not part of this model. */
  method ScoreGame(store: Store, gi: nat)
    requires store.Valid() && Scorable(TablesOf(store), store.accounts) && gi < |store.games|
    modifies store
    ensures store.Valid() && Scorable(TablesOf(store), store.accounts)
    ensures TablesOf(store) == ScoreGameStep(old(TablesOf(store)), old(store.accounts), AsWritten, gi)
    ensures store.players == old(store.players) && store.accounts == old(store.accounts)
    ensures store.progress == old(store.progress) && store.catalogue == old(store.catalogue)
  {
    if !store.accounts[store.games[gi].accountId].blacklisted {
      HandlePlayerStreak(store, gi);
    }
  }

  /** `game.scored = True` */
  method MarkScored(store: Store, gi: nat)
    requires store.Valid() && gi < |store.games|
    modifies store
    ensures store.Valid()
    ensures store.games == old(store.games)[gi := old(store.games)[gi].(scored := true)]
    ensures store.streaks == old(store.streaks)
    ensures store.players == old(store.players) && store.accounts == old(store.accounts)
    ensures store.progress == old(store.progress) && store.catalogue == old(store.catalogue)
  {
    store.games := store.games[gi := store.games[gi].(scored := true)];
    assert forall i :: 0 <= i < |store.games| ==> store.games[i].gid == old(store.games)[i].gid;
  }

  /** One pass of the `for game in games` loop before the name is recorded. */
  method ScoreAndMark(store: Store, gi: nat)
    requires store.Valid() && Scorable(TablesOf(store), store.accounts) && gi < |store.games|
    modifies store
    ensures store.Valid() && Scorable(TablesOf(store), store.accounts)
    ensures TablesOf(store) == ScoreOne(old(TablesOf(store)), old(store.accounts), AsWritten, gi)
    ensures store.players == old(store.players) && store.accounts == old(store.accounts)
    ensures store.progress == old(store.progress) && store.catalogue == old(store.catalogue)
  {
    ScoreGame(store, gi);
    MarkScored(store, gi);
  }

  /** Scoring leaves every game's player as it was. */
  lemma NameStable(t: Tables, accs: seq<Account>, test: GriefTest, ps: seq<Player>, ids: seq<nat>, gi: nat)
    requires Scorable(t, accs)
    requires forall k :: 0 <= k < |ids| ==> ids[k] < |t.games|
    ensures PlayerNameAt(ScoreList(t, accs, test, ids).games, accs, ps, gi) == PlayerNameAt(t.games, accs, ps, gi)
  {
    var r := ScoreList(t, accs, test, ids);
    ScoreListEffect(t, accs, test, ids);
    if gi < |t.games| {
      assert r.games[gi].accountId == t.games[gi].accountId;
    }
  }

  /** The `for game in games` loop of `score_games`: scores each game of
      the batch in turn, marks it scored and collects its player's name. */
  method ScoreBatch(store: Store, batch: seq<nat>) returns (names: set<string>)
    requires store.Valid() && Scorable(TablesOf(store), store.accounts)
    requires forall k :: 0 <= k < |batch| ==> batch[k] < |store.games|
    modifies store
    ensures store.Valid() && Scorable(TablesOf(store), store.accounts)
    ensures TablesOf(store) == ScoreList(old(TablesOf(store)), old(store.accounts), AsWritten, batch)
    ensures names == BatchNames(old(store.games), old(store.accounts), old(store.players), batch)
    ensures store.players == old(store.players) && store.accounts == old(store.accounts)
    ensures store.progress == old(store.progress) && store.catalogue == old(store.catalogue)
  {
    ghost var t := TablesOf(store);
    ghost var accs := store.accounts;
    ghost var ps := store.players;
    names := {};
    var j := 0;
    while j < |batch|
      invariant 0 <= j <= |batch|
      invariant store.Valid() && Scorable(TablesOf(store), store.accounts)
      invariant store.players == ps && store.accounts == accs
      invariant store.progress == old(store.progress) && store.catalogue == old(store.catalogue)
      invariant TablesOf(store) == ScoreList(t, accs, AsWritten, batch[..j])
      invariant names == BatchNames(t.games, accs, ps, batch[..j])
    {
      var gi := batch[j];
      // the game's player is read before scoring, which does not change it
      var name := PlayerNameAt(store.games, store.accounts, store.players, gi);
      NameStable(t, accs, AsWritten, ps, batch[..j], gi);
      BatchNamesStep(t.games, accs, ps, batch, j);
      ScoreListStep(t, accs, AsWritten, batch, j);
      ScoreAndMark(store, gi);
      names := names + {name};
      j := j + 1;
    }
    assert batch[..j] == batch;
  }

  /** `score_games`: takes the oldest unscored games a batch at a time and
      scores them, until none is left; returns the players it touched. */
  method ScoreGames(store: Store) returns (scoredPlayers: set<string>)
    requires store.Valid() && Scorable(TablesOf(store), store.accounts)
    modifies store
    ensures store.Valid() && Scorable(TablesOf(store), store.accounts)
    ensures var run := ScoreBatches(old(TablesOf(store)), old(store.accounts), AsWritten, old(store.players), {});
            TablesOf(store) == run.tables && scoredPlayers == run.players
    ensures store.players == old(store.players) && store.accounts == old(store.accounts)
    ensures store.progress == old(store.progress) && store.catalogue == old(store.catalogue)
  {
    scoredPlayers := {};
    ghost var goal := ScoreBatches(TablesOf(store), store.accounts, AsWritten, store.players, {});
    while true
      invariant store.Valid() && Scorable(TablesOf(store), store.accounts)
      invariant store.players == old(store.players) && store.accounts == old(store.accounts)
      invariant store.progress == old(store.progress) && store.catalogue == old(store.catalogue)
      invariant ScoreBatches(TablesOf(store), store.accounts, AsWritten, store.players, scoredPlayers) == goal
      decreases CountUnscored(store.games)
    {
      var batch := Batch(store.games);
      if |batch| == 0 {
        break;
      }
      ScoreBatchesUnfold(TablesOf(store), store.accounts, AsWritten, store.players, scoredPlayers);
      var names := ScoreBatch(store, batch);
      scoredPlayers := scoredPlayers + names;
    }
  }

  lemma ElementsSnoc(ids: seq<nat>, j: nat)
    requires j < |ids|
    ensures Elements(ids[..j + 1]) == Elements(ids[..j]) + {ids[j]}
  {
    assert ids[..j + 1] == ids[..j] + [ids[j]];
  }
}

=== FILE: sorting.dfy ===
/** Stable sorting, as Python's `sorted`/`list.sort` do it. Every sort in the
    scoreboard orders by an integer, a string, or an (integer, string) tuple;
    `Key` covers all three and is compared the way Python compares tuples. */
module Sorting {
  import opened Basics

  datatype Key = Key(major: int, minor: string)

  predicate KeyLt(a: Key, b: Key)
  {
    a.major < b.major || (a.major == b.major && StrLt(a.minor, b.minor))
  }

  predicate KeyLe(a: Key, b: Key)
  {
    a == b || KeyLt(a, b)
  }

  lemma KeyLtIrreflexive(a: Key)
    ensures !KeyLt(a, a)
  {
    StrLtIrreflexive(a.minor);
  }

  lemma KeyTotal(a: Key, b: Key)
    ensures KeyLt(a, b) || a == b || KeyLt(b, a)
  {
    StrLtTrichotomy(a.minor, b.minor);
  }

  lemma KeyLtTransitive(a: Key, b: Key, c: Key)
    requires KeyLt(a, b) && KeyLt(b, c)
    ensures KeyLt(a, c)
  {
    if a.major == b.major && b.major == c.major {
      StrLtTransitive(a.minor, b.minor, c.minor);
    }
  }

  lemma KeyLeTransitive(a: Key, b: Key, c: Key)
    requires KeyLe(a, b) && KeyLe(b, c)
    ensures KeyLe(a, c)
  {
    if KeyLt(a, b) && KeyLt(b, c) {
      KeyLtTransitive(a, b, c);
    }
  }

  lemma KeyLtNotLe(a: Key, b: Key)
    requires KeyLt(a, b)
    ensures !KeyLe(b, a)
  {
    KeyLtIrreflexive(a);
    if KeyLt(b, a) {
      KeyLtTransitive(a, b, a);
    }
  }

  ghost predicate SortedBy<T>(s: seq<T>, key: T -> Key)
  {
    forall i, j :: 0 <= i < j < |s| ==> KeyLe(key(s[i]), key(s[j]))
  }

  /** The elements of `s` whose key is `k`, in their order in `s`. */
  function WithKey<T>(s: seq<T>, key: T -> Key, k: Key): (r: seq<T>)
    ensures |r| <= |s|
  {
    if |s| == 0 then []
    else (if key(s[0]) == k then [s[0]] else []) + WithKey(s[1..], key, k)
  }

  /** Puts `x` after every element whose key is not greater than its own. */
  function Insert<T>(x: T, s: seq<T>, key: T -> Key): (r: seq<T>)
    ensures |r| == |s| + 1
  {
    if |s| == 0 then [x]
    else if KeyLt(key(x), key(s[0])) then [x] + s
    else [s[0]] + Insert(x, s[1..], key)
  }

  /** `sorted(s, key=key)`: insertion sort, which keeps equal keys in input order. */
  function SortBy<T>(s: seq<T>, key: T -> Key): (r: seq<T>)
    ensures |r| == |s|
  {
    if |s| == 0 then [] else Insert(s[|s| - 1], SortBy(s[..|s| - 1], key), key)
  }

  lemma {:induction false} InsertMultiset<T>(x: T, s: seq<T>, key: T -> Key)
    ensures multiset(Insert(x, s, key)) == multiset(s) + multiset{x}
  {
    if |s| > 0 && !KeyLt(key(x), key(s[0])) {
      InsertMultiset(x, s[1..], key);
      assert s == [s[0]] + s[1..];
    }
  }

  lemma {:induction false} InsertSorted<T>(x: T, s: seq<T>, key: T -> Key)
    requires SortedBy(s, key)
    ensures SortedBy(Insert(x, s, key), key)
  {
    if |s| == 0 {
    } else if KeyLt(key(x), key(s[0])) {
      var r := Insert(x, s, key);
      forall i, j | 0 <= i < j < |r| ensures KeyLe(key(r[i]), key(r[j])) {
        if i == 0 {
          if j > 1 {
            KeyLeTransitive(key(x), key(s[0]), key(s[j - 1]));
          }
        }
      }
    } else {
      var t := Insert(x, s[1..], key);
      InsertSorted(x, s[1..], key);
      InsertMultiset(x, s[1..], key);
      var r := [s[0]] + t;
      KeyTotal(key(x), key(s[0]));
      forall j | 0 <= j < |t| ensures KeyLe(key(s[0]), key(t[j])) {
        assert t[j] in multiset(t);
        if t[j] != x {
          assert t[j] in multiset(s[1..]);
          var m :| 0 <= m < |s[1..]| && s[1..][m] == t[j];
          assert s[1 + m] == t[j];
        }
      }
      forall i, j | 0 <= i < j < |r| ensures KeyLe(key(r[i]), key(r[j])) {
        if i > 0 {
          assert r[i] == t[i - 1] && r[j] == t[j - 1];
        } else {
          assert r[j] == t[j - 1];
        }
      }
    }
  }

  lemma {:induction false} InsertWithKey<T>(x: T, s: seq<T>, key: T -> Key, k: Key)
    requires SortedBy(s, key)
    ensures WithKey(Insert(x, s, key), key, k)
            == WithKey(s, key, k) + (if key(x) == k then [x] else [])
  {
    if |s| == 0 {
    } else if KeyLt(key(x), key(s[0])) {
      if key(x) == k {
        // every element of s has a key above k, so none of them is kept
        NoneWithSmallerKey(s, key, k);
      }
    } else {
      InsertWithKey(x, s[1..], key, k);
    }
  }

  lemma {:induction false} NoneWithSmallerKey<T>(s: seq<T>, key: T -> Key, k: Key)
    requires |s| > 0 && SortedBy(s, key) && KeyLt(k, key(s[0]))
    ensures WithKey(s, key, k) == []
  {
    KeyLtIrreflexive(k);
    if |s| > 1 {
      assert KeyLe(key(s[0]), key(s[1]));
      if KeyLt(key(s[0]), key(s[1])) {
        KeyLtTransitive(k, key(s[0]), key(s[1]));
      }
      NoneWithSmallerKey(s[1..], key, k);
    }
  }

  lemma {:induction false} WithKeyAppend<T>(s: seq<T>, t: seq<T>, key: T -> Key, k: Key)
    ensures WithKey(s + t, key, k) == WithKey(s, key, k) + WithKey(t, key, k)
  {
    if |s| > 0 {
      WithKeyAppend(s[1..], t, key, k);
      assert (s + t)[1..] == s[1..] + t;
    } else {
      assert s + t == t;
    }
  }

  /** `sorted` returns a permutation of its input, in key order, and keeps the
      input order of elements whose keys are equal (stability). */
  lemma {:induction false} SortByCorrect<T>(s: seq<T>, key: T -> Key)
    ensures SortedBy(SortBy(s, key), key)
    ensures multiset(SortBy(s, key)) == multiset(s)
    ensures forall k :: WithKey(SortBy(s, key), key, k) == WithKey(s, key, k)
  {
    if |s| > 0 {
      var p := s[..|s| - 1];
      var x := s[|s| - 1];
      SortByCorrect(p, key);
      InsertSorted(x, SortBy(p, key), key);
      InsertMultiset(x, SortBy(p, key), key);
      assert s == p + [x];
      forall k ensures WithKey(SortBy(s, key), key, k) == WithKey(s, key, k) {
        InsertWithKey(x, SortBy(p, key), key, k);
        WithKeyAppend(p, [x], key, k);
      }
    }
  }

  /** The sorted listing holds the same entries as the listing sorted. */
  lemma SortByElements<T>(s: seq<T>, key: T -> Key)
    ensures forall x :: x in SortBy(s, key) <==> x in s
  {
    var r := SortBy(s, key);
    SortByCorrect(s, key);
    forall x ensures x in r <==> x in s {
      assert x in r <==> x in multiset(r);
      assert x in s <==> x in multiset(s);
    }
  }

  /** The sorted listing is in key order. */
  lemma SortByOrdered<T>(s: seq<T>, key: T -> Key)
    ensures SortedBy(SortBy(s, key), key)
  {
    SortByCorrect(s, key);
  }

  /** The distinct strings of `s`, first occurrence first. */
  function Distinct(s: seq<string>): (r: seq<string>)
    ensures forall x :: x in r <==> x in s
    ensures forall i, j :: 0 <= i < j < |r| ==> r[i] != r[j]
  {
    if |s| == 0 then []
    else
      var rest := Distinct(s[..|s| - 1]);
      if s[|s| - 1] in rest then rest else rest + [s[|s| - 1]]
  }

  function StringKey(x: string): Key
  {
    Key(0, x)
  }

  /** `sorted(set(s))` */
  function SortedSet(s: seq<string>): (r: seq<string>)
  {
    SortBy(Distinct(s), StringKey)
  }

  lemma SortedSetCorrect(s: seq<string>)
    ensures forall x :: x in SortedSet(s) <==> x in s
    ensures forall i, j :: 0 <= i < j < |SortedSet(s)| ==> StrLt(SortedSet(s)[i], SortedSet(s)[j])
  {
    var d := Distinct(s);
    var r := SortedSet(s);
    SortByCorrect(d, StringKey);
    forall x ensures x in r <==> x in s {
      assert x in r <==> x in multiset(r);
      assert x in d <==> x in multiset(d);
    }
    forall i, j | 0 <= i < j < |r| ensures StrLt(r[i], r[j]) {
      assert KeyLe(StringKey(r[i]), StringKey(r[j]));
      if r[i] == r[j] {
        DistinctMultiplicity(d, r[i]);
        assert multiset(r)[r[i]] >= 2 by {
          MultiplicityAtLeastTwo(r, i, j);
        }
      }
    }
  }

  lemma {:induction false} DistinctMultiplicity(d: seq<string>, x: string)
    requires forall i, j :: 0 <= i < j < |d| ==> d[i] != d[j]
    ensures multiset(d)[x] <= 1
  {
    if |d| > 0 {
      DistinctMultiplicity(d[1..], x);
      assert d == [d[0]] + d[1..];
      if d[0] == x {
        assert x !in d[1..];
      }
    }
  }

  lemma MultiplicityAtLeastTwo<T>(r: seq<T>, i: nat, j: nat)
    requires i < j < |r| && r[i] == r[j]
    ensures multiset(r)[r[i]] >= 2
  {
    assert r == r[..i] + [r[i]] + r[i + 1..j] + [r[j]] + r[j + 1..];
  }
}

=== FILE: util.dfy ===
/** The retry wrapper of the current scoreboard (scoreboard/util.py). The
    wrapped function is given as what its n-th call does; sleeping and the
    printed message are not modelled beyond counting the waits. */
module Util {
  /** What one call of the wrapped function does: return a value, raise an
      `Exception`, or raise something `except Exception` does not catch
      (KeyboardInterrupt, SystemExit). */
  datatype Attempt<T> = Returns(value: T) | Fails(error: string) | Escapes(error: string)

  /** What the wrapper ends with: the value returned, or the exception let
      through. */
  datatype Outcome<T> = Value(value: T) | Reraised(error: string)

  /** The most calls `retry(max_tries)` makes: the failure counter is
      compared after the first call, so at least one call is made. */
  function Limit(maxTries: int): (n: nat)
    ensures n >= 1 && n >= maxTries
  {
    if maxTries < 1 then 1 else maxTries
  }

  /** What `time.sleep` raises for a negative length. */
  const SleepError := "ValueError"

  /** `retry(max_tries, wait)(func)(...)`: call until a call returns, a call
      escapes, or the `max_tries`-th failure, which is raised again. Every
      failure before that waits `wait` seconds; a negative wait makes the
      first such sleep raise ValueError, which ends the wrapper. */
  method Retry<T>(maxTries: int, wait: int, attempt: nat -> Attempt<T>)
    returns (r: Outcome<T>, calls: nat, waited: int)
    ensures 1 <= calls <= Limit(maxTries)
    ensures wait < 0 ==> calls == 1
    ensures forall i :: 0 <= i < calls - 1 ==> attempt(i).Fails?
    ensures r.Value? <==> attempt(calls - 1).Returns?
    ensures r.Value? ==> r.value == attempt(calls - 1).value
    ensures attempt(calls - 1).Fails? ==> calls == Limit(maxTries) || wait < 0
    ensures r.Reraised? && attempt(calls - 1).Fails? && calls < Limit(maxTries) ==> r.error == SleepError
    ensures r.Reraised? && (attempt(calls - 1).Escapes? || calls == Limit(maxTries)) ==> r.error == attempt(calls - 1).error
    ensures waited == (calls - 1) * wait
  {
    var tries := 0;
    waited := 0;
    while true
      invariant 0 <= tries < Limit(maxTries)
      invariant wait < 0 ==> tries == 0
      invariant forall i :: 0 <= i < tries ==> attempt(i).Fails?
      invariant waited == tries * wait
      decreases Limit(maxTries) - tries
    {
      calls := tries + 1;
      match attempt(tries)
      case Returns(v) =>
        r := Value(v);
        return;
      case Escapes(e) =>
        r := Reraised(e);
        return;
      case Fails(e) =>
        tries := tries + 1;
        if tries >= maxTries {
          r := Reraised(e);
          return;
        }
        if wait < 0 {
          r := Reraised(SleepError);
          return;
        }
        waited := waited + wait;
    }
  }
}

=== FILE: vue_filters.dfy ===
/** The table filters of the Vue front end (vue-prototype/src/filters/index.js),
    on integer numbers of seconds. JavaScript's `/` is exact division, `%` keeps
    the sign of the dividend and `~~` truncates toward zero and then wraps to
    a signed 32-bit integer; all three are written out here. */
module VueFilters {
  import opened Basics
  import WebUtils

  // ---------------------------------------------------------------- arithmetic

  /** `~~(a / b)` before the 32-bit wrap: the quotient truncated toward zero. */
  function TruncDiv(a: int, b: int): (q: int)
    requires b > 0
    ensures a >= 0 ==> q * b <= a < q * b + b
    ensures a < 0 ==> q * b - b < a <= q * b
  {
    if a >= 0 then a / b else -((-a) / b)
  }

  /** `a % b` in JavaScript: the remainder takes the sign of `a`. */
  function JsRem(a: int, b: int): (r: int)
    requires b > 0
    ensures a >= 0 ==> r == a % b
    ensures a < 0 ==> -b < r <= 0
  {
    a - b * TruncDiv(a, b)
  }

  /** ToInt32: the wrap `~~` applies to its truncated operand. */
  function ToInt32(n: int): (r: int)
    ensures -0x8000_0000 <= r < 0x8000_0000
    ensures (r - n) % 0x1_0000_0000 == 0
  {
    (n + 0x8000_0000) % 0x1_0000_0000 - 0x8000_0000
  }

  /** In range, the wrap changes nothing. */
  lemma ToInt32InRange(n: int)
    requires -0x8000_0000 <= n < 0x8000_0000
    ensures ToInt32(n) == n
  {
  }

  // ---------------------------------------------------------------- hours

  /** The last hour `~~` can show. */
  const MaxHours: int := 0x7FFF_FFFF

  /** `hours`: whole hours, truncated toward zero. */
  function Hours(s: int): int
  {
    ToInt32(TruncDiv(s, 3600))
  }

  /** Below 2^31 hours either way, `hours` counts the whole hours between
      zero and `s`: never more than `s` holds, and less than one hour
      short. */
  lemma HoursTruncates(s: int)
    requires -(MaxHours + 1) * 3600 < s < (MaxHours + 1) * 3600
    ensures s >= 0 ==> Hours(s) >= 0 && Hours(s) * 3600 <= s < Hours(s) * 3600 + 3600
    ensures s < 0 ==> Hours(s) <= 0 && Hours(s) * 3600 - 3600 < s <= Hours(s) * 3600
  {
    ToInt32InRange(TruncDiv(s, 3600));
  }

  // ---------------------------------------------------------------- padding

  /** A string left-padded with '0' to at least two characters. */
  function ZeroPadded(x: string): (r: string)
  {
    if |x| < 2 then seq(2 - |x|, _ => '0') + x else x
  }

  /** Padding reaches two characters, keeps the string at its end and adds
      only zeros in front. */
  lemma ZeroPaddedShape(x: string)
    ensures var r := ZeroPadded(x);
      |r| == (if |x| < 2 then 2 else |x|) && r[|r| - |x|..] == x
      && forall i :: 0 <= i < |r| - |x| ==> r[i] == '0'
  {
  }

  /** `while (x.length < 2) x = '0' + x` */
  method PadTwo(x: string) returns (r: string)
    ensures r == ZeroPadded(x)
  {
    r := x;
    while |r| < 2
      invariant |x| <= |r| <= (if |x| < 2 then 2 else |x|)
      invariant r == seq(|r| - |x|, _ => '0') + x
      decreases 2 - |r|
    {
      r := "0" + r;
    }
  }

  /** Padding the decimal text of a number is Python's `"%02d"`. */
  lemma ZeroPaddedIsPad2(n: int)
    ensures ZeroPadded(DecimalString(n)) == Pad2(n)
  {
    if n >= 10 {
      assert |NatString(n)| >= 2 by {
        assert NatString(n) == NatString(n / 10) + [DigitChar(n % 10)];
      }
    } else if n >= 0 {
      assert ZeroPadded(NatString(n)) == "0" + NatString(n);
    }
  }

  // ---------------------------------------------------------------- durations

  /** The three fields `prettydur` prints, before padding. */
  function DurationParts(s: int): (string, string, string)
  {
    (DecimalString(Hours(s)),
     DecimalString(ToInt32(TruncDiv(JsRem(s, 3600), 60))),
     DecimalString(JsRem(s, 60)))
  }

  /** What `prettydur` returns. */
  function PrettyDurText(s: int): string
  {
    var p := DurationParts(s);
    ZeroPadded(p.0) + ":" + ZeroPadded(p.1) + ":" + ZeroPadded(p.2)
  }

  /** `prettydur`: each field padded by its own loop, then joined. */
  method PrettyDur(s: int) returns (r: string)
    ensures r == PrettyDurText(s)
  {
    var hh := PadTwo(DecimalString(Hours(s)));
    var mm := PadTwo(DecimalString(ToInt32(TruncDiv(JsRem(s, 3600), 60))));
    var ss := PadTwo(DecimalString(JsRem(s, 60)));
    r := hh + ":" + mm + ":" + ss;
  }

  /** For every duration from zero up to 2^31 hours the front end shows
      exactly what the Python site's `prettydur` shows, so minutes and
      seconds are below 60 and the hours are not capped. */
  lemma PrettyDurAgrees(s: int)
    requires 0 <= s < (MaxHours + 1) * 3600
    ensures PrettyDurText(s) == WebUtils.PrettyDur(s)
  {
    var f := WebUtils.DurFields(s);
    HoursTruncates(s);
    assert Hours(s) == f.0;
    ToInt32InRange(TruncDiv(JsRem(s, 3600), 60));
    assert ToInt32(TruncDiv(JsRem(s, 3600), 60)) == f.1;
    ZeroPaddedIsPad2(f.0);
    ZeroPaddedIsPad2(f.1);
    ZeroPaddedIsPad2(f.2);
  }

  // ---------------------------------------------------------------- columns

  function UpperChar(c: char): char
  {
    if 'a' <= c <= 'z' then (c as int - 32) as char else c
  }

  /** lodash `capitalize`: the first character upper-case, the rest lower
      (ASCII letters only). */
  function Capitalize(h: string): string
  {
    if |h| == 0 then "" else [UpperChar(LowerChar(h[0]))] + Lower(h[1..])
  }

  /** `columnHeader` */
  function ColumnHeader(h: string): string
  {
    if h == "char" then "Combo"
    else if h == "dur" then "Duration"
    else if h == "end" then "Date"
    else Capitalize(h)
  }

  /** Three columns get their own titles; every other header keeps its
      letters up to case, with the first one in upper case. */
  lemma ColumnHeaderSpec(h: string)
    ensures h == "char" ==> ColumnHeader(h) == "Combo"
    ensures h == "dur" ==> ColumnHeader(h) == "Duration"
    ensures h == "end" ==> ColumnHeader(h) == "Date"
    ensures h != "char" && h != "dur" && h != "end" ==>
      var r := ColumnHeader(h);
      |r| == |h| && Lower(r) == Lower(h) && (|h| > 0 ==> !('a' <= r[0] <= 'z'))
  {
    if h != "char" && h != "dur" && h != "end" && |h| > 0 {
      var r := Capitalize(h);
      assert LowerChar(UpperChar(LowerChar(h[0]))) == LowerChar(h[0]);
      LowerIdempotent(h[1..]);
      assert Lower(r) == [LowerChar(h[0])] + Lower(h[1..]);
      assert Lower(h) == [LowerChar(h[0])] + Lower(h[1..]);
    }
  }

  /** `columnData`: durations through `prettydur`, end times through the
      locale date text (given as `date`), anything else as it is. Both
      formatted columns hold numbers. */
  function ColumnData(d: Value, col: string, date: int -> string): (r: Value)
    requires (col == "dur" || col == "end") ==> d.Int?
  {
    if col == "dur" then Str(PrettyDurText(d.i))
    else if col == "end" then Str(date(d.i))
    else d
  }

  /** A duration cell reads as the Python site prints it, an end cell as its
      date text, and any other column is passed through unchanged. */
  lemma ColumnDataSpec(d: Value, col: string, date: int -> string)
    requires (col == "dur" || col == "end") ==> d.Int?
    ensures col == "dur" && 0 <= d.i < (MaxHours + 1) * 3600 ==> ColumnData(d, col, date) == Str(WebUtils.PrettyDur(d.i))
    ensures col == "end" ==> ColumnData(d, col, date) == Str(date(d.i))
    ensures col != "dur" && col != "end" ==> ColumnData(d, col, date) == d
  {
    if col == "dur" && 0 <= d.i < (MaxHours + 1) * 3600 {
      PrettyDurAgrees(d.i);
    }
  }
}

=== FILE: website.dfy ===
/** The page-data helpers of the current website writer
    (scoreboard/write_website.py): a player's share of the global records,
    wins grouped per species, background or god, the guard against empty
    player pages, and the choice of player pages to write. Templates, files
    and the database session are not modelled; what the session would list
    is passed in. */
module Website {
  import opened Basics
  import opened Orm
  import Sorting
  import Model

  // ---------------------------------------------------------------- records

  /** What `_get_player_records` is handed as `player`: the function compares
      it with player names, but its caller passes a `Player` row. */
  datatype PlayerRef = PlayerName(name: string) | PlayerRow(row: Player)

  /** `game.player.name == player`: a `Player` row never equals a string. */
  predicate IsPlayer(ref: PlayerRef, owner: string)
  {
    ref.PlayerName? && ref.name == owner
  }

  /** The games of `games` (each with its player's name) that belong to
      `ref`, in order. */
  function OwnGames(games: seq<(string, Game)>, ref: PlayerRef): (r: seq<(string, Game)>)
    ensures forall x :: x in r <==> x in games && IsPlayer(ref, x.0)
    ensures |r| <= |games|
  {
    if |games| == 0 then []
    else OwnGames(games[..|games| - 1], ref)
         + (if IsPlayer(ref, games[|games| - 1].0) then [games[|games| - 1]] else [])
  }

  /** The result `_get_player_records` builds: per record type, the player's
      games of that type, leaving out types where the player has none. */
  function PlayerRecords(records: seq<(string, seq<(string, Game)>)>, ref: PlayerRef): (r: map<string, seq<(string, Game)>>)
  {
    if |records| == 0 then map[]
    else
      var prev := PlayerRecords(records[..|records| - 1], ref);
      var last := records[|records| - 1];
      var own := OwnGames(last.1, ref);
      if |own| == 0 then prev else prev[last.0 := own]
  }

  /** Record types are a dict's keys: none occurs twice. */
  predicate DistinctTypes(records: seq<(string, seq<(string, Game)>)>)
  {
    forall i, j :: 0 <= i < j < |records| ==> records[i].0 != records[j].0
  }

  lemma {:induction false} PlayerRecordsKeys(records: seq<(string, seq<(string, Game)>)>, ref: PlayerRef)
    ensures forall t :: t in PlayerRecords(records, ref) ==> exists i :: 0 <= i < |records| && records[i].0 == t
    decreases |records|
  {
    if |records| > 0 {
      var prefix := records[..|records| - 1];
      PlayerRecordsKeys(prefix, ref);
      forall t | t in PlayerRecords(records, ref)
        ensures exists i :: 0 <= i < |records| && records[i].0 == t
      {
        if t in PlayerRecords(prefix, ref) {
          var i :| 0 <= i < |prefix| && prefix[i].0 == t;
          assert records[i].0 == t;
        } else {
          assert records[|records| - 1].0 == t;
        }
      }
    }
  }

  /** A record type does not come back among the types before it. */
  lemma PlayerRecordsFresh(records: seq<(string, seq<(string, Game)>)>, ref: PlayerRef, i: nat)
    requires DistinctTypes(records) && i < |records|
    ensures records[i].0 !in PlayerRecords(records[..i], ref)
  {
    var prefix := records[..i];
    PlayerRecordsKeys(prefix, ref);
    assert forall k :: 0 <= k < |prefix| ==> prefix[k].0 == records[k].0 != records[i].0;
  }

  /** Each record type is kept exactly when the player has a game of that
      type, and then with exactly the player's games of that type, in
      order. */
  lemma {:induction false} PlayerRecordsSpec(records: seq<(string, seq<(string, Game)>)>, ref: PlayerRef, i: nat)
    requires DistinctTypes(records) && i < |records|
    ensures var own := OwnGames(records[i].1, ref);
      (records[i].0 in PlayerRecords(records, ref) <==> |own| > 0)
      && (|own| > 0 ==> PlayerRecords(records, ref)[records[i].0] == own)
    decreases |records|
  {
    var prefix := records[..|records| - 1];
    if i < |records| - 1 {
      PlayerRecordsSpec(prefix, ref, i);
      assert records[i] == prefix[i];
      assert records[|records| - 1].0 != records[i].0;
    } else {
      PlayerRecordsFresh(records, ref, i);
    }
  }

  /** The website passes a `Player` row, so every player page gets no
      records at all. */
  lemma {:induction false} PlayerRowGetsNoRecords(records: seq<(string, seq<(string, Game)>)>, p: Player)
    ensures PlayerRecords(records, PlayerRow(p)) == map[]
    decreases |records|
  {
    if |records| > 0 {
      PlayerRowGetsNoRecords(records[..|records| - 1], p);
      NoOwnGames(records[|records| - 1].1, p);
    }
  }

  /** No game belongs to a `Player` row compared with a name. */
  lemma {:induction false} NoOwnGames(games: seq<(string, Game)>, p: Player)
    ensures OwnGames(games, PlayerRow(p)) == []
    decreases |games|
  {
    if |games| > 0 {
      NoOwnGames(games[..|games| - 1], p);
    }
  }

  /** Taking one more game adds it to the player's games when it is theirs. */
  lemma OwnGamesStep(games: seq<(string, Game)>, ref: PlayerRef, j: nat)
    requires j < |games|
    ensures OwnGames(games[..j + 1], ref)
      == OwnGames(games[..j], ref) + (if IsPlayer(ref, games[j].0) then [games[j]] else [])
  {
    assert games[..j + 1][..j] == games[..j];
  }

  /** Setting a key twice keeps the second value. */
  lemma Overwrite<K, V>(m: map<K, V>, k: K, a: V, b: V)
    ensures m[k := a][k := b] == m[k := b]
  {
    assert m[k := a][k := b].Keys == m[k := b].Keys;
  }

  /** `_get_player_records`: the loops over record types and their games,
      adding each of the player's games to its type's list. */
  method GetPlayerRecords(records: seq<(string, seq<(string, Game)>)>, ref: PlayerRef)
    returns (out: map<string, seq<(string, Game)>>)
    requires DistinctTypes(records)
    ensures out == PlayerRecords(records, ref)
  {
    out := map[];
    var i := 0;
    while i < |records|
      invariant 0 <= i <= |records|
      invariant out == PlayerRecords(records[..i], ref)
    {
      var typ := records[i].0;
      var games := records[i].1;
      PlayerRecordsFresh(records, ref, i);
      ghost var base := out;
      ghost var found: seq<(string, Game)> := [];
      var j := 0;
      while j < |games|
        invariant 0 <= j <= |games|
        invariant found == OwnGames(games[..j], ref)
        invariant |found| == 0 ==> out == base
        invariant |found| > 0 ==> out == base[typ := found]
      {
        OwnGamesStep(games, ref, j);
        if IsPlayer(ref, games[j].0) {
          if typ !in out {
            assert found + [games[j]] == [games[j]];
            out := out[typ := [games[j]]];
          } else {
            Overwrite(base, typ, found, found + [games[j]]);
            out := out[typ := out[typ] + [games[j]]];
          }
          found := found + [games[j]];
        }
        j := j + 1;
      }
      assert games[..j] == games;
      assert records[..i + 1][..i] == records[..i];
      i := i + 1;
    }
    assert records[..i] == records;
  }

  // ---------------------------------------------------------------- wins per entry

  /** The game attribute an entry of the species, background or god list is
      matched against. */
  datatype Attribute = Species | Background | God

  function AttributeOf(g: Game, a: Attribute): string
  {
    match a
    case Species => g.species
    case Background => g.background
    case God => g.god
  }

  /** `[g for g in games if g.won and <attribute> == entry]` */
  function MatchingWins(games: seq<Game>, a: Attribute, entry: string): (r: seq<Game>)
    ensures forall g :: g in r <==> g in games && Won(g) && AttributeOf(g, a) == entry
  {
    if |games| == 0 then []
    else MatchingWins(games[..|games| - 1], a, entry)
         + (if Won(games[|games| - 1]) && AttributeOf(games[|games| - 1], a) == entry then [games[|games| - 1]] else [])
  }

  /** The matching wins keep their order: selecting from two runs of games is
      selecting from each in turn. */
  lemma {:induction false} MatchingWinsAppend(xs: seq<Game>, ys: seq<Game>, a: Attribute, entry: string)
    ensures MatchingWins(xs + ys, a, entry) == MatchingWins(xs, a, entry) + MatchingWins(ys, a, entry)
    decreases |ys|
  {
    if |ys| == 0 {
      assert xs + ys == xs;
    } else {
      var init := ys[..|ys| - 1];
      var last := ys[|ys| - 1];
      var t := if Won(last) && AttributeOf(last, a) == entry then [last] else [];
      var front := xs + init;
      assert xs + ys == front + [last];
      assert ys == init + [last];
      MatchingWinsSnoc(front, last, a, entry);
      MatchingWinsSnoc(init, last, a, entry);
      MatchingWinsAppend(xs, init, a, entry);
      var w0, w1 := MatchingWins(xs, a, entry), MatchingWins(init, a, entry);
      assert MatchingWins(xs + ys, a, entry) == (w0 + w1) + t;
      assert MatchingWins(ys, a, entry) == w1 + t;
      ConcatAssoc(w0, w1, t);
    }
  }

  lemma ConcatAssoc<T>(a: seq<T>, b: seq<T>, c: seq<T>)
    ensures (a + b) + c == a + (b + c)
  {
  }

  lemma MatchingWinsSnoc(s: seq<Game>, g: Game, a: Attribute, entry: string)
    ensures MatchingWins(s + [g], a, entry)
            == MatchingWins(s, a, entry) + (if Won(g) && AttributeOf(g, a) == entry then [g] else [])
  {
    assert (s + [g])[..|s|] == s;
  }

  /** The dict `_wins_per_species`/`_background`/`_god` builds, as (entry,
      wins) pairs in the order of the entry list. With `playable` every
      entry is kept; otherwise only those with a win. */
  function WinsPer(entries: seq<string>, games: seq<Game>, a: Attribute, playable: bool): (r: seq<(string, seq<Game>)>)
  {
    if |entries| == 0 then []
    else
      var prev := WinsPer(entries[..|entries| - 1], games, a, playable);
      var e := entries[|entries| - 1];
      var wins := MatchingWins(games, a, e);
      if playable || |wins| > 0 then prev + [(e, wins)] else prev
  }

  /** With `playable`, every listed entry gets a key, in list order, wins or
      not, each with exactly its wins. */
  lemma {:induction false} WinsPerPlayable(entries: seq<string>, games: seq<Game>, a: Attribute)
    ensures var r := WinsPer(entries, games, a, true);
      |r| == |entries| && forall i :: 0 <= i < |r| ==> r[i] == (entries[i], MatchingWins(games, a, entries[i]))
    decreases |entries|
  {
    if |entries| > 0 {
      WinsPerPlayable(entries[..|entries| - 1], games, a);
    }
  }

  /** Without `playable`, the keys are exactly the listed entries with at
      least one win, in list order, each with exactly its wins. */
  lemma {:induction false} WinsPerUnplayable(entries: seq<string>, games: seq<Game>, a: Attribute)
    ensures var r := WinsPer(entries, games, a, false);
      (forall i :: 0 <= i < |r| ==> r[i].0 in entries && r[i].1 == MatchingWins(games, a, r[i].0) && |r[i].1| > 0)
      && (forall e :: e in entries && |MatchingWins(games, a, e)| > 0 ==> exists i :: 0 <= i < |r| && r[i].0 == e)
    decreases |entries|
  {
    if |entries| > 0 {
      var prefix := entries[..|entries| - 1];
      WinsPerUnplayable(prefix, games, a);
      var r := WinsPer(entries, games, a, false);
      var prev := WinsPer(prefix, games, a, false);
      forall e | e in entries && |MatchingWins(games, a, e)| > 0
        ensures exists i :: 0 <= i < |r| && r[i].0 == e
      {
        if e in prefix {
          var i :| 0 <= i < |prev| && prev[i].0 == e;
          assert r[i] == prev[i];
        } else {
          assert r[|r| - 1].0 == e;
        }
      }
    }
  }

  /** `_wins_per_species`, `_wins_per_background`, `_wins_per_god`: the loop
      over the listed entries, which the session lists in name order and
      each once. */
  method WinsPerEntry(entries: seq<string>, games: seq<Game>, a: Attribute, playable: bool)
    returns (out: seq<(string, seq<Game>)>)
    ensures out == WinsPer(entries, games, a, playable)
  {
    out := [];
    var i := 0;
    while i < |entries|
      invariant 0 <= i <= |entries|
      invariant out == WinsPer(entries[..i], games, a, playable)
    {
      var matching := MatchingWins(games, a, entries[i]);
      if playable || |matching| > 0 {
        out := out + [(entries[i], matching)];
      }
      assert entries[..i + 1][..i] == entries[..i];
      i := i + 1;
    }
    assert entries[..i] == entries;
  }

  // ---------------------------------------------------------------- pages

  /** The first step of `render_player_page`: the count of the player's
      games decides the page. A count that raised ends the page with its
      error, a player without games gets no page, and any other player gets
      the rendering, which is passed in. */
  function PlayerPage(count: Result<nat>, rendered: string): (r: Result<string>)
    ensures r.Raised? <==> count.Raised?
    ensures r.Raised? ==> r.error == count.error
    ensures r.Ok? ==> (r.value == "" <== count.value == 0) && (count.value > 0 ==> r.value == rendered)
  {
    match count
    case Raised(e) => Raised(e)
    case Ok(n) => if n == 0 then Ok("") else Ok(rendered)
  }

  /** `render_player_page` as written: it counts with `count_games`
      filtered by player. */
  function RenderPlayerPage(gs: seq<Game>, accs: seq<Account>, pid: nat, rendered: string): (r: Result<string>)
    ensures r.Raised? ==> r.error == AttributeError
  {
    PlayerPage(Model.CountGamesAsWritten(gs, accs, Model.AllGames.(player := Some(pid))), rendered)
  }

  /** Since the player filter of `_games` names a column the Game table does
      not have, every player page raises, whatever the tables hold. */
  lemma PlayerPageRaisesAsWritten(gs: seq<Game>, accs: seq<Account>, pid: nat, rendered: string)
    ensures RenderPlayerPage(gs, accs, pid, rendered) == Raised(AttributeError)
  {
  }

  /** The evidently intended page: with the count going through the game's
      account, a player gets no page exactly when no game of the table is
      theirs, and the rendering otherwise. */
  function PlayerPageCorrected(gs: seq<Game>, accs: seq<Account>, pid: nat, rendered: string): (r: string)
    ensures (forall g :: g in gs ==> Model.GamePlayer(g, accs) != Some(pid)) ==> r == ""
    ensures (exists g :: g in gs && Model.GamePlayer(g, accs) == Some(pid)) ==> r == rendered
  {
    var q := Model.AllGames.(player := Some(pid));
    Model.PlayerFilterCorrected(gs, accs, pid);
    var listed := Model.SelectGames(gs, accs, q);
    assert (exists g :: g in gs && Model.GamePlayer(g, accs) == Some(pid)) ==> |listed| > 0;
    assert |listed| > 0 ==> listed[0] in gs && Model.GamePlayer(listed[0], accs) == Some(pid);
    PlayerPage(Ok(|listed|), rendered).value
  }

  /** `players.extend(p for p in extra if p not in players)`: the generator
      is consumed while the list grows, so each extra is checked against the
      extras already added too. */
  function AddNew<T(==)>(chosen: seq<T>, extra: seq<T>): (r: seq<T>)
  {
    if |extra| == 0 then chosen
    else
      var prev := AddNew(chosen, extra[..|extra| - 1]);
      if extra[|extra| - 1] in prev then prev else prev + [extra[|extra| - 1]]
  }

  /** Extending keeps the chosen players in front and adds every extra that
      is missing, each once, in the order of the extras. */
  lemma {:induction false} AddNewSpec<T>(chosen: seq<T>, extra: seq<T>)
    ensures var r := AddNew(chosen, extra);
      |chosen| <= |r| && r[..|chosen|] == chosen
      && (forall p :: p in r <==> p in chosen || p in extra)
      && (forall i, j :: |chosen| <= i < j < |r| ==> r[i] != r[j])
      && (forall i :: |chosen| <= i < |r| ==> r[i] !in chosen)
    decreases |extra|
  {
    if |extra| > 0 {
      AddNewSpec(chosen, extra[..|extra| - 1]);
      var prev := AddNew(chosen, extra[..|extra| - 1]);
      assert forall p :: p in extra <==> p in extra[..|extra| - 1] || p == extra[|extra| - 1];
      if extra[|extra| - 1] !in prev {
        assert (prev + [extra[|extra| - 1]])[..|chosen|] == prev[..|chosen|];
      }
    }
  }

  /** `[model.get_player(s, p) for p in players]`: each name is looked up
      without regard to case, and a name no player has gets a new player of
      that spelling. The players table afterwards, and the rows in order. */
  function GetPlayers(ps: seq<Player>, names: seq<string>): (r: (seq<Player>, seq<Player>))
    ensures |r.1| == |names|
    decreases |names|
  {
    if |names| == 0 then (ps, [])
    else
      var prev := GetPlayers(ps, names[..|names| - 1]);
      var name := names[|names| - 1];
      match Model.FindPlayer(prev.0, name)
      case Some(i) => (prev.0, prev.1 + [prev.0[i]])
      case None => (prev.0 + [Player(name, [])], prev.1 + [Player(name, [])])
  }

  /** The table only grows, and its names stay distinct up to case. */
  lemma {:induction false} GetPlayersTable(ps: seq<Player>, names: seq<string>)
    requires Model.PlayerNamesUnique(ps)
    ensures var t := GetPlayers(ps, names).0;
      Model.PlayerNamesUnique(t) && |ps| <= |t| && t[..|ps|] == ps
    decreases |names|
  {
    if |names| > 0 {
      var init := names[..|names| - 1];
      var name := names[|names| - 1];
      GetPlayersTable(ps, init);
      var t0 := GetPlayers(ps, init).0;
      if Model.FindPlayer(t0, name).None? {
        Model.AddPlayerKeepsInvariants(t0, [], [], name);
        assert (t0 + [Player(name, [])])[..|ps|] == t0[..|ps|];
      }
    }
  }

  /** The row of the `k`-th name is a player of the table afterwards, of
      that name up to case. */
  lemma {:induction false} GetPlayersRow(ps: seq<Player>, names: seq<string>, k: nat)
    requires k < |names|
    ensures GetPlayers(ps, names).1[k] in GetPlayers(ps, names).0
    ensures Lower(GetPlayers(ps, names).1[k].name) == Lower(names[k])
    decreases |names|
  {
    var init := names[..|names| - 1];
    var prev := GetPlayers(ps, init);
    var r := GetPlayers(ps, names);
    if k < |init| {
      GetPlayersRow(ps, init, k);
      assert init[k] == names[k];
      assert r.1[k] == prev.1[k];
      assert forall p :: p in prev.0 ==> p in r.0;
    }
  }

  /** A name a stored player already has, up to case, gets that player's
      row as stored. */
  lemma {:induction false} GetPlayersStored(ps: seq<Player>, names: seq<string>, k: nat, i: nat)
    requires Model.PlayerNamesUnique(ps) && k < |names| && i < |ps| && Lower(ps[i].name) == Lower(names[k])
    ensures GetPlayers(ps, names).1[k] == ps[i]
    decreases |names|
  {
    var init := names[..|names| - 1];
    var prev := GetPlayers(ps, init);
    if k < |init| {
      assert init[k] == names[k];
      GetPlayersStored(ps, init, k, i);
      assert GetPlayers(ps, names).1[k] == prev.1[k];
    } else {
      GetPlayersTable(ps, init);
      assert prev.0[i] == ps[i];
      Model.FindPlayerUnique(prev.0, names[k], i);
    }
  }

  /** Every player the lookups add is a fresh player, spelt as a name of the
      list that no stored player had. */
  lemma {:induction false} GetPlayersNew(ps: seq<Player>, names: seq<string>)
    requires Model.PlayerNamesUnique(ps)
    ensures var t := GetPlayers(ps, names).0;
      forall i :: |ps| <= i < |t| ==>
        (t[i].achievements == [] && exists k :: 0 <= k < |names| && t[i].name == names[k] && Model.FindPlayer(ps, names[k]).None?)
    decreases |names|
  {
    if |names| > 0 {
      var init := names[..|names| - 1];
      var name := names[|names| - 1];
      GetPlayersNew(ps, init);
      GetPlayersTable(ps, init);
      var t0 := GetPlayers(ps, init).0;
      assert forall k :: 0 <= k < |init| ==> names[k] == init[k];
      if Model.FindPlayer(t0, name).None? {
        forall j | 0 <= j < |ps| ensures Lower(ps[j].name) != Lower(name) {
          assert ps[j] == t0[j];
        }
        assert names[|names| - 1] == name;
      }
    }
  }

  /** Names that differ only in case are the same player. */
  lemma SameRowIgnoringCase(ps: seq<Player>, names: seq<string>, j: nat, k: nat)
    requires Model.PlayerNamesUnique(ps) && j < |names| && k < |names|
    requires Lower(names[j]) == Lower(names[k])
    ensures GetPlayers(ps, names).1[j] == GetPlayers(ps, names).1[k]
  {
    GetPlayersTable(ps, names);
    GetPlayersRow(ps, names, j);
    GetPlayersRow(ps, names, k);
    var (t, rows) := GetPlayers(ps, names);
    var a :| 0 <= a < |t| && t[a] == rows[j];
    var b :| 0 <= b < |t| && t[b] == rows[k];
    assert Lower(t[a].name) == Lower(t[b].name);
    assert a == b;
  }

  function NameKey(p: Player): Sorting.Key
  {
    Sorting.Key(0, p.name)
  }

  /** `sorted(model.list_players(s), key=lambda p: p.name)`. */
  function ByName(ps: seq<Player>): seq<Player>
  {
    Sorting.SortBy(ps, NameKey)
  }

  /** The `players` argument: None for every player, otherwise a list of
      names (an empty one is false). */
  datatype Selection = AllPlayers | Named(names: seq<string>)

  /** The choice of player pages in `write_website`, before the shuffle: all
      players by name, or the rows of the named players (none for an empty
      list) followed, when extra pages are asked for, by those of the
      oldest pages not already chosen. `oldest` is what the call listing the
      oldest pages returns. */
  function Selected(ps: seq<Player>, players: Selection, extraPages: nat, oldest: Result<seq<Player>>): Result<seq<Player>>
  {
    match players
    case AllPlayers => Ok(ByName(ps))
    case Named(names) =>
      var rows := GetPlayers(ps, names).1;
      if extraPages == 0 then Ok(rows)
      else
        match oldest
        case Raised(e) => Raised(e)
        case Ok(extra) => Ok(AddNew(rows, extra))
  }

  /** Without a list every stored player gets a page, once, in name order. */
  lemma SelectedAll(ps: seq<Player>, extraPages: nat, oldest: Result<seq<Player>>)
    ensures var r := Selected(ps, AllPlayers, extraPages, oldest);
      r.Ok? && multiset(r.value) == multiset(ps) && Sorting.SortedBy(r.value, NameKey)
  {
    Sorting.SortByCorrect(ps, NameKey);
  }

  /** With a list, the named players' rows come first, one per name, and
      when the oldest pages are listed each of their players not yet chosen
      follows once; without extra pages the rows are all. */
  lemma SelectedNamed(ps: seq<Player>, names: seq<string>, extraPages: nat, extra: seq<Player>)
    ensures var rows := GetPlayers(ps, names).1;
      var r := Selected(ps, Named(names), extraPages, Ok(extra));
      r.Ok? && |rows| == |names| && |rows| <= |r.value| && r.value[..|rows|] == rows
      && (forall k :: 0 <= k < |names| ==> Lower(rows[k].name) == Lower(names[k]))
      && (extraPages == 0 ==> r.value == rows)
      && (extraPages > 0 ==> forall p :: p in r.value <==> p in rows || p in extra)
      && (forall i, j :: |rows| <= i < j < |r.value| ==> r.value[i] != r.value[j])
      && (forall i :: |rows| <= i < |r.value| ==> r.value[i] !in rows)
  {
    forall k | 0 <= k < |names| ensures Lower(GetPlayers(ps, names).1[k].name) == Lower(names[k]) {
      GetPlayersRow(ps, names, k);
    }
    AddNewSpec(GetPlayers(ps, names).1, extra);
  }

  /** `model.get_old_player_pages` is defined nowhere, so asking for extra
      pages with a list raises AttributeError, after the named players have
      been looked up or created. */
  lemma SelectedExtrasRaiseAsWritten(ps: seq<Player>, names: seq<string>, extraPages: nat)
    requires extraPages > 0
    ensures Selected(ps, Named(names), extraPages, Raised(AttributeError)) == Raised(AttributeError)
    ensures Selected(ps, Named(names), 0, Raised(AttributeError)).Ok?
  {
  }

  /** `write_website`'s selection of player pages on the store: the named
      players are fetched (and created) one by one, then the extras are
      added. */
  method SelectPlayers(store: Model.Store, players: Selection, extraPages: nat, oldest: Result<seq<Player>>)
    returns (r: Result<seq<Player>>)
    requires store.Valid()
    modifies store
    ensures store.Valid()
    ensures r == Selected(old(store.players), players, extraPages, oldest)
    ensures players.AllPlayers? ==> store.players == old(store.players)
    ensures players.Named? ==> store.players == GetPlayers(old(store.players), players.names).0
    ensures store.accounts == old(store.accounts) && store.games == old(store.games)
    ensures store.streaks == old(store.streaks) && store.progress == old(store.progress)
    ensures store.catalogue == old(store.catalogue)
  {
    if players.AllPlayers? {
      return Ok(ByName(store.players));
    }
    ghost var ps := store.players;
    var names := players.names;
    var rows: seq<Player> := [];
    var i := 0;
    while i < |names|
      invariant 0 <= i <= |names|
      invariant store.Valid()
      invariant (store.players, rows) == GetPlayers(ps, names[..i])
      invariant store.accounts == old(store.accounts) && store.games == old(store.games)
      invariant store.streaks == old(store.streaks) && store.progress == old(store.progress)
      invariant store.catalogue == old(store.catalogue)
    {
      assert names[..i + 1][..i] == names[..i];
      var p := store.GetPlayer(names[i]);
      rows := rows + [p];
      i := i + 1;
    }
    assert names[..i] == names;
    if extraPages == 0 {
      return Ok(rows);
    }
    match oldest
    case Raised(e) => r := Raised(e);
    case Ok(extra) =>
      var selected := rows;
      var j := 0;
      while j < |extra|
        invariant 0 <= j <= |extra|
        invariant selected == AddNew(rows, extra[..j])
      {
        assert extra[..j + 1][..j] == extra[..j];
        if extra[j] !in selected {
          selected := selected + [extra[j]];
        }
        j := j + 1;
      }
      assert extra[..j] == extra;
      r := Ok(selected);
  }
}

=== FILE: webutils.dfy ===
/** The website helpers of the current scoreboard (scoreboard/webutils.py):
    number and duration formatting, the player link, and the choice of the
    shortest, fastest and best-scoring game. `prettyint` is Python's
    `"{0:,}"` format, `Basics.CommaInt`. */
module WebUtils {
  import opened Basics
  import opened Orm

  // ---------------------------------------------------------------- durations

  /** `prettyhours`: whole hours of a duration in seconds, never below 1. */
  function PrettyHours(duration: int): string
  {
    if duration > 3600 then DecimalString(duration / 3600) else "1"
  }

  /** The hours shown are the whole hours in the duration when it is longer
      than an hour, and 1 otherwise; so always at least 1. */
  lemma PrettyHoursValue(duration: int)
    ensures var h := PyInt(PrettyHours(duration));
      h.Some? && h.value >= 1
      && (duration > 3600 ==> h.value * 3600 <= duration < h.value * 3600 + 3600)
      && (duration <= 3600 ==> h.value == 1)
  {
    if duration > 3600 {
      PyIntDecimalString(duration / 3600);
    } else {
      assert NatString(1) == "1";
      PyIntDecimalString(1);
    }
  }

  /** The documented examples: 0 seconds show as 1 hour, a day as 24. */
  lemma PrettyHoursExamples()
    ensures PrettyHours(0) == "1" && PrettyHours(86400) == "24"
  {
    assert NatString(2) == "2";
    assert NatString(24) == "24";
  }

  /** Hours, minutes and seconds of a duration, as `//` and `%` split it. */
  function DurFields(duration: int): (r: (int, int, int))
    ensures r.0 * 3600 + r.1 * 60 + r.2 == duration
    ensures 0 <= r.1 < 60 && 0 <= r.2 < 60
    ensures duration >= 0 ==> r.0 >= 0
  {
    (duration / 3600, duration % 3600 / 60, duration % 60)
  }

  /** `prettydur`: `"%02d:%02d:%02d"` of hours, minutes and seconds. */
  function PrettyDur(duration: int): string
  {
    var f := DurFields(duration);
    Pad2(f.0) + ":" + Pad2(f.1) + ":" + Pad2(f.2)
  }

  /** Where the three fields of a duration sit. */
  lemma DurLayout(h: string, m: string, s: string)
    requires |h| == 2 && |m| == 2 && |s| == 2
    ensures var u := h + ":" + m + ":" + s;
      |u| == 8 && u[0..2] == h && u[2] == ':' && u[3..5] == m && u[5] == ':' && u[6..8] == s
  {
  }

  /** A duration under 100 hours is shown as eight characters "HH:MM:SS"
      whose fields read back as hours, minutes below 60 and seconds below 60
      adding up to the duration. */
  lemma PrettyDurReadsBack(duration: int)
    requires 0 <= duration < 360000
    ensures var u := PrettyDur(duration);
      |u| == 8 && u[2] == ':' && u[5] == ':'
      && exists h: nat, m: nat, s: nat ::
           PyInt(u[0..2]) == Some(h) && PyInt(u[3..5]) == Some(m) && PyInt(u[6..8]) == Some(s)
           && m < 60 && s < 60 && h * 3600 + m * 60 + s == duration
  {
    var f := DurFields(duration);
    assert f.0 < 100;
    DurReadsBack(PrettyDur(duration), f.0, f.1, f.2, duration);
  }

  /** The fields of "HH:MM:SS" read back as the numbers written there. */
  lemma DurReadsBack(u: string, h: nat, m: nat, s: nat, duration: int)
    requires h < 100 && m < 60 && s < 60 && h * 3600 + m * 60 + s == duration
    requires u == Pad2(h) + ":" + Pad2(m) + ":" + Pad2(s)
    ensures |u| == 8 && u[2] == ':' && u[5] == ':'
      && exists h: nat, m: nat, s: nat ::
           PyInt(u[0..2]) == Some(h) && PyInt(u[3..5]) == Some(m) && PyInt(u[6..8]) == Some(s)
           && m < 60 && s < 60 && h * 3600 + m * 60 + s == duration
  {
    Pad2ReadsBack(h);
    Pad2ReadsBack(m);
    Pad2ReadsBack(s);
    DurFieldsRead(Pad2(h), Pad2(m), Pad2(s), h, m, s);
  }

  /** Three two-character fields that read as numbers still do so once
      joined with ':'. */
  lemma DurFieldsRead(hs: string, ms: string, ss: string, h: nat, m: nat, s: nat)
    requires |hs| == 2 && |ms| == 2 && |ss| == 2
    requires PyInt(hs) == Some(h) && PyInt(ms) == Some(m) && PyInt(ss) == Some(s)
    ensures var u := hs + ":" + ms + ":" + ss;
      |u| == 8 && u[2] == ':' && u[5] == ':'
      && PyInt(u[0..2]) == Some(h) && PyInt(u[3..5]) == Some(m) && PyInt(u[6..8]) == Some(s)
  {
    DurLayout(hs, ms, ss);
  }

  /** The documented example: 170 seconds. */
  lemma PrettyDurExample()
    ensures PrettyDur(170) == "00:02:50"
  {
    assert DurFields(170) == (0, 2, 50);
    assert NatString(0) == "0" && NatString(2) == "2" && NatString(5) == "5";
    assert NatString(50) == "50";
    assert Pad2(0) == "00" && Pad2(2) == "02" && Pad2(50) == "50";
  }

  /** The documented example: a day and ten minutes. */
  lemma PrettyDurDayExample()
    ensures PrettyDur(87000) == "24:10:00"
  {
    assert DurFields(87000) == (24, 10, 0);
    assert NatString(0) == "0" && NatString(1) == "1" && NatString(2) == "2";
    assert NatString(24) == "24" && NatString(10) == "10";
    assert Pad2(24) == "24" && Pad2(10) == "10" && Pad2(0) == "00";
  }

  // ---------------------------------------------------------------- links

  /** `link_player`: an anchor to the player's page. */
  function LinkPlayer(playerName: string, playerUrl: string, urlBase: string): string
  {
    "<a href='" + urlBase + "/players/" + playerUrl + ".html'>" + playerName + "</a>"
  }

  /** The link's target is the player's page under the site's base, and its
      text is the player's name. */
  lemma LinkPlayerParts(playerName: string, playerUrl: string, urlBase: string)
    ensures var a := LinkPlayer(playerName, playerUrl, urlBase);
      var href := urlBase + "/players/" + playerUrl + ".html";
      |a| == 15 + |href| + |playerName|
      && a[..9] == "<a href='" && a[9..9 + |href|] == href && a[9 + |href|..11 + |href|] == "'>"
      && a[11 + |href|..|a| - 4] == playerName && a[|a| - 4..] == "</a>"
  {
  }

  // ---------------------------------------------------------------- selection

  /** The column `min`/`max` compares. */
  datatype GameKey = Turns | Duration | Points

  function KeyOf(g: Game, k: GameKey): int
  {
    match k
    case Turns => g.turn
    case Duration => g.dur
    case Points => g.score
  }

  /** The position of the game `min(filter(won, games), key)` returns: the
      first won game whose key is not beaten by any other won game, or none
      when no game was won. */
  function FirstMinWin(games: seq<Game>, k: GameKey): (r: Option<nat>)
    ensures r.None? <==> forall j :: 0 <= j < |games| ==> !Won(games[j])
    ensures r.Some? ==> r.value < |games| && Won(games[r.value])
    ensures r.Some? ==> forall j :: 0 <= j < |games| && Won(games[j]) ==> KeyOf(games[r.value], k) <= KeyOf(games[j], k)
    ensures r.Some? ==> forall j :: 0 <= j < r.value && Won(games[j]) ==> KeyOf(games[r.value], k) < KeyOf(games[j], k)
  {
    if |games| == 0 then None
    else
      var prev := FirstMinWin(games[..|games| - 1], k);
      var g := games[|games| - 1];
      if !Won(g) then prev
      else if prev.None? then Some(|games| - 1)
      else if KeyOf(g, k) < KeyOf(games[prev.value], k) then Some(|games| - 1)
      else prev
  }

  /** The position of the game `max(games, key)` returns: the first game whose
      key is not beaten, or none for no games. */
  function FirstMax(games: seq<Game>, k: GameKey): (r: Option<nat>)
    ensures r.None? <==> |games| == 0
    ensures r.Some? ==> r.value < |games|
    ensures r.Some? ==> forall j :: 0 <= j < |games| ==> KeyOf(games[j], k) <= KeyOf(games[r.value], k)
    ensures r.Some? ==> forall j :: 0 <= j < r.value ==> KeyOf(games[j], k) < KeyOf(games[r.value], k)
  {
    if |games| == 0 then None
    else
      var prev := FirstMax(games[..|games| - 1], k);
      var g := games[|games| - 1];
      if prev.None? then Some(|games| - 1)
      else if KeyOf(g, k) > KeyOf(games[prev.value], k) then Some(|games| - 1)
      else prev
  }

  /** `min` over an empty sequence raises ValueError. */
  function MinWin(games: seq<Game>, k: GameKey): (r: Result<Game>)
  {
    match FirstMinWin(games, k)
    case None => Raised(ValueError)
    case Some(i) => Ok(games[i])
  }

  /** `shortest_win`: the won game with the fewest turns. */
  function ShortestWin(games: seq<Game>): (r: Result<Game>)
  {
    MinWin(games, Turns)
  }

  /** `fastest_win`: the won game with the shortest real time. */
  function FastestWin(games: seq<Game>): (r: Result<Game>)
  {
    MinWin(games, Duration)
  }

  /** `highscore`: the game with the highest score; `max` over nothing raises
      ValueError. */
  function Highscore(games: seq<Game>): (r: Result<Game>)
  {
    match FirstMax(games, Points)
    case None => Raised(ValueError)
    case Some(i) => Ok(games[i])
  }

  /** `shortest_win` fails exactly when nothing was won; otherwise it returns
      a won game of the list with no more turns than any other win, and no
      earlier win has as few turns. */
  lemma ShortestWinSpec(games: seq<Game>)
    ensures ShortestWin(games).Raised? <==> forall g | g in games :: !Won(g)
    ensures ShortestWin(games).Raised? ==> ShortestWin(games).error == ValueError
    ensures ShortestWin(games).Ok? ==>
      var w := ShortestWin(games).value;
      w in games && Won(w) && forall g | g in games && Won(g) :: w.turn <= g.turn
    ensures ShortestWin(games).Ok? ==>
      exists i :: 0 <= i < |games| && games[i] == ShortestWin(games).value
        && forall j :: 0 <= j < i && Won(games[j]) ==> games[j].turn > games[i].turn
  {
    var r := FirstMinWin(games, Turns);
    if r.None? {
      assert forall g | g in games :: !Won(g);
    } else {
      assert games[r.value] in games;
    }
  }

  /** `fastest_win` fails exactly when nothing was won; otherwise it returns
      a won game of the list with no longer a duration than any other win,
      and no earlier win was as fast. */
  lemma FastestWinSpec(games: seq<Game>)
    ensures FastestWin(games).Raised? <==> forall g | g in games :: !Won(g)
    ensures FastestWin(games).Raised? ==> FastestWin(games).error == ValueError
    ensures FastestWin(games).Ok? ==>
      var w := FastestWin(games).value;
      w in games && Won(w) && forall g | g in games && Won(g) :: w.dur <= g.dur
    ensures FastestWin(games).Ok? ==>
      exists i :: 0 <= i < |games| && games[i] == FastestWin(games).value
        && forall j :: 0 <= j < i && Won(games[j]) ==> games[j].dur > games[i].dur
  {
    var r := FirstMinWin(games, Duration);
    if r.None? {
      assert forall g | g in games :: !Won(g);
    } else {
      assert games[r.value] in games;
    }
  }

  /** `highscore` fails exactly on an empty list; otherwise it returns a game
      of the list that no game outscores, and no earlier game scored as
      much. */
  lemma HighscoreSpec(games: seq<Game>)
    ensures Highscore(games).Raised? <==> |games| == 0
    ensures Highscore(games).Raised? ==> Highscore(games).error == ValueError
    ensures Highscore(games).Ok? ==>
      var w := Highscore(games).value;
      w in games && forall g | g in games :: g.score <= w.score
    ensures Highscore(games).Ok? ==>
      exists i :: 0 <= i < |games| && games[i] == Highscore(games).value
        && forall j :: 0 <= j < i ==> games[j].score < games[i].score
  {
    var r := FirstMax(games, Points);
    if r.Some? {
      assert games[r.value] in games;
    }
  }
}
